=== FILE: README.md ===
# SoundFonts core, modelled in Dafny

This project models the core of SoundFonts, an iOS app and audio unit that plays SoundFont 2 (SF2) files. It also models the script that bumps the app's version numbers. Each Dafny file stands for one source file and holds one module. The main pieces are:

- **Version bumping** (`scripts/bumpVersions.py`).
  - `marketing_version.dfy`: the marketing version, its string form and its packed integer.
  - `project_contents.dfy`: the rewrites of the Xcode project settings.
  - `ui_contents.dfy`: the rewrites of the version label in the storyboards.
  - `info_files.dfy`: the `Info.plist` updates.
  - `version_reader.dfy`: how the current version is read back and cross-checked.
- **Sound font library** (`SoundFontCollection.swift` and the search helpers it uses).
  - `sound_font_collection.dfy`: a class holding the catalog of installed fonts, keyed by font, with the keys kept sorted by display name.
  - `collection_search.dfy`: insertion-point search.
  - `name_order.dfy`: the name ordering.
  - `sequence_edits.dfy`: the insert and remove edits on key sequences.
- **Favourites, presets and the active preset**.
  - `favorite_collection.dfy`: a class holding the ordered favourites.
  - `preset.dfy`: a class for a preset, with its name trimming, its favourites and its validation.
  - `active_preset_manager.dfy`: a class holding the active preset, a selection that waits until the library is restored, and the notifications it posts.
- **MIDI input**.
  - `midi_parser.dfy`: the byte-stream parser, with its generator of messages.
  - `midi_packet.dfy`: the packet builder and the packet parser that honours running status.
- **Chord detection** (`chord_detector.dfy`): the table of known chords, the interval computation and the comparison up to rotation.
- **SF2 reading and rendering** (SoundFontInfoLib).
  - `riff_parser.dfy`: the RIFF chunk parser.
  - `file_pos.dfy`: file positions.
  - `chunk_items.dfy`: the item collections loaded from a chunk.
  - `modulator_source.dfy`: modulator source bit fields.
  - `modulator.dfy`: modulators.
  - `zone.dfy`: zones.
  - `sample_bounds.dfy`: sample bounds.
  - `envelope.dfy`: the envelope generator, a class stepped one sample at a time.

Shared pieces are in two files:

- `wrappers.dfy` holds `Option` and `Result`.
- `sizes.dfy` holds the `size_t` arithmetic modulo 2^64.

Code that changes state in place is modelled as classes with `modifies` clauses. Code that loops is modelled as methods whose loops carry invariants, each proved against a specification function. Pure code is modelled as functions and lemmas.

## Model

| member | source | states |
|---|---|---|
| MarketingVersion.NatToString | scripts/bumpVersions.py:56-57 | the decimal text of a field is a non-empty digit string without a leading zero |
| MarketingVersion.DigitsRoundTrip | scripts/bumpVersions.py:49-57 | reading back the decimal text of a number gives the number |
| MarketingVersion.Split | scripts/bumpVersions.py:54 | `split('.')` gives at least one part and no part holds a dot |
| MarketingVersion.SplitAtSeparator | scripts/bumpVersions.py:54 | splitting `a.t` gives `a` followed by the parts of `t` |
| MarketingVersion.SplitCount | scripts/bumpVersions.py:54 | `split('.')` gives one part more than the text has dots |
| MarketingVersion.ParseInt | scripts/bumpVersions.py:50 | `int(part)` on plain ASCII digit strings: such a part converts to its decimal value, and every other part is an error (Python accepts more; see "Left out") |
| MarketingVersion.FromParts | scripts/bumpVersions.py:48-50 | succeeds exactly when the first three parts exist and are digit strings, and then they become major, minor and patch; the arguments are evaluated from left to right, so a bad part is reported before a later missing one |
| MarketingVersion.ToString | scripts/bumpVersions.py:56-57 | the rendering is at least five characters (three fields, two dots) |
| MarketingVersion.SplitToString | scripts/bumpVersions.py:54-57 | splitting a rendered version on '.' gives exactly the three field texts |
| MarketingVersion.FromStringToString | scripts/bumpVersions.py:52-57 | parsing a rendered version gives the version back |
| MarketingVersion.FromString | scripts/bumpVersions.py:52-54 | a text with fewer than two dots is refused (`fromTuple` needs three parts), so every version read holds at least two |
| MarketingVersion.ToStringShape | scripts/bumpVersions.py:56-57 | a rendered version holds only digits and exactly two dots |
| MarketingVersion.AsInt | scripts/bumpVersions.py:59-60 | with minor and patch below 256 the packed value lies in the block of 65536 values of its major version and, within it, in the block of 256 values of its minor version |
| MarketingVersion.AsIntFields | scripts/bumpVersions.py:59-60 | with minor and patch below 256 each field is recovered from the packed value |
| MarketingVersion.AsIntInjective | scripts/bumpVersions.py:59-60 | with byte-sized minor and patch, different versions pack differently |
| MarketingVersion.AsIntCollision | scripts/bumpVersions.py:59-60 | without that bound 0.256.0 and 1.0.0 pack to the same value |
| MarketingVersion.AsIntExamples | scripts/bumpVersions.py:288-292 | the packed values the tests expect, and 66051 for 1.2.3 |
| MarketingVersion.BumpMajor | scripts/bumpVersions.py:62-63 | the result follows the version, resets minor and patch, and no later version with another major comes before it |
| MarketingVersion.BumpMinor | scripts/bumpVersions.py:65-66 | the result follows the version, keeps major, resets patch, and is the first such release |
| MarketingVersion.BumpPatch | scripts/bumpVersions.py:68-69 | the result immediately follows the version: nothing lies between |
| MarketingVersion.BeforeTransitive | scripts/bumpVersions.py:62-69 | the release order is transitive |
| MarketingVersion.BumpsOrdered | scripts/bumpVersions.py:62-69 | a patch bump comes before a minor bump, which comes before a major bump |
| MarketingVersion.AsIntMonotone | scripts/bumpVersions.py:59-69 | with byte-sized fields the packed value grows with the release order |
| InfoFiles.Find | scripts/bumpVersions.py:202 | `find` gives -1 exactly when the text does not occur, else its first position |
| InfoFiles.SetArg | scripts/bumpVersions.py:199-200 | the PlistBuddy command ends in the packed version: reading the component version back from the command gives `asInt()` |
| InfoFiles.SetArgWritesPackedVersion | scripts/bumpVersions.py:199-200 | with byte-sized minor and patch, major, minor and patch are recovered from the version the command writes |
| InfoFiles.Runs | scripts/bumpVersions.py:198-204 | every run carries the same command; every audio-unit file gets a run and every run is for such a file |
| InfoFiles.UpdateInfoFiles | scripts/bumpVersions.py:198-204 | the loop makes exactly the runs `Runs` describes, in file order |
| InfoFiles.SkipsOtherFiles | scripts/bumpVersions.py:202-203 | a file without the AudioComponents key is never handed to PlistBuddy |
| ProjectContents.MatchAt | scripts/bumpVersions.py:147-152 | a match at the start of the text is a complete setting `LABEL = value;` whose value the pattern accepts |
| ProjectContents.PatternsDoNotOverlap | scripts/bumpVersions.py:147-152 | neither pattern can start a match inside the other's label, nor inside its own |
| ProjectContents.MatchSettingText | scripts/bumpVersions.py:147-152 | a setting text is matched in full, with its own value, whatever follows it |
| ProjectContents.NoMatchNoChange | scripts/bumpVersions.py:147-152 | text without a match is returned unchanged |
| ProjectContents.OnlyValuesChange | scripts/bumpVersions.py:147-152 | the text splits into kept characters and matched settings; the substitution keeps the former and replaces the value of each setting |
| ProjectContents.RewriteOneSetting | scripts/bumpVersions.py:147-152 | one setting between two texts that hold no other setting of the same pattern gets the new value, and nothing else changes |
| ProjectContents.RewriteSettingFront | scripts/bumpVersions.py:147-152 | a setting at the front of a text with no other setting of its label gets the new value, and the rest is kept |
| ProjectContents.NoSettingBefore | scripts/bumpVersions.py:147-152 | a text that holds no setting still holds none when a setting of a label that cannot overlap follows it |
| ProjectContents.NoSettingUnchanged | scripts/bumpVersions.py:147-152 | a text that holds no setting is left unchanged by the substitution |
| ProjectContents.UpdateProjectContents | scripts/bumpVersions.py:146-152 | a text that holds no marketing-version and no build-number setting is returned as it is |
| ProjectContents.NoNewMatch | scripts/bumpVersions.py:146-152 | rewriting the marketing versions creates no new match for the build-number rewrite, and vice versa |
| ProjectContents.SubstituteIdempotent | scripts/bumpVersions.py:147-152 | substituting the same value a second time changes nothing |
| ProjectContents.SubstitutionsCommute | scripts/bumpVersions.py:146-152 | the two substitutions give the same text in either order |
| ProjectContents.UpdateIdempotent | scripts/bumpVersions.py:146-152 | updating the project contents twice with the same versions is the same as updating them once |
| ProjectContents.UpdateExample | scripts/bumpVersions.py:294-299 | the script's own test text gets the new marketing version and the new build number |
| UIContents.QuoteFreeRun | scripts/bumpVersions.py:171-172 | `[^"]*` takes the longest run without a quote, which stops at a quote or the end |
| UIContents.AttributeAt | scripts/bumpVersions.py:171-172 | an attribute match is `text` or `title`, `="`, a value without quotes, and a closing quote |
| UIContents.LastOnLine | scripts/bumpVersions.py:171-172 | the greedy `.*` picks the last position on the line where the rest of the pattern matches |
| UIContents.RuleAt | scripts/bumpVersions.py:171-172 | a match of either rule covers at least one character of the text |
| UIContents.UpdateUIContents | scripts/bumpVersions.py:170-173 | a file without the `APP_VERSION` label is returned as it is |
| UIContents.MarkerFreeNoMatch | scripts/bumpVersions.py:171-172 | every match of either rule covers an occurrence of the label marker |
| UIContents.MarkerFreeUnchanged | scripts/bumpVersions.py:171-172 | `re.sub` with either rule copies a text without the marker unchanged |
| UIContentsProperties.AttributeAtText | scripts/bumpVersions.py:171-172 | an attribute is recognised as itself |
| UIContentsProperties.AttributeBeforeMarker | scripts/bumpVersions.py:170-173 | for a file holding exactly one label marker: a `text`/`title` attribute before the marker on its line becomes `"v<version>"` and nothing else changes, when no labelled attribute (one the first rule would match) starts before it and no attribute follows the marker on its line; files with several labels are covered line by line (`UIContentsByLine` rows) |
| UIContentsProperties.AttributeAfterMarker | scripts/bumpVersions.py:170-173 | for a file holding exactly one label marker: a `text`/`title` attribute after the marker on its line becomes `"v<version>"` and nothing else changes, when no labelled attribute starts before the label and the attribute is the last one on the marker's line; files with several labels are covered line by line |
| UIContentsProperties.AttributeBeforeMarkerStable | scripts/bumpVersions.py:170-173 | for a file holding exactly one label marker, under the conditions of AttributeBeforeMarker: a second run leaves the rewritten file as it is, when the old value held no line break or no attribute header starts before the label |
| UIContentsProperties.AttributeAfterMarkerStable | scripts/bumpVersions.py:170-173 | for a file holding exactly one label marker, under the conditions of AttributeAfterMarker: a second run leaves the rewritten file as it is, when no attribute follows the rewritten one on its line |
| UIContentsProperties.LeadingAttributeRewritten | scripts/bumpVersions.py:170-173 | an attribute at the start of the text followed on its line by the marker is rewritten, whatever stands between them |
| UIContentsProperties.PassThroughUnlabelled | scripts/bumpVersions.py:171 | `re.sub` with the first rule copies unchanged any text before which no labelled attribute starts |
| UIContentsProperties.LabelledIsMatch | scripts/bumpVersions.py:171 | the first rule matches at a position exactly when an attribute starts there and the marker follows it on its line |
| UIContentsProperties.PassThroughMarkers | scripts/bumpVersions.py:172 | `re.sub` with the second rule copies unchanged any text before which no marker starts |
| UIContentsProperties.NoMarkerOnFirstLine | scripts/bumpVersions.py:171 | the greedy `.*` does not cross a line break, so a marker on a later line is not found |
| UIContentsProperties.MarkerFirstSkipsBareMarker | scripts/bumpVersions.py:172 | the second rule leaves alone a marker followed by text holding no other marker and no attribute |
| UIContentsProperties.AfterMarkerExamples | scripts/bumpVersions.py:303-308 | the script's first two test cases: the label after the marker is rewritten |
| UIContentsProperties.BeforeMarkerExample | scripts/bumpVersions.py:309-311 | the script's third test case: the label before the marker is rewritten |
| UIContentsProperties.CellExample | scripts/bumpVersions.py:312-314 | the script's fourth test case: the `title` of a `textFieldCell` element before the marker becomes `"v<version>"` for any new version, and the rest of the element is kept |
| UIContentsProperties.FirstRunOnSplitValue | scripts/bumpVersions.py:170-173 | on `title="q" text="a` + line break + `b" userLabel="APP_VERSION"`, the first rule rewrites `text`, whose value spans the line break, and leaves `title` alone |
| UIContentsProperties.UpdateNotIdempotent | scripts/bumpVersions.py:170-173 | on that file, a second run rewrites `title` too, so it changes the file again unless `title` already held the new version |
| UIContentsByLine.UpdateLines | scripts/bumpVersions.py:170-173 | each line is updated by the script's substitutions on its own, and the number of lines is kept |
| UIContentsByLine.SingleLineAgrees | scripts/bumpVersions.py:170-173 | on a single line the line-by-line update is the script's |
| UIContentsByLine.LineByLine | scripts/bumpVersions.py:170-173 | the line-by-line update handles the text before a line break on its own and the rest after it |
| UIContentsByLine.JoinedLines | scripts/bumpVersions.py:170-173 | on lines in each of which every attribute value closes, the script's update of the joined text is the join of the lines updated one by one |
| UIContentsByLine.ScriptIsLineByLine | scripts/bumpVersions.py:170-173 | on a text every line of which closes its attribute values, the script's update is the line-by-line update, so each labelled line is rewritten as it would be on its own |
| UIContentsByLine.SecondRunByLine | scripts/bumpVersions.py:170-173 | on a text whose lines close their values, when a second run leaves each line's update as it is, it leaves the update of the whole text as it is |
| UIContentsByLine.TwoLabelledLines | scripts/bumpVersions.py:170-173 | a file of two labelled lines, the first closing its values, becomes the two lines each rewritten as on its own, joined by the line break |
| UIContentsBreaks.UpdateBeforeBreak | scripts/bumpVersions.py:170-173 | when the values on a line close on it, the update of that line, a line break and the rest is the update of the line, the break, and the update of the rest |
| UIContentsBreaks.UpdateKeepsLine | scripts/bumpVersions.py:170-173 | the update of a line whose values close gives a line whose values close, holding no new line break |
| UIContentsByLine.BareMarkerLine | scripts/bumpVersions.py:172 | a line holding the bare marker and no attribute is left as it is |
| UIContentsByLine.SplitValueStable | scripts/bumpVersions.py:170-173 | the line-by-line update leaves the file whose `text` value spans two lines as it is, so a second run changes nothing |
| VersionReader.DigitRun | scripts/bumpVersions.py:125 | a greedy `[0-9]+` stops at the first non-digit |
| VersionReader.FoundIn | scripts/bumpVersions.py:125 | a match is three digit groups joined by dots, and no digit follows it |
| VersionReader.FindAll | scripts/bumpVersions.py:131 | every version `findall` returns is three digit groups |
| VersionReader.ToVersion | scripts/bumpVersions.py:139 | `fromTuple` of the groups succeeds and gives their numbers |
| VersionReader.MismatchesIn | scripts/bumpVersions.py:135-137 | a logged mismatch is a found version that differs from the expected one, and every such version is logged |
| VersionReader.LogMismatches | scripts/bumpVersions.py:135-137 | the loop logs exactly the mismatches of one file, in order |
| VersionReader.ComparedLists | scripts/bumpVersions.py:131-134 | each file is compared on all its versions, except the first file, whose first version is the expected one |
| VersionReader.GetCurrentMarketingVersion | scripts/bumpVersions.py:122-139 | the loops compute exactly `CurrentVersion`: the first version of the first file and every mismatch, or why there is none |
| VersionReader.NoMismatchesIffConsistent | scripts/bumpVersions.py:131-137 | nothing is reported exactly when every compared version equals the first one |
| VersionReader.CurrentVersion | scripts/bumpVersions.py:122-139 | fails for want of project files exactly when there are none, and for want of a version exactly when the first file holds none; every reported mismatch names a file and a version compared in it that differs from the first version of the first file |
| VersionReader.MismatchesUpToFrom | scripts/bumpVersions.py:127-137 | each mismatch logged for the first n files names one of them and a version compared in it that differs from the expected one |
| VersionReader.FindAllSetting | scripts/bumpVersions.py:125-131 | one setting between two texts in which `findall` finds nothing is found, and only it |
| VersionReader.FindAllAfterFree | scripts/bumpVersions.py:125-131 | a text in which `findall` finds nothing adds no match in front of text that starts with a character the key or a version cannot continue with |
| VersionReader.SettingIsFound | scripts/bumpVersions.py:125-149 | every setting the rewrite matches is also a match for the reader |
| VersionReader.ReadOneSetting | scripts/bumpVersions.py:122-139 | a project file with one marketing-version setting, amid text in which `findall` finds no other, is read as that version, with nothing reported |
| VersionReader.ReadAfterUpdate | scripts/bumpVersions.py:122-152 | for a file with one marketing-version setting and no build-number setting around it, after the update writes version v, reading the file gives v back and reports nothing |
| VersionReader.TextualComparison | scripts/bumpVersions.py:135-136 | versions are compared as text, so 1.02.3 is reported as differing from 1.2.3 though both convert to the same version |
| CollectionSearch.InsertionPoint | SoundFontsFramework/SoundFontsFramework/Extensions/RandomAccessCollection+Extensions.swift:17-29 | the number of leading elements that precede the value: those before it precede, the one at it does not |
| CollectionSearch.InsertionPointSeparates | SoundFontsFramework/SoundFontsFramework/Extensions/RandomAccessCollection+Extensions.swift:17-29 | on a collection split by the predicate, an index separates the preceding elements from the rest exactly when it is the insertion point |
| CollectionSearch.InsertionIndex | SoundFontsFramework/SoundFontsFramework/Extensions/RandomAccessCollection+Extensions.swift:17-29 | the binary search returns an index within the collection, after an element that precedes the value and before one that does not; on a split collection it is the insertion point |
| CollectionSearch.MemberAtInsertionPoint | SoundFontsFramework/SoundFontsFramework/Extensions/RandomAccessCollection+Extensions.swift:17-29 | in a strictly increasing collection the insertion point of a member is its own index |
| CollectionSearch.Search | SoundFontsFramework/SoundFontsFramework/Extensions/RandomAccessCollection+Extensions.swift:66-69 | the result is the end index or an index holding the value; on a strictly increasing collection it is below the end exactly when the value is present |
| CollectionSearch.Contains | SoundFontsFramework/SoundFontsFramework/Extensions/RandomAccessCollection+Extensions.swift:78-81 | true only for a present value, and exactly for present values on a strictly increasing collection |
| CollectionSearch.MinMax | SoundFontsFramework/SoundFontsFramework/Extensions/RandomAccessCollection+Extensions.swift:91-103 | nil exactly for an empty collection; otherwise both are elements and every element lies between them |
| SequenceEdits.Insert | SoundFontsFramework/SoundFontsFramework/Audio/SoundFontCollection.swift:101 | `insert(_:at:)` puts the element at the index, shifts the rest up by one and adds exactly that element |
| SequenceEdits.Remove | SoundFontsFramework/SoundFontsFramework/Audio/SoundFontCollection.swift:113 | `remove(at:)` drops exactly the element at the index and shifts the rest down by one |
| SequenceEdits.RemoveInserted | SoundFontsFramework/SoundFontsFramework/Audio/SoundFontCollection.swift:126-132 | removing what was just inserted restores the sequence |
| SequenceEdits.InsertRemoved | SoundFontsFramework/SoundFontsFramework/Audio/SoundFontCollection.swift:126-132 | inserting the removed element where it was restores the sequence |
| SequenceEdits.RemoveDistinct | SoundFontsFramework/SoundFontsFramework/Audio/SoundFontCollection.swift:113 | removal from a sequence without repeats drops that element, keeps every other one, and keeps it free of repeats |
| SequenceEdits.InsertDistinct | SoundFontsFramework/SoundFontsFramework/Audio/SoundFontCollection.swift:101 | inserting an absent element keeps the sequence free of repeats |
| NameOrder.Transitive | SoundFontsFramework/SoundFontsFramework/Audio/SoundFontCollection.swift:35 | the name ordering is transitive |
| NameOrder.Total | SoundFontsFramework/SoundFontsFramework/Audio/SoundFontCollection.swift:35 | any two different names are ordered one way or the other |
| NameOrder.Asymmetric | SoundFontsFramework/SoundFontsFramework/Audio/SoundFontCollection.swift:35 | no two names each sort before the other |
| SoundFonts.CatalogOf | SoundFontsFramework/SoundFontsFramework/Audio/SoundFontCollection.swift:33 | the catalog built from fonts with distinct keys maps exactly their keys, each to its own font |
| SoundFonts.InsertKeepsSorted | SoundFontsFramework/SoundFontsFramework/Audio/SoundFontCollection.swift:98-104 | inserting a key at the insertion index keeps the keys in name order |
| SoundFonts.RemoveKeepsSorted | SoundFontsFramework/SoundFontsFramework/Audio/SoundFontCollection.swift:112-116 | removing a key keeps the others in name order |
| SoundFonts.SoundFontCollection.constructor | SoundFontsFramework/SoundFontsFramework/Audio/SoundFontCollection.swift:32-37 | the catalog maps each font's key to it, and the sorted keys are those keys, each once, in name order |
| SoundFonts.SoundFontCollection.SortByName | SoundFontsFramework/SoundFontsFramework/Audio/SoundFontCollection.swift:34-36 | the keys come out in display-name order, each once, a permutation of the fonts' keys |
| SoundFonts.SoundFontCollection.IsEmpty | SoundFontsFramework/SoundFontsFramework/Audio/SoundFontCollection.swift:19 | empty exactly when the catalog is |
| SoundFonts.SoundFontCollection.Count | SoundFontsFramework/SoundFontsFramework/Audio/SoundFontCollection.swift:22 | the count is the number of fonts in the catalog |
| SoundFonts.SoundFontCollection.DefaultPreset | SoundFontsFramework/SoundFontsFramework/Audio/SoundFontCollection.swift:25 | nil exactly when the collection is empty; otherwise preset 0 of the font whose name sorts first |
| SoundFonts.SoundFontCollection.FirstIndex | SoundFontsFramework/SoundFontsFramework/Audio/SoundFontCollection.swift:48 | nil exactly for an absent key; otherwise the first position holding the key |
| SoundFonts.SoundFontCollection.GetByIndex | SoundFontsFramework/SoundFontsFramework/Audio/SoundFontCollection.swift:82 | the font filed under the key at that position, whose first index is that position |
| SoundFonts.SoundFontCollection.GetByKey | SoundFontsFramework/SoundFontsFramework/Audio/SoundFontCollection.swift:90 | found exactly for an installed key, and the font found carries that key |
| SoundFonts.SoundFontCollection.Add | SoundFontsFramework/SoundFontsFramework/Audio/SoundFontCollection.swift:98-104 | the catalog gains the font and its key is inserted at the returned index; for a new key the order is kept and the key is found at that index |
| SoundFonts.SoundFontCollection.Remove | SoundFontsFramework/SoundFontsFramework/Audio/SoundFontCollection.swift:112-116 | exactly the key at the index leaves the keys and the catalog, the others keep their order, and its font is returned |
| SoundFonts.SoundFontCollection.Rename | SoundFontsFramework/SoundFontsFramework/Audio/SoundFontCollection.swift:125-136 | only the display name changes; the count stays; the key moves to the returned index and the other keys keep their order |
| SoundFonts.SoundFontCollection.Renamed | SoundFontsFramework/SoundFontsFramework/Audio/SoundFontCollection.swift:125-136 | the renamed font keeps its key, the catalog files it under that key, the key sits at the returned index of keys kept valid, and removing it there gives the keys without it |
| SoundFonts.AddConsistent | SoundFontsFramework/SoundFontsFramework/Audio/SoundFontCollection.swift:98-104 | inserting a new font's key at a position between the names before and after it keeps catalog and keys consistent |
| SoundFonts.RemoveConsistent | SoundFontsFramework/SoundFontsFramework/Audio/SoundFontCollection.swift:112-116 | removing a key and its catalog entry keeps catalog and keys consistent |
| SoundFonts.RenameConsistent | SoundFontsFramework/SoundFontsFramework/Audio/SoundFontCollection.swift:125-136 | re-inserting a renamed font's key at its new name's position keeps catalog and keys consistent, and the other keys keep their order |
| SoundFonts.FirstIndexFrom | SoundFontsFramework/SoundFontsFramework/Audio/SoundFontCollection.swift:48 | `firstIndex(of:)`: nil exactly for an absent key, else the first index holding it |
| SoundFonts.DistinctFirstIndex | SoundFontsFramework/SoundFontsFramework/Audio/SoundFontCollection.swift:48 | in keys without repeats, the first index of the key at i is i |
| Favorites.Filter | SoundFontsFramework/SoundFontsFramework/Favorites/FavoriteCollection.swift:138 | `filter` keeps exactly the favourites the condition accepts, never more than there were |
| Favorites.FindAll | SoundFontsFramework/SoundFontsFramework/Favorites/FavoriteCollection.swift:137-139 | exactly the favourites made from a preset of the given sound font |
| Favorites.FontKeys | SoundFontsFramework/SoundFontsFramework/Favorites/FavoriteCollection.swift:137-139 | the sound-font key of each favourite, position by position |
| Favorites.FindAllCount | SoundFontsFramework/SoundFontsFramework/Favorites/FavoriteCollection.swift:137-139 | `findAll` returns one favourite for each favourite whose sound-font key is the given one |
| Favorites.IndexIn | SoundFontsFramework/SoundFontsFramework/Favorites/FavoriteCollection.swift:23 | `firstIndex`: nil exactly when no favourite has the key, else the first position that has it |
| Favorites.FilterKeepsUnique | SoundFontsFramework/SoundFontsFramework/Favorites/FavoriteCollection.swift:137-139 | filtering keeps favourite keys unique |
| Favorites.RemoveIsFilter | SoundFontsFramework/SoundFontsFramework/Favorites/FavoriteCollection.swift:89-93 | with unique keys, removing a position is filtering out that one favourite |
| Favorites.WithoutFound | SoundFontsFramework/SoundFontsFramework/Favorites/FavoriteCollection.swift:111-113 | removing every found favourite keeps exactly the unassociated ones, in order |
| Favorites.RemoveStep | SoundFontsFramework/SoundFontsFramework/Favorites/FavoriteCollection.swift:111-113 | one removal by key of a found favourite removes exactly that favourite |
| Favorites.FavoriteCollection.constructor | SoundFontsFramework/SoundFontsFramework/Favorites/FavoriteCollection.swift:13-15 | a new collection is empty |
| Favorites.FavoriteCollection.Count | SoundFontsFramework/SoundFontsFramework/Favorites/FavoriteCollection.swift:11 | the count is the number of favourites |
| Favorites.FavoriteCollection.IndexOf | SoundFontsFramework/SoundFontsFramework/Favorites/FavoriteCollection.swift:23 | `firstIndex`: nil exactly when no favourite has the key, else the first position holding it |
| Favorites.FavoriteCollection.ContainsKey | SoundFontsFramework/SoundFontsFramework/Favorites/FavoriteCollection.swift:31 | true exactly when `IndexOf` finds the key, exactly when some favourite has it |
| Favorites.FavoriteCollection.GetByKey | SoundFontsFramework/SoundFontsFramework/Favorites/FavoriteCollection.swift:47-50 | nil exactly when the key is absent; otherwise a member with that key |
| Favorites.FavoriteCollection.Add | SoundFontsFramework/SoundFontsFramework/Favorites/FavoriteCollection.swift:57-60 | the favourite is appended at the end and the count grows by one |
| Favorites.FavoriteCollection.Replace | SoundFontsFramework/SoundFontsFramework/Favorites/FavoriteCollection.swift:68-70 | only the given position changes, to the new favourite |
| Favorites.FavoriteCollection.Move | SoundFontsFramework/SoundFontsFramework/Favorites/FavoriteCollection.swift:78-81 | the list is permuted: the moved favourite ends up at `to` and the others keep their order |
| Favorites.FavoriteCollection.RemoveKey | SoundFontsFramework/SoundFontsFramework/Favorites/FavoriteCollection.swift:89-93 | an absent key changes nothing and gives nil; otherwise the first favourite with it is removed and returned |
| Favorites.FavoriteCollection.RemoveAt | SoundFontsFramework/SoundFontsFramework/Favorites/FavoriteCollection.swift:101-104 | exactly the favourite at the position is removed and returned |
| Favorites.FavoriteCollection.CountAssociated | SoundFontsFramework/SoundFontsFramework/Favorites/FavoriteCollection.swift:121-123 | the number of favourites made from a preset of the sound font, so zero exactly when there is none |
| Favorites.FavoriteCollection.RemoveAllAssociated | SoundFontsFramework/SoundFontsFramework/Favorites/FavoriteCollection.swift:111-113 | with unique keys, exactly the favourites of the sound font go, the rest keep their order, and then none is counted |
| Presets.TrimFront | SoundFontsFramework/SoundFontsFramework/Audio/Preset.swift:76 | the leading blanks are dropped and only they |
| Presets.TrimBack | SoundFontsFramework/SoundFontsFramework/Audio/Preset.swift:76 | the trailing blanks are dropped and only they |
| Presets.Trimmed | SoundFontsFramework/SoundFontsFramework/Audio/Preset.swift:76 | the name without surrounding blanks: a slice of it that neither begins nor ends with one, and all that is dropped is blank |
| Presets.TrimmedIdempotent | SoundFontsFramework/SoundFontsFramework/Audio/Preset.swift:76 | trimming twice is trimming once |
| Presets.Kept | SoundFontsFramework/SoundFontsFramework/Audio/Preset.swift:134-147 | the kept keys are never more than the keys |
| Presets.KeptMembers | SoundFontsFramework/SoundFontsFramework/Audio/Preset.swift:134-147 | a key is kept exactly when it is a key and the provider contains it |
| Presets.KeptAppend | SoundFontsFramework/SoundFontsFramework/Audio/Preset.swift:134-147 | filtering a concatenation filters each part, so the kept keys stay in their order |
| Presets.Unknown | SoundFontsFramework/SoundFontsFramework/Audio/Preset.swift:135-142 | every collected position is in range and holds a key the provider lacks |
| Presets.UnknownDescending | SoundFontsFramework/SoundFontsFramework/Audio/Preset.swift:136 | the positions are collected in strictly descending order |
| Presets.UnknownHead | SoundFontsFramework/SoundFontsFramework/Audio/Preset.swift:144-146 | the first collected position below t is the highest unknown one, so removing it first leaves the others in bounds |
| Presets.RemoveUnknown | SoundFontsFramework/SoundFontsFramework/Audio/Preset.swift:144-146 | removing the highest unknown position extends the filtered suffix down to it |
| Presets.Preset.constructor | SoundFontsFramework/SoundFontsFramework/Audio/Preset.swift:71-77 | a preset keeps its name, bank, program and index, shows the name trimmed, and has no favourites |
| Presets.Preset.MakeFavorite | SoundFontsFramework/SoundFontsFramework/Audio/Preset.swift:123-132 | the favourite refers to the preset under its current name, and exactly its key is appended to the preset's favourites |
| Presets.Preset.Validate | SoundFontsFramework/SoundFontsFramework/Audio/Preset.swift:134-147 | the favourite keys become exactly the known ones, in their original order, and every one left is known |
| ActivePresets.PresetOf | SoundFontsFramework/SoundFontsFramework/ActivePresetManager.swift:34 | a preset or favourite carries a preset reference, nothing carries none |
| ActivePresets.IsValid | SoundFontsFramework/SoundFontsFramework/ActivePresetManager.swift:181-185 | a value is usable exactly when it carries a preset reference that resolves |
| ActivePresets.ActivePresetManager.constructor | SoundFontsFramework/SoundFontsFramework/ActivePresetManager.swift:63-73 | nothing is active or pending, and the collection is not yet restored |
| ActivePresets.ActivePresetManager.SetActive | SoundFontsFramework/SoundFontsFramework/ActivePresetManager.swift:124-150 | before restoration only the first request is remembered, and the call returns true; the current value again returns false and changes nothing; any other value becomes active, is saved and is announced |
| ActivePresets.ActivePresetManager.SoundFontsChange | SoundFontsFramework/SoundFontsFramework/ActivePresetManager.swift:155-174 | other events change nothing; on restoration the pending value wins, else the saved value if it resolves, else the default preset, each made active through SetActive |
| MIDIParsing.RawValue | SoundFontsFramework/SoundFontsFramework/Configury/MIDIParser.swift:60-79 | every kind's raw value is a status byte; channel kinds have a zero low nibble, system kinds a high nibble of 0xF |
| MIDIParsing.FromRawValue | SoundFontsFramework/SoundFontsFramework/Configury/MIDIParser.swift:60-79 | a kind found from a raw value has that raw value |
| MIDIParsing.RawValueRoundTrip | SoundFontsFramework/SoundFontsFramework/Configury/MIDIParser.swift:60-79 | every kind is found again from its raw value |
| MIDIParsing.Kind | SoundFontsFramework/SoundFontsFramework/Configury/MIDIParser.swift:81-84 | the kind of a status is looked up by its high nibble, or by the whole byte when that nibble is 0xF |
| MIDIParsing.KindMasksChannel | SoundFontsFramework/SoundFontsFramework/Configury/MIDIParser.swift:81-84 | statuses differing only in the channel nibble have the same kind, and a data byte has none |
| MIDIParsing.PayloadSize | SoundFontsFramework/SoundFontsFramework/Configury/MIDIParser.swift:87-98 | at most two data bytes follow a status; none exactly for the kinds missing from the table |
| MIDIParsing.PitchBend | SoundFontsFramework/SoundFontsFramework/Configury/MIDIParser.swift:144-145 | the 14-bit value is msb * 128 + lsb, below 0x4000 for data bytes |
| MIDIParsing.MakeMIDIMsg | SoundFontsFramework/SoundFontsFramework/Configury/MIDIParser.swift:135-149 | a message exactly for the channel kinds, built from the bytes after the status |
| MIDIParsing.Step | SoundFontsFramework/SoundFontsFramework/Configury/MIDIParser.swift:122-133 | one parse consumes at least one byte; an unknown status consumes one and yields nothing; a truncated message consumes the rest and yields nothing; a message yielded passes the channel filter and consumes its status and data |
| MIDIParsing.FilterKeepsFraming | SoundFontsFramework/SoundFontsFramework/Configury/MIDIParser.swift:132 | the channel filter drops messages but never changes how many bytes are consumed |
| MIDIParsing.Messages | SoundFontsFramework/SoundFontsFramework/Configury/MIDIParser.swift:107-120 | the messages of the unread bytes are never more than the bytes |
| MIDIParsing.TruncatedYieldsNothing | SoundFontsFramework/SoundFontsFramework/Configury/MIDIParser.swift:127-130 | a status without all of its data bytes yields nothing |
| MIDIParsing.NoteOnExample | SoundFontsFramework/SoundFontsFramework/Configury/MIDIParser.swift:122-145 | a note-on with its two data bytes yields that note-on on its own channel, and nothing on another |
| MIDIParsing.Generator.Unread | SoundFontsFramework/SoundFontsFramework/Configury/MIDIParser.swift:105 | the unread bytes are `count - index` long |
| MIDIParsing.Generator.constructor | SoundFontsFramework/SoundFontsFramework/Configury/MIDIParser.swift:109-113 | the generator reads the first `count` bytes from the start, with the given channel filter |
| MIDIParsing.Generator.Available | SoundFontsFramework/SoundFontsFramework/Configury/MIDIParser.swift:105 | the unread byte count, never negative |
| MIDIParsing.Generator.Consume | SoundFontsFramework/SoundFontsFramework/Configury/MIDIParser.swift:151 | the index moves by the amount or by what is available, whichever is less |
| MIDIParsing.Generator.ParseMIDIMsg | SoundFontsFramework/SoundFontsFramework/Configury/MIDIParser.swift:122-133 | the message and the bytes consumed are one `Step` over the unread bytes |
| MIDIParsing.Generator.Next | SoundFontsFramework/SoundFontsFramework/Configury/MIDIParser.swift:117-120 | the next message is the first of the remaining messages and the rest remain; nil only once every byte is consumed and no message is left |
| MIDIParsing.Generator.AllMessages | SoundFontsFramework/SoundFontsFramework/Configury/MIDIParser.swift:107 | `messages` collects exactly the messages of the unread bytes |
| MIDIParsing.Deliveries | SoundFontsFramework/SoundFontsFramework/Configury/MIDIParser.swift:34-56 | every delivery holds at least one message, and there is at most one per packet |
| MIDIParsing.StopsAtSuspect | SoundFontsFramework/SoundFontsFramework/Configury/MIDIParser.swift:41-44 | nothing from a suspect packet or after it is delivered |
| MIDIParsing.Parse | SoundFontsFramework/SoundFontsFramework/Configury/MIDIParser.swift:29-58 | the packet loop delivers exactly `Deliveries` |
| MIDIPackets.Command | SoundFontsFramework/SoundFontsFramework/Extensions/MIDIPacketList.swift:235 | the command of a status byte is its kind, for every kind but end-of-exclusive; a data byte has none |
| MIDIPackets.ChannelMessagesHaveData | SoundFontsFramework/SoundFontsFramework/Extensions/MIDIPacketList.swift:237 | every channel message carries at least one data byte |
| MIDIPackets.AlignedByteSize | SoundFontsFramework/SoundFontsFramework/Extensions/MIDIPacketList.swift:201-203 | the size is a multiple of 4 that holds the 10 header bytes and the data, with under 4 bytes of padding |
| MIDIPackets.AlignedSizes | SoundFontsFramework/SoundFontsFramework/Extensions/MIDIPacketList.swift:201-203 | packets of 0 to 2 data bytes take 12 bytes, of 3 or 4 take 16 |
| MIDIPackets.Zeros | SoundFontsFramework/SoundFontsFramework/Extensions/MIDIPacketList.swift:188 | a fresh packet buffer is all zeros |
| MIDIPackets.PacketBuilder.constructor | SoundFontsFramework/SoundFontsFramework/Extensions/MIDIPacketList.swift:109-112 | the builder holds the time stamp and the initial bytes |
| MIDIPackets.PacketBuilder.WithMsg | SoundFontsFramework/SoundFontsFramework/Extensions/MIDIPacketList.swift:120-123 | the builder holds the status byte of the command |
| MIDIPackets.PacketBuilder.WithMsgData1 | SoundFontsFramework/SoundFontsFramework/Extensions/MIDIPacketList.swift:132-135 | the builder holds the status byte and one data byte |
| MIDIPackets.PacketBuilder.WithMsgData2 | SoundFontsFramework/SoundFontsFramework/Extensions/MIDIPacketList.swift:145-148 | the builder holds the status byte and two data bytes |
| MIDIPackets.PacketBuilder.Add | SoundFontsFramework/SoundFontsFramework/Extensions/MIDIPacketList.swift:155-157 | the bytes are appended |
| MIDIPackets.PacketBuilder.AddMsg | SoundFontsFramework/SoundFontsFramework/Extensions/MIDIPacketList.swift:164-166 | the status byte is appended |
| MIDIPackets.PacketBuilder.AddMsgData1 | SoundFontsFramework/SoundFontsFramework/Extensions/MIDIPacketList.swift:173-175 | the status byte and one data byte are appended |
| MIDIPackets.PacketBuilder.AddMsgData2 | SoundFontsFramework/SoundFontsFramework/Extensions/MIDIPacketList.swift:182-184 | the status byte and two data bytes are appended |
| MIDIPackets.PacketBuilder.Packet | SoundFontsFramework/SoundFontsFramework/Extensions/MIDIPacketList.swift:187-194 | the packet carries the time stamp, the length of the bytes, the bytes, and zeros after them |
| MIDIPackets.Dispatch | SoundFontsFramework/SoundFontsFramework/Extensions/MIDIPacketList.swift:264-302 | a command makes at most one receiver call |
| MIDIPackets.DispatchCalls | SoundFontsFramework/SoundFontsFramework/Extensions/MIDIPacketList.swift:264-302 | every call is well formed; a note-on of velocity 0 stops the note; only channel messages and reset make a call |
| MIDIPackets.Frame | SoundFontsFramework/SoundFontsFramework/Extensions/MIDIPacketList.swift:231-245 | parsing halts exactly when the byte is no command and no running status is set; a running status re-reads the byte as data and belongs to a channel message |
| MIDIPackets.Updates | SoundFontsFramework/SoundFontsFramework/Extensions/MIDIPacketList.swift:250-252 | a command's channel update is never a receiver call |
| MIDIPackets.ChannelOf | SoundFontsFramework/SoundFontsFramework/Extensions/MIDIPacketList.swift:247 | the reported channel is below 16 |
| MIDIPackets.PacketStep | SoundFontsFramework/SoundFontsFramework/Extensions/MIDIPacketList.swift:230-308 | parsing goes on exactly when the message is framed and all its data bytes are present, and then resumes right after them with a valid running status; an unknown byte without running status ends parsing with nothing; a message whose data bytes are missing stops parsing with no receiver call |
| MIDIPackets.ReadMessage | SoundFontsFramework/SoundFontsFramework/Extensions/MIDIPacketList.swift:231-307 | the loop body computes exactly `PacketStep` |
| MIDIPackets.ParsePacket | SoundFontsFramework/SoundFontsFramework/Extensions/MIDIPacketList.swift:212-310 | a suspect packet produces nothing; otherwise the loop produces exactly `Notices` of its bytes |
| MIDIPackets.WithoutCalls | SoundFontsFramework/SoundFontsFramework/Extensions/MIDIPacketList.swift:264 | exactly the notices that are not receiver calls |
| MIDIPackets.StepWithoutCalls | SoundFontsFramework/SoundFontsFramework/Extensions/MIDIPacketList.swift:264-305 | in one step a receiver adds its calls and changes nothing else |
| MIDIPackets.ReceiverOnlyAddsCalls | SoundFontsFramework/SoundFontsFramework/Extensions/MIDIPacketList.swift:230-308 | with or without a receiver the channel updates and activity reports are the same |
| MIDIPackets.NotesAreWellFormed | SoundFontsFramework/SoundFontsFramework/Extensions/MIDIPacketList.swift:268-277 | every note start the receiver hears has a non-zero velocity, and every note stop velocity 0 |
| MIDIPackets.UnknownStatusStops | SoundFontsFramework/SoundFontsFramework/Extensions/MIDIPacketList.swift:238-245 | at any position, a byte naming no command with no running status ends parsing, and nothing more is produced from there |
| MIDIPackets.IncompleteMessageStops | SoundFontsFramework/SoundFontsFramework/Extensions/MIDIPacketList.swift:247-262 | at any position, a message whose data bytes run past the end produces only its channel update, no receiver call, and parsing stops |
| MIDIPackets.RunningStatusExample | SoundFontsFramework/SoundFontsFramework/Extensions/MIDIPacketList.swift:237-241 | a second note-on reuses the running status, and with velocity 0 stops the note |
| MIDIPackets.IncompleteMessageExample | SoundFontsFramework/SoundFontsFramework/Extensions/MIDIPacketList.swift:250-262 | a status without its data bytes announces its channel and nothing else |
| ChordDetection.ThreeNoteChords | SoundFontsFramework/SoundFontsFramework/Audio/ChordDetector.swift:14-21 | the eight three-note chords of the table |
| ChordDetection.FourNoteChords | SoundFontsFramework/SoundFontsFramework/Audio/ChordDetector.swift:22-31 | the ten four-note chords of the table |
| ChordDetection.NinthChords | SoundFontsFramework/SoundFontsFramework/Audio/ChordDetector.swift:32-37 | the six ninth chords, two named with the flat and sharp tags |
| ChordDetection.HigherChords | SoundFontsFramework/SoundFontsFramework/Audio/ChordDetector.swift:38-41 | the four eleventh and thirteenth chords |
| ChordDetection.Known | SoundFontsFramework/SoundFontsFramework/Audio/ChordDetector.swift:13-42 | the table holds 28 chords |
| ChordDetection.KnownChordsSpanOctave | SoundFontsFramework/SoundFontsFramework/Audio/ChordDetector.swift:13-42 | every known chord's steps are upward and add up to one octave |
| ChordDetection.Sorted | SoundFontsFramework/SoundFontsFramework/Audio/ChordDetector.swift:52 | `sorted()` gives the notes in ascending order |
| ChordDetection.SortedPermutes | SoundFontsFramework/SoundFontsFramework/Audio/ChordDetector.swift:52 | sorting keeps exactly the same notes |
| ChordDetection.Intervals | SoundFontsFramework/SoundFontsFramework/Audio/ChordDetector.swift:49-55 | fewer than two notes give nothing; otherwise each sorted note with the step to the next, the last with the step to the lowest note an octave up |
| ChordDetection.IntervalsSpanOctave | SoundFontsFramework/SoundFontsFramework/Audio/ChordDetector.swift:49-55 | the steps of two or more notes add up to 12 |
| ChordDetection.RotateIsRotation | SoundFontsFramework/SoundFontsFramework/Audio/ChordDetector.swift:57-90 | reading a list from any start, wrapping round, gives a rotation of it |
| ChordDetection.FirstIndexFrom | SoundFontsFramework/SoundFontsFramework/Audio/ChordDetector.swift:61 | `dropFirst(i).firstIndex(of:)`: the first position at or after i holding the value, or none when none does |
| ChordDetection.IsEqualForStartingIndex | SoundFontsFramework/SoundFontsFramework/Audio/ChordDetector.swift:70-87 | true exactly when every entry after the first equals the entry of `second` the same number of steps past the start, wrapping round |
| ChordDetection.IsCyclicEqualAsWritten | SoundFontsFramework/SoundFontsFramework/Audio/ChordDetector.swift:57-90 | traps exactly when both lists are empty; otherwise true exactly when the lists are rotations of each other |
| ChordDetection.NoStartNoRotation | SoundFontsFramework/SoundFontsFramework/Audio/ChordDetector.swift:68 | when no entry of `second` equals the first of `first`, the lists are not rotations |
| ChordDetection.EmptyListsTrap | SoundFontsFramework/SoundFontsFramework/Audio/ChordDetector.swift:57-61 | two empty lists are rotations of each other, the case the code traps on |
| ChordDetection.IsCyclicEqual | SoundFontsFramework/SoundFontsFramework/Audio/ChordDetector.swift:57-90 | true exactly when the lists are rotations of each other, empty lists included |
| ModulatorSources.GeneralIndexValue | SoundFontInfoLib/SoundFontInfoLib/Entity/Modulator/Source.hpp:25-34 | each general controller has its listed value below 128; only `none` is 0 and only `link` is 127 |
| ModulatorSources.GeneralIndexOf | SoundFontInfoLib/SoundFontInfoLib/Entity/Modulator/Source.hpp:127 | the controller read from a listed value has that value |
| ModulatorSources.GeneralIndexRoundTrip | SoundFontInfoLib/SoundFontInfoLib/Entity/Modulator/Source.hpp:25-34 | a controller's value is listed and reads back as the same controller |
| ModulatorSources.ContinuityValue | SoundFontInfoLib/SoundFontInfoLib/Entity/Modulator/Source.hpp:37-42 | the continuity types are 0 to 3 |
| ModulatorSources.ContinuityOf | SoundFontInfoLib/SoundFontInfoLib/Entity/Modulator/Source.hpp:143 | the type read from a value 0 to 3 has that value |
| ModulatorSources.LowSevenBits | SoundFontInfoLib/SoundFontInfoLib/Entity/Modulator/Source.hpp:52 | the controller index is cut to seven bits |
| ModulatorSources.Source.RawIndex | SoundFontInfoLib/SoundFontInfoLib/Entity/Modulator/Source.hpp:159 | the controller index is below 128 |
| ModulatorSources.Source.RawType | SoundFontInfoLib/SoundFontInfoLib/Entity/Modulator/Source.hpp:160 | the type field of a 16-bit word is below 64 |
| ModulatorSources.Source.GeneralIndex | SoundFontInfoLib/SoundFontInfoLib/Entity/Modulator/Source.hpp:125-128 | the general controller of a valid general source carries the raw index |
| ModulatorSources.Source.ContinuousIndex | SoundFontInfoLib/SoundFontInfoLib/Entity/Modulator/Source.hpp:132-135 | the MIDI controller of a valid continuous source is 1 to 119 and is the raw index |
| ModulatorSources.Source.Type | SoundFontInfoLib/SoundFontInfoLib/Entity/Modulator/Source.hpp:141-144 | the type of a valid source carries the raw type |
| ModulatorSources.Source.ContinuityTypeName | SoundFontInfoLib/SoundFontInfoLib/Entity/Modulator/Source.hpp:147 | the name is "N/A" exactly for an invalid source; otherwise it is one of the four type names |
| ModulatorSources.TypeNameInjective | SoundFontInfoLib/SoundFontInfoLib/Entity/Modulator/Source.hpp:157 | the four names of the type table are distinct, so a name identifies its type, and none of them is "N/A" |
| ModulatorSources.Builder.GeneralController | SoundFontInfoLib/SoundFontInfoLib/Entity/Modulator/Source.hpp:47-49 | the builder starts from the general controller's index |
| ModulatorSources.Builder.ContinuousController | SoundFontInfoLib/SoundFontInfoLib/Entity/Modulator/Source.hpp:51-53 | the builder starts from the index's low seven bits with the CC flag |
| ModulatorSources.Builder.Positive | SoundFontInfoLib/SoundFontInfoLib/Entity/Modulator/Source.hpp:55 | clears the direction bit |
| ModulatorSources.Builder.Negative | SoundFontInfoLib/SoundFontInfoLib/Entity/Modulator/Source.hpp:56 | sets the direction bit |
| ModulatorSources.Builder.Unipolar | SoundFontInfoLib/SoundFontInfoLib/Entity/Modulator/Source.hpp:57 | clears the polarity bit |
| ModulatorSources.Builder.Bipolar | SoundFontInfoLib/SoundFontInfoLib/Entity/Modulator/Source.hpp:58 | sets the polarity bit |
| ModulatorSources.Builder.Continuity | SoundFontInfoLib/SoundFontInfoLib/Entity/Modulator/Source.hpp:64-67 | replaces the type field and keeps bits 0-9 |
| ModulatorSources.Builder.Linear | SoundFontInfoLib/SoundFontInfoLib/Entity/Modulator/Source.hpp:59 | sets the type to linear |
| ModulatorSources.Builder.Concave | SoundFontInfoLib/SoundFontInfoLib/Entity/Modulator/Source.hpp:60 | sets the type to concave |
| ModulatorSources.Builder.Convex | SoundFontInfoLib/SoundFontInfoLib/Entity/Modulator/Source.hpp:61 | sets the type to convex |
| ModulatorSources.Builder.Switched | SoundFontInfoLib/SoundFontInfoLib/Entity/Modulator/Source.hpp:62 | sets the type to switched |
| ModulatorSources.GeneralControllerSource | SoundFontInfoLib/SoundFontInfoLib/Entity/Modulator/Source.hpp:47-49 | a general controller source names that controller, is valid, unipolar, min-to-max and linear |
| ModulatorSources.ContinuousControllerSource | SoundFontInfoLib/SoundFontInfoLib/Entity/Modulator/Source.hpp:51-53 | a continuous controller source is flagged, keeps the index's low seven bits, and is unipolar, min-to-max and linear |
| ModulatorSources.FlaggedLowBits | SoundFontInfoLib/SoundFontInfoLib/Entity/Modulator/Source.hpp:51-53 | setting the CC flag on seven low bits keeps them, sets the flag and leaves polarity, direction and type clear |
| ModulatorSources.DirectionChangesOnlyBit8 | SoundFontInfoLib/SoundFontInfoLib/Entity/Modulator/Source.hpp:55-56 | the direction setters are idempotent, change only bit 8, and decide the direction |
| ModulatorSources.PolarityChangesOnlyBit9 | SoundFontInfoLib/SoundFontInfoLib/Entity/Modulator/Source.hpp:57-58 | the polarity setters are idempotent, change only bit 9, and decide the polarity |
| ModulatorSources.ContinuityKeepsLowBits | SoundFontInfoLib/SoundFontInfoLib/Entity/Modulator/Source.hpp:64-67 | setting the type keeps bits 0-9; a valid source stays valid and reports the new type |
| ModulatorSources.Source.IsValid | SoundFontInfoLib/SoundFontInfoLib/Entity/Modulator/Source.hpp:89-99 | a type beyond `switched` is invalid; a general source of known type is valid exactly for controllers 0, 2, 3, 10, 13, 14, 16 and 127; a valid MIDI controller source has an index between 1 and 119 |
| ModulatorSources.Source.IsContinuousController | SoundFontInfoLib/SoundFontInfoLib/Entity/Modulator/Source.hpp:102 | exactly when bit 7 is set |
| ModulatorSources.Source.IsGeneralController | SoundFontInfoLib/SoundFontInfoLib/Entity/Modulator/Source.hpp:105 | exactly when bit 7 is clear |
| ModulatorSources.Source.IsUnipolar | SoundFontInfoLib/SoundFontInfoLib/Entity/Modulator/Source.hpp:108 | exactly when the polarity bit, bit 9, is clear |
| ModulatorSources.Source.IsBipolar | SoundFontInfoLib/SoundFontInfoLib/Entity/Modulator/Source.hpp:111 | exactly when bit 9 is set |
| ModulatorSources.Source.IsMinToMax | SoundFontInfoLib/SoundFontInfoLib/Entity/Modulator/Source.hpp:114 | exactly when the direction bit, bit 8, is clear |
| ModulatorSources.Source.IsMaxToMin | SoundFontInfoLib/SoundFontInfoLib/Entity/Modulator/Source.hpp:117 | exactly when bit 8 is set |
| ModulatorSources.Source.IsLinked | SoundFontInfoLib/SoundFontInfoLib/Entity/Modulator/Source.hpp:120-122 | exactly when the source is a valid general controller with index 127; a linked source is never none |
| ModulatorSources.Source.IsNone | SoundFontInfoLib/SoundFontInfoLib/Entity/Modulator/Source.hpp:138 | exactly when the source is invalid or a general source with index 0 |
| ModulatorSources.VelocitySourceExample | SoundFontInfoLib/SoundFontInfoLib/Entity/Modulator/Source.hpp:47-65 | the negative concave note-on velocity source has the bits 0x0502 |
| Modulators.Modulator.GeneratorDestination | SoundFontInfoLib/SoundFontInfoLib/Entity/Modulator/Modulator.hpp:69-72 | a generator destination is a generator index that the destination word holds |
| Modulators.Modulator.LinkDestination | SoundFontInfoLib/SoundFontInfoLib/Entity/Modulator/Modulator.hpp:75-78 | a link destination is the destination word without its link flag |
| Modulators.MakeModulator | SoundFontInfoLib/SoundFontInfoLib/Entity/Modulator/Modulator.hpp:55-57 | the modulator holds the given fields and has a generator destination |
| Modulators.DestinationKinds | SoundFontInfoLib/SoundFontInfoLib/Entity/Modulator/Modulator.hpp:63-66 | a destination is either a modulator or a generator, decided by the link flag |
| Modulators.SameIgnoresAmountAndTransform | SoundFontInfoLib/SoundFontInfoLib/Entity/Modulator/Modulator.hpp:91-94 | two modulators differing only in amount and transform are the same |
| Modulators.Modulator.Same | SoundFontInfoLib/SoundFontInfoLib/Entity/Modulator/Modulator.hpp:91-94 | exactly when the two modulators differ at most in amount and transform |
| Modulators.Modulator.Differs | SoundFontInfoLib/SoundFontInfoLib/Entity/Modulator/Modulator.hpp:96 | exactly when they differ in something other than amount and transform |
| Modulators.SameIsEquivalence | SoundFontInfoLib/SoundFontInfoLib/Entity/Modulator/Modulator.hpp:91-94 | `Same` is reflexive, symmetric and transitive |
| Modulators.DifferentDestinationsDiffer | SoundFontInfoLib/SoundFontInfoLib/Entity/Modulator/Modulator.hpp:96 | modulators with different destinations differ |
| Zones.IsGlobal | SoundFontInfoLib/SoundFontInfoLib/Render/Zone/Zone.hpp:38-51 | a zone without generators is global exactly when it has modulators, so one with neither is not global; a zone with generators is global exactly when its last generator is not the terminal one |
| Zones.KeyRange | SoundFontInfoLib/SoundFontInfoLib/Render/Zone/Zone.hpp:123-128 | the key range comes from a first generator that is a key range, and is `All` otherwise |
| Zones.VelocityRangePosition | SoundFontInfoLib/SoundFontInfoLib/Render/Zone/Zone.hpp:137-147 | the velocity range is at position 0, at 1 after a key range, or absent |
| Zones.VelocityRange | SoundFontInfoLib/SoundFontInfoLib/Render/Zone/Zone.hpp:137-147 | the velocity range is the amount of the generator found there, and `All` otherwise |
| Zones.MakeZone | SoundFontInfoLib/SoundFontInfoLib/Render/Zone/Zone.hpp:90-98 | a zone without generators and modulators is an error; otherwise it keeps both, is valid, and filters generators exactly for instrument zones |
| Zones.ResourceLink | SoundFontInfoLib/SoundFontInfoLib/Render/Zone/Zone.hpp:106-113 | a global zone has none; otherwise the amount of its last generator, which is the terminal one |
| Zones.RangesFromDistinctGenerators | SoundFontInfoLib/SoundFontInfoLib/Render/Zone/Zone.hpp:123-147 | when both ranges are present the velocity range comes second |
| Zones.TerminalOnlyZone | SoundFontInfoLib/SoundFontInfoLib/Render/Zone/Zone.hpp:47-113 | a zone of just its terminal generator is local and links through it |
| Zones.ModulatorsOnlyZone | SoundFontInfoLib/SoundFontInfoLib/Render/Zone/Zone.hpp:47-113 | a zone of modulators only is global, covers every key and velocity, and links nowhere |
| SampleBounds.Bounds.LoopSize | SoundFontInfoLib/SoundFontInfoLib/Render/Voice/Sample/Bounds.hpp:98 | with the loop's ends in order, its size is their distance |
| SampleBounds.Bounds.HasLoop | SoundFontInfoLib/SoundFontInfoLib/Render/Voice/Sample/Bounds.hpp:98-100 | a loop that exists has a positive size, smaller than the whole sample |
| SampleBounds.OffsetCombines | SoundFontInfoLib/SoundFontInfoLib/Render/Voice/Sample/Bounds.hpp:46-56 | the fine and coarse offsets combine to fine + coarse * 32768 modulo 2^64 |
| SampleBounds.ClampAsWritten | SoundFontInfoLib/SoundFontInfoLib/Render/Voice/Sample/Bounds.hpp:46-56 | the clamped position never exceeds the sample's length |
| SampleBounds.MakeAsWritten | SoundFontInfoLib/SoundFontInfoLib/Render/Voice/Sample/Bounds.hpp:31-62 | every position as the code computes it lies within the sample |
| SampleBounds.PositionAsWritten | SoundFontInfoLib/SoundFontInfoLib/Render/Voice/Sample/Bounds.hpp:46-56 | one position as the code computes it lies within the sample |
| SampleBounds.Clamp | SoundFontInfoLib/SoundFontInfoLib/Render/Voice/Sample/Bounds.hpp:46-56 | a position before the sample becomes 0, one after it the sample's length, any other its distance from the start |
| SampleBounds.Make | SoundFontInfoLib/SoundFontInfoLib/Render/Voice/Sample/Bounds.hpp:31-62 | every position, computed as a signed sum, lies within the sample |
| SampleBounds.AsWrittenAgreesWithoutWrap | SoundFontInfoLib/SoundFontInfoLib/Render/Voice/Sample/Bounds.hpp:31-62 | where no adjusted position wraps round, the code and the signed computation agree |
| SampleBounds.PositionAgrees | SoundFontInfoLib/SoundFontInfoLib/Render/Voice/Sample/Bounds.hpp:46-56 | without wrap-around one position comes out the same as written and signed |
| SampleBounds.WrappedPosition | SoundFontInfoLib/SoundFontInfoLib/Render/Voice/Sample/Bounds.hpp:46-56 | a header index plus an offset as written is the signed sum modulo 2^64 |
| SampleBounds.MakeFromHeader | SoundFontInfoLib/SoundFontInfoLib/Render/Voice/Sample/Bounds.hpp:69-85 | the whole sample from 0, with both loop ends clamped into it and kept when already inside |
| SampleBounds.HeaderLoopKept | SoundFontInfoLib/SoundFontInfoLib/Render/Voice/Sample/Bounds.hpp:69-100 | a loop inside the sample, after its first sample, is kept with its size |
| SampleBounds.NegativeOffsetWraps | SoundFontInfoLib/SoundFontInfoLib/Render/Voice/Sample/Bounds.hpp:31-62 | a start-loop offset of -10 from sample 3 wraps round and clamps to the end in the code, and to the start when signed |
| Envelopes.Rank | SoundFontInfoLib/SoundFontInfoLib/Render/Envelope/Generator.hpp:226-262 | the stages are ordered delay to idle |
| Envelopes.Entered | SoundFontInfoLib/SoundFontInfoLib/Render/Envelope/Generator.hpp:226-265 | entering a stage never lands before it: empty stages are skipped forward |
| Envelopes.FirstRunningStage | SoundFontInfoLib/SoundFontInfoLib/Render/Envelope/Generator.hpp:101-105 | a note on runs at the latest to sustain |
| Envelopes.Generator.constructor | SoundFontInfoLib/SoundFontInfoLib/Render/Envelope/Generator.hpp:147-159 | the envelope starts idle at 0 and is gated on when the note is on |
| Envelopes.Generator.Gate | SoundFontInfoLib/SoundFontInfoLib/Render/Envelope/Generator.hpp:101-109 | the new state is `Gated` of the old one |
| Envelopes.Generator.EnterStage | SoundFontInfoLib/SoundFontInfoLib/Render/Envelope/Generator.hpp:226-265 | the new state is `Entered` of the old one |
| Envelopes.Generator.CheckIfEndStage | SoundFontInfoLib/SoundFontInfoLib/Render/Envelope/Generator.hpp:217-222 | the counter counts down and the next stage is entered at zero |
| Envelopes.Generator.UpdateAndCompare | SoundFontInfoLib/SoundFontInfoLib/Render/Envelope/Generator.hpp:201-207 | the level is updated and the next stage entered when it falls below the floor, else the stage counts down |
| Envelopes.Generator.GetNextValue | SoundFontInfoLib/SoundFontInfoLib/Render/Envelope/Generator.hpp:130-141 | one sample moves the state by `NextState` and returns the new level |
| Envelopes.EnteredIsInRange | SoundFontInfoLib/SoundFontInfoLib/Render/Envelope/Generator.hpp:226-265 | entering any stage leaves a timed stage's counter within its length |
| Envelopes.NextStateInRange | SoundFontInfoLib/SoundFontInfoLib/Render/Envelope/Generator.hpp:130-141 | one sample keeps a timed stage's counter within its length |
| Envelopes.GateOffWhenIdle | SoundFontInfoLib/SoundFontInfoLib/Render/Envelope/Generator.hpp:106 | releasing an idle envelope changes nothing |
| Envelopes.GateOnStarts | SoundFontInfoLib/SoundFontInfoLib/Render/Envelope/Generator.hpp:101-105 | a note on lands in the first stage of non-zero length, with its counter full and the level 0, 1 or the sustain level |
| Envelopes.HoldSetsFullLevel | SoundFontInfoLib/SoundFontInfoLib/Render/Envelope/Generator.hpp:240-253 | entering hold sets the level to 1, unless hold and decay are skipped into sustain |
| Envelopes.SustainHolds | SoundFontInfoLib/SoundFontInfoLib/Render/Envelope/Generator.hpp:251-253 | sustain takes the sustain level and further samples never leave it |
| Envelopes.ZeroReleaseGoesIdle | SoundFontInfoLib/SoundFontInfoLib/Render/Envelope/Generator.hpp:255-261 | an empty release makes an active envelope idle at level 0 at once |
| Envelopes.Generator.IsActive | SoundFontInfoLib/SoundFontInfoLib/Render/Envelope/Generator.hpp:114-115 | an envelope that is not active neither moves on a sample nor changes on a note off |
| Envelopes.Generator.IsGated | SoundFontInfoLib/SoundFontInfoLib/Render/Envelope/Generator.hpp:117-118 | a gated envelope is active, and a note off moves it to release or beyond |
| Envelopes.NextStateProgress | SoundFontInfoLib/SoundFontInfoLib/Render/Envelope/Generator.hpp:130-141 | one sample moves to a later stage, or stays and counts a timed stage down by one |
| Envelopes.RunNeverGoesBack | SoundFontInfoLib/SoundFontInfoLib/Render/Envelope/Generator.hpp:130-141 | samples never move an envelope back to an earlier stage |
| Envelopes.TimedStageEnds | SoundFontInfoLib/SoundFontInfoLib/Render/Envelope/Generator.hpp:130-141 | a timed stage is over after at most as many samples as its counter shows |
| FilePositions.Pos.Available | SoundFontInfoLib/SoundFontInfoLib/IO/Pos.hpp:91 | the bytes left before the end, when the position has not passed it |
| FilePositions.Pos.Offset | SoundFontInfoLib/SoundFontInfoLib/IO/Pos.hpp:88 | the offset plus what is available is the end, when the position has not passed it |
| FilePositions.Pos.IsInvalid | SoundFontInfoLib/SoundFontInfoLib/IO/Pos.hpp:101-102 | a valid position has a valid descriptor and something left; with a valid descriptor and a position up to the end, invalid exactly when nothing is left |
| FilePositions.Pos.Less | SoundFontInfoLib/SoundFontInfoLib/IO/Pos.hpp:104-105 | exactly when the offset is smaller; so a position is never less than itself |
| FilePositions.Pos.Advance | SoundFontInfoLib/SoundFontInfoLib/IO/Pos.hpp:99 | the new position keeps the descriptor and the end, never passes the end, and is the offset further on stopped at the end |
| FilePositions.Pos.ReadInto | SoundFontInfoLib/SoundFontInfoLib/IO/Pos.hpp:76-81 | succeeds exactly when the descriptor is valid and the file holds the bytes; then returns exactly those bytes and the position advanced past them |
| FilePositions.Pos.ReadIntoAtMost | SoundFontInfoLib/SoundFontInfoLib/IO/Pos.hpp:63-66 | succeeds exactly when the descriptor is valid and the file holds the smaller count; then it reads that many bytes from the position, no more than either bound, and advances by them; otherwise it says whether the seek or the read failed |
| FilePositions.AdvanceShrinksAvailable | SoundFontInfoLib/SoundFontInfoLib/IO/Pos.hpp:91-99 | advancing takes the offset, or everything when that is less, from what is available |
| FilePositions.AdvanceTwice | SoundFontInfoLib/SoundFontInfoLib/IO/Pos.hpp:99 | two advances make one advance by their sum |
| FilePositions.AdvanceToEndIsInvalid | SoundFontInfoLib/SoundFontInfoLib/IO/Pos.hpp:91-102 | advancing by everything available gives an invalid position with nothing left |
| FilePositions.ReadTwice | SoundFontInfoLib/SoundFontInfoLib/IO/Pos.hpp:76-81 | two consecutive reads give the bytes and the end position of one read of both |
| ChunkItemsModel.LoadFrom | SoundFontInfoLib/SoundFontInfoLib/IO/ChunkItems.hpp:120-127 | a load from a position already at its end reads nothing |
| ChunkItemsModel.Decoded | SoundFontInfoLib/SoundFontInfoLib/IO/ChunkItems.hpp:126 | n consecutive items are decoded |
| ChunkItemsModel.DecodedItem | SoundFontInfoLib/SoundFontInfoLib/IO/ChunkItems.hpp:126 | item i is decoded from the i-th run of item-size bytes |
| ChunkItemsModel.ItemBytes | SoundFontInfoLib/SoundFontInfoLib/IO/ChunkItems.hpp:122-125 | the bytes of the whole items a chunk holds, never more than the chunk |
| ChunkItemsModel.LoadEnd | SoundFontInfoLib/SoundFontInfoLib/IO/ChunkItems.hpp:125 | the end of the load is the begin position advanced by the whole items' bytes |
| ChunkItemsModel.WholeItemFits | SoundFontInfoLib/SoundFontInfoLib/IO/ChunkItems.hpp:122 | a chunk at least one item long holds a whole item |
| ChunkItemsModel.ItemBytesFit | SoundFontInfoLib/SoundFontInfoLib/IO/ChunkItems.hpp:122-125 | the whole items take no more bytes than the chunk |
| ChunkItemsModel.LoadCount | SoundFontInfoLib/SoundFontInfoLib/IO/ChunkItems.hpp:120-127 | when the file and the region hold them, a load decodes size / itemSize items in order |
| ChunkItemsModel.LoadRun | SoundFontInfoLib/SoundFontInfoLib/IO/ChunkItems.hpp:126 | reading up to an end n items away decodes exactly those n items |
| ChunkItemsModel.ShortFileFails | SoundFontInfoLib/SoundFontInfoLib/IO/ChunkItems.hpp:126 | a file too short for the first item makes the load fail with a short read |
| ChunkItemsModel.ChunkItems.constructor | SoundFontInfoLib/SoundFontInfoLib/IO/ChunkItems.hpp:39 | the collection starts empty |
| ChunkItemsModel.ChunkItems.Size | SoundFontInfoLib/SoundFontInfoLib/IO/ChunkItems.hpp:56 | the stored records less the sentinel; an empty store wraps round to 2^64 - 1 |
| ChunkItemsModel.ChunkItems.IsEmpty | SoundFontInfoLib/SoundFontInfoLib/IO/ChunkItems.hpp:63 | empty exactly when fewer than two records are stored |
| ChunkItemsModel.ChunkItems.SliceAsWritten | SoundFontInfoLib/SoundFontInfoLib/IO/ChunkItems.hpp:81-86 | when the guard holds, the records first to first + count, which may leave the store; otherwise nothing |
| ChunkItemsModel.ChunkItems.Slice | SoundFontInfoLib/SoundFontInfoLib/IO/ChunkItems.hpp:81-86 | count members from member first when the range lies within the members, otherwise nothing |
| ChunkItemsModel.ChunkItems.End | SoundFontInfoLib/SoundFontInfoLib/IO/ChunkItems.hpp:100 | the position of the sentinel, which is the size, with the members before it |
| ChunkItemsModel.ChunkItems.Load | SoundFontInfoLib/SoundFontInfoLib/IO/ChunkItems.hpp:120-127 | succeeds exactly when every read does, appending the decoded items of the chunk; otherwise the first read's error |
| ChunkItemsModel.EmptySliceEscapes | SoundFontInfoLib/SoundFontInfoLib/IO/ChunkItems.hpp:56-86 | on an empty store the guard lets the slice (0, 1) through past the records; the corrected slice is empty |
| ChunkItemsModel.WrappedCountEscapes | SoundFontInfoLib/SoundFontInfoLib/IO/ChunkItems.hpp:81-86 | a count that wraps the sum round passes the guard but leaves the records |
| ChunkItemsModel.SliceAgrees | SoundFontInfoLib/SoundFontInfoLib/IO/ChunkItems.hpp:81-86 | on a non-empty store, without wrap-around, the guarded slice is the corrected one |
| RiffParser.U32Sub | SoundFontInfoLib/Parser.cpp:128-129 | the 32-bit difference, wrapping below zero |
| RiffParser.ChunkSpan | SoundFontInfoLib/Parser.cpp:105 | the span of a chunk is even: header, length and pad byte, or at most 8 when the 32-bit sum wraps |
| RiffParser.Cursor.Advance | SoundFontInfoLib/Parser.cpp:35-42 | succeeds exactly when enough bytes remain, moving by the offset in the same region; otherwise a format error |
| RiffParser.Cursor.AdvanceWithin | SoundFontInfoLib/Parser.cpp:35-42 | the sub-region of size bytes after the offset, when it fits; otherwise a format error |
| RiffParser.Cursor.Tag | SoundFontInfoLib/Parser.cpp:49 | the first 4 bytes, when they remain; otherwise a format error |
| RiffParser.Cursor.Size | SoundFontInfoLib/Parser.cpp:56 | the 32-bit little-endian length after the tag, when it remains; otherwise a format error |
| RiffParser.Cursor.ListTagOf | SoundFontInfoLib/Parser.cpp:63 | the 4 bytes after the chunk header, when they remain; otherwise a format error |
| RiffParser.Cursor.DataOf | SoundFontInfoLib/Parser.cpp:70 | the len bytes after the chunk header, when they remain; otherwise a format error |
| RiffParser.ChunkAt | SoundFontInfoLib/Parser.cpp:101-110 | a parsed chunk fits in its region and the position after it is one span further on |
| RiffParser.ChunkBody | SoundFontInfoLib/Parser.cpp:107-109 | a parsed chunk body fits in its region |
| RiffParser.ParseChunk | SoundFontInfoLib/Parser.cpp:101-110 | parses the chunk as `ChunkAt` describes |
| RiffParser.ParseChunks | SoundFontInfoLib/Parser.cpp:112-118 | the loop parses the chunks as `ChunksIn` describes |
| RiffParser.Form | SoundFontInfoLib/Parser.cpp:123-131 | the header is accepted only on a file of at least 12 bytes whose size fits the 32-bit length, giving the form tag at bytes 8-11 and the region from byte 12 to the end; anything else is a format error |
| RiffParser.Parse | SoundFontInfoLib/Parser.cpp:120-132 | parses the file as `Parsed` describes |
| RiffParser.NotRiffThrows | SoundFontInfoLib/Parser.cpp:124 | data not starting with 'RIFF' is refused with a format error |
| RiffParser.SizeMismatchThrows | SoundFontInfoLib/Parser.cpp:128-129 | a RIFF size that does not match the file's is refused with a format error |
| RiffParser.LE32Bytes | SoundFontInfoLib/Parser.cpp:56 | `ints(pos)[1]` reads a little-endian 32-bit value: each of the four bytes reads back from it, the first least significant |
| RiffParser.ChunksIn | SoundFontInfoLib/Parser.cpp:112-118 | `parseChunks` gives no more chunks than bytes in the region, and at least one when bytes remain |
| RiffParser.Parsed | SoundFontInfoLib/Parser.cpp:120-132 | a successful parse is a list chunk whose tag is the form tag at bytes 8-11, with no more chunks than bytes after the header |
| RiffParser.ParsedShape | SoundFontInfoLib/Parser.cpp:120-132 | a parse succeeds only on a RIFF file whose size matches, giving a list of the chunks after the header |
| RiffParser.ListBody | SoundFontInfoLib/Parser.cpp:107-108 | a 'LIST' chunk holds its list tag and the chunks of its body |
| RiffParser.DataBody | SoundFontInfoLib/Parser.cpp:109 | any other chunk holds its tag and data bytes, exactly when they fit |
| RiffParser.StepAdvances | SoundFontInfoLib/Parser.cpp:101-118 | each parsed chunk moves the position at least 8 bytes on |
| RiffParser.CheckedChunkReturns | SoundFontInfoLib/Parser.cpp:101-110 | with the padded length summed without wrapping and checked against the region, a chunk parse gives a chunk or a format error, and a parsed chunk moves the position by at least 8 bytes |
| RiffParser.CheckedChunksReturn | SoundFontInfoLib/Parser.cpp:112-118 | with the check, the chunk loop ends: a run of chunks gives the chunks or a format error |
| RiffParser.ParseChecked | SoundFontInfoLib/Parser.cpp:120-132 | the corrected parse always returns, with the file's chunks or a format error; it neither terminates the program nor loops forever |
| RiffParser.PaddedSpan | SoundFontInfoLib/Parser.cpp:105 | the padded length summed without wrapping is even, at least 8, and equals the 32-bit sum wherever it is below 2^32 |
| RiffParser.SpansAgree | SoundFontInfoLib/Parser.cpp:105-106 | the unwrapped step lands where the wrapped one does, or overruns the region, and it overruns exactly for a fitting chunk whose wrapped step is 0 |
| RiffParser.BodyAgrees | SoundFontInfoLib/Parser.cpp:107-109 | the corrected chunk contents are the code's, with termination or an endless loop reported as a format error |
| RiffParser.ChunkAgrees | SoundFontInfoLib/Parser.cpp:101-110 | the corrected chunk parse is the code's, with termination or an endless loop reported as a format error, except that a chunk whose step wraps to 0 is a format error too |
| RiffParser.ChunksAgree | SoundFontInfoLib/Parser.cpp:112-118 | the corrected run of chunks is the code's, with termination or an endless loop reported as a format error |
| RiffParser.ParseAgrees | SoundFontInfoLib/Parser.cpp:120-132 | the corrected parse is the code's, with termination or an endless loop reported as a format error |
| RiffParser.WrappedSpanDiverges | SoundFontInfoLib/Parser.cpp:105-118 | a data chunk of length 2^32 - 9 filling a region of 2^32 - 1 bytes has a step that wraps to 0, so the code's loop never moves on, while the corrected parse throws |
| RiffParser.WrappedFileDiverges | SoundFontInfoLib/Parser.cpp:101-132 | a file of 2^32 + 11 bytes whose RIFF length field is 3 passes the header check, and a first chunk of length 2^32 - 9 makes the code loop forever; the corrected parse gives a format error |
| RiffParser.UnpaddedChunkTerminates | SoundFontInfoLib/Parser.cpp:94-110 | a 1-byte chunk without its pad byte makes the deferred advance throw from a destructor and terminate; the corrected parse refuses it |
| RiffParser.PaddedChunkParses | SoundFontInfoLib/Parser.cpp:101-132 | a file with one 2-byte chunk parses to a list of that chunk |

## Left out

### The version-bump script

- File reading and writing, `PlistBuddy`, the command-line parsing and the exit codes are left out. File contents and the command's arguments are parameters.
- UIContentsByLine.SplitValueStable: the line-by-line update never updates a `text`/`title` value that spans a line break. On the file of the finding it leaves the split `text` value as it was, where the script rewrites it. Its stability is proved on that file only, not on every file.
- UIContentsProperties.AttributeBeforeMarker: covers a file holding exactly one label marker; no other marker may come before or after it. Files with several labelled lines are covered line by line instead: when every line closes the values it opens (`LineClosed`), `UIContentsByLine.ScriptIsLineByLine` makes the script's update the update of each line on its own, and `TwoLabelledLines` spells this out for two labelled lines.
- UIContentsProperties.AttributeAfterMarker: covers a file holding exactly one label marker; no other marker may come before or after it. Files with several labelled lines are covered line by line instead: when every line closes the values it opens (`LineClosed`), `UIContentsByLine.ScriptIsLineByLine` makes the script's update the update of each line on its own, and `TwoLabelledLines` spells this out for two labelled lines.
- UIContentsProperties.AttributeBeforeMarkerStable: covers a file holding exactly one label marker, and only labels whose old value holds no line break, or before which no attribute header starts. `UpdateNotIdempotent` shows that a second run is not stable in general. For files with several labelled lines, `UIContentsByLine.SecondRunByLine` lifts stability line by line when every line closes its values.
- UIContentsProperties.AttributeAfterMarkerStable: covers a file holding exactly one label marker, and only labels whose rewritten attribute is the last attribute on the marker's line. `AttributeAfterMarker` itself does not need the second condition. For files with several labelled lines, `UIContentsByLine.SecondRunByLine` lifts stability line by line when every line closes its values.
- ProjectContents.UpdateProjectContents: inserts the build number literally. The script builds its replacement text with an f-string, and `re.sub` then reads backslash escapes and group references in it, such as `\1` or `\n`. A build number holding a backslash would be changed, or would raise an error, and the model does not do that. The script's own build number is a UTC timestamp written in digits only (bumpVersions.py:142-143), which the template leaves as it is.
- MarketingVersion.AsInt follows the code, which packs 1.2.3 as 66051. The comment beside it says 65051.
- MarketingVersion.ParseInt: accepts only non-empty ASCII digit strings. Python's `int()` also accepts a leading sign, surrounding whitespace, underscores between digits and non-ASCII decimal digits, so `"-1.2.3"` and `" 1.2.3"` parse in the script and are errors in the model. Version fields are natural numbers here, so negative fields are not modelled.
- MarketingVersion.FromParts: inherits the narrower domain of `ParseInt`; for the parts `int()` accepts beyond digit strings it reports `NotAnInteger` where the script would go on.
- VersionReader.ReadAfterUpdate: proved for a file whose text around the setting holds no other marketing-version setting and no build-number setting. Real project files carry one setting per build configuration; a file with several settings is not covered by this lemma.

### Sound fonts, favourites and presets

- The ordering of sound fonts by name is a plain total order on strings. The app compares names case-insensitively and with localisation, which is not modelled.
- `SoundFontCollection.index(of url)` and `getBy(soundFontAndPreset:)` are not modelled.
- The identity-based search variant is left out.
- Sound fonts are values, so aliasing between a font and the catalog entry is not modelled.
- The `Codable` encoding and decoding is left out.
- SoundFonts.SoundFontCollection.Add: its contract gives order and lookup only for a key not yet in the catalog. For a duplicate key it states only the catalog update and the insertion.
- The favourites that presets refer to are modelled as a set of keys. The lookup that resolves a preset to its sound font is a parameter.
- Favorites.FavoriteCollection.RemoveAllAssociated: its contract is stated for collections whose keys are unique. The source never stores two favourites with the same key.
- Asking the user for a review (`AskForReview.maybe()`) is not modelled. The favourites' `add`, `move`, `remove(key:)` and `remove(at:)` call it (FavoriteCollection.swift:59, 80, 90, 102). So do the sound fonts' `add`, `remove` and `rename` (SoundFontCollection.swift:102, 114, 134).
- SoundFonts.SoundFontCollection.DefaultPreset: requires the font that sorts first to have at least one preset. Swift's `getBy(index: 0)[0]` traps on a font without presets (SoundFont.swift:152-154). The model excludes that crash instead of modelling it.
- SoundFonts.SoundFontCollection.constructor: requires distinct keys. The Swift initialiser builds its dictionary with `uniqueKeysWithValues`, which traps on a duplicate; the model excludes that crash instead of modelling it.
- Presets.Trimmed treats the ASCII blanks as whitespace: space, tab, line feed, vertical tab, form feed and carriage return. Other Unicode whitespace and newline characters are not trimmed.
- `ActivePresetManager` posts its notifications on the main queue. The model records them in order as a list of notices.

### MIDI and chord detection

- `MIDI1Msg` comes from a package that is not part of this model. Its classification of status bytes follows MIDI 1.0 as the packet parser uses it.
- Only the packet contents and the parse are modelled. `MIDIPacketList.Builder`, the packet-list memory layout and its iterator are left out.
- Logging (`os_log`) is left out.
- MIDIPackets.PacketBuilder.Packet: requires at most 256 bytes. The Swift builder states this as a precondition and traps beyond it; the model excludes that crash instead of modelling it.
- The note-name tags used in the chord table are parameters.
- `ChordDetector.detectChord` is left out. Its body is commented out and it always returns nil.

### SF2 reading and rendering

- The envelope generator is modelled with `real` in place of `double`.
- The envelope's curve is a parameter. The stage tables that `forVol` and `forMod` build from generator values are not modelled, and neither are the key-to-envelope scaling and the sustain-level conversion.
- `Range.hpp` is not part of this model. Key and velocity ranges are carried as generator amounts.
- Building a `Modulator` by reading it from a file is left out.
- The description and stream output of `Source` are left out.
- The assertion in `Zone::IsGlobal` (Zone.hpp:49) is read with release-build semantics, where it is not checked: `Zones.IsGlobal` takes any input and says a zone with neither generators nor modulators is not global, as the constructor computes it before it throws (Zone.hpp:94-97).
- `Zone::appliesTo` is left out.
- `ChunkItems::operator[]` is left out. `checkedVectorIndexing` is not part of this model.
- `ChunkItems::dump` is left out.
- `Chunk.hpp` is not part of this model. The chunk's size and begin position are parameters.
- The item constructors are modelled as a read of one item's bytes followed by a decode function given as a parameter.
- Files are taken to be shorter than 2^64 bytes.
- The parser in `Parser.cpp` works on the file's contents held in memory. Pointer arithmetic is modelled as offsets, and lengths are read little-endian.
- `Diverges` stands for the parser's loop that never ends. The model detects the loop when a chunk step leaves the position where it was, which is the only way the loop fails to move on.
- `Pos` gets the file's contents as a parameter. A failed seek is modelled as a negative descriptor.
- RiffParser.LE32: the function has no contract of its own; the byte facts about it are stated in `LE32Bytes`, so that proofs using `LE32` do not carry nonlinear arithmetic.

## Findings

| source | as written | input that shows it | evidently intended | confidence | as-written member | corrected member |
|---|---|---|---|---|---|---|
| SoundFontsFramework/SoundFontsFramework/Audio/ChordDetector.swift:57-90 | `isCyclicEqual` reads `first[0]` after checking only that the two counts match | `first = []`, `second = []`: the count guard passes and `first[0]` traps | two empty lists are equal up to rotation, so the answer is `true` | not executed; proved on the model | ChordDetection.IsCyclicEqualAsWritten, ChordDetection.EmptyListsTrap | ChordDetection.IsCyclicEqual |
| SoundFontInfoLib/SoundFontInfoLib/Render/Voice/Sample/Bounds.hpp:31-62 | the signed offset is cast to `size_t` and added to the header index, then clamped | a sample spanning 0..100 with its loop starting at 3 and a start-loop offset of -10: the sum wraps round to near 2^64 and clamps to the end, 100 | a position moved before the first sample clamps to the start, 0 | not executed; proved on the model | SampleBounds.MakeAsWritten, SampleBounds.NegativeOffsetWraps | SampleBounds.Make |
| SoundFontInfoLib/SoundFontInfoLib/IO/ChunkItems.hpp:81-86 | `slice` guards with `size()` and `first + count`, both `size_t` | an empty store, where `size()` wraps to 2^64 - 1, so `slice(0, 1)` passes the guard and leaves the records; or 3 records with `slice(1, 2^64 - 1)`, where the sum wraps | a range that leaves the members gives an empty slice | not executed; proved on the model | ChunkItemsModel.ChunkItems.SliceAsWritten, ChunkItemsModel.EmptySliceEscapes, ChunkItemsModel.WrappedCountEscapes | ChunkItemsModel.ChunkItems.Slice |
| SoundFontInfoLib/Parser.cpp:101-110 | the advance past a chunk runs in the destructor of `Defer`, which is implicitly `noexcept` | a RIFF file whose last chunk is 1 byte long and has no pad byte: the advance by the padded length throws from the destructor, so the program is terminated | the malformed file is refused with a format error | not executed; proved on the model | RiffParser.Parsed, RiffParser.UnpaddedChunkTerminates | RiffParser.ParseChecked |
| SoundFontInfoLib/Parser.cpp:105-116 | the padded length `((len + 8) + 1) & 0xfffffffe` is computed on `uint32_t` | a file of 2^32 + 11 bytes whose RIFF length field is 3 (3 - 4 wraps to 2^32 - 1, the size less 12) and whose first chunk is a data chunk of length 2^32 - 9: the padded length wraps to 0, the position never moves, and the loop in `parseChunks` runs forever | the padded length is summed without wrapping, and a chunk that does not fit is refused with a format error | not executed; proved on the model | RiffParser.WrappedSpanDiverges, RiffParser.WrappedFileDiverges | RiffParser.ParseChecked, RiffParser.CheckedChunksReturn |
| scripts/bumpVersions.py:170-173 | `[^"]*` in an attribute value crosses a line break, while the greedy `.*` between an attribute and the marker does not | `title="q" text="a` + line break + `b" userLabel="APP_VERSION"`: the first run rewrites `text` and so removes the line break, and a second run then rewrites `title` as well | running the script a second time with the same version changes nothing. The corrected line-by-line update achieves this by never updating a value that spans a line break: on this file it leaves the split `text` value as it was | low; not executed (Interface Builder writes a line break in a value as `&#10;`, so such a file is unusual) | UIContentsProperties.UpdateNotIdempotent, UIContentsProperties.FirstRunOnSplitValue | UIContentsByLine.SplitValueStable |

=== FILE: active_preset_manager.dfy ===
/**
 * The keeper of the active preset: which preset or favourite is used for
 * sound generation, a value remembered while the sound font collection is
 * still being restored, and the choice made once restoration is announced.
 */
module ActivePresets {
  import Wrappers
  import SoundFonts
  import Favorites

  /** What is active: a preset, a favourite, or nothing. */
  datatype ActivePresetKind =
    | Preset(soundFontAndPreset: SoundFonts.SoundFontAndPreset)
    | Favorite(favorite: Favorites.Favorite)
    | None

  /** The preset reference inside a kind, if it has one. */
  function PresetOf(kind: ActivePresetKind): (r: Wrappers.Option<SoundFonts.SoundFontAndPreset>)
    ensures r.None? <==> kind.None?
    ensures kind.Favorite? ==> r == Wrappers.Some(kind.favorite.soundFontAndPreset)
  {
    match kind
    case Preset(p) => Wrappers.Some(p)
    case Favorite(f) => Wrappers.Some(f.soundFontAndPreset)
    case None => Wrappers.None
  }

  /** The change notice sent to subscribers when the active value changes. */
  datatype ActivePresetEvent = Active(from: ActivePresetKind, to: ActivePresetKind, playSample: bool)

  /** What the sound font collection announces; only `Restored` matters here. */
  datatype SoundFontsEvent = Restored | OtherChange

  /**
   * A saved value can be used when it refers to a preset that resolves in the
   * restored collection; `resolves` stands for that lookup.
   */
  function IsValid(kind: ActivePresetKind, resolves: SoundFonts.SoundFontAndPreset -> bool): (r: bool)
    ensures kind.None? ==> !r
    ensures r <==> PresetOf(kind).Some? && resolves(PresetOf(kind).value)
  {
    match PresetOf(kind)
    case None => false
    case Some(p) => resolves(p)
  }

  class ActivePresetManager {
    /** The active preset or favourite. */
    var active: ActivePresetKind
    /** The first value asked for before the collection was restored. */
    var pending: ActivePresetKind
    /** Whether the sound font collection has been restored. */
    var restored: bool
    /** The setting holding the last active value. */
    var lastActivePreset: ActivePresetKind
    /** The change notices dispatched to subscribers, oldest first. */
    var notices: seq<ActivePresetEvent>

    /** A manager with nothing active, before the collection is restored. */
    constructor(lastActivePreset: ActivePresetKind)
      ensures active == None && pending == None && !restored
      ensures this.lastActivePreset == lastActivePreset && notices == []
    {
      active := None;
      pending := None;
      restored := false;
      this.lastActivePreset := lastActivePreset;
      notices := [];
    }

    /**
     * Asks for `kind` to become active. Before restoration only the first
     * request is remembered; afterwards a request for the current value
     * changes nothing, and any other value becomes active, is saved and is
     * announced.
     */
    method SetActive(kind: ActivePresetKind, playSample: bool) returns (accepted: bool)
      modifies this
      ensures restored == old(restored)
      ensures !old(restored) ==>
        accepted && active == old(active) &&
        pending == (if old(pending) == None then kind else old(pending)) &&
        lastActivePreset == old(lastActivePreset) && notices == old(notices)
      ensures old(restored) && kind == old(active) ==>
        !accepted && active == old(active) && pending == old(pending) &&
        lastActivePreset == old(lastActivePreset) && notices == old(notices)
      ensures old(restored) && kind != old(active) ==>
        accepted && active == kind && pending == old(pending) && lastActivePreset == kind &&
        notices == old(notices) + [Active(old(active), kind, playSample)]
    {
      if !restored {
        if pending == None {
          pending := kind;
        }
        return true;
      }
      if active == kind {
        return false;
      }
      var previous := active;
      active := kind;
      lastActivePreset := kind;
      notices := notices + [Active(previous, kind, playSample)];
      return true;
    }

    /** The collection raises its restored flag before it announces the restoration. */
    method MarkRestored()
      modifies this
      ensures restored
      ensures active == old(active) && pending == old(pending)
      ensures lastActivePreset == old(lastActivePreset) && notices == old(notices)
    {
      restored := true;
    }

    /**
     * Reacts to a collection event. On restoration the value asked for
     * earlier wins; without one the saved setting is used when it resolves;
     * failing that the collection's default preset; otherwise nothing
     * changes. Every other event is ignored.
     */
    method SoundFontsChange(
      event: SoundFontsEvent,
      resolves: SoundFonts.SoundFontAndPreset -> bool,
      defaultPreset: Wrappers.Option<SoundFonts.SoundFontAndPreset>)
      modifies this
      requires event.Restored? ==> restored
      ensures !event.Restored? ==>
        active == old(active) && pending == old(pending) && restored == old(restored) &&
        lastActivePreset == old(lastActivePreset) && notices == old(notices)
      ensures event.Restored? && old(pending) != None ==> active == old(pending)
      ensures event.Restored? && old(pending) == None && IsValid(old(lastActivePreset), resolves) ==>
        active == old(lastActivePreset)
      ensures event.Restored? && old(pending) == None && !IsValid(old(lastActivePreset), resolves) ==>
        active == (if defaultPreset.Some? then Preset(defaultPreset.value) else old(active))
      ensures event.Restored? ==>
        notices == old(notices) + (if active != old(active) then [Active(old(active), active, false)] else []) &&
        lastActivePreset == (if active != old(active) then active else old(lastActivePreset))
      ensures pending == old(pending) && restored == old(restored)
    {
      if !event.Restored? {
        return;
      }
      if pending != None {
        var _ := SetActive(pending, false);
      } else {
        var restoredValue := lastActivePreset;
        if IsValid(restoredValue, resolves) {
          var _ := SetActive(restoredValue, false);
        } else if defaultPreset.Some? {
          var _ := SetActive(Preset(defaultPreset.value), false);
        }
      }
    }
  }
}

=== FILE: chord_detector.dfy ===
/**
 * Chord recognition support: the table of known chords by the semitone
 * intervals between their notes, the intervals of a set of played notes, and
 * the test whether two interval lists are rotations of each other.
 */
module ChordDetection {
  import opened Wrappers

  /** A chord: the semitone steps from each note to the next, wrapping to the octave. */
  datatype Chord = Chord(intervals: seq<int>, name: string, suffix: string)

  /** The sum of a list of intervals. */
  function Sum(s: seq<int>): int {
    if s == [] then 0 else s[0] + Sum(s[1..])
  }

  /** The known chords of three notes. */
  function ThreeNoteChords(): (chords: seq<Chord>)
    ensures |chords| == 8
  {
    [ Chord([4, 3, 5], "major", ""),
      Chord([3, 4, 5], "minor", "m"),
      Chord([4, 4, 4], "augmented", "aug"),
      Chord([3, 3, 6], "diminished", "dim"),
      Chord([2, 5, 5], "suspended", "sus2"),
      Chord([5, 2, 5], "suspended", "sus4"),
      Chord([7, 4, 1], "7major(short)", "7maj"),
      Chord([7, 3, 2], "7(short)", "7") ]
  }

  /** The known chords of four notes. */
  function FourNoteChords(): (chords: seq<Chord>)
    ensures |chords| == 10
  {
    [ Chord([4, 3, 2, 3], "6major", "6maj"),
      Chord([3, 4, 2, 3], "6minor", "6min"),
      Chord([3, 3, 3, 3], "7dmininished", "7dim"),
      Chord([4, 3, 4, 1], "7major", "7maj"),
      Chord([3, 4, 3, 2], "7minor", "7min"),
      Chord([4, 4, 2, 2], "7augmented", "7aug"),
      Chord([3, 3, 4, 2], "7half-diminished", "7hdim"),
      Chord([4, 3, 3, 2], "7dominant", "7dom"),
      Chord([3, 4, 4, 1], "7minor-major", "7minmaj"),
      Chord([4, 4, 3, 1], "7augmented-major", "7augma") ]
  }

  /**
   * The ninth chords. The names of the flattened and sharpened ninths start
   * with the flat and sharp signs used for note names.
   */
  function NinthChords(flatTag: string, sharpTag: string): (chords: seq<Chord>)
    ensures |chords| == 6
  {
    [ Chord([2, 2, 3, 5], "9add", "9add"),
      Chord([2, 2, 3, 3, 2], "9", "9"),
      Chord([2, 1, 4, 3, 2], "9minor", "9min"),
      Chord([2, 2, 3, 4, 1], "9major", "9maj"),
      Chord([1, 3, 3, 3, 2], flatTag + "9", "9-"),
      Chord([3, 1, 3, 3, 2], sharpTag + "9", "9+") ]
  }

  /** The eleventh and thirteenth chords. */
  function HigherChords(): (chords: seq<Chord>)
    ensures |chords| == 4
  {
    [ Chord([4, 1, 2, 3, 2], "11(short)", "11"),
      Chord([2, 2, 1, 2, 3, 2], "11", "11"),
      Chord([4, 3, 2, 1, 2], "13(short)", "13"),
      Chord([2, 2, 1, 2, 2, 1, 2], "13", "13") ]
  }

  /** The known chords, in the order they are tried. */
  function Known(flatTag: string, sharpTag: string): (chords: seq<Chord>)
    ensures |chords| == 28
  {
    ThreeNoteChords() + FourNoteChords() + NinthChords(flatTag, sharpTag) + HigherChords()
  }

  /** Whether a chord's steps are all upwards and add up to one octave. */
  predicate SpansOctave(c: Chord) {
    Sum(c.intervals) == 12 && Positive(c.intervals)
  }

  /** Whether the steps of every chord of `cs` add up to one octave. */
  predicate SumsToOctave(cs: seq<Chord>) {
    forall i :: 0 <= i < |cs| ==> Sum(cs[i].intervals) == 12
  }

  /** Whether every chord of `cs` steps upwards only. */
  predicate StepsUp(cs: seq<Chord>) {
    forall i :: 0 <= i < |cs| ==> Positive(cs[i].intervals)
  }

  /** Chords whose steps go up and add up to an octave span an octave. */
  lemma SpanFromParts(cs: seq<Chord>)
    requires SumsToOctave(cs) && StepsUp(cs)
    ensures forall i :: 0 <= i < |cs| ==> SpansOctave(cs[i])
  {
  }

  /** The three-note chords span one octave. */
  lemma ThreeNoteChordsSpanOctave()
    ensures forall i :: 0 <= i < |ThreeNoteChords()| ==> SpansOctave(ThreeNoteChords()[i])
  {
    ThreeNoteChordsSum();
    ThreeNoteChordsStepUp();
    SpanFromParts(ThreeNoteChords());
  }

  lemma ThreeNoteChordsSum()
    ensures SumsToOctave(ThreeNoteChords())
  {
  }

  lemma ThreeNoteChordsStepUp()
    ensures StepsUp(ThreeNoteChords())
  {
  }

  /** The four-note chords span one octave. */
  lemma FourNoteChordsSpanOctave()
    ensures forall i :: 0 <= i < |FourNoteChords()| ==> SpansOctave(FourNoteChords()[i])
  {
    FourNoteChordsSum();
    FourNoteChordsStepUp();
    SpanFromParts(FourNoteChords());
  }

  lemma FourNoteChordsSum()
    ensures SumsToOctave(FourNoteChords())
  {
  }

  lemma FourNoteChordsStepUp()
    ensures StepsUp(FourNoteChords())
  {
  }

  /** The ninth chords span one octave. */
  lemma NinthChordsSpanOctave(flatTag: string, sharpTag: string)
    ensures forall i :: 0 <= i < |NinthChords(flatTag, sharpTag)| ==> SpansOctave(NinthChords(flatTag, sharpTag)[i])
  {
    NinthChordsSum(flatTag, sharpTag);
    NinthChordsStepUp(flatTag, sharpTag);
    SpanFromParts(NinthChords(flatTag, sharpTag));
  }

  lemma NinthChordsSum(flatTag: string, sharpTag: string)
    ensures SumsToOctave(NinthChords(flatTag, sharpTag))
  {
  }

  lemma NinthChordsStepUp(flatTag: string, sharpTag: string)
    ensures StepsUp(NinthChords(flatTag, sharpTag))
  {
  }

  /** The eleventh and thirteenth chords span one octave. */
  lemma HigherChordsSpanOctave()
    ensures forall i :: 0 <= i < |HigherChords()| ==> SpansOctave(HigherChords()[i])
  {
    HigherChordsSum();
    HigherChordsStepUp();
    SpanFromParts(HigherChords());
  }

  lemma HigherChordsSum()
    ensures SumsToOctave(HigherChords())
  {
  }

  lemma HigherChordsStepUp()
    ensures StepsUp(HigherChords())
  {
  }

  /** Every known chord spans exactly one octave, in positive steps. */
  lemma KnownChordsSpanOctave(flatTag: string, sharpTag: string)
    ensures forall i :: 0 <= i < |Known(flatTag, sharpTag)| ==> SpansOctave(Known(flatTag, sharpTag)[i])
  {
    ThreeNoteChordsSpanOctave();
    FourNoteChordsSpanOctave();
    NinthChordsSpanOctave(flatTag, sharpTag);
    HigherChordsSpanOctave();
    var chords := Known(flatTag, sharpTag);
    forall i | 0 <= i < |chords|
      ensures SpansOctave(chords[i])
    {
      if i < 8 {
        assert chords[i] == ThreeNoteChords()[i];
      } else if i < 18 {
        assert chords[i] == FourNoteChords()[i - 8];
      } else if i < 24 {
        assert chords[i] == NinthChords(flatTag, sharpTag)[i - 18];
      } else {
        assert chords[i] == HigherChords()[i - 24];
      }
    }
  }

  /** Whether every step is upwards. */
  predicate Positive(s: seq<int>) {
    forall i :: 0 <= i < |s| ==> s[i] > 0
  }

  /** Whether a list of note numbers is in ascending order. */
  predicate Ascending(s: seq<int>) {
    forall i, j :: 0 <= i < j < |s| ==> s[i] <= s[j]
  }

  /** Inserts `x` into an ascending list. */
  function InsertSorted(s: seq<int>, x: int): (r: seq<int>)
    requires Ascending(s)
    ensures |r| == |s| + 1 && Ascending(r)
    ensures forall y :: y in r <==> y in s || y == x
  {
    if s == [] then [x]
    else if x <= s[0] then [x] + s
    else
      var rest := InsertSorted(s[1..], x);
      assert forall y :: y in rest ==> y >= s[0];
      assert s == [s[0]] + s[1..];
      var r := [s[0]] + rest;
      assert forall i :: 0 < i < |r| ==> r[i] == rest[i - 1] && r[i] in rest;
      assert forall y :: y in r <==> y == s[0] || y in rest;
      r
  }

  /** The notes in ascending order. */
  function Sorted(s: seq<int>): (r: seq<int>)
    ensures |r| == |s| && Ascending(r)
  {
    if s == [] then []
    else InsertSorted(Sorted(s[..|s| - 1]), s[|s| - 1])
  }

  /** Inserting adds exactly the inserted note. */
  lemma {:induction false} InsertSortedPermutes(s: seq<int>, x: int)
    requires Ascending(s)
    ensures multiset(InsertSorted(s, x)) == multiset(s) + multiset{x}
  {
    if s != [] && x > s[0] {
      InsertSortedPermutes(s[1..], x);
      assert s == [s[0]] + s[1..];
    }
  }

  /** Sorting rearranges the notes and neither adds nor drops any. */
  lemma {:induction false} SortedPermutes(s: seq<int>)
    ensures multiset(Sorted(s)) == multiset(s)
  {
    if s != [] {
      SortedPermutes(s[..|s| - 1]);
      InsertSortedPermutes(Sorted(s[..|s| - 1]), s[|s| - 1]);
      assert s == s[..|s| - 1] + [s[|s| - 1]];
    }
  }

  /** A played note and the distance in semitones to the next higher one, wrapping at the octave. */
  datatype NoteInterval = NoteInterval(note: int, interval: int)

  /**
   * The intervals of the played notes `notes` (MIDI note numbers): the notes
   * in ascending order, each with the step to the next, the last with the
   * step up to the lowest note an octave higher. Fewer than two notes give
   * no intervals.
   */
  function Intervals(notes: seq<int>): (r: seq<NoteInterval>)
    ensures |notes| < 2 ==> r == []
    ensures |notes| >= 2 ==> |r| == |notes|
    ensures forall i :: 0 <= i < |r| ==> r[i].note == Sorted(notes)[i]
    ensures Chained(r)
    ensures forall i :: 0 <= i < |r| - 1 ==> r[i].interval >= 0
    ensures |r| > 0 ==> r[|r| - 1].interval == r[0].note + 12 - r[|r| - 1].note
  {
    if |notes| <= 1 then []
    else
      var ordered := Sorted(notes);
      AscendingSteps(ordered);
      IntervalsOf(ordered)
  }

  /** Each note of `ordered` with the step up to the note above it. */
  function IntervalsOf(ordered: seq<int>): (r: seq<NoteInterval>)
    ensures |r| == |ordered|
    ensures forall i :: 0 <= i < |r| ==> r[i].note == ordered[i] && r[i].interval == Above(ordered, i) - ordered[i]
  {
    seq(|ordered|, i requires 0 <= i < |ordered| => NoteInterval(ordered[i], Above(ordered, i) - ordered[i]))
  }

  /** In an ascending list every note is at most the next. */
  lemma AscendingSteps(s: seq<int>)
    requires Ascending(s)
    ensures forall i :: 0 <= i < |s| - 1 ==> s[i] <= s[i + 1]
  {
  }

  /** The note after the `i`th of `ordered`, wrapping to the first an octave up. */
  function Above(ordered: seq<int>, i: nat): int
    requires i < |ordered|
  {
    if i + 1 < |ordered| then ordered[i + 1] else ordered[0] + 12
  }

  /** Whether every step but the last leads from its note to the next note. */
  predicate Chained(r: seq<NoteInterval>) {
    forall i :: 0 <= i < |r| - 1 ==> r[i].interval == r[i + 1].note - r[i].note
  }

  /** The interval values alone. */
  function Steps(r: seq<NoteInterval>): (s: seq<int>)
    ensures |s| == |r| && forall i :: 0 <= i < |r| ==> s[i] == r[i].interval
  {
    if r == [] then [] else [r[0].interval] + Steps(r[1..])
  }

  /**
   * Along notes where every step but the last leads to the next note, the
   * steps add up to the distance from the first note to the last plus the
   * last step.
   */
  lemma {:induction false} ChainSum(r: seq<NoteInterval>)
    requires |r| > 0
    requires Chained(r)
    ensures Sum(Steps(r)) == r[|r| - 1].note - r[0].note + r[|r| - 1].interval
  {
    if |r| > 1 {
      ChainSum(r[1..]);
      assert Steps(r)[1..] == Steps(r[1..]);
    }
  }

  /** The intervals of two or more notes always add up to one octave. */
  lemma IntervalsSpanOctave(notes: seq<int>)
    requires |notes| >= 2
    ensures Sum(Steps(Intervals(notes))) == 12
  {
    ChainSum(Intervals(notes));
  }

  /**
   * Whether `first` equals `second` read from some position onwards, wrapping
   * round to its start. Two empty lists are rotations of each other.
   */
  ghost predicate IsRotation(first: seq<int>, second: seq<int>) {
    |first| == |second| &&
    (|first| == 0 || exists start :: 0 <= start < |second| && RotationFrom(first, second, start))
  }

  /** The position `k` steps after `start` in a list of length `n`, wrapping round to the start. */
  function Wrapped(start: nat, k: nat, n: nat): (p: nat)
    requires start < n && k < n
    ensures p < n && (p == start + k || p == start + k - n)
  {
    if start + k < n then start + k else start + k - n
  }

  /** Whether `first` equals `second` read from `start`, wrapping round. */
  ghost predicate RotationFrom(first: seq<int>, second: seq<int>, start: nat)
    requires |first| == |second| && start < |second|
  {
    forall k :: 0 <= k < |first| ==> first[k] == second[Wrapped(start, k, |second|)]
  }

  /** `s` read from position `start`, wrapping round. */
  function Rotate(s: seq<int>, start: nat): (r: seq<int>)
    requires start <= |s|
    ensures |r| == |s|
  {
    s[start..] + s[..start]
  }

  /** Every rotation of a list is found to be a rotation of it, and so is the list itself. */
  lemma RotateIsRotation(s: seq<int>, start: nat)
    requires start < |s|
    ensures IsRotation(Rotate(s, start), s)
  {
    var r := Rotate(s, start);
    forall k | 0 <= k < |r|
      ensures r[k] == s[Wrapped(start, k, |s|)]
    {
      if start + k < |s| {
        assert r[k] == s[start + k];
      } else {
        assert r[k] == s[start + k - |s|];
      }
    }
    assert RotationFrom(r, s, start);
  }

  /** The first position at or after `from` holding `x`, if any. */
  function FirstIndexFrom(s: seq<int>, x: int, from: nat): (r: Option<nat>)
    ensures r.Some? ==> (from <= r.value < |s| && s[r.value] == x &&
      forall p :: from <= p < r.value ==> s[p] != x)
    ensures r.None? ==> forall p :: from <= p < |s| ==> s[p] != x
    decreases |s| - from
  {
    if from >= |s| then None
    else if s[from] == x then Some(from)
    else FirstIndexFrom(s, x, from + 1)
  }

  /**
   * Compares `first` with `second` read from `startingIndex`, wrapping round.
   * The first entries are not compared: the starting index was chosen to hold
   * the first entry of `first`.
   */
  method IsEqualForStartingIndex(first: seq<int>, second: seq<int>, startingIndex: nat) returns (equal: bool)
    requires |first| == |second| && startingIndex < |second|
    ensures equal <==> forall k :: 1 <= k < |first| ==> first[k] == second[Wrapped(startingIndex, k, |second|)]
  {
    var n := |second|;
    var secondIndex := -1;
    for firstIndex := 0 to |first|
      invariant firstIndex == 0 ==> secondIndex == -1
      invariant firstIndex > 0 ==> secondIndex == Wrapped(startingIndex, firstIndex - 1, n) + 1
      invariant forall k :: 1 <= k < firstIndex ==> first[k] == second[Wrapped(startingIndex, k, n)]
    {
      var firstVal := first[firstIndex];
      if secondIndex == -1 {
        secondIndex := startingIndex;
      } else {
        if secondIndex == n {
          secondIndex := 0;
        }
        assert secondIndex == Wrapped(startingIndex, firstIndex, n);
        if firstVal != second[secondIndex] {
          return false;
        }
      }
      secondIndex := secondIndex + 1;
    }
    return true;
  }

  /**
   * The comparison as written: it reads the first entry of `first` even when
   * both lists are empty, which traps. `None` stands for that trap.
   */
  method IsCyclicEqualAsWritten(first: seq<int>, second: seq<int>) returns (r: Option<bool>)
    ensures r.None? <==> |first| == |second| == 0
    ensures r.Some? ==> (r.value <==> IsRotation(first, second))
  {
    if |first| != |second| {
      return Some(false);
    }
    if |first| == 0 {
      return None;
    }
    var secondStartingIndices: seq<nat> := [];
    var index := 0;
    while true
      invariant index <= |second|
      invariant forall i :: 0 <= i < |secondStartingIndices| ==>
        secondStartingIndices[i] < |second| && second[secondStartingIndices[i]] == first[0]
      invariant forall p :: 0 <= p < index && second[p] == first[0] ==> p in secondStartingIndices
      decreases |second| - index
    {
      var pos := FirstIndexFrom(second, first[0], index);
      if pos.None? {
        break;
      }
      secondStartingIndices := secondStartingIndices + [pos.value];
      index := index + 1;
    }
    if secondStartingIndices == [] {
      NoStartNoRotation(first, second);
      return Some(false);
    }
    for i := 0 to |secondStartingIndices|
      invariant forall j :: 0 <= j < i ==> !RotationFrom(first, second, secondStartingIndices[j])
    {
      var equal := IsEqualForStartingIndex(first, second, secondStartingIndices[i]);
      if equal {
        assert RotationFrom(first, second, secondStartingIndices[i]) by {
          assert first[0] == second[Wrapped(secondStartingIndices[i], 0, |second|)];
        }
        return Some(true);
      }
    }
    forall start | 0 <= start < |second|
      ensures !RotationFrom(first, second, start)
    {
      assert Wrapped(start, 0, |second|) == start;
      if second[start] == first[0] {
        assert start in secondStartingIndices;
      }
    }
    return Some(false);
  }

  /** Without a position holding the first entry of `first`, no rotation of `second` equals it. */
  lemma NoStartNoRotation(first: seq<int>, second: seq<int>)
    requires |first| == |second| > 0
    requires forall p :: 0 <= p < |second| ==> second[p] != first[0]
    ensures !IsRotation(first, second)
  {
    forall start | 0 <= start < |second|
      ensures !RotationFrom(first, second, start)
    {
      assert Wrapped(start, 0, |second|) == start;
    }
  }

  /** Two empty interval lists are rotations of each other, yet the comparison as written traps on them. */
  lemma EmptyListsTrap()
    ensures IsRotation([], [])
  {
  }

  /** The comparison with the empty case answered: equal-length lists that are rotations of each other. */
  method IsCyclicEqual(first: seq<int>, second: seq<int>) returns (equal: bool)
    ensures equal <==> IsRotation(first, second)
  {
    if |first| == 0 {
      return |second| == 0;
    }
    var r := IsCyclicEqualAsWritten(first, second);
    return r.value;
  }
}

=== FILE: chunk_items.dfy ===
/**
 * A homogeneous collection of SoundFont entities read from one chunk of a
 * file ('phdr', 'pbag', 'shdr' and the rest). Every such list in a
 * SoundFont 2 file ends with a terminal sentinel record that is stored but
 * is not a member: the size, the end and the slices all leave it out.
 */
module ChunkItemsModel {
  import opened Wrappers
  import opened Sizes
  import opened FilePositions

  /**
   * The items read from `pos` while it lies before `endPos`, each from the
   * next `itemSize` bytes, or the error of the first read that fails.
   */
  function LoadFrom<T>(file: seq<bv8>, pos: Pos, endPos: Size, itemSize: Size, decode: seq<bv8> -> T): (r: Result<seq<T>, ReadError>)
    requires itemSize > 0 && pos.pos <= pos.end && endPos <= pos.end && |file| < SizeModulus
    ensures pos.pos >= endPos ==> r == Ok([])
    decreases endPos - pos.pos
  {
    if pos.pos >= endPos then Ok([])
    else
      match pos.ReadInto(file, itemSize)
      case Err(e) => Err(e)
      case Ok(read) =>
        match LoadFrom(file, read.1, endPos, itemSize, decode)
        case Err(e) => Err(e)
        case Ok(rest) => Ok([decode(read.0)] + rest)
  }

  /** `n` items decoded from consecutive runs of `itemSize` bytes starting at `start`. */
  function Decoded<T>(file: seq<bv8>, start: nat, n: nat, itemSize: nat, decode: seq<bv8> -> T): (r: seq<T>)
    requires start + n * itemSize <= |file|
    ensures |r| == n
    decreases n
  {
    if n == 0 then []
    else
      MulStep(n, itemSize);
      [decode(file[start..start + itemSize])] + Decoded(file, start + itemSize, n - 1, itemSize, decode)
  }

  /** Item `i` of `Decoded` comes from the `i`-th run of `itemSize` bytes. */
  lemma {:induction false} DecodedItem<T>(file: seq<bv8>, start: nat, n: nat, itemSize: nat, decode: seq<bv8> -> T, i: nat)
    requires start + n * itemSize <= |file| && i < n
    ensures start + i * itemSize + itemSize <= |file|
    ensures Decoded(file, start, n, itemSize, decode)[i] ==
      decode(file[start + i * itemSize..start + i * itemSize + itemSize])
    decreases n
  {
    MulStep(n, itemSize);
    var rest := Decoded(file, start + itemSize, n - 1, itemSize, decode);
    assert Decoded(file, start, n, itemSize, decode) == [decode(file[start..start + itemSize])] + rest;
    if i > 0 {
      DecodedItem(file, start + itemSize, n - 1, itemSize, decode, i - 1);
      MulStep(i, itemSize);
      var from := start + itemSize + (i - 1) * itemSize;
      assert from == start + i * itemSize;
      assert rest[i - 1] == decode(file[from..from + itemSize]);
    }
  }

  /** One factor more adds the other once. */
  lemma MulStep(n: nat, k: nat)
    requires n > 0
    ensures (n - 1) * k + k == n * k
  {
  }

  /** The bytes of the whole items in a chunk of `chunkSize` bytes. */
  function ItemBytes(chunkSize: Size, itemSize: Size): (b: Size)
    requires itemSize > 0
    ensures b == (chunkSize / itemSize) * itemSize && b <= chunkSize
  {
    ItemBytesFit(chunkSize, itemSize);
    (chunkSize / itemSize) * itemSize
  }

  /** The end of the region a load reads: the whole items that fit in the chunk's size. */
  function LoadEnd(begin: Pos, chunkSize: Size, itemSize: Size): (end: Pos)
    requires itemSize > 0
    ensures end.fd == begin.fd && end.end == begin.end && end.pos <= begin.end
    ensures begin.pos + ItemBytes(chunkSize, itemSize) <= begin.end ==>
      end.pos == begin.pos + ItemBytes(chunkSize, itemSize)
  {
    begin.Advance(ItemBytes(chunkSize, itemSize))
  }

  /** A chunk at least one item long holds at least one whole item. */
  lemma WholeItemFits(chunkSize: Size, itemSize: Size)
    requires 0 < itemSize <= chunkSize
    ensures itemSize <= ItemBytes(chunkSize, itemSize)
  {
    var n := chunkSize / itemSize;
    assert n >= 1;
    MulStep(n, itemSize);
  }

  /** The whole items of a chunk take no more bytes than the chunk. */
  lemma ItemBytesFit(chunkSize: Size, itemSize: Size)
    requires itemSize > 0
    ensures 0 <= (chunkSize / itemSize) * itemSize <= chunkSize
  {
  }

  /**
   * When the region and the file hold the chunk's whole items, a load reads
   * exactly ⌊chunk size / item size⌋ of them, each from its own run of bytes.
   */
  lemma LoadCount<T>(file: seq<bv8>, begin: Pos, chunkSize: Size, itemSize: Size, decode: seq<bv8> -> T)
    requires itemSize > 0 && begin.fd >= 0 && begin.pos <= begin.end && |file| < SizeModulus
    requires begin.pos + ItemBytes(chunkSize, itemSize) <= begin.end
    requires begin.pos + ItemBytes(chunkSize, itemSize) <= |file|
    ensures LoadFrom(file, begin, LoadEnd(begin, chunkSize, itemSize).pos, itemSize, decode) ==
      Ok(Decoded(file, begin.pos, chunkSize / itemSize, itemSize, decode))
  {
    var n := chunkSize / itemSize;
    var endPos := begin.pos + ItemBytes(chunkSize, itemSize);
    assert endPos == begin.pos + n * itemSize;
    assert LoadEnd(begin, chunkSize, itemSize).pos == endPos;
    LoadRun(file, begin, n, endPos, itemSize, decode);
  }

  /** Reading `n` whole items up to an end exactly `n` items away decodes those items. */
  lemma {:induction false} LoadRun<T>(file: seq<bv8>, pos: Pos, n: nat, endPos: Size, itemSize: Size, decode: seq<bv8> -> T)
    requires itemSize > 0 && pos.fd >= 0 && pos.pos <= pos.end && |file| < SizeModulus
    requires endPos == pos.pos + n * itemSize && endPos <= pos.end && endPos <= |file|
    ensures LoadFrom(file, pos, endPos, itemSize, decode) == Ok(Decoded(file, pos.pos, n, itemSize, decode))
    decreases n
  {
    if n > 0 {
      var read := pos.ReadInto(file, itemSize);
      assert read.Ok?;
      MulStep(n, itemSize);
      var next := read.value.1;
      assert next.pos == pos.pos + itemSize;
      LoadRun(file, next, n - 1, endPos, itemSize, decode);
      assert LoadFrom(file, pos, endPos, itemSize, decode) ==
        Ok([decode(read.value.0)] + Decoded(file, next.pos, n - 1, itemSize, decode));
    }
  }

  /** A load stops at the first failing read: a file too short for one item gives an error. */
  lemma ShortFileFails<T>(file: seq<bv8>, begin: Pos, chunkSize: Size, itemSize: Size, decode: seq<bv8> -> T)
    requires itemSize > 0 && begin.fd >= 0 && begin.pos <= begin.end && |file| < SizeModulus
    requires itemSize <= chunkSize && begin.pos + ItemBytes(chunkSize, itemSize) <= begin.end
    requires |file| < begin.pos + itemSize
    ensures LoadFrom(file, begin, LoadEnd(begin, chunkSize, itemSize).pos, itemSize, decode) == Err(ShortRead)
  {
    WholeItemFits(chunkSize, itemSize);
    assert begin.ReadInto(file, itemSize) == Err(ShortRead);
  }

  /** The items of a chunk, with the terminal sentinel record stored last. */
  class ChunkItems<T> {
    var items: seq<T>

    /** An empty collection. */
    constructor()
      ensures items == []
    {
      items := [];
    }

    /**
     * The number of members: the stored records less the sentinel, as a
     * `size_t`, so an empty store gives 2^64 - 1.
     */
    function Size(): (n: Size)
      reads this
      ensures 1 <= |items| <= SizeModulus ==> n == |items| - 1
      ensures |items| == 0 ==> n == SizeModulus - 1
    {
      ToSize(|items| - 1)
    }

    /** There are no members when fewer than two records are stored. */
    predicate IsEmpty()
      reads this
      ensures IsEmpty() <==> |items| < 2
    {
      |items| < 2
    }

    /**
     * The slice of the code as written: the guard compares with `Size()` and
     * adds with wrap-around, then the records `first .. first + count` are
     * taken. `None` stands for a range that leaves the stored records, which
     * is undefined behaviour.
     */
    function SliceAsWritten(first: Size, count: Size): (r: Option<seq<T>>)
      reads this
      ensures r.None? <==> first < Size() && ToSize(first + count) <= Size() && first + count > |items|
      ensures r.Some? && first < Size() && ToSize(first + count) <= Size() ==>
        first + count <= |items| && r.value == items[first..first + count]
      ensures r.Some? && !(first < Size() && ToSize(first + count) <= Size()) ==> r.value == []
    {
      if first < Size() && ToSize(first + count) <= Size() then
        if first + count <= |items| then Some(items[first..first + count]) else None
      else Some([])
    }

    /**
     * `count` members starting at member `first`, or nothing when the range
     * starts or ends beyond the members.
     */
    function Slice(first: Size, count: Size): (r: seq<T>)
      reads this
      ensures |items| >= 1 && first < |items| - 1 && first + count <= |items| - 1 ==>
        |r| == count && forall i :: 0 <= i < count ==> r[i] == items[first + i]
      ensures !(|items| >= 1 && first < |items| - 1 && first + count <= |items| - 1) ==> r == []
    {
      if |items| >= 1 && first < |items| - 1 && first + count <= |items| - 1 then items[first..first + count]
      else []
    }

    /** The position of the sentinel, one past the last member; undefined on an empty store. */
    function End(): (e: nat)
      reads this
      requires |items| >= 1
      ensures |items| <= SizeModulus ==> e == Size()
      ensures e < |items| && items[..e] + [items[e]] == items
    {
      |items| - 1
    }

    /**
     * Appends the items of a chunk: as many whole items as the chunk's size
     * holds, each decoded from the next `itemSize` bytes of the file, stopping
     * with the error of the first read that fails.
     */
    method Load(file: seq<bv8>, begin: Pos, chunkSize: Size, itemSize: Size, decode: seq<bv8> -> T)
      returns (r: Result<(), ReadError>)
      requires itemSize > 0 && begin.pos <= begin.end && |file| < SizeModulus
      modifies this
      ensures var loaded := LoadFrom(file, begin, LoadEnd(begin, chunkSize, itemSize).pos, itemSize, decode);
        (r.Ok? <==> loaded.Ok?) &&
        (r.Err? ==> r.error == loaded.error) &&
        (r.Ok? ==> items == old(items) + loaded.value)
    {
      var count := chunkSize / itemSize;
      var pos := begin;
      var end := begin.Advance(ItemBytes(chunkSize, itemSize));
      assert end == LoadEnd(begin, chunkSize, itemSize);
      ghost var taken: seq<T> := [];
      ghost var all := LoadFrom(file, begin, end.pos, itemSize, decode);
      if all.Ok? {
        assert [] + all.value == all.value;
      }
      while pos.Less(end)
        invariant pos.end == begin.end && pos.pos <= pos.end && end.pos <= pos.end
        invariant items == old(items) + taken
        invariant LoadFrom(file, begin, end.pos, itemSize, decode) ==
          Prepended(taken, LoadFrom(file, pos, end.pos, itemSize, decode))
        decreases end.pos - pos.pos
      {
        var read := pos.ReadInto(file, itemSize);
        if read.Err? {
          return Err(read.error);
        }
        PrependedStep(taken, decode(read.value.0), LoadFrom(file, read.value.1, end.pos, itemSize, decode));
        items := items + [decode(read.value.0)];
        taken := taken + [decode(read.value.0)];
        pos := read.value.1;
      }
      return Ok(());
    }
  }

  /** A result with `prefix` put in front of its items; errors pass through. */
  function Prepended<T>(prefix: seq<T>, r: Result<seq<T>, ReadError>): (p: Result<seq<T>, ReadError>)
    ensures p.Ok? <==> r.Ok?
    ensures p.Ok? ==> p.value == prefix + r.value
    ensures p.Err? ==> p.error == r.error
  {
    match r
    case Ok(rest) => Ok(prefix + rest)
    case Err(e) => Err(e)
  }

  /** Moving one item from the front of a result to the end of the prefix changes nothing. */
  lemma PrependedStep<T>(prefix: seq<T>, item: T, r: Result<seq<T>, ReadError>)
    ensures Prepended(prefix, Prepended([item], r)) == Prepended(prefix + [item], r)
  {
    if r.Ok? {
      assert prefix + ([item] + r.value) == (prefix + [item]) + r.value;
    }
  }

  /**
   * Slicing an empty store: the code as written sees a size of 2^64 - 1,
   * lets `slice(0, 1)` through and reads outside the records; the corrected
   * slice returns nothing.
   */
  lemma EmptySliceEscapes<T>(c: ChunkItems<T>)
    requires c.items == []
    ensures c.SliceAsWritten(0, 1) == None
    ensures c.Slice(0, 1) == []
  {
  }

  /**
   * A count that wraps the sum past 2^64 also gets through the guard as
   * written: `slice(1, 2^64 - 1)` on a store of three records.
   */
  lemma WrappedCountEscapes<T>(c: ChunkItems<T>)
    requires |c.items| == 3
    ensures c.SliceAsWritten(1, SizeModulus - 1) == None
    ensures c.Slice(1, SizeModulus - 1) == []
  {
  }

  /**
   * On a store with its sentinel and a range whose end does not wrap, the
   * code as written and the corrected slice agree.
   */
  lemma SliceAgrees<T>(c: ChunkItems<T>, first: Size, count: Size)
    requires 1 <= |c.items| <= SizeModulus && first + count < SizeModulus
    ensures c.SliceAsWritten(first, count) == Some(c.Slice(first, count))
  {
  }
}

=== FILE: collection_search.dfy ===
/**
 * Binary-search helpers over random-access collections: the insertion index
 * of a value in a collection ordered by a caller-supplied predicate, the
 * search and membership test built on it, and the minimum/maximum scan.
 *
 * A collection is a `seq<T>`; the ordering predicate is a total Dafny
 * function value, as the Swift closure has no side effects.
 */
module CollectionSearch {
  import opened Wrappers

  /** Once an element of `s` stops preceding `value`, no later element precedes it. */
  ghost predicate SplitBy<T>(s: seq<T>, before: (T, T) -> bool, value: T) {
    forall i, j :: 0 <= i <= j < |s| && !before(s[i], value) ==> !before(s[j], value)
  }

  /** `k` separates the elements preceding `value` from those that do not. */
  ghost predicate Separates<T>(s: seq<T>, before: (T, T) -> bool, value: T, k: nat) {
    k <= |s| &&
    (forall i :: 0 <= i < k ==> before(s[i], value)) &&
    (forall i :: k <= i < |s| ==> !before(s[i], value))
  }

  /** The number of leading elements of `s` that precede `value`. */
  function InsertionPoint<T>(s: seq<T>, before: (T, T) -> bool, value: T): (k: nat)
    ensures k <= |s|
    ensures forall i :: 0 <= i < k ==> before(s[i], value)
    ensures k < |s| ==> !before(s[k], value)
  {
    if s == [] || !before(s[0], value) then 0
    else 1 + InsertionPoint(s[1..], before, value)
  }

  /** On a split collection the insertion point is the one index that separates it. */
  lemma InsertionPointSeparates<T>(s: seq<T>, before: (T, T) -> bool, value: T, k: nat)
    requires SplitBy(s, before, value)
    ensures Separates(s, before, value, k) <==> k == InsertionPoint(s, before, value)
  {
    var p := InsertionPoint(s, before, value);
    if k == p {
      forall i | k <= i < |s|
        ensures !before(s[i], value)
      {
        assert !before(s[k], value);
      }
    }
    if Separates(s, before, value, k) {
      assert k < |s| ==> !before(s[k], value);
      assert p < |s| ==> !before(s[p], value);
    }
  }

  /**
   * Binary search for the place where `value` would be inserted. Elements
   * before the result precede `value`; the element at the result does not.
   */
  method InsertionIndex<T>(s: seq<T>, value: T, before: (T, T) -> bool) returns (low: nat)
    ensures low <= |s|
    ensures low > 0 ==> before(s[low - 1], value)
    ensures low < |s| ==> !before(s[low], value)
    ensures SplitBy(s, before, value) ==> low == InsertionPoint(s, before, value)
  {
    low := 0;
    var high := |s|;
    while low != high
      invariant low <= high <= |s|
      invariant low > 0 ==> before(s[low - 1], value)
      invariant high < |s| ==> !before(s[high], value)
      decreases high - low
    {
      var mid := low + (high - low) / 2;
      if before(s[mid], value) {
        low := mid + 1;
      } else {
        high := mid;
      }
    }
    if SplitBy(s, before, value) {
      forall i | 0 <= i < low
        ensures before(s[i], value)
      {
        assert before(s[low - 1], value);
      }
      forall i | low <= i < |s|
        ensures !before(s[i], value)
      {
        assert !before(s[low], value);
      }
      InsertionPointSeparates(s, before, value, low);
    }
  }

  /**
   * No element of `s` precedes itself or an earlier element under `before`:
   * what an irreflexive, transitive `before` gives on an increasing collection.
   */
  ghost predicate NeverBackward<T>(s: seq<T>, before: (T, T) -> bool) {
    forall i, j :: 0 <= i <= j < |s| ==> !before(s[j], s[i])
  }

  /** Every element of `s` precedes every later one. */
  ghost predicate Increasing<T>(s: seq<T>, before: (T, T) -> bool) {
    forall i, j :: 0 <= i < j < |s| ==> before(s[i], s[j])
  }

  /** In a strictly increasing collection the insertion point of a member is its index. */
  lemma MemberAtInsertionPoint<T>(s: seq<T>, before: (T, T) -> bool, j: nat)
    requires NeverBackward(s, before) && Increasing(s, before)
    requires j < |s|
    ensures InsertionPoint(s, before, s[j]) == j
  {
    var v := s[j];
    assert SplitBy(s, before, v) by {
      forall i, k | 0 <= i <= k < |s| && !before(s[i], v)
        ensures !before(s[k], v)
      {
        if i < k {
          assert before(s[i], s[k]);
        }
      }
    }
    assert !before(s[j], v);
    InsertionPointSeparates(s, before, v, j);
  }

  /** The index holding `value`, or `|s|` when the insertion index does not hold it. */
  method Search<T(==)>(s: seq<T>, value: T, before: (T, T) -> bool) returns (r: nat)
    ensures r <= |s|
    ensures r < |s| ==> s[r] == value
    ensures NeverBackward(s, before) && Increasing(s, before) ==> (r < |s| <==> value in s)
  {
    var pos := InsertionIndex(s, value, before);
    r := if pos < |s| && s[pos] == value then pos else |s|;
    if NeverBackward(s, before) && Increasing(s, before) && value in s {
      var j :| 0 <= j < |s| && s[j] == value;
      MemberAtInsertionPoint(s, before, j);
      assert SplitBy(s, before, value) by {
        forall i, k | 0 <= i <= k < |s| && !before(s[i], value)
          ensures !before(s[k], value)
        {
          if i < k {
            assert before(s[i], s[k]);
          }
        }
      }
    }
  }

  /** Whether the insertion index of `value` holds `value`. */
  method Contains<T(==)>(s: seq<T>, value: T, before: (T, T) -> bool) returns (found: bool)
    ensures found ==> value in s
    ensures NeverBackward(s, before) && Increasing(s, before) ==> (found <==> value in s)
  {
    var pos := Search(s, value, before);
    found := pos < |s|;
  }

  /** The least and greatest element, or None for an empty collection. */
  method MinMax(s: seq<int>) returns (r: Option<(int, int)>)
    ensures r.None? <==> s == []
    ensures r.Some? ==> r.value.0 in s && r.value.1 in s
    ensures r.Some? ==> forall x :: x in s ==> r.value.0 <= x <= r.value.1
  {
    if s == [] {
      return None;
    }
    var lo, hi := s[0], s[0];
    var pos := 1;
    while pos < |s|
      invariant 1 <= pos <= |s|
      invariant lo in s[..pos] && hi in s[..pos]
      invariant forall i :: 0 <= i < pos ==> lo <= s[i] <= hi
    {
      var value := s[pos];
      if value < lo { lo := value; }
      if value > hi { hi := value; }
      pos := pos + 1;
    }
    assert s[..pos] == s;
    r := Some((lo, hi));
  }
}

=== FILE: envelope.dfy ===
/**
 * The SoundFont 2 volume and modulation envelope: a state machine over the
 * stages delay, attack, hold, decay, sustain and release (then idle). A
 * gate starts or releases it; each sample moves it along, and a stage of
 * zero duration is skipped on entry. The shape of each stage's curve is a
 * parameter (`curve`), and levels are real numbers.
 */
module Envelopes {

  datatype StageIndex = Delay | Attack | Hold | Decay | Sustain | Release | Idle

  /** Position of a stage in the order the envelope runs through them. */
  function Rank(i: StageIndex): (r: nat)
    ensures r <= 6
  {
    match i
    case Delay => 0
    case Attack => 1
    case Hold => 2
    case Decay => 3
    case Sustain => 4
    case Release => 5
    case Idle => 6
  }

  /** A stage's length in samples and its initial level. */
  datatype Stage = Stage(durationInSamples: int, initial: real)

  /** The level below which a releasing envelope counts as silent. */
  const NoiseFloor: real := 0.0000002

  /** The stage, counter and level of an envelope. */
  datatype EnvState = EnvState(stage: StageIndex, counter: int, value: real)

  /** Six stages, delay to release, none of negative length. */
  predicate WellFormedStages(stages: seq<Stage>)
  {
    |stages| == 6 && forall i :: 0 <= i < 6 ==> stages[i].durationInSamples >= 0
  }

  function Duration(stages: seq<Stage>, i: StageIndex): int
    requires |stages| == 6 && i != Idle
  {
    stages[Rank(i)].durationInSamples
  }

  /** The stages that count samples down. */
  predicate IsTimed(i: StageIndex)
  {
    i == Delay || i == Attack || i == Hold || i == Decay || i == Release
  }

  /** In a timed stage the counter lies between 1 and the stage's length. */
  predicate CounterInRange(stages: seq<Stage>, s: EnvState)
    requires |stages| == 6
  {
    IsTimed(s.stage) ==> 1 <= s.counter <= Duration(stages, s.stage)
  }

  /**
   * Entering a stage: a timed stage of zero length falls through to the
   * next one, hold sets the level to 1, sustain sets it to the sustain
   * level, and a release of zero length goes idle at level 0. The counter
   * is set to the length of the stage landed in (idle leaves it alone).
   */
  function Entered(stages: seq<Stage>, s: EnvState, next: StageIndex): (r: EnvState)
    requires |stages| == 6
    ensures Rank(r.stage) >= Rank(next)
    decreases 6 - Rank(next)
  {
    match next
    case Delay =>
      if Duration(stages, Delay) != 0 then EnvState(Delay, Duration(stages, Delay), s.value)
      else Entered(stages, s, Attack)
    case Attack =>
      if Duration(stages, Attack) != 0 then EnvState(Attack, Duration(stages, Attack), s.value)
      else Entered(stages, s, Hold)
    case Hold =>
      if Duration(stages, Hold) != 0 then EnvState(Hold, Duration(stages, Hold), 1.0)
      else Entered(stages, s.(value := 1.0), Decay)
    case Decay =>
      if Duration(stages, Decay) != 0 then EnvState(Decay, Duration(stages, Decay), s.value)
      else Entered(stages, s, Sustain)
    case Sustain =>
      EnvState(Sustain, Duration(stages, Sustain), stages[Rank(Sustain)].initial)
    case Release =>
      if Duration(stages, Release) != 0 then EnvState(Release, Duration(stages, Release), s.value)
      else EnvState(Idle, s.counter, 0.0)
    case Idle =>
      s.(stage := Idle)
  }

  /** Counting one sample down, and entering `next` when the count runs out. */
  function CountDown(stages: seq<Stage>, s: EnvState, next: StageIndex): EnvState
    requires |stages| == 6
  {
    if s.counter - 1 == 0 then Entered(stages, s.(counter := 0), next)
    else s.(counter := s.counter - 1)
  }

  /**
   * Moving the level along the active stage's curve, then entering `next`
   * at once when the level drops below `floor`, or else counting down.
   */
  function UpdatedAndCompared(stages: seq<Stage>, curve: (StageIndex, real) -> real, s: EnvState, floor: real,
                              next: StageIndex): EnvState
    requires |stages| == 6
  {
    var moved := s.(value := curve(s.stage, s.value));
    if moved.value < floor then Entered(stages, moved, next) else CountDown(stages, moved, next)
  }

  /** The state after one more sample. */
  function NextState(stages: seq<Stage>, curve: (StageIndex, real) -> real, s: EnvState): EnvState
    requires |stages| == 6
  {
    match s.stage
    case Delay => CountDown(stages, s, Attack)
    case Attack => CountDown(stages, s.(value := curve(Attack, s.value)), Hold)
    case Hold => CountDown(stages, s, Decay)
    case Decay => UpdatedAndCompared(stages, curve, s, stages[Rank(Sustain)].initial, Sustain)
    case Release => UpdatedAndCompared(stages, curve, s, NoiseFloor, Idle)
    case Sustain => s
    case Idle => s
  }

  /** The state after a gate: note on restarts from level 0, note off releases an active envelope. */
  function Gated(stages: seq<Stage>, s: EnvState, noteOn: bool): EnvState
    requires |stages| == 6
  {
    if noteOn then Entered(stages, s.(value := 0.0), Delay)
    else if s.stage != Idle then Entered(stages, s, Release)
    else s
  }

  /** The first stage from delay to decay with a non-zero length, or sustain. */
  function FirstRunningStage(stages: seq<Stage>): (i: StageIndex)
    requires |stages| == 6
    ensures Rank(i) <= Rank(Sustain)
  {
    if Duration(stages, Delay) != 0 then Delay
    else if Duration(stages, Attack) != 0 then Attack
    else if Duration(stages, Hold) != 0 then Hold
    else if Duration(stages, Decay) != 0 then Decay
    else Sustain
  }

  class Generator {
    /** The stages, delay to release. */
    const stages: seq<Stage>
    /** The curve of each stage: the next level from the current one. */
    const curve: (StageIndex, real) -> real
    var stageIndex: StageIndex
    var counter: int
    var value: real

    predicate Valid()
      reads this
    {
      WellFormedStages(stages) && CounterInRange(stages, State())
    }

    function State(): EnvState
      reads this
    {
      EnvState(stageIndex, counter, value)
    }

    /** An idle envelope with the given stages, started at once when `noteOn`. */
    constructor(stages: seq<Stage>, curve: (StageIndex, real) -> real, noteOn: bool)
      requires WellFormedStages(stages)
      ensures Valid() && this.stages == stages && this.curve == curve
      ensures State() == Gated(stages, EnvState(Idle, 0, 0.0), noteOn)
    {
      this.stages := stages;
      this.curve := curve;
      stageIndex := Idle;
      counter := 0;
      value := 0.0;
      new;
      if noteOn {
        Gate(true);
      }
    }

    /** The envelope still has levels to emit: an inactive one neither moves nor releases. */
    function IsActive(): (r: bool)
      reads this
      ensures Valid() && !r ==> NextState(stages, curve, State()) == State()
      ensures Valid() && !r ==> Gated(stages, State(), false) == State()
    {
      stageIndex != Idle
    }

    /** The envelope is active and not yet releasing: a note off moves it on to release or idle. */
    function IsGated(): (r: bool)
      reads this
      ensures r ==> IsActive()
      ensures Valid() && r ==> Rank(Gated(stages, State(), false).stage) >= Rank(Release)
    {
      IsActive() && stageIndex != Release
    }

    /** Starts the envelope (note on) or releases it (note off). */
    method Gate(noteOn: bool)
      requires Valid()
      modifies this
      ensures Valid()
      ensures State() == Gated(stages, old(State()), noteOn)
    {
      if noteOn {
        value := 0.0;
        EnterStage(Delay);
      } else if stageIndex != Idle {
        EnterStage(Release);
      }
    }

    /** Enters a stage, falling through the stages of zero length. */
    method EnterStage(next: StageIndex)
      requires WellFormedStages(stages)
      modifies this
      ensures Valid()
      ensures State() == Entered(stages, old(State()), next)
    {
      ghost var s := State();
      EnteredIsInRange(stages, s, next);
      stageIndex := next;
      if stageIndex == Delay {
        if Duration(stages, Delay) != 0 {
          counter := Duration(stages, Delay);
          return;
        }
        stageIndex := Attack;
      }
      if stageIndex == Attack {
        if Duration(stages, Attack) != 0 {
          counter := Duration(stages, Attack);
          return;
        }
        stageIndex := Hold;
      }
      if stageIndex == Hold {
        value := 1.0;
        if Duration(stages, Hold) != 0 {
          counter := Duration(stages, Hold);
          return;
        }
        stageIndex := Decay;
      }
      if stageIndex == Decay {
        if Duration(stages, Decay) != 0 {
          counter := Duration(stages, Decay);
          return;
        }
        stageIndex := Sustain;
      }
      if stageIndex == Sustain {
        value := stages[Rank(Sustain)].initial;
        counter := Duration(stages, Sustain);
        return;
      }
      if stageIndex == Release {
        if Duration(stages, Release) != 0 {
          counter := Duration(stages, Release);
          return;
        }
        stageIndex := Idle;
        value := 0.0;
      }
    }

    /** Counts one sample down and enters `next` when the count runs out. */
    method CheckIfEndStage(next: StageIndex)
      requires WellFormedStages(stages)
      modifies this
      ensures Valid() || old(State()).counter - 1 != 0
      ensures State() == CountDown(stages, old(State()), next)
    {
      counter := counter - 1;
      if counter == 0 {
        EnterStage(next);
      }
    }

    /** Moves the level along the curve, then compares it with `floor`. */
    method UpdateAndCompare(floor: real, next: StageIndex)
      requires WellFormedStages(stages)
      modifies this
      ensures State() == UpdatedAndCompared(stages, curve, old(State()), floor, next)
    {
      value := curve(stageIndex, value);
      if value < floor {
        EnterStage(next);
      } else {
        CheckIfEndStage(next);
      }
    }

    /** Emits the level for the next sample. */
    method GetNextValue() returns (level: real)
      requires Valid()
      modifies this
      ensures Valid()
      ensures State() == NextState(stages, curve, old(State())) && level == value
    {
      NextStateInRange(stages, curve, State());
      match stageIndex {
        case Delay => CheckIfEndStage(Attack);
        case Attack =>
          value := curve(Attack, value);
          CheckIfEndStage(Hold);
        case Hold => CheckIfEndStage(Decay);
        case Decay => UpdateAndCompare(stages[Rank(Sustain)].initial, Sustain);
        case Release => UpdateAndCompare(NoiseFloor, Idle);
        case Sustain =>
        case Idle =>
      }
      level := value;
    }
  }

  /** Entering any stage leaves the counter of a timed stage within its length. */
  lemma EnteredIsInRange(stages: seq<Stage>, s: EnvState, next: StageIndex)
    requires WellFormedStages(stages)
    ensures CounterInRange(stages, Entered(stages, s, next))
  {
  }

  /** One sample keeps the counter of a timed stage within its length. */
  lemma NextStateInRange(stages: seq<Stage>, curve: (StageIndex, real) -> real, s: EnvState)
    requires WellFormedStages(stages) && CounterInRange(stages, s)
    ensures CounterInRange(stages, NextState(stages, curve, s))
  {
  }

  /** Releasing an idle envelope leaves it as it is. */
  lemma GateOffWhenIdle(stages: seq<Stage>, s: EnvState)
    requires |stages| == 6 && s.stage == Idle
    ensures Gated(stages, s, false) == s
  {
  }

  /**
   * A note on lands in the first stage of non-zero length, or in sustain,
   * with the counter at that stage's length and the level at 0 (delay,
   * attack), 1 (hold, decay) or the sustain level.
   */
  lemma GateOnStarts(stages: seq<Stage>, s: EnvState)
    requires |stages| == 6
    ensures var r := Gated(stages, s, true);
      r.stage == FirstRunningStage(stages) && r.counter == Duration(stages, r.stage) &&
      r.value == (if r.stage == Delay || r.stage == Attack then 0.0
                  else if r.stage == Hold || r.stage == Decay then 1.0
                  else stages[Rank(Sustain)].initial)
  {
    var z := s.(value := 0.0);
    if Duration(stages, Delay) == 0 {
      assert Entered(stages, z, Delay) == Entered(stages, z, Attack);
      if Duration(stages, Attack) == 0 {
        assert Entered(stages, z, Attack) == Entered(stages, z, Hold);
        if Duration(stages, Hold) == 0 {
          assert Entered(stages, z, Hold) == Entered(stages, z.(value := 1.0), Decay);
        }
      }
    }
  }

  /** Entering hold sets the level to 1 unless hold and decay are skipped into sustain. */
  lemma HoldSetsFullLevel(stages: seq<Stage>, s: EnvState)
    requires |stages| == 6
    ensures var r := Entered(stages, s, Hold);
      ((r.stage == Hold || r.stage == Decay) && r.value == 1.0) ||
      r == EnvState(Sustain, Duration(stages, Sustain), stages[Rank(Sustain)].initial)
  {
  }

  /** Sustain sets the sustain level, and further samples never leave it. */
  lemma SustainHolds(stages: seq<Stage>, curve: (StageIndex, real) -> real, s: EnvState)
    requires |stages| == 6
    ensures Entered(stages, s, Sustain).value == stages[Rank(Sustain)].initial
    ensures s.stage == Sustain ==> NextState(stages, curve, s) == s
  {
  }

  /** A release of zero length makes an active envelope idle at level 0 at once. */
  lemma ZeroReleaseGoesIdle(stages: seq<Stage>, s: EnvState)
    requires |stages| == 6 && Duration(stages, Release) == 0 && s.stage != Idle
    ensures Gated(stages, s, false) == EnvState(Idle, s.counter, 0.0)
  {
  }

  /**
   * One sample in a timed stage either moves to a later stage or stays
   * and counts down by one; other stages only move forward or stay.
   */
  lemma NextStateProgress(stages: seq<Stage>, curve: (StageIndex, real) -> real, s: EnvState)
    requires WellFormedStages(stages) && CounterInRange(stages, s)
    ensures var r := NextState(stages, curve, s);
      Rank(r.stage) > Rank(s.stage) || (r.stage == s.stage && (IsTimed(s.stage) ==> r.counter == s.counter - 1))
  {
  }

  /** The state after `n` samples. */
  function Run(stages: seq<Stage>, curve: (StageIndex, real) -> real, s: EnvState, n: nat): EnvState
    requires |stages| == 6
    decreases n
  {
    if n == 0 then s else Run(stages, curve, NextState(stages, curve, s), n - 1)
  }

  /** Samples never move an envelope back to an earlier stage. */
  lemma {:induction false} RunNeverGoesBack(stages: seq<Stage>, curve: (StageIndex, real) -> real, s: EnvState, n: nat)
    requires WellFormedStages(stages) && CounterInRange(stages, s)
    ensures Rank(Run(stages, curve, s, n).stage) >= Rank(s.stage)
    decreases n
  {
    if n > 0 {
      NextStateProgress(stages, curve, s);
      NextStateInRange(stages, curve, s);
      RunNeverGoesBack(stages, curve, NextState(stages, curve, s), n - 1);
    }
  }

  /** A timed stage is over after at most as many samples as its counter shows. */
  lemma {:induction false} TimedStageEnds(stages: seq<Stage>, curve: (StageIndex, real) -> real, s: EnvState)
    requires WellFormedStages(stages) && CounterInRange(stages, s) && IsTimed(s.stage)
    ensures Rank(Run(stages, curve, s, s.counter).stage) > Rank(s.stage)
    decreases s.counter
  {
    var r := NextState(stages, curve, s);
    NextStateProgress(stages, curve, s);
    NextStateInRange(stages, curve, s);
    if Rank(r.stage) > Rank(s.stage) {
      RunNeverGoesBack(stages, curve, r, s.counter - 1);
    } else {
      TimedStageEnds(stages, curve, r);
    }
  }
}

=== FILE: favorite_collection.dfy ===
/**
 * The user's favourites: an ordered list of favourite presets that can be
 * appended to, edited in place, reordered and removed from.
 */
module Favorites {
  import opened Wrappers
  import opened SequenceEdits
  import SoundFonts

  /** The unique key a favourite receives when it is created. */
  type FavoriteKey = nat

  /** A favourite: its key, the preset it refers to and its own name. */
  datatype Favorite = Favorite(
    key: FavoriteKey,
    soundFontAndPreset: SoundFonts.SoundFontAndPreset,
    name: string)

  /** No two favourites share a key. */
  ghost predicate UniqueKeys(s: seq<Favorite>) {
    forall i, j :: 0 <= i < j < |s| ==> s[i].key != s[j].key
  }

  /** The favourites of `s` that `keep` accepts, in their order. */
  function Filter(s: seq<Favorite>, keep: Favorite -> bool): (r: seq<Favorite>)
    ensures |r| <= |s|
    ensures forall x :: x in r <==> x in s && keep(x)
  {
    if s == [] then []
    else (if keep(s[0]) then [s[0]] else []) + Filter(s[1..], keep)
  }

  /** The favourites of `s` made from a preset of the sound font `soundFontKey`. */
  function FindAll(s: seq<Favorite>, soundFontKey: SoundFonts.Key): (r: seq<Favorite>)
    ensures forall x :: x in r <==> x in s && x.soundFontAndPreset.soundFontKey == soundFontKey
  {
    Filter(s, (f: Favorite) => f.soundFontAndPreset.soundFontKey == soundFontKey)
  }

  /** The sound font of each favourite of `s`, in order. */
  function FontKeys(s: seq<Favorite>): (r: seq<SoundFonts.Key>)
    ensures |r| == |s| && forall i :: 0 <= i < |s| ==> r[i] == s[i].soundFontAndPreset.soundFontKey
  {
    if s == [] then [] else [s[0].soundFontAndPreset.soundFontKey] + FontKeys(s[1..])
  }

  /** FindAll finds one favourite for each favourite of `s` made from the sound font. */
  lemma {:induction false} FindAllCount(s: seq<Favorite>, soundFontKey: SoundFonts.Key)
    ensures |FindAll(s, soundFontKey)| == multiset(FontKeys(s))[soundFontKey]
  {
    if s != [] {
      FindAllCount(s[1..], soundFontKey);
      assert FontKeys(s) == [s[0].soundFontAndPreset.soundFontKey] + FontKeys(s[1..]);
    }
  }

  /** The favourites of `s` that are not in `gone`, in their order. */
  function Without(s: seq<Favorite>, gone: seq<Favorite>): (r: seq<Favorite>)
    ensures forall x :: x in r <==> x in s && x !in gone
  {
    Filter(s, (f: Favorite) => f !in gone)
  }

  /** The favourites of `s` not made from a preset of the sound font `soundFontKey`, in their order. */
  function Unassociated(s: seq<Favorite>, soundFontKey: SoundFonts.Key): (r: seq<Favorite>)
    ensures forall x :: x in r <==> x in s && x.soundFontAndPreset.soundFontKey != soundFontKey
  {
    Filter(s, (f: Favorite) => f.soundFontAndPreset.soundFontKey != soundFontKey)
  }

  /** The position of the first favourite with the given key. */
  function IndexIn(s: seq<Favorite>, key: FavoriteKey): (r: Option<nat>)
    ensures r.None? <==> forall i :: 0 <= i < |s| ==> s[i].key != key
    ensures r.Some? ==> r.value < |s| && s[r.value].key == key
    ensures r.Some? ==> forall i :: 0 <= i < r.value ==> s[i].key != key
  {
    if s == [] then None
    else if s[0].key == key then Some(0)
    else match IndexIn(s[1..], key)
      case None => None
      case Some(i) => Some(i + 1)
  }

  /** Filtering keeps keys unique. */
  lemma {:induction false} FilterKeepsUnique(s: seq<Favorite>, keep: Favorite -> bool)
    requires UniqueKeys(s)
    ensures UniqueKeys(Filter(s, keep))
  {
    if s != [] {
      var rest := s[1..];
      assert UniqueKeys(rest) by {
        forall a, b | 0 <= a < b < |rest|
          ensures rest[a].key != rest[b].key
        {
          assert rest[a] == s[a + 1] && rest[b] == s[b + 1];
        }
      }
      FilterKeepsUnique(rest, keep);
      var tail := Filter(rest, keep);
      forall x | x in tail
        ensures x.key != s[0].key
      {
        var k :| 0 <= k < |rest| && rest[k] == x;
        assert s[k + 1] == x;
      }
    }
  }

  /** Filtering twice is filtering once by both conditions. */
  lemma {:induction false} FilterTwice(
    s: seq<Favorite>, first: Favorite -> bool, second: Favorite -> bool, both: Favorite -> bool)
    requires forall x :: both(x) == (first(x) && second(x))
    ensures Filter(Filter(s, first), second) == Filter(s, both)
  {
    if s != [] {
      FilterTwice(s[1..], first, second, both);
      var rest := Filter(s[1..], first);
      if first(s[0]) {
        var once := [s[0]] + rest;
        assert Filter(s, first) == once;
        assert once[0] == s[0] && once[1..] == rest;
        assert Filter(once, second) == (if second(s[0]) then [s[0]] else []) + Filter(rest, second);
      } else {
        assert Filter(s, first) == rest;
      }
    }
  }

  /** Removing a position of a list with unique keys filters out that favourite. */
  lemma {:induction false} RemoveIsFilter(s: seq<Favorite>, i: nat, keep: Favorite -> bool)
    requires UniqueKeys(s) && i < |s|
    requires forall x :: keep(x) == (x != s[i])
    ensures Remove(s, i) == Filter(s, keep)
  {
    var rest := s[1..];
    TailUnique(s);
    if i == 0 {
      FilterAll(rest, keep);
      assert Remove(s, 0) == rest;
    } else {
      assert s[0].key != s[i].key;
      assert rest[i - 1] == s[i];
      RemoveIsFilter(rest, i - 1, keep);
      RemoveFront(s, i);
      FilterFront(s, keep);
    }
  }

  /** The tail of a list with unique keys has unique keys, none of them the head's. */
  lemma TailUnique(s: seq<Favorite>)
    requires UniqueKeys(s) && s != []
    ensures UniqueKeys(s[1..])
    ensures forall x :: x in s[1..] ==> x.key != s[0].key
  {
    var rest := s[1..];
    forall a, b | 0 <= a < b < |rest|
      ensures rest[a].key != rest[b].key
    {
      assert rest[a] == s[a + 1] && rest[b] == s[b + 1];
    }
    forall x | x in rest ensures x.key != s[0].key {
      var a :| 0 <= a < |rest| && rest[a] == x;
      assert rest[a] == s[a + 1];
    }
  }

  /** A filter keeping the head of a list is the head followed by the filtered tail. */
  lemma FilterFront(s: seq<Favorite>, keep: Favorite -> bool)
    requires s != [] && keep(s[0])
    ensures Filter(s, keep) == [s[0]] + Filter(s[1..], keep)
  {
  }

  /** A filter that accepts every favourite of `s` other than `s[0]` keeps all of `s[1..]`. */
  lemma {:induction false} FilterAll(s: seq<Favorite>, keep: Favorite -> bool)
    requires forall x :: x in s ==> keep(x)
    ensures Filter(s, keep) == s
  {
    if s != [] {
      FilterAll(s[1..], keep);
    }
  }

  class FavoriteCollection {
    /** The favourites, in the order the user arranged them. */
    var favorites: seq<Favorite>

    /** An empty collection. */
    constructor()
      ensures favorites == []
    {
      favorites := [];
    }

    /** The number of favourites. */
    function Count(): (n: nat)
      reads this
      ensures n == |favorites|
    {
      |favorites|
    }

    /** The position of the favourite with the given key. */
    function IndexOf(key: FavoriteKey): (r: Option<nat>)
      reads this
      ensures r.Some? ==> r.value < |favorites| && favorites[r.value].key == key
      ensures r.Some? ==> forall i :: 0 <= i < r.value ==> favorites[i].key != key
      ensures r.None? <==> forall i :: 0 <= i < |favorites| ==> favorites[i].key != key
    {
      IndexIn(favorites, key)
    }

    /** True when a favourite has the given key, exactly when IndexOf finds one. */
    function ContainsKey(key: FavoriteKey): (r: bool)
      reads this
      ensures r <==> IndexOf(key).Some?
      ensures r <==> exists i :: 0 <= i < |favorites| && favorites[i].key == key
    {
      IndexIn(favorites, key).Some?
    }

    /** The favourite with the given key, if any. */
    function GetByKey(key: FavoriteKey): (r: Option<Favorite>)
      reads this
      ensures r.None? <==> !ContainsKey(key)
      ensures r.Some? ==> r.value.key == key && r.value in favorites
    {
      match IndexOf(key)
      case None => None
      case Some(i) => Some(favorites[i])
    }

    /** Appends a favourite at the end. */
    method Add(favorite: Favorite)
      modifies this
      ensures favorites == old(favorites) + [favorite]
      ensures Count() == old(Count()) + 1
    {
      favorites := favorites + [favorite];
    }

    /** Replaces the favourite at a position; nothing else changes. */
    method Replace(index: nat, favorite: Favorite)
      modifies this
      requires index < |favorites|
      ensures favorites == old(favorites)[index := favorite]
      ensures |favorites| == |old(favorites)|
      ensures forall i :: 0 <= i < |favorites| && i != index ==> favorites[i] == old(favorites)[i]
    {
      favorites := favorites[index := favorite];
    }

    /** Moves the favourite at `from` so that it ends up at `to`. */
    method Move(from: nat, to: nat)
      modifies this
      requires from < |favorites| && to < |favorites|
      ensures favorites == Insert(SequenceEdits.Remove(old(favorites), from), to, old(favorites)[from])
      ensures favorites[to] == old(favorites)[from]
      ensures multiset(favorites) == multiset(old(favorites))
    {
      var moved := favorites[from];
      var rest := SequenceEdits.Remove(favorites, from);
      favorites := Insert(rest, to, moved);
    }

    /** Removes the favourite with the given key; without one, nothing changes. */
    method RemoveKey(key: FavoriteKey) returns (removed: Option<Favorite>)
      modifies this
      ensures old(IndexOf(key)).None? ==> removed.None? && favorites == old(favorites)
      ensures old(IndexOf(key)).Some? ==>
        removed == Some(old(favorites)[old(IndexOf(key)).value]) &&
        favorites == SequenceEdits.Remove(old(favorites), old(IndexOf(key)).value)
    {
      var index := IndexOf(key);
      if index.None? {
        return None;
      }
      removed := Some(favorites[index.value]);
      favorites := SequenceEdits.Remove(favorites, index.value);
    }

    /** Removes the favourite at a position and returns it. */
    method RemoveAt(index: nat) returns (removed: Favorite)
      modifies this
      requires index < |favorites|
      ensures removed == old(favorites)[index]
      ensures favorites == SequenceEdits.Remove(old(favorites), index)
    {
      removed := favorites[index];
      favorites := SequenceEdits.Remove(favorites, index);
    }

    /** The number of favourites made from a preset of the sound font `soundFontKey`. */
    function CountAssociated(soundFontKey: SoundFonts.Key): (n: nat)
      reads this
      ensures n == 0 <==> forall f :: f in favorites ==> f.soundFontAndPreset.soundFontKey != soundFontKey
      ensures n == multiset(FontKeys(favorites))[soundFontKey]
    {
      var found := FindAll(favorites, soundFontKey);
      assert found != [] ==> found[0] in found;
      FindAllCount(favorites, soundFontKey);
      |found|
    }

    /**
     * Removes, one key at a time, every favourite made from a preset of the
     * sound font `soundFontKey`. When favourite keys are unique, exactly those
     * favourites go and the others keep their order.
     */
    method RemoveAllAssociated(soundFontKey: SoundFonts.Key)
      modifies this
      ensures UniqueKeys(old(favorites)) ==> favorites == Unassociated(old(favorites), soundFontKey)
      ensures UniqueKeys(old(favorites)) ==> CountAssociated(soundFontKey) == 0
    {
      var found := FindAll(favorites, soundFontKey);
      ghost var original := favorites;
      ghost var unique := UniqueKeys(original);
      if unique {
        StartRemoving(original, soundFontKey);
      }
      for j := 0 to |found|
        invariant unique ==> favorites == Without(original, found[..j])
      {
        ghost var before := favorites;
        var removed := RemoveKey(found[j].key);
        if unique {
          RemoveStep(original, found, j, before, favorites);
        }
      }
      if unique {
        assert found[..|found|] == found;
        WithoutFound(original, found, soundFontKey);
      }
    }
  }

  /**
   * Before any removal: the associated favourites of a list with unique keys
   * have unique keys, and the list is itself without none of them.
   */
  lemma StartRemoving(s: seq<Favorite>, soundFontKey: SoundFonts.Key)
    requires UniqueKeys(s)
    ensures UniqueKeys(FindAll(s, soundFontKey))
    ensures s == Without(s, FindAll(s, soundFontKey)[..0])
  {
    FilterKeepsUnique(s, (f: Favorite) => f.soundFontAndPreset.soundFontKey == soundFontKey);
    FilterAll(s, (f: Favorite) => f !in FindAll(s, soundFontKey)[..0]);
  }

  /** Two filters that agree on the favourites of `s` give the same result. */
  lemma {:induction false} FilterSame(s: seq<Favorite>, p: Favorite -> bool, q: Favorite -> bool)
    requires forall x :: x in s ==> p(x) == q(x)
    ensures Filter(s, p) == Filter(s, q)
  {
    if s != [] {
      FilterSame(s[1..], p, q);
    }
  }

  /** Removing every associated favourite is keeping the unassociated ones. */
  lemma WithoutFound(s: seq<Favorite>, found: seq<Favorite>, soundFontKey: SoundFonts.Key)
    requires found == FindAll(s, soundFontKey)
    ensures Without(s, found) == Unassociated(s, soundFontKey)
  {
    FilterSame(s,
      (f: Favorite) => f !in found,
      (f: Favorite) => f.soundFontAndPreset.soundFontKey != soundFontKey);
  }

  /** In a list with unique keys, the first favourite with a member's key is that member. */
  lemma IndexOfMember(s: seq<Favorite>, x: Favorite)
    requires UniqueKeys(s) && x in s
    ensures IndexIn(s, x.key).Some? && s[IndexIn(s, x.key).value] == x
  {
    var p :| 0 <= p < |s| && s[p] == x;
    var i := IndexIn(s, x.key).value;
    assert i <= p;
    assert s[i].key == s[p].key;
  }

  /** A favourite of a list with unique keys does not occur before its own position. */
  lemma NotEarlier(found: seq<Favorite>, j: nat)
    requires UniqueKeys(found) && j < |found|
    ensures found[j] !in found[..j]
  {
    forall i | 0 <= i < j
      ensures found[..j][i] != found[j]
    {
      assert found[i].key != found[j].key;
    }
  }

  /** Filtering out `found[j]` after `found[..j]` filters out `found[..j + 1]`. */
  lemma WithoutOneMore(original: seq<Favorite>, found: seq<Favorite>, j: nat, other: Favorite -> bool)
    requires j < |found|
    requires forall f :: other(f) == (f != found[j])
    ensures Filter(Without(original, found[..j]), other) == Without(original, found[..j + 1])
  {
    assert found[..j + 1] == found[..j] + [found[j]];
    FilterTwice(original, (f: Favorite) => f !in found[..j], other, (f: Favorite) => f !in found[..j + 1]);
  }

  /** One iteration of removing the found favourites by key. */
  lemma RemoveStep(
    original: seq<Favorite>, found: seq<Favorite>, j: nat,
    before: seq<Favorite>, after: seq<Favorite>)
    requires UniqueKeys(original)
    requires forall x :: x in found ==> x in original
    requires UniqueKeys(found)
    requires j < |found|
    requires before == Without(original, found[..j])
    requires IndexIn(before, found[j].key).Some? ==>
      after == Remove(before, IndexIn(before, found[j].key).value)
    ensures after == Without(original, found[..j + 1])
  {
    var x := found[j];
    NotEarlier(found, j);
    FilterKeepsUnique(original, (f: Favorite) => f !in found[..j]);
    IndexOfMember(before, x);
    var other := (f: Favorite) => f != x;
    RemoveIsFilter(before, IndexIn(before, x.key).value, other);
    WithoutOneMore(original, found, j, other);
  }
}

=== FILE: file_pos.dfy ===
/**
 * An immutable position in a SoundFont file: a file descriptor, an offset
 * and the end of the region being read. Advancing gives a new position
 * that never passes the end; reading fills a buffer from the file and
 * advances past what was read. The file's contents (what the seek and read
 * procedures see) are a parameter.
 */
module FilePositions {
  import opened Wrappers
  import opened Sizes

  /** Why a read failed: the seek did not land, or fewer bytes came back than asked for. */
  datatype ReadError = SeekFailed | ShortRead

  datatype Pos = Pos(fd: int, pos: Size, end: Size)
  {
    /** The file offset of this position. */
    function Offset(): (offset: Size)
      ensures pos <= end ==> offset + Available() == end
    {
      pos
    }

    /** The bytes left before the end, modulo 2^64. */
    function Available(): (n: Size)
      ensures pos <= end ==> n == end - pos
    {
      ToSize(end - pos)
    }

    /** The position `offset` bytes further on, stopped at the end. */
    function Advance(offset: Size): (r: Pos)
      ensures r.fd == fd && r.end == end && r.pos <= end
      ensures pos + offset < SizeModulus ==> r.pos == Min(pos + offset, end)
    {
      Pos(fd, Min(ToSize(pos + offset), end), end)
    }

    /** A position is invalid (true as a condition) when its descriptor is or when nothing is left. */
    function IsInvalid(): (r: bool)
      ensures !r ==> fd >= 0 && 0 < Available() == end - pos
      ensures fd >= 0 && pos <= end ==> (r <==> Available() == 0)
    {
      fd < 0 || pos >= end
    }

    /** Positions are ordered by their offsets. */
    function Less(other: Pos): (r: bool)
      ensures r <==> Offset() < other.Offset()
      ensures r ==> this != other
    {
      pos < other.pos
    }

    /**
     * Reads `count` bytes at this position from `file`: the seek fails on a
     * negative descriptor, the read returns what the file still holds; any
     * shortfall is an error, otherwise the bytes and the advanced position
     * come back.
     */
    function ReadInto(file: seq<bv8>, count: Size): (r: Result<(seq<bv8>, Pos), ReadError>)
      ensures r.Ok? <==> fd >= 0 && (count == 0 || pos + count <= |file|)
      ensures r.Ok? ==> |r.value.0| == count && r.value.1 == Advance(count)
      ensures r.Ok? && count > 0 ==> r.value.0 == file[pos..pos + count]
    {
      if fd < 0 then Err(SeekFailed)
      else
        var got := if pos >= |file| then 0 else Min(count, |file| - pos);
        if got != count then Err(ShortRead)
        else Ok((if count == 0 then [] else file[pos..pos + count], Advance(count)))
    }

    /**
     * Reads a buffer of `size` bytes, or fewer when `maxCount` is smaller:
     * it succeeds exactly when a read of the smaller count does, never reads
     * more than either bound, and reads the file's bytes at this position.
     */
    function ReadIntoAtMost(file: seq<bv8>, size: Size, maxCount: Size): (r: Result<(seq<bv8>, Pos), ReadError>)
      ensures r.Ok? <==> fd >= 0 && (Min(size, maxCount) == 0 || pos + Min(size, maxCount) <= |file|)
      ensures r.Ok? ==> |r.value.0| == Min(size, maxCount) && |r.value.0| <= size && |r.value.0| <= maxCount
      ensures r.Ok? ==> r.value.1 == Advance(Min(size, maxCount))
      ensures r.Ok? && Min(size, maxCount) > 0 ==> r.value.0 == file[pos..pos + Min(size, maxCount)]
      ensures r.Err? ==> r.error == (if fd < 0 then SeekFailed else ShortRead)
    {
      ReadInto(file, Min(size, maxCount))
    }
  }

  function Min(a: int, b: int): int
  {
    if a < b then a else b
  }

  /**
   * Advancing keeps the descriptor and the end, and takes from what is
   * available the offset or, when that is more, everything.
   */
  lemma AdvanceShrinksAvailable(p: Pos, offset: Size)
    requires p.pos <= p.end && p.pos + offset < SizeModulus
    ensures p.Advance(offset).Available() == p.Available() - Min(offset, p.Available())
  {
  }

  /** Two advances make one advance by their sum. */
  lemma AdvanceTwice(p: Pos, a: Size, b: Size)
    requires p.pos <= p.end && p.pos + a + b < SizeModulus
    ensures p.Advance(a).Advance(b) == p.Advance(a + b)
  {
  }

  /** Advancing by everything that is available reaches an invalid position. */
  lemma AdvanceToEndIsInvalid(p: Pos)
    requires p.pos <= p.end
    ensures p.Advance(p.Available()).IsInvalid()
    ensures p.Advance(p.Available()).Available() == 0
  {
  }

  /**
   * Reading `a` bytes and then `b` bytes succeeds and reads what one read of
   * `a + b` bytes reads, ending at the same position, while the region and
   * the file hold them.
   */
  lemma ReadTwice(p: Pos, file: seq<bv8>, a: Size, b: Size)
    requires p.fd >= 0 && p.pos + a + b <= p.end && p.pos + a + b <= |file|
    ensures p.ReadInto(file, a).Ok? && p.ReadInto(file, a + b).Ok?
    ensures var first := p.ReadInto(file, a).value;
      var second := first.1.ReadInto(file, b);
      second.Ok? &&
      first.0 + second.value.0 == p.ReadInto(file, a + b).value.0 &&
      second.value.1 == p.ReadInto(file, a + b).value.1
  {
    var first := p.ReadInto(file, a).value;
    assert first.1.pos == p.pos + a;
    var second := first.1.ReadInto(file, b);
    assert second.Ok?;
    assert file[p.pos..p.pos + a] + file[p.pos + a..p.pos + a + b] == file[p.pos..p.pos + a + b];
  }
}

=== FILE: info_files.dfy ===
/**
 * How the version-bump script updates the audio-unit component version in
 * Info.plist files: every file that mentions `<key>AudioComponents</key>`
 * gets one PlistBuddy `Set` command carrying the marketing version packed
 * into one integer.
 */
module InfoFiles {
  import MV = MarketingVersion
  import opened Wrappers

  /** An Info.plist file: where it is and what it holds. */
  datatype InfoFile = InfoFile(path: string, contents: string)

  /** One run of PlistBuddy on `path` with the command `setArg`. */
  datatype PlistRun = PlistRun(path: string, setArg: string)

  /** The text whose presence marks an audio-unit Info.plist. */
  const AudioComponentsKey := "<key>" + "AudioComponents" + "</key>"

  /** The PlistBuddy command up to the value. */
  const SetPrefix := "Set :NSExtension:" + "NSExtensionAttributes:" + "AudioComponents:0:version "

  /** `str.find`: the first index at which `pattern` occurs in `t`, or -1. */
  function Find(t: string, pattern: string): (r: int)
    ensures -1 <= r <= |t|
    ensures r == -1 <==> forall i :: 0 <= i <= |t| ==> !(pattern <= t[i..])
    ensures r >= 0 ==> pattern <= t[r..] && forall i :: 0 <= i < r ==> !(pattern <= t[i..])
    decreases |t|
  {
    if pattern <= t then 0
    else if t == [] then -1
    else
      var k := Find(t[1..], pattern);
      assert forall i :: 1 <= i <= |t| ==> t[i..] == t[1..][i - 1..];
      if k == -1 then -1 else k + 1
  }

  /** The command the script hands to PlistBuddy for version `v`. */
  function SetArg(v: MV.Version): (arg: string)
    ensures ComponentVersion(arg) == Some(MV.AsInt(v))
  {
    var digits := MV.NatToString(MV.AsInt(v));
    assert (SetPrefix + digits)[|SetPrefix|..] == digits;
    MV.DigitsRoundTrip(MV.AsInt(v));
    SetPrefix + digits
  }

  /** The component version a `Set` command writes, if it is one. */
  function ComponentVersion(setArg: string): Option<nat>
  {
    if SetPrefix <= setArg && |setArg| > |SetPrefix| && MV.AllDigits(setArg[|SetPrefix|..]) then
      Some(MV.DigitsValue(setArg[|SetPrefix|..]))
    else None
  }

  /** The command writes the packed version, from which a packable version is recovered field by field. */
  lemma SetArgWritesPackedVersion(v: MV.Version)
    ensures MV.Packable(v) ==>
      var n := ComponentVersion(SetArg(v)).value;
      n / 65536 == v.major && n / 256 % 256 == v.minor && n % 256 == v.patch
  {
    if MV.Packable(v) {
      MV.AsIntFields(v);
    }
  }

  /** Whether the script processes a file. */
  predicate IsAudioUnitInfo(f: InfoFile)
  {
    Find(f.contents, AudioComponentsKey) != -1
  }

  /** The runs `updateInfoFiles` makes, in file order. */
  function Runs(files: seq<InfoFile>, v: MV.Version): (runs: seq<PlistRun>)
    ensures forall r :: r in runs ==> r.setArg == SetArg(v)
    ensures forall f :: f in files && IsAudioUnitInfo(f) ==> PlistRun(f.path, SetArg(v)) in runs
    ensures forall r :: r in runs ==> exists f :: f in files && IsAudioUnitInfo(f) && f.path == r.path
  {
    if files == [] then []
    else
      var rest := Runs(files[..|files| - 1], v);
      var last := files[|files| - 1];
      assert files == files[..|files| - 1] + [last];
      if IsAudioUnitInfo(last) then rest + [PlistRun(last.path, SetArg(v))] else rest
  }

  /**
   * `updateInfoFiles`, with each file's contents given and the PlistBuddy
   * runs returned instead of performed.
   */
  method UpdateInfoFiles(files: seq<InfoFile>, v: MV.Version) returns (runs: seq<PlistRun>)
    ensures runs == Runs(files, v)
  {
    var setArg := SetArg(v);
    runs := [];
    for i := 0 to |files|
      invariant runs == Runs(files[..i], v)
    {
      assert files[..i + 1][..i] == files[..i];
      if Find(files[i].contents, AudioComponentsKey) == -1 {
        continue;
      }
      runs := runs + [PlistRun(files[i].path, setArg)];
    }
    assert files[..|files|] == files;
  }

  /** A file that does not mention the audio components is left alone. */
  lemma SkipsOtherFiles(files: seq<InfoFile>, v: MV.Version, f: InfoFile)
    requires f in files && forall i :: 0 <= i <= |f.contents| ==> !(AudioComponentsKey <= f.contents[i..])
    requires forall g :: g in files && g.path == f.path ==> g == f
    ensures forall r :: r in Runs(files, v) ==> r.path != f.path
  {
  }
}

=== FILE: marketing_version.dfy ===
/**
 * The immutable marketing version `major.minor.patch` of the version-bump
 * script: conversion from and to text, the three bump operations and the
 * packed integer used as the audio-component version.
 */
module MarketingVersion {
  import opened Wrappers

  datatype Version = Version(major: nat, minor: nat, patch: nat)

  /** Why a textual version could not be turned into a `Version`. */
  datatype ParseError =
    | MissingField   // fewer than three '.'-separated parts (an IndexError)
    | NotAnInteger   // a part that `int()` rejects (a ValueError)

  // ---------------------------------------------------------------- decimal text

  predicate IsDigit(c: char) { '0' <= c <= '9' }

  predicate AllDigits(s: string) { forall i :: 0 <= i < |s| ==> IsDigit(s[i]) }

  function DigitChar(d: nat): (c: char)
    requires d < 10
    ensures IsDigit(c) && c as int - '0' as int == d
  {
    (48 + d) as char
  }

  /** The decimal rendering of `n`, as Python's `str` of an int: no sign, no leading zero. */
  function NatToString(n: nat): (s: string)
    ensures |s| > 0 && AllDigits(s)
    ensures |s| > 1 ==> s[0] != '0'
    decreases n
  {
    if n < 10 then [DigitChar(n)] else NatToString(n / 10) + [DigitChar(n % 10)]
  }

  /** The value of a string of decimal digits, as `int()` reads it (leading zeros allowed). */
  function DigitsValue(s: string): nat
    requires AllDigits(s)
  {
    if s == [] then 0 else DigitsValue(s[..|s| - 1]) * 10 + (s[|s| - 1] as int - '0' as int)
  }

  lemma {:induction false} DigitsRoundTrip(n: nat)
    ensures DigitsValue(NatToString(n)) == n
    decreases n
  {
    if n >= 10 {
      var s := NatToString(n);
      assert s[..|s| - 1] == NatToString(n / 10);
      DigitsRoundTrip(n / 10);
    }
  }

  // ---------------------------------------------------------------- str.split

  /** Python's `s.split(sep)`: always at least one part; parts never contain `sep`. */
  function Split(s: string, sep: char): (parts: seq<string>)
    ensures |parts| >= 1
    ensures forall i :: 0 <= i < |parts| ==> sep !in parts[i]
    decreases |s|
  {
    if s == [] then [[]]
    else
      var rest := Split(s[1..], sep);
      if s[0] == sep then [[]] + rest else [[s[0]] + rest[0]] + rest[1..]
  }

  lemma {:induction false} SplitNoSeparator(a: string, sep: char)
    requires sep !in a
    ensures Split(a, sep) == [a]
    decreases |a|
  {
    if a != [] {
      SplitNoSeparator(a[1..], sep);
      assert [a[0]] + a[1..] == a;
    }
  }

  lemma {:induction false} SplitAtSeparator(a: string, sep: char, t: string)
    requires sep !in a
    ensures Split(a + [sep] + t, sep) == [a] + Split(t, sep)
    decreases |a|
  {
    if a == [] {
      assert a + [sep] + t == [sep] + t;
      assert ([sep] + t)[1..] == t;
    } else {
      var s := a + [sep] + t;
      assert s[0] == a[0] && s[1..] == a[1..] + [sep] + t;
      SplitAtSeparator(a[1..], sep, t);
      assert [a[0]] + a[1..] == a;
    }
  }

  /** `sep.join(parts)`. */
  function Join(parts: seq<string>, sep: char): string
    requires |parts| >= 1
  {
    if |parts| == 1 then parts[0] else parts[0] + [sep] + Join(parts[1..], sep)
  }

  /** Joining the parts of a split with the separator gives the text back. */
  lemma {:induction false} JoinSplit(s: string, sep: char)
    ensures Join(Split(s, sep), sep) == s
    decreases |s|
  {
    if s != [] {
      JoinSplit(s[1..], sep);
      var rest := Split(s[1..], sep);
      if s[0] == sep {
        assert ([[]] + rest)[1..] == rest;
        assert [s[0]] + s[1..] == s;
      } else if |rest| == 1 {
        assert [s[0]] + s[1..] == s;
      } else {
        var parts := [[s[0]] + rest[0]] + rest[1..];
        assert parts[1..] == rest[1..];
        assert [s[0]] + s[1..] == s;
      }
    }
  }

  // ---------------------------------------------------------------- conversions

  /** `int(part)` restricted to plain ASCII digit strings. */
  function ParseInt(part: string): (r: Result<nat, ParseError>)
    ensures r.Ok? <==> |part| > 0 && AllDigits(part)
    ensures r.Ok? ==> r.value == DigitsValue(part)
  {
    if |part| > 0 && AllDigits(part) then Ok(DigitsValue(part)) else Err(NotAnInteger)
  }

  /**
   * `fromTuple`: the first three parts become the fields and further parts
   * are ignored. Python evaluates the arguments from left to right, so a
   * part that is not an integer is reported before a later part that is
   * missing.
   */
  function FromParts(parts: seq<string>): (r: Result<Version, ParseError>)
    ensures r.Ok? <==> |parts| >= 3 && forall i :: 0 <= i < 3 ==> |parts[i]| > 0 && AllDigits(parts[i])
    ensures r.Ok? ==> r.value == Version(DigitsValue(parts[0]), DigitsValue(parts[1]), DigitsValue(parts[2]))
    ensures r == Err(MissingField) <==>
      |parts| < 3 && forall i :: 0 <= i < |parts| ==> |parts[i]| > 0 && AllDigits(parts[i])
  {
    if |parts| < 1 then Err(MissingField)
    else if ParseInt(parts[0]).Err? then Err(NotAnInteger)
    else if |parts| < 2 then Err(MissingField)
    else if ParseInt(parts[1]).Err? then Err(NotAnInteger)
    else if |parts| < 3 then Err(MissingField)
    else if ParseInt(parts[2]).Err? then Err(NotAnInteger)
    else Ok(Version(ParseInt(parts[0]).value, ParseInt(parts[1]).value, ParseInt(parts[2]).value))
  }

  /** `split` gives one part more than there are separators. */
  lemma {:induction false} SplitCount(s: string, sep: char)
    ensures |Split(s, sep)| == multiset(s)[sep] + 1
    decreases |s|
  {
    if s != [] {
      SplitCount(s[1..], sep);
      assert s == [s[0]] + s[1..];
    }
  }

  /** `fromString`: split on '.' and read the first three parts. */
  function FromString(s: string): (r: Result<Version, ParseError>)
    ensures r.Ok? ==> multiset(s)['.'] >= 2
    ensures multiset(s)['.'] < 2 ==> r.Err?
  {
    SplitCount(s, '.');
    FromParts(Split(s, '.'))
  }

  /** `__str__`: "major.minor.patch". */
  function ToString(v: Version): (s: string)
    ensures |s| >= 5
  {
    NatToString(v.major) + "." + NatToString(v.minor) + "." + NatToString(v.patch)
  }

  /** The three parts `split('.')` finds in a rendered version. */
  lemma {:induction false} SplitToString(v: Version)
    ensures Split(ToString(v), '.') == [NatToString(v.major), NatToString(v.minor), NatToString(v.patch)]
  {
    var a, b, c := NatToString(v.major), NatToString(v.minor), NatToString(v.patch);
    assert ToString(v) == a + ['.'] + (b + ['.'] + c);
    assert forall i :: 0 <= i < |a| ==> a[i] != '.';
    assert forall i :: 0 <= i < |b| ==> b[i] != '.';
    assert forall i :: 0 <= i < |c| ==> c[i] != '.';
    SplitAtSeparator(a, '.', b + ['.'] + c);
    SplitAtSeparator(b, '.', c);
    SplitNoSeparator(c, '.');
  }

  lemma {:induction false} FromStringToString(v: Version)
    ensures FromString(ToString(v)) == Ok(v)
  {
    SplitToString(v);
    DigitsRoundTrip(v.major);
    DigitsRoundTrip(v.minor);
    DigitsRoundTrip(v.patch);
  }

  /** A rendered version is made of digits and exactly two dots. */
  lemma {:induction false} ToStringShape(v: Version)
    ensures forall i :: 0 <= i < |ToString(v)| ==> IsDigit(ToString(v)[i]) || ToString(v)[i] == '.'
    ensures multiset(ToString(v))['.'] == 2
  {
    var a, b, c := NatToString(v.major), NatToString(v.minor), NatToString(v.patch);
    assert ToString(v) == a + ['.'] + b + ['.'] + c;
    assert '.' !in a && '.' !in b && '.' !in c;
    assert multiset(a)['.'] == 0 && multiset(b)['.'] == 0 && multiset(c)['.'] == 0;
  }

  // ---------------------------------------------------------------- packing

  /** `asInt`: the packed form handed to the Info.plist files. */
  function AsInt(v: Version): (n: nat)
    ensures Packable(v) ==> v.major * 65536 <= n < (v.major + 1) * 65536
    ensures Packable(v) ==> v.major * 65536 + v.minor * 256 <= n < v.major * 65536 + (v.minor + 1) * 256
  {
    v.major * 65536 + v.minor * 256 + v.patch
  }

  /** Minor and patch each fit in one byte: only then does `AsInt` keep all three fields. */
  predicate Packable(v: Version) { v.minor < 256 && v.patch < 256 }

  lemma {:induction false} AsIntFields(v: Version)
    requires Packable(v)
    ensures AsInt(v) / 65536 == v.major
    ensures AsInt(v) / 256 % 256 == v.minor
    ensures AsInt(v) % 256 == v.patch
  {
    var n := AsInt(v);
    var low := v.minor * 256 + v.patch;
    assert 0 <= low < 65536;
    assert n == v.major * 65536 + low;
    assert n / 256 == v.major * 256 + v.minor;
    assert n % 256 == v.patch;
  }

  lemma AsIntInjective(v: Version, w: Version)
    requires Packable(v) && Packable(w) && AsInt(v) == AsInt(w)
    ensures v == w
  {
    AsIntFields(v);
    AsIntFields(w);
  }

  /** Without the byte bounds two versions can share a packed value: 0.256.0 and 1.0.0. */
  lemma AsIntCollision()
    ensures AsInt(Version(0, 256, 0)) == AsInt(Version(1, 0, 0))
  {
  }

  /** The packed values the script's tests expect, and 1.2.3 (66051). */
  lemma AsIntExamples()
    ensures AsInt(Version(1, 0, 0)) == 65536
    ensures AsInt(Version(1, 0, 1)) == 65537
    ensures AsInt(Version(1, 1, 1)) == 65793
    ensures AsInt(Version(12, 34, 56)) == 795192
    ensures AsInt(Version(1, 2, 3)) == 66051
  {
  }

  // ---------------------------------------------------------------- bumps

  /** The order in which versions are released: by major, then minor, then patch. */
  predicate Before(v: Version, w: Version)
  {
    v.major < w.major
    || (v.major == w.major && v.minor < w.minor)
    || (v.major == w.major && v.minor == w.minor && v.patch < w.patch)
  }

  function BumpMajor(v: Version): (r: Version)
    ensures Before(v, r) && r.minor == 0 && r.patch == 0
    ensures forall w :: Before(v, w) && w.major != v.major ==> !Before(w, r)
  {
    Version(v.major + 1, 0, 0)
  }

  function BumpMinor(v: Version): (r: Version)
    ensures Before(v, r) && r.major == v.major && r.patch == 0
    ensures forall w :: Before(v, w) && w.major == v.major && w.minor != v.minor ==> !Before(w, r)
  {
    Version(v.major, v.minor + 1, 0)
  }

  function BumpPatch(v: Version): (r: Version)
    ensures Before(v, r) && r.major == v.major && r.minor == v.minor
    ensures forall w :: !(Before(v, w) && Before(w, r))
  {
    Version(v.major, v.minor, v.patch + 1)
  }

  lemma {:induction false} BeforeTransitive(u: Version, v: Version, w: Version)
    requires Before(u, v) && Before(v, w)
    ensures Before(u, w)
  {
  }

  /** Bumping a lower field never reaches the result of bumping a higher one. */
  lemma BumpsOrdered(v: Version)
    ensures Before(BumpPatch(v), BumpMinor(v)) && Before(BumpMinor(v), BumpMajor(v))
  {
  }

  /** With byte-sized fields the packed value grows with the release order. */
  lemma {:induction false} AsIntMonotone(v: Version, w: Version)
    requires Packable(v) && Packable(w) && Before(v, w)
    ensures AsInt(v) < AsInt(w)
  {
    if v.major < w.major {
      assert v.minor * 256 + v.patch < 65536;
      assert AsInt(v) < v.major * 65536 + 65536;
      assert v.major * 65536 + 65536 <= w.major * 65536;
    } else if v.minor < w.minor {
      assert v.minor * 256 + 256 <= w.minor * 256;
    }
  }
}

=== FILE: midi_packet.dfy ===
/**
 * MIDI packets: building one from accumulated bytes, its aligned size inside
 * a packet list, and the packet parser that honours running status and calls
 * a receiver for each channel message.
 */
module MIDIPackets {
  import opened Wrappers
  import opened MIDIParsing

  /**
   * The MIDI 1.0 message kinds of the receiver-facing enumeration. It has no
   * case for the end of a system-exclusive message (0xF7).
   */
  type MIDI1Msg = k: MsgKind | !k.EndSystemExclusive? witness NoteOffKind

  /** The command a status byte names, if any. */
  function Command(status: bv8): (r: Option<MIDI1Msg>)
    ensures r.Some? ==> Kind(status) == Some(r.value)
    ensures Kind(status).Some? && !Kind(status).value.EndSystemExclusive? ==> r.Some?
    ensures status < 0x80 ==> r.None?
  {
    KindMasksChannel(status);
    match Kind(status)
    case Some(k) => if k.EndSystemExclusive? then None else Some(k)
    case None => None
  }

  /** Whether a command is a channel message (status below 0xF0). */
  predicate HasChannel(k: MsgKind) {
    RawValue(k) & 0xF0 != 0xF0
  }

  /** A channel message always carries at least one data byte. */
  lemma ChannelMessagesHaveData(k: MsgKind)
    requires HasChannel(k)
    ensures PayloadSize(k) >= 1
  {
  }

  /** The size in bytes of a packet of `length` data bytes, padded to a 4-byte boundary. */
  function AlignedByteSize(length: nat): (size: nat)
    ensures size % 4 == 0
    ensures 10 + length <= size < 14 + length
  {
    ((8 + 2 + length + 3) / 4) * 4
  }

  /** Packets of 0 to 2 data bytes take 12 bytes, packets of 3 or 4 take 16. */
  lemma AlignedSizes()
    ensures AlignedByteSize(0) == AlignedByteSize(1) == AlignedByteSize(2) == 12
    ensures AlignedByteSize(3) == AlignedByteSize(4) == 16
  {
  }

  /** A packet of zeros. */
  function Zeros(n: nat): (r: seq<bv8>)
    ensures |r| == n && forall i :: 0 <= i < n ==> r[i] == 0
  {
    if n == 0 then [] else Zeros(n - 1) + [0]
  }

  /** Accumulates MIDI bytes for one packet with a fixed time stamp. */
  class PacketBuilder {
    /** The time stamp of every event in the packet. */
    const timestamp: nat
    /** The bytes recorded so far. */
    var data: seq<bv8>

    /** A builder holding `data`. */
    constructor(timestamp: nat, data: seq<bv8>)
      ensures this.timestamp == timestamp && this.data == data
    {
      this.timestamp := timestamp;
      this.data := data;
    }

    /** A builder holding the status byte of `msg`. */
    constructor WithMsg(timestamp: nat, msg: MIDI1Msg)
      ensures this.timestamp == timestamp && data == [RawValue(msg)]
    {
      this.timestamp := timestamp;
      data := [RawValue(msg)];
    }

    /** A builder holding the status of `msg` and one data byte. */
    constructor WithMsgData1(timestamp: nat, msg: MIDI1Msg, data1: bv8)
      ensures this.timestamp == timestamp && data == [RawValue(msg), data1]
    {
      this.timestamp := timestamp;
      data := [RawValue(msg), data1];
    }

    /** A builder holding the status of `msg` and two data bytes. */
    constructor WithMsgData2(timestamp: nat, msg: MIDI1Msg, data1: bv8, data2: bv8)
      ensures this.timestamp == timestamp && data == [RawValue(msg), data1, data2]
    {
      this.timestamp := timestamp;
      data := [RawValue(msg), data1, data2];
    }

    /** Appends bytes. */
    method Add(bytes: seq<bv8>)
      modifies this
      ensures data == old(data) + bytes
    {
      data := data + bytes;
    }

    /** Appends the status byte of `msgKind`. */
    method AddMsg(msgKind: MIDI1Msg)
      modifies this
      ensures data == old(data) + [RawValue(msgKind)]
    {
      data := data + [RawValue(msgKind)];
    }

    /** Appends the status byte of `msgKind` and one data byte. */
    method AddMsgData1(msgKind: MIDI1Msg, data1: bv8)
      modifies this
      ensures data == old(data) + [RawValue(msgKind), data1]
    {
      data := data + [RawValue(msgKind), data1];
    }

    /** Appends the status byte of `msgKind` and two data bytes. */
    method AddMsgData2(msgKind: MIDI1Msg, data1: bv8, data2: bv8)
      modifies this
      ensures data == old(data) + [RawValue(msgKind), data1, data2]
    {
      data := data + [RawValue(msgKind), data1, data2];
    }

    /**
     * The packet: its length is the number of recorded bytes, its data buffer
     * starts with them in order and is zero after them. At most 256 bytes fit.
     */
    function Packet(): (packet: MIDIPacket)
      reads this
      requires |data| <= 256
      ensures packet.timeStamp == timestamp && packet.length == |data|
      ensures |packet.data| == 256 && packet.data[..packet.length] == data
      ensures forall i :: packet.length <= i < 256 ==> packet.data[i] == 0
    {
      MIDIPacket(timestamp, |data|, data + Zeros(256 - |data|))
    }
  }

  /** A call made on the receiver of MIDI messages. */
  datatype ReceiverCall =
    | StartNote(note: bv8, velocity: bv8, channel: bv8)
    | StopNote(note: bv8, velocity: bv8, channel: bv8)
    | SetNotePressure(note: bv8, pressure: bv8, channel: bv8)
    | SetController(controller: bv8, value: bv8, channel: bv8)
    | ChangeProgram(program: bv8, channel: bv8)
    | SetPressure(pressure: bv8, channel: bv8)
    | SetPitchBend(bend: bv16, channel: bv8)
    | StopAllNotes

  /** What parsing a packet does, in order: endpoint channel updates, receiver calls, activity reports. */
  datatype Notice =
    | UpdateChannel(channel: bv8)
    | Call(call: ReceiverCall)
    | ShowActivity(channel: bv8)

  /** A note-on is only ever a note start when its velocity is not zero; every note stop has velocity zero. */
  predicate NotesWellFormed(call: ReceiverCall) {
    (call.StartNote? ==> call.velocity != 0) && (call.StopNote? ==> call.velocity == 0)
  }

  /** The receiver calls for `command` whose data bytes start at `at`. */
  function Dispatch(command: MIDI1Msg, bytes: seq<bv8>, at: nat, channel: bv8): (r: seq<Notice>)
    requires at + PayloadSize(command) <= |bytes|
    ensures |r| <= 1
  {
    match command
    case NoteOffKind => [Call(StopNote(bytes[at], 0, channel))]
    case NoteOnKind =>
      var velocity := bytes[at + 1];
      if velocity == 0 then [Call(StopNote(bytes[at], 0, channel))]
      else [Call(StartNote(bytes[at], velocity, channel))]
    case PolyphonicKeyPressureKind => [Call(SetNotePressure(bytes[at], bytes[at + 1], channel))]
    case ControlChangeKind => [Call(SetController(bytes[at], bytes[at + 1], channel))]
    case ProgramChangeKind => [Call(ChangeProgram(bytes[at], channel))]
    case ChannelPressureKind => [Call(SetPressure(bytes[at], channel))]
    case PitchBendChangeKind => [Call(SetPitchBend(PitchBend(bytes[at], bytes[at + 1]), channel))]
    case Reset => [Call(StopAllNotes)]
    case _ => []
  }

  /**
   * The receiver hears exactly one call for every channel message and for a
   * reset, and none for other system messages; a note-on with velocity zero
   * is heard as a note stop.
   */
  lemma DispatchCalls(command: MIDI1Msg, bytes: seq<bv8>, at: nat, channel: bv8)
    requires at + PayloadSize(command) <= |bytes|
    ensures forall n :: n in Dispatch(command, bytes, at, channel) ==> n.Call? && NotesWellFormed(n.call)
    ensures command.NoteOnKind? ==>
      Dispatch(command, bytes, at, channel) ==
        [Call(if bytes[at + 1] == 0 then StopNote(bytes[at], 0, channel) else StartNote(bytes[at], bytes[at + 1], channel))]
    ensures Dispatch(command, bytes, at, channel) == [] <==> !HasChannel(command) && !command.Reset?
  {
  }

  /** The running status is either cleared or the status byte of a channel message. */
  predicate RunningOk(running: bv8) {
    running == 0 || (Command(running).Some? && HasChannel(Command(running).value))
  }

  /**
   * How the message at some position is framed: parsing halts, or the
   * message has a command, the status byte that named it, the position of its
   * first data byte, and the running status after it.
   */
  datatype Framing =
    | Halt
    | Framed(command: MIDI1Msg, status: bv8, start: nat, nextRunning: bv8)

  /**
   * Framing the message at `index` while `running` is the running status. A
   * byte that names no command reuses the running status and is read again
   * as data; with no running status parsing halts. Only channel messages
   * become the running status; any other command clears it.
   */
  function Frame(bytes: seq<bv8>, index: nat, running: bv8): (f: Framing)
    requires index < |bytes| && RunningOk(running)
    ensures f.Halt? <==> Command(bytes[index]).None? && running == 0
    ensures f.Framed? ==> index <= f.start <= index + 1 && RunningOk(f.nextRunning)
    ensures f.Framed? && f.start == index ==> HasChannel(f.command) && PayloadSize(f.command) >= 1
  {
    var status := bytes[index];
    match Command(status)
    case Some(command) => Framed(command, status, index + 1, if HasChannel(command) then status else 0)
    case None =>
      if running == 0 then Halt
      else Framed(Command(running).value, running, index, running)
  }

  /** The endpoint channel update a command causes: one for channel messages, none otherwise. */
  function Updates(command: MIDI1Msg, channel: bv8): (r: seq<Notice>)
    ensures forall n :: n in r ==> !n.Call?
  {
    if HasChannel(command) then [UpdateChannel(channel)] else []
  }

  /** The channel reported for a message: the status's low nibble for channel messages, else zero. */
  function ChannelOf(command: MIDI1Msg, status: bv8): (channel: bv8)
    ensures channel < 16
  {
    if HasChannel(command) then status & 0x0F else 0
  }

  /** The outcome of reading one message: what it produces, and where parsing resumes, if it does. */
  datatype Outcome = Outcome(out: seq<Notice>, resume: bool, next: nat, running: bv8)

  /**
   * Reading the message at `index`. A message without all of its data bytes
   * stops parsing after the channel update. `withReceiver` says whether a
   * receiver is attached.
   */
  function PacketStep(bytes: seq<bv8>, index: nat, running: bv8, withReceiver: bool): (r: Outcome)
    requires index < |bytes| && RunningOk(running)
    ensures r.resume ==> index < r.next <= |bytes| && RunningOk(r.running)
    ensures Command(bytes[index]).None? && running == 0 ==> r.out == [] && !r.resume
    ensures var f := Frame(bytes, index, running);
      r.resume <==> f.Framed? && f.start + PayloadSize(f.command) <= |bytes|
    ensures var f := Frame(bytes, index, running);
      r.resume ==> r.next == f.start + PayloadSize(f.command) && r.running == f.nextRunning
    ensures var f := Frame(bytes, index, running);
      f.Framed? && f.start + PayloadSize(f.command) > |bytes| ==> forall n :: n in r.out ==> !n.Call?
  {
    match Frame(bytes, index, running)
    case Halt => Outcome([], false, index, running)
    case Framed(command, status, start, nextRunning) =>
      var channel := ChannelOf(command, status);
      var needed := PayloadSize(command);
      if start + needed > |bytes| then Outcome(Updates(command, channel), false, index, running)
      else
        var calls := if withReceiver then Dispatch(command, bytes, start, channel) else [];
        Outcome(Updates(command, channel) + calls + [ShowActivity(channel)], true, start + needed, nextRunning)
  }

  /** Everything parsing `bytes` from `index` produces while `running` is the running status. */
  function Notices(bytes: seq<bv8>, index: nat, running: bv8, withReceiver: bool): (r: seq<Notice>)
    requires index <= |bytes| && RunningOk(running)
    decreases |bytes| - index
  {
    if index == |bytes| then []
    else
      var step := PacketStep(bytes, index, running, withReceiver);
      step.out + if step.resume then Notices(bytes, step.next, step.running, withReceiver) else []
  }

  /** Concatenation is associative. */
  lemma Associate<T>(a: seq<T>, b: seq<T>, c: seq<T>)
    ensures a + b + c == a + (b + c)
  {
  }

  /**
   * Reads the message at `index`: the notices it produces, whether parsing
   * goes on, and where, with which running status.
   */
  method ReadMessage(bytes: seq<bv8>, index: nat, runningStatus: bv8, withReceiver: bool)
      returns (out: seq<Notice>, resume: bool, next: nat, nextRunning: bv8)
    requires index < |bytes| && RunningOk(runningStatus)
    ensures Outcome(out, resume, next, nextRunning) == PacketStep(bytes, index, runningStatus, withReceiver)
  {
    next, nextRunning := index, runningStatus;
    var status := bytes[next];
    next := next + 1;
    var command: MIDI1Msg;
    var known := Command(status);
    if known.Some? {
      command := known.value;
      nextRunning := if HasChannel(command) then status else 0;
    } else if Command(nextRunning).Some? {
      command := Command(nextRunning).value;
      status := nextRunning;
      next := next - 1;
    } else {
      return [], false, index, runningStatus;
    }
    assert Frame(bytes, index, runningStatus) == Framed(command, status, next, nextRunning);
    var channel := ChannelOf(command, status);
    out := Updates(command, channel);
    var needed := PayloadSize(command);
    if next + needed > |bytes| {
      return out, false, index, runningStatus;
    }
    var calls := if withReceiver then Dispatch(command, bytes, next, channel) else [];
    out := out + calls + [ShowActivity(channel)];
    next := next + needed;
    resume := true;
  }

  /** Parses one packet; a length of zero or above 64 is taken as corrupt and produces nothing. */
  method ParsePacket(packet: MIDIPacket, withReceiver: bool) returns (notices: seq<Notice>)
    ensures Suspect(packet) ==> notices == []
    ensures !Suspect(packet) ==> notices == Notices(packet.data[..packet.length], 0, 0, withReceiver)
  {
    var byteCount := packet.length;
    if byteCount == 0 || byteCount > 64 {
      return [];
    }
    var bytes := packet.data[..byteCount];
    notices := [];
    var index := 0;
    var runningStatus: bv8 := 0;
    while index < byteCount
      invariant index <= byteCount && RunningOk(runningStatus)
      invariant notices + Notices(bytes, index, runningStatus, withReceiver) == Notices(bytes, 0, 0, withReceiver)
      decreases byteCount - index
    {
      var out, resume;
      ghost var before := notices;
      out, resume, index, runningStatus := ReadMessage(bytes, index, runningStatus, withReceiver);
      notices := notices + out;
      if !resume {
        return;
      }
      Associate(before, out, Notices(bytes, index, runningStatus, withReceiver));
    }
  }

  /** The notices that are not receiver calls. */
  function WithoutCalls(notices: seq<Notice>): (r: seq<Notice>)
    ensures forall n :: n in r <==> n in notices && !n.Call?
  {
    if notices == [] then []
    else (if notices[0].Call? then [] else [notices[0]]) + WithoutCalls(notices[1..])
  }

  /** Dropping calls from a concatenation drops them from each part. */
  lemma {:induction false} WithoutCallsAppend(a: seq<Notice>, b: seq<Notice>)
    ensures WithoutCalls(a + b) == WithoutCalls(a) + WithoutCalls(b)
  {
    if a == [] {
      assert a + b == b;
    } else {
      assert (a + b)[0] == a[0];
      assert (a + b)[1..] == a[1..] + b;
      WithoutCallsAppend(a[1..], b);
    }
  }

  /** Dropping calls from an update, some calls and an activity report leaves the update and the report. */
  lemma DropCalls(update: seq<Notice>, calls: seq<Notice>, report: Notice)
    requires forall n :: n in update ==> !n.Call?
    requires forall n :: n in calls ==> n.Call?
    requires !report.Call?
    ensures WithoutCalls(update + calls + [report]) == update + [report]
  {
    WithoutCallsAppend(update + calls, [report]);
    WithoutCallsAppend(update, calls);
    NoCalls(update);
    OnlyCalls(calls);
    assert WithoutCalls([report]) == [report];
    assert WithoutCalls(update + calls + [report]) == WithoutCalls(update + calls) + [report];
    assert WithoutCalls(update + calls) == update + [];
  }

  /** A sequence without calls loses nothing. */
  lemma {:induction false} NoCalls(s: seq<Notice>)
    requires forall n :: n in s ==> !n.Call?
    ensures WithoutCalls(s) == s
  {
    if s != [] {
      assert s[0] in s;
      NoCalls(s[1..]);
    }
  }

  /** A sequence of calls loses everything. */
  lemma {:induction false} OnlyCalls(s: seq<Notice>)
    requires forall n :: n in s ==> n.Call?
    ensures WithoutCalls(s) == []
  {
    if s != [] {
      assert s[0] in s;
      OnlyCalls(s[1..]);
    }
  }

  /** In one step a receiver adds its calls and changes nothing else. */
  lemma StepWithoutCalls(bytes: seq<bv8>, index: nat, running: bv8)
    requires index < |bytes| && RunningOk(running)
    ensures var step, bare := PacketStep(bytes, index, running, true), PacketStep(bytes, index, running, false);
      WithoutCalls(step.out) == bare.out && (forall n :: n in bare.out ==> !n.Call?) &&
      step.resume == bare.resume && step.next == bare.next && step.running == bare.running
  {
    match Frame(bytes, index, running)
    case Halt =>
    case Framed(command, status, start, _) =>
      var channel := ChannelOf(command, status);
      var update := Updates(command, channel);
      if start + PayloadSize(command) <= |bytes| {
        CompleteWithoutCalls(command, bytes, start, channel);
      } else {
        NoCalls(update);
      }
  }

  /** A complete message read without a receiver produces its notices with the calls dropped, and no call. */
  lemma CompleteWithoutCalls(command: MIDI1Msg, bytes: seq<bv8>, start: nat, channel: bv8)
    requires start + PayloadSize(command) <= |bytes|
    ensures var update, report := Updates(command, channel), [ShowActivity(channel)];
      WithoutCalls(update + Dispatch(command, bytes, start, channel) + report) == update + [] + report &&
      forall n :: n in update + [] + report ==> !n.Call?
  {
    var update := Updates(command, channel);
    DispatchCalls(command, bytes, start, channel);
    DropCalls(update, Dispatch(command, bytes, start, channel), ShowActivity(channel));
    assert update + [] + [ShowActivity(channel)] == update + [ShowActivity(channel)];
  }

  /**
   * Attaching a receiver adds its calls and changes nothing else: the channel
   * updates and activity reports, and where parsing stops, are the same.
   */
  lemma {:induction false} ReceiverOnlyAddsCalls(bytes: seq<bv8>, index: nat, running: bv8)
    requires index <= |bytes| && RunningOk(running)
    ensures WithoutCalls(Notices(bytes, index, running, true)) == Notices(bytes, index, running, false)
    ensures forall n :: n in Notices(bytes, index, running, false) ==> !n.Call?
    decreases |bytes| - index
  {
    if index < |bytes| {
      var step := PacketStep(bytes, index, running, true);
      StepWithoutCalls(bytes, index, running);
      if step.resume {
        ReceiverOnlyAddsCalls(bytes, step.next, step.running);
        WithoutCallsAppend(step.out, Notices(bytes, step.next, step.running, true));
      } else {
        assert step.out + [] == step.out;
      }
    }
  }

  /** Every note start the receiver hears has a non-zero velocity, and every note stop velocity zero. */
  lemma {:induction false} NotesAreWellFormed(bytes: seq<bv8>, index: nat, running: bv8)
    requires index <= |bytes| && RunningOk(running)
    ensures forall n :: n in Notices(bytes, index, running, true) && n.Call? ==> NotesWellFormed(n.call)
    decreases |bytes| - index
  {
    if index < |bytes| {
      var step := PacketStep(bytes, index, running, true);
      match Frame(bytes, index, running)
      case Halt =>
      case Framed(command, status, start, _) =>
        if start + PayloadSize(command) <= |bytes| {
          DispatchCalls(command, bytes, start, ChannelOf(command, status));
          NotesAreWellFormed(bytes, step.next, step.running);
        }
    }
  }

  /** A status byte naming no command, with no running status, ends parsing at once. */
  lemma UnknownStatusStops(bytes: seq<bv8>, index: nat, withReceiver: bool)
    requires index < |bytes| && Command(bytes[index]).None?
    ensures Notices(bytes, index, 0, withReceiver) == []
  {
  }

  /**
   * A message whose data bytes run past the end stops parsing: what is
   * produced from there on is at most its channel update, and no receiver
   * call.
   */
  lemma IncompleteMessageStops(bytes: seq<bv8>, index: nat, running: bv8, withReceiver: bool)
    requires index < |bytes| && RunningOk(running)
    requires Frame(bytes, index, running).Framed?
    requires Frame(bytes, index, running).start + PayloadSize(Frame(bytes, index, running).command) > |bytes|
    ensures var f := Frame(bytes, index, running);
      Notices(bytes, index, running, withReceiver) == Updates(f.command, ChannelOf(f.command, f.status))
    ensures forall n :: n in Notices(bytes, index, running, withReceiver) ==> !n.Call?
  {
  }

  /** Running status: the second note-on of 0x90 0x3C 0x7F 0x3C 0x00 reuses the first status and, with velocity zero, stops the note. */
  lemma RunningStatusExample()
    ensures Notices([0x90, 0x3C, 0x7F, 0x3C, 0x00], 0, 0, true) ==
      [UpdateChannel(0), Call(StartNote(0x3C, 0x7F, 0)), ShowActivity(0),
       UpdateChannel(0), Call(StopNote(0x3C, 0, 0)), ShowActivity(0)]
  {
    var bytes: seq<bv8> := [0x90, 0x3C, 0x7F, 0x3C, 0x00];
    assert Frame(bytes, 0, 0) == Framed(NoteOnKind, 0x90, 1, 0x90);
    assert Frame(bytes, 3, 0x90) == Framed(NoteOnKind, 0x90, 3, 0x90);
    assert Notices(bytes, 5, 0x90, true) == [];
  }

  /** A status without its data bytes announces its channel and nothing else. */
  lemma IncompleteMessageExample()
    ensures Notices([0x91, 64], 0, 0, true) == [UpdateChannel(1)]
  {
    assert Frame([0x91, 64], 0, 0) == Framed(NoteOnKind, 0x91, 1, 0x91);
  }
}

=== FILE: midi_parser.dfy ===
/**
 * The MIDI 1.0 byte-stream parser that turns the bytes of one packet into
 * channel messages: status classification, per-message payload sizes, the
 * channel filter, truncation, and pitch-bend assembly.
 */
module MIDIParsing {
  import opened Wrappers

  /** The channel messages handed to a MIDI receiver. */
  datatype MIDIMsg =
    | NoteOff(note: bv8, velocity: bv8)
    | NoteOn(note: bv8, velocity: bv8)
    | PolyphonicKeyPressure(note: bv8, pressure: bv8)
    | ControlChange(controller: bv8, value: bv8)
    | ProgramChange(program: bv8)
    | ChannelPressure(pressure: bv8)
    | PitchBendChange(bend: bv16)

  /** The kinds of status byte the parser recognises. */
  datatype MsgKind =
    | NoteOffKind | NoteOnKind | PolyphonicKeyPressureKind | ControlChangeKind
    | ProgramChangeKind | ChannelPressureKind | PitchBendChangeKind
    | SystemExclusive | MIDITimeCode | SongPosition | SongSelect | TuneRequest
    | EndSystemExclusive | TimingClock | SequenceStart | SequenceContinue
    | SequenceStop | ActiveSensing | Reset

  /** The raw status value of each kind. */
  function RawValue(k: MsgKind): (raw: bv8)
    ensures raw >= 0x80
    ensures (k.NoteOffKind? || k.NoteOnKind? || k.PolyphonicKeyPressureKind? || k.ControlChangeKind? ||
            k.ProgramChangeKind? || k.ChannelPressureKind? || k.PitchBendChangeKind?) == (raw & 0xF0 != 0xF0)
  {
    match k
    case NoteOffKind => 0x80
    case NoteOnKind => 0x90
    case PolyphonicKeyPressureKind => 0xA0
    case ControlChangeKind => 0xB0
    case ProgramChangeKind => 0xC0
    case ChannelPressureKind => 0xD0
    case PitchBendChangeKind => 0xE0
    case SystemExclusive => 0xF0
    case MIDITimeCode => 0xF1
    case SongPosition => 0xF2
    case SongSelect => 0xF3
    case TuneRequest => 0xF6
    case EndSystemExclusive => 0xF7
    case TimingClock => 0xF8
    case SequenceStart => 0xFA
    case SequenceContinue => 0xFB
    case SequenceStop => 0xFC
    case ActiveSensing => 0xFE
    case Reset => 0xFF
  }

  /** The kind whose raw value is `raw`, if there is one. */
  function FromRawValue(raw: bv8): (r: Option<MsgKind>)
    ensures r.Some? ==> RawValue(r.value) == raw
  {
    match raw
    case 0x80 => Some(NoteOffKind)
    case 0x90 => Some(NoteOnKind)
    case 0xA0 => Some(PolyphonicKeyPressureKind)
    case 0xB0 => Some(ControlChangeKind)
    case 0xC0 => Some(ProgramChangeKind)
    case 0xD0 => Some(ChannelPressureKind)
    case 0xE0 => Some(PitchBendChangeKind)
    case 0xF0 => Some(SystemExclusive)
    case 0xF1 => Some(MIDITimeCode)
    case 0xF2 => Some(SongPosition)
    case 0xF3 => Some(SongSelect)
    case 0xF6 => Some(TuneRequest)
    case 0xF7 => Some(EndSystemExclusive)
    case 0xF8 => Some(TimingClock)
    case 0xFA => Some(SequenceStart)
    case 0xFB => Some(SequenceContinue)
    case 0xFC => Some(SequenceStop)
    case 0xFE => Some(ActiveSensing)
    case 0xFF => Some(Reset)
    case _ => None
  }

  /** Every kind is found again from its raw value. */
  lemma RawValueRoundTrip(k: MsgKind)
    ensures FromRawValue(RawValue(k)) == Some(k)
  {
  }

  /**
   * The kind of a status byte: channel messages are identified by the high
   * nibble alone, system messages (high nibble 0xF) by the whole byte.
   */
  function Kind(status: bv8): (r: Option<MsgKind>)
    ensures r.Some? ==> RawValue(r.value) == (if status & 0xF0 == 0xF0 then status else status & 0xF0)
  {
    var highNibble := status & 0xF0;
    FromRawValue(if highNibble == 0xF0 then status else highNibble)
  }

  /** Channel statuses differing only in the channel nibble have the same kind; data bytes have none. */
  lemma KindMasksChannel(status: bv8)
    ensures status & 0xF0 != 0xF0 ==> Kind(status) == Kind(status & 0xF0)
    ensures status < 0x80 ==> Kind(status) == None
    ensures status & 0xF0 == 0xF0 ==> Kind(status) == FromRawValue(status)
  {
  }

  /** The number of data bytes that follow a status of each kind. */
  function PayloadSize(k: MsgKind): (n: nat)
    ensures n <= 2
    ensures (n == 0) == !(k.NoteOffKind? || k.NoteOnKind? || k.PolyphonicKeyPressureKind? ||
      k.ControlChangeKind? || k.ProgramChangeKind? || k.ChannelPressureKind? ||
      k.PitchBendChangeKind? || k.MIDITimeCode? || k.SongPosition? || k.SongSelect?)
  {
    match k
    case NoteOffKind => 2
    case NoteOnKind => 2
    case PolyphonicKeyPressureKind => 2
    case ControlChangeKind => 2
    case ProgramChangeKind => 1
    case ChannelPressureKind => 1
    case PitchBendChangeKind => 2
    case MIDITimeCode => 1
    case SongPosition => 2
    case SongSelect => 1
    case _ => 0
  }

  /** The 14-bit pitch-bend value of two data bytes, most significant last. */
  function PitchBend(lsb: bv8, msb: bv8): (value: bv16)
    ensures value as int == msb as int * 128 + lsb as int
    ensures lsb < 0x80 && msb < 0x80 ==> value < 0x4000
  {
    PitchBendArithmetic(lsb, msb);
    ((msb as bv16) << 7) + (lsb as bv16)
  }

  /** Shifting a byte left by 7 and adding a byte does not wrap in 16 bits. */
  lemma PitchBendArithmetic(lsb: bv8, msb: bv8)
    ensures (((msb as bv16) << 7) + (lsb as bv16)) as int == msb as int * 128 + lsb as int
  {
    var m := msb as bv16;
    var l := lsb as bv16;
    assert (m << 7) as int == msb as int * 128 by {
      assert m << 7 == m * 128;
    }
  }

  /** The message of a channel kind built from the bytes after the status; none for other kinds. */
  function MakeMIDIMsg(k: MsgKind, payload: seq<bv8>): (r: Option<MIDIMsg>)
    requires |payload| >= PayloadSize(k)
    ensures r.Some? <==> RawValue(k) & 0xF0 != 0xF0
    ensures k.NoteOnKind? ==> r == Some(NoteOn(payload[0], payload[1]))
    ensures k.PitchBendChangeKind? ==> r == Some(PitchBendChange(PitchBend(payload[0], payload[1])))
  {
    match k
    case NoteOffKind => Some(NoteOff(payload[0], payload[1]))
    case NoteOnKind => Some(NoteOn(payload[0], payload[1]))
    case PolyphonicKeyPressureKind => Some(PolyphonicKeyPressure(payload[0], payload[1]))
    case ControlChangeKind => Some(ControlChange(payload[0], payload[1]))
    case ProgramChangeKind => Some(ProgramChange(payload[0]))
    case ChannelPressureKind => Some(ChannelPressure(payload[0]))
    case PitchBendChangeKind => Some(PitchBendChange(PitchBend(payload[0], payload[1])))
    case _ => None
  }

  /** Whether a status passes the channel filter; -1 accepts every channel. */
  predicate OnChannel(status: bv8, channel: int) {
    channel == -1 || channel == (status & 0x0F) as int
  }

  /**
   * One parsing step on the unread bytes `rest`: the message it yields, if
   * any, and how many bytes it consumes.
   */
  function Step(rest: seq<bv8>, channel: int): (r: (Option<MIDIMsg>, nat))
    requires rest != []
    ensures 1 <= r.1 <= |rest|
    ensures Kind(rest[0]).None? ==> r == (None, 1)
    ensures Kind(rest[0]).Some? && PayloadSize(Kind(rest[0]).value) >= |rest| ==> r == (None, |rest|)
    ensures r.0.Some? ==> OnChannel(rest[0], channel) && r.1 == 1 + PayloadSize(Kind(rest[0]).value)
  {
    var status := rest[0];
    match Kind(status)
    case None => (None, 1)
    case Some(k) =>
      var needed := PayloadSize(k);
      if needed > |rest| - 1 then (None, |rest|)
      else ((if OnChannel(status, channel) then MakeMIDIMsg(k, rest[1..]) else None), 1 + needed)
  }

  /** The channel filter drops messages but never changes how many bytes a step consumes. */
  lemma FilterKeepsFraming(rest: seq<bv8>, channel: int)
    requires rest != []
    ensures Step(rest, channel).1 == Step(rest, -1).1
    ensures Step(rest, channel).0 == (if OnChannel(rest[0], channel) then Step(rest, -1).0 else None)
  {
  }

  /** All messages the unread bytes `rest` yield, in order. */
  function Messages(rest: seq<bv8>, channel: int): (msgs: seq<MIDIMsg>)
    ensures |msgs| <= |rest|
    decreases |rest|
  {
    if rest == [] then []
    else
      var (msg, used) := Step(rest, channel);
      (if msg.Some? then [msg.value] else []) + Messages(rest[used..], channel)
  }

  /** A lone status without its data bytes yields nothing. */
  lemma TruncatedYieldsNothing(status: bv8, data: seq<bv8>, channel: int)
    requires Kind(status).Some? && |data| < PayloadSize(Kind(status).value)
    ensures Messages([status] + data, channel) == []
  {
    var rest := [status] + data;
    assert rest[0] == status;
    assert rest[|rest|..] == [];
  }

  /** A note-on followed by its two data bytes yields exactly that note-on on its channel. */
  lemma NoteOnExample(channelNibble: bv8, note: bv8, velocity: bv8)
    requires channelNibble < 16
    ensures Messages([0x90 | channelNibble, note, velocity], channelNibble as int) == [NoteOn(note, velocity)]
    ensures Messages([0x90 | channelNibble, note, velocity], (channelNibble as int + 1) % 16) == []
  {
    var bytes := [0x90 | channelNibble, note, velocity];
    assert (0x90 | channelNibble) & 0xF0 == 0x90 && (0x90 | channelNibble) & 0x0F == channelNibble;
    assert bytes[1..] == [note, velocity];
    assert bytes[3..] == [];
  }

  class Generator {
    /** The packet bytes. */
    const bytes: seq<bv8>
    /** The number of valid bytes in the packet. */
    const count: int
    /** The channel to keep, or -1 for all. */
    const channel: int
    /** The next byte to read. */
    var index: int

    ghost predicate Valid()
      reads this
    {
      0 <= index <= count <= |bytes|
    }

    /** The unread bytes. */
    function Unread(): (rest: seq<bv8>)
      reads this
      requires Valid()
      ensures |rest| == count - index
    {
      bytes[index..count]
    }

    /** A generator over the first `count` bytes of `bytes`. */
    constructor(bytes: seq<bv8>, count: nat, channel: int)
      requires count <= |bytes|
      ensures Valid() && index == 0
      ensures this.bytes == bytes && this.count == count && this.channel == channel
    {
      this.bytes := bytes;
      this.count := count;
      this.channel := channel;
      index := 0;
    }

    /** The number of unread bytes, never negative. */
    function Available(): (n: nat)
      reads this
      ensures n == if count > index then count - index else 0
    {
      if count - index > 0 then count - index else 0
    }

    /** Skips `amount` bytes, but never past the end. */
    method Consume(amount: nat)
      modifies this
      requires Valid()
      ensures Valid()
      ensures index == old(index) + (if amount < old(Available()) then amount else old(Available()))
      ensures index <= count
    {
      index := index + if amount < Available() then amount else Available();
    }

    /** Reads one status and its data bytes, yielding the message if it passes the channel filter. */
    method ParseMIDIMsg() returns (msg: Option<MIDIMsg>)
      modifies this
      requires Valid() && Available() > 0
      ensures Valid()
      ensures (msg, index - old(index)) == Step(old(Unread()), channel)
    {
      var status := bytes[index];
      Consume(1);
      var command := Kind(status);
      if command.None? {
        return None;
      }
      var needed := PayloadSize(command.value);
      if needed > Available() {
        Consume(Available());
        return None;
      }
      msg := if OnChannel(status, channel) then MakeMIDIMsg(command.value, bytes[index..count]) else None;
      Consume(needed);
    }

    /** The next message that passes the filter; None once every byte is consumed. */
    method Next() returns (msg: Option<MIDIMsg>)
      modifies this
      requires Valid()
      ensures Valid()
      ensures old(Available()) > 0 ==> index > old(index)
      ensures msg.None? ==> index == count && old(Messages(Unread(), channel)) == []
      ensures msg.Some? ==> old(Messages(Unread(), channel)) == [msg.value] + Messages(Unread(), channel)
      decreases Available()
    {
      if Available() == 0 {
        return None;
      }
      ghost var before := Unread();
      msg := ParseMIDIMsg();
      assert Unread() == before[index - old(index)..];
      if msg.None? {
        msg := Next();
      }
    }

    /** Collects every message of the unread bytes, leaving this generator where it was. */
    method AllMessages() returns (msgs: seq<MIDIMsg>)
      requires Valid()
      ensures msgs == Messages(Unread(), channel)
    {
      ghost var all := Messages(Unread(), channel);
      var copy := new Generator(bytes, count, channel);
      copy.index := index;
      assert copy.Unread() == Unread();
      msgs := [];
      var done := false;
      while !done
        invariant copy.Valid() && copy.channel == channel
        invariant !done ==> msgs + Messages(copy.Unread(), channel) == all
        invariant done ==> msgs == all
        decreases copy.Available(), !done
      {
        var msg := copy.Next();
        if msg.None? {
          done := true;
        } else {
          msgs := msgs + [msg.value];
        }
      }
    }
  }

  /** The fixed 256-byte data buffer of a packet. */
  type PacketData = s: seq<bv8> | |s| == 256 witness seq(256, _ => 0)

  /** One packet of a packet list: its time stamp, declared length and data buffer. */
  datatype MIDIPacket = MIDIPacket(timeStamp: nat, length: nat, data: PacketData)

  /** The messages of one packet delivered to the receiver together, with the packet's time stamp. */
  datatype Delivery = Delivery(msgs: seq<MIDIMsg>, when: nat)

  /** A packet whose length is zero or above 64 is taken as corrupt. */
  predicate Suspect(packet: MIDIPacket) {
    packet.length == 0 || packet.length > 64
  }

  /**
   * What the receiver gets for a packet list: one delivery per packet with
   * at least one message, stopping at the first suspect packet.
   */
  function Deliveries(packets: seq<MIDIPacket>, channel: int): (r: seq<Delivery>)
    ensures |r| <= |packets|
    ensures forall i :: 0 <= i < |r| ==> r[i].msgs != []
  {
    if packets == [] || Suspect(packets[0]) then []
    else
      var msgs := Messages(packets[0].data[..packets[0].length], channel);
      (if msgs != [] then [Delivery(msgs, packets[0].timeStamp)] else []) + Deliveries(packets[1..], channel)
  }

  /** Nothing after a suspect packet is delivered. */
  lemma {:induction false} StopsAtSuspect(good: seq<MIDIPacket>, bad: MIDIPacket, rest: seq<MIDIPacket>, channel: int)
    requires Suspect(bad)
    ensures Deliveries(good + [bad] + rest, channel) == Deliveries(good, channel)
  {
    var all := good + [bad] + rest;
    if good == [] {
      assert all[0] == bad;
    } else {
      assert all[0] == good[0];
      assert all[1..] == good[1..] + [bad] + rest;
      StopsAtSuspect(good[1..], bad, rest, channel);
    }
  }

  /** Parses every packet of a list, handing each packet's messages to the receiver at once. */
  method Parse(packets: seq<MIDIPacket>, channel: int) returns (delivered: seq<Delivery>)
    ensures delivered == Deliveries(packets, channel)
  {
    delivered := [];
    var index := 0;
    while index < |packets|
      invariant index <= |packets|
      invariant delivered + Deliveries(packets[index..], channel) == Deliveries(packets, channel)
    {
      var packet := packets[index];
      DeliveriesFrom(packets, index, channel);
      if packet.length == 0 || packet.length > 64 {
        break;
      }
      var generator := new Generator(packet.data, packet.length, channel);
      assert generator.Unread() == packet.data[..packet.length];
      var msgs := generator.AllMessages();
      ghost var rest := Deliveries(packets[index + 1..], channel);
      assert msgs == Messages(packet.data[..packet.length], channel);
      if msgs != [] {
        Regroup(delivered, [Delivery(msgs, packet.timeStamp)], rest);
        delivered := delivered + [Delivery(msgs, packet.timeStamp)];
      } else {
        assert [] + rest == rest;
      }
      assert delivered + rest == Deliveries(packets, channel);
      index := index + 1;
    }
  }

  /** The deliveries from packet `index` on: that packet's, then the rest's, unless it is suspect. */
  lemma DeliveriesFrom(packets: seq<MIDIPacket>, index: nat, channel: int)
    requires index < |packets|
    ensures var packet := packets[index];
      Deliveries(packets[index..], channel) ==
        if Suspect(packet) then []
        else
          var msgs := Messages(packet.data[..packet.length], channel);
          (if msgs != [] then [Delivery(msgs, packet.timeStamp)] else []) + Deliveries(packets[index + 1..], channel)
  {
    assert packets[index..][0] == packets[index] && packets[index..][1..] == packets[index + 1..];
  }

  lemma Regroup<T>(a: seq<T>, b: seq<T>, c: seq<T>)
    ensures a + (b + c) == (a + b) + c
  {
  }
}

=== FILE: modulator.dfy ===
/**
 * A SoundFont 2 modulator ('pmod'/'imod' entry): a primary source, a
 * destination that is either a generator or (bit 15 set) another
 * modulator, an amount, an amount source and a transform.
 */
module Modulators {
  import opened ModulatorSources

  /** The number of generator kinds; valid generator destinations lie below it. */
  const GeneratorCount: bv16 := 59

  /** The flag marking a destination that is another modulator. */
  const LinkFlag: bv16 := 0x8000

  datatype Modulator = Modulator(
    source: Source,
    destination: bv16,
    amount: int,
    amountSource: Source,
    transform: bv16)
  {
    /** The modulator feeds another modulator. */
    predicate HasModulatorDestination()
    {
      destination & LinkFlag != 0
    }

    /** The modulator changes a generator directly. */
    predicate HasGeneratorDestination()
    {
      !HasModulatorDestination()
    }

    /** The generator changed by a modulator with a generator destination. */
    function GeneratorDestination(): (index: nat)
      requires HasGeneratorDestination() && destination < GeneratorCount
      ensures index < GeneratorCount as nat && index as bv16 == destination
    {
      destination as nat
    }

    /** The position, in the modulator list, of the modulator fed by this one. */
    function LinkDestination(): (index: bv16)
      requires HasModulatorDestination()
      ensures index < LinkFlag && index | LinkFlag == destination
    {
      destination ^ LinkFlag
    }

    /**
     * Two modulators are the same when their source, destination and amount
     * source agree; the amount and the transform play no part.
     */
    function Same(other: Modulator): (r: bool)
      ensures r <==> this.(amount := other.amount, transform := other.transform) == other
    {
      source == other.source && destination == other.destination && amountSource == other.amountSource
    }

    /** The negation of `Same`: the modulators differ in more than amount and transform. */
    function Differs(other: Modulator): (r: bool)
      ensures r <==> this.(amount := other.amount, transform := other.transform) != other
    {
      !Same(other)
    }
  }

  /** A modulator built from values, aimed at generator `dest`. */
  function MakeModulator(source: Source, dest: bv16, amount: int, amountSource: Source, transform: bv16): (m: Modulator)
    requires dest < GeneratorCount
    ensures m.HasGeneratorDestination() && m.destination == dest
    ensures m.source == source && m.amount == amount && m.amountSource == amountSource && m.transform == transform
  {
    Modulator(source, dest, amount, amountSource, transform)
  }

  /** Exactly one of the two destination kinds holds, decided by bit 15. */
  lemma DestinationKinds(m: Modulator)
    ensures m.HasModulatorDestination() != m.HasGeneratorDestination()
    ensures m.HasModulatorDestination() <==> m.destination >= LinkFlag
  {
  }

  /** `Same` ignores the amount and the transform. */
  lemma SameIgnoresAmountAndTransform(m: Modulator, amount: int, transform: bv16)
    ensures m.Same(m.(amount := amount, transform := transform))
  {
  }

  /** `Same` is an equivalence. */
  lemma SameIsEquivalence(a: Modulator, b: Modulator, c: Modulator)
    ensures a.Same(a)
    ensures a.Same(b) ==> b.Same(a)
    ensures a.Same(b) && b.Same(c) ==> a.Same(c)
  {
  }

  /** Modulators aimed at different destinations differ whatever their sources. */
  lemma DifferentDestinationsDiffer(a: Modulator, b: Modulator)
    requires a.destination != b.destination
    ensures a.Differs(b)
  {
  }
}

=== FILE: modulator_source.dfy ===
/**
 * The source of a SoundFont 2 modulator: one 16-bit word whose bit fields
 * name a controller (bits 0-6), flag a MIDI continuous controller (bit 7),
 * give the direction (bit 8), the polarity (bit 9) and the continuity type
 * (bits 10-15). A builder sets those fields one at a time.
 */
module ModulatorSources {

  /** The controllers a general (non-MIDI-CC) source can name. */
  datatype GeneralIndex =
    | NoController
    | NoteOnVelocity
    | NoteOnKeyValue
    | KeyPressure
    | ChannelPressure
    | PitchWheel
    | PitchWheelSensitivity
    | Link

  /** The numeric value of a general controller. */
  function GeneralIndexValue(index: GeneralIndex): (v: bv16)
    ensures v < 0x80
    ensures v == 0 <==> index == NoController
    ensures v == 127 <==> index == Link
  {
    match index
    case NoController => 0
    case NoteOnVelocity => 2
    case NoteOnKeyValue => 3
    case KeyPressure => 10
    case ChannelPressure => 13
    case PitchWheel => 14
    case PitchWheelSensitivity => 16
    case Link => 127
  }

  /** The controller values a general source may hold. */
  predicate IsGeneralIndexValue(v: bv16)
  {
    v == 0 || v == 2 || v == 3 || v == 10 || v == 13 || v == 14 || v == 16 || v == 127
  }

  /** The general controller with a value, the inverse of `GeneralIndexValue`. */
  function GeneralIndexOf(v: bv16): (index: GeneralIndex)
    requires IsGeneralIndexValue(v)
    ensures GeneralIndexValue(index) == v
  {
    if v == 0 then NoController
    else if v == 2 then NoteOnVelocity
    else if v == 3 then NoteOnKeyValue
    else if v == 10 then KeyPressure
    else if v == 13 then ChannelPressure
    else if v == 14 then PitchWheel
    else if v == 16 then PitchWheelSensitivity
    else Link
  }

  /** Reading a controller's value back names the same controller. */
  lemma GeneralIndexRoundTrip(index: GeneralIndex)
    ensures IsGeneralIndexValue(GeneralIndexValue(index))
    ensures GeneralIndexOf(GeneralIndexValue(index)) == index
  {
  }

  /** How controller values are shaped before use. */
  datatype ContinuityType = Linear | Concave | Convex | Switched

  function ContinuityValue(t: ContinuityType): (v: bv16)
    ensures v <= 3
  {
    match t
    case Linear => 0
    case Concave => 1
    case Convex => 2
    case Switched => 3
  }

  /** The continuity type with a value of at most 3. */
  function ContinuityOf(v: bv16): (t: ContinuityType)
    requires v <= 3
    ensures ContinuityValue(t) == v
  {
    if v == 0 then Linear else if v == 1 then Concave else if v == 2 then Convex else Switched
  }

  /** The flag of a MIDI continuous controller source. */
  const ContinuousFlag: bv16 := 0x80
  /** Set when values run from large to small. */
  const DirectionFlag: bv16 := 0x100
  /** Set when values are bipolar. */
  const PolarityFlag: bv16 := 0x200

  /** The bits of a source naming a general controller. */
  function GeneralControllerBits(index: GeneralIndex): bv16
  {
    GeneralIndexValue(index) & 0x7F
  }

  /**
   * The bits of a source naming MIDI controller `index`: the low seven bits
   * of its 16-bit two's-complement form, with the continuous flag.
   */
  function ContinuousControllerBits(index: int): bv16
  {
    LowSevenBits(index) | ContinuousFlag
  }

  /** The low seven bits of an integer in two's complement. */
  function LowSevenBits(index: int): (v: bv16)
    ensures v < 0x80
  {
    (index % 128) as bv16
  }

  /** The bits with the continuity type replaced by `t`, bits 0-9 kept. */
  function WithContinuity(bits: bv16, t: ContinuityType): bv16
  {
    (bits & 0x3FF) | (ContinuityValue(t) << 10)
  }

  /** An immutable modulator source. */
  datatype Source = Source(bits: bv16)
  {
    function RawIndex(): (v: bv16)
      ensures v < 0x80
    {
      bits & 0x7F
    }

    function RawType(): (v: bv16)
      ensures v < 64
    {
      bits >> 10
    }

    /** Bit 7 of the word flags a MIDI continuous controller. */
    function IsContinuousController(): (r: bool)
      ensures r <==> (bits >> 7) & 1 == 1
    {
      bits & ContinuousFlag != 0
    }

    /** With bit 7 clear the index names a general controller. */
    function IsGeneralController(): (r: bool)
      ensures r <==> (bits >> 7) & 1 == 0
    {
      !IsContinuousController()
    }

    /** Bit 9 clear: the source ranges over 0 to 1. */
    function IsUnipolar(): (r: bool)
      ensures r <==> (bits >> 9) & 1 == 0
    {
      bits & PolarityFlag == 0
    }

    /** Bit 9 set: the source ranges over -1 to 1. */
    function IsBipolar(): (r: bool)
      ensures r <==> (bits >> 9) & 1 == 1
    {
      !IsUnipolar()
    }

    /** Bit 8 clear: the value grows with the controller. */
    function IsMinToMax(): (r: bool)
      ensures r <==> (bits >> 8) & 1 == 0
    {
      bits & DirectionFlag == 0
    }

    /** Bit 8 set: the value falls as the controller grows. */
    function IsMaxToMin(): (r: bool)
      ensures r <==> (bits >> 8) & 1 == 1
    {
      !IsMinToMax()
    }

    /**
     * A source is valid when its continuity type is known and its
     * controller is allowed for its kind: MIDI controllers exclude 0, 6,
     * 32-63, 98, 101 and 120-127; general controllers must be listed.
     */
    function IsValid(): (r: bool)
      ensures RawType() > 3 ==> !r
      ensures IsGeneralController() && RawType() <= 3 ==> (r <==> RawIndex() in {0, 2, 3, 10, 13, 14, 16, 127})
      ensures r && IsContinuousController() ==> 0 < RawIndex() < 120
    {
      RawType() <= 3 &&
      var idx := RawIndex();
      if IsContinuousController() then
        !(idx == 0 || idx == 6 || (32 <= idx <= 63) || idx == 98 || idx == 101 || (120 <= idx <= 127))
      else
        IsGeneralIndexValue(idx)
    }

    /** The general controller named by a valid general source. */
    function GeneralIndex(): (index: GeneralIndex)
      requires IsValid() && IsGeneralController()
      ensures GeneralIndexValue(index) == RawIndex()
    {
      GeneralIndexOf(RawIndex())
    }

    /** The MIDI controller named by a valid continuous source. */
    function ContinuousIndex(): (index: int)
      requires IsValid() && IsContinuousController()
      ensures 0 < index < 120 && index == RawIndex() as int
    {
      RawIndex() as int
    }

    /** Linked sources take their value from another modulator: valid general sources with index 127. */
    function IsLinked(): (r: bool)
      ensures r <==> IsValid() && IsGeneralController() && RawIndex() == 127
      ensures r ==> !IsNone()
    {
      IsValid() && IsGeneralController() && GeneralIndex() == Link
    }

    /** A source that is invalid or names no controller: a general source with index 0. */
    function IsNone(): (r: bool)
      ensures r <==> !IsValid() || (IsGeneralController() && RawIndex() == 0)
    {
      !IsValid() || (IsGeneralController() && GeneralIndex() == NoController)
    }

    /** The continuity type of a valid source. */
    function Type(): (t: ContinuityType)
      requires IsValid()
      ensures ContinuityValue(t) == RawType()
    {
      ContinuityOf(RawType())
    }

    /** The name of the continuity type, or "N/A" for an invalid source. */
    function ContinuityTypeName(): (name: string)
      ensures name == "N/A" <==> !IsValid()
      ensures name in {"linear", "concave", "convex", "switched", "N/A"}
      ensures IsValid() ==> name == TypeName(Type())
    {
      if IsValid() then TypeName(Type()) else "N/A"
    }
  }

  /** The printed name of a continuity type; distinct types print differently. */
  function TypeName(t: ContinuityType): (name: string)
    ensures name in {"linear", "concave", "convex", "switched"}
  {
    match t
    case Linear => "linear"
    case Concave => "concave"
    case Convex => "convex"
    case Switched => "switched"
  }

  /** The name identifies the continuity type, and no type prints as "N/A". */
  lemma TypeNameInjective(t: ContinuityType, u: ContinuityType)
    ensures TypeName(t) == TypeName(u) ==> t == u
    ensures TypeName(t) != "N/A"
  {
  }

  /** Builds the bits of a source field by field. */
  class Builder {
    var bits: bv16

    /** A builder for a general controller source. */
    constructor GeneralController(index: GeneralIndex)
      ensures bits == GeneralControllerBits(index)
    {
      bits := GeneralIndexValue(index) & 0x7F;
    }

    /** A builder for a MIDI continuous controller source. */
    constructor ContinuousController(index: int)
      ensures bits == ContinuousControllerBits(index)
    {
      bits := LowSevenBits(index) | ContinuousFlag;
    }

    method Positive()
      modifies this
      ensures bits == old(bits) & !DirectionFlag
    {
      bits := bits & !DirectionFlag;
    }

    method Negative()
      modifies this
      ensures bits == old(bits) | DirectionFlag
    {
      bits := bits | DirectionFlag;
    }

    method Unipolar()
      modifies this
      ensures bits == old(bits) & !PolarityFlag
    {
      bits := bits & !PolarityFlag;
    }

    method Bipolar()
      modifies this
      ensures bits == old(bits) | PolarityFlag
    {
      bits := bits | PolarityFlag;
    }

    method Continuity(t: ContinuityType)
      modifies this
      ensures bits == WithContinuity(old(bits), t)
    {
      bits := (bits & 0x3FF) | (ContinuityValue(t) << 10);
    }

    method Linear()
      modifies this
      ensures bits == WithContinuity(old(bits), ContinuityType.Linear)
    {
      Continuity(ContinuityType.Linear);
    }

    method Concave()
      modifies this
      ensures bits == WithContinuity(old(bits), ContinuityType.Concave)
    {
      Continuity(ContinuityType.Concave);
    }

    method Convex()
      modifies this
      ensures bits == WithContinuity(old(bits), ContinuityType.Convex)
    {
      Continuity(ContinuityType.Convex);
    }

    method Switched()
      modifies this
      ensures bits == WithContinuity(old(bits), ContinuityType.Switched)
    {
      Continuity(ContinuityType.Switched);
    }

    /** The source holding the bits built so far. */
    function Make(): Source
      reads this
    {
      Source(bits)
    }
  }

  /**
   * A general controller source names that controller, is valid, and is
   * unipolar, min-to-max and linear until the builder changes those.
   */
  lemma GeneralControllerSource(index: GeneralIndex)
    ensures var s := Source(GeneralControllerBits(index));
      s.IsGeneralController() && s.IsValid() && s.GeneralIndex() == index &&
      s.IsUnipolar() && s.IsMinToMax() && s.Type() == ContinuityType.Linear
  {
    GeneralIndexRoundTrip(index);
  }

  /** A continuous controller source has the CC flag and the index's low seven bits. */
  lemma ContinuousControllerSource(index: int)
    ensures var s := Source(ContinuousControllerBits(index));
      s.IsContinuousController() && s.RawIndex() == LowSevenBits(index) &&
      s.IsUnipolar() && s.IsMinToMax() && s.RawType() == 0
  {
    FlaggedLowBits(LowSevenBits(index));
  }

  /** Flagging seven low bits keeps them and sets nothing above bit 7. */
  lemma FlaggedLowBits(low: bv16)
    requires low < 0x80
    ensures (low | ContinuousFlag) & 0x7F == low
    ensures (low | ContinuousFlag) & ContinuousFlag != 0
    ensures (low | ContinuousFlag) & (PolarityFlag | DirectionFlag) == 0
    ensures (low | ContinuousFlag) >> 10 == 0
  {
  }

  /** The direction setters change bit 8 only and decide `IsMinToMax`. */
  lemma DirectionChangesOnlyBit8(bits: bv16)
    ensures (bits & !DirectionFlag) & !DirectionFlag == bits & !DirectionFlag
    ensures (bits | DirectionFlag) & !DirectionFlag == bits & !DirectionFlag
    ensures Source(bits & !DirectionFlag).IsMinToMax()
    ensures Source(bits | DirectionFlag).IsMaxToMin()
  {
  }

  /** The polarity setters change bit 9 only and decide `IsUnipolar`. */
  lemma PolarityChangesOnlyBit9(bits: bv16)
    ensures (bits & !PolarityFlag) & !PolarityFlag == bits & !PolarityFlag
    ensures (bits | PolarityFlag) & !PolarityFlag == bits & !PolarityFlag
    ensures Source(bits & !PolarityFlag).IsUnipolar()
    ensures Source(bits | PolarityFlag).IsBipolar()
  {
  }

  /**
   * Setting the continuity replaces the type, keeps bits 0-9 (controller,
   * flag, direction and polarity), and a source valid before stays valid
   * and reports the new type.
   */
  lemma ContinuityKeepsLowBits(bits: bv16, t: ContinuityType)
    ensures Source(WithContinuity(bits, t)).RawType() == ContinuityValue(t)
    ensures WithContinuity(bits, t) & 0x3FF == bits & 0x3FF
    ensures Source(bits).IsValid() ==>
      Source(WithContinuity(bits, t)).IsValid() && Source(WithContinuity(bits, t)).Type() == t
  {
    var s := Source(WithContinuity(bits, t));
    assert s.RawIndex() == Source(bits).RawIndex();
    assert s.IsContinuousController() == Source(bits).IsContinuousController();
  }

  /**
   * The note-on velocity source that is negative and concave has the bits
   * 0x0502, the source of the default velocity-to-attenuation modulator of
   * section 8.4.1 of the SoundFont 2.01 specification.
   */
  lemma VelocitySourceExample()
    ensures WithContinuity(GeneralControllerBits(NoteOnVelocity) | DirectionFlag, ContinuityType.Concave) == 0x0502
  {
  }
}

=== FILE: name_order.dfy ===
/**
 * The display-name ordering used to keep sound fonts sorted: "a is ordered
 * ascending before b". Names are compared character by character; a proper
 * prefix comes first.
 */
module NameOrder {

  /** True when `a` sorts strictly before `b`. */
  function Less(a: string, b: string): (r: bool)
    ensures r ==> a != b
  {
    if a == [] then b != []
    else if b == [] then false
    else if a[0] != b[0] then a[0] < b[0]
    else Less(a[1..], b[1..])
  }

  /** The ordering is transitive. */
  lemma {:induction false} Transitive(a: string, b: string, c: string)
    requires Less(a, b) && Less(b, c)
    ensures Less(a, c)
  {
    if a != [] && b != [] && c != [] && a[0] == b[0] == c[0] {
      Transitive(a[1..], b[1..], c[1..]);
    }
  }

  /** Any two different names are ordered one way or the other. */
  lemma {:induction false} Total(a: string, b: string)
    ensures a == b || Less(a, b) || Less(b, a)
  {
    if a != [] && b != [] && a[0] == b[0] {
      Total(a[1..], b[1..]);
      if a[1..] == b[1..] {
        assert a == [a[0]] + a[1..] && b == [b[0]] + b[1..];
      }
    }
  }

  /** "Not after" is transitive as well. */
  lemma NotAfterTransitive(a: string, b: string, c: string)
    requires !Less(b, a) && !Less(c, b)
    ensures !Less(c, a)
  {
    Total(a, b);
    Total(b, c);
    if Less(a, b) && Less(b, c) {
      Transitive(a, b, c);
      Asymmetric(a, c);
    } else if Less(a, b) {
      Asymmetric(a, b);
    } else if Less(b, c) {
      Asymmetric(b, c);
    }
  }

  /** At most one of two names sorts before the other. */
  lemma {:induction false} Asymmetric(a: string, b: string)
    ensures Less(a, b) ==> !Less(b, a)
  {
    if a != [] && b != [] && a[0] == b[0] {
      Asymmetric(a[1..], b[1..]);
    }
  }
}

=== FILE: preset.dfy ===
/**
 * A preset of a sound font and the keys of the favourites made from it:
 * making a favourite records its key, and validation drops the keys the
 * favourites provider no longer knows.
 */
module Presets {
  import opened SequenceEdits
  import SoundFonts
  import Favorites

  /** The keys of `keys` that `known` contains, in their order. */
  function Kept(keys: seq<Favorites.FavoriteKey>, known: set<Favorites.FavoriteKey>): (r: seq<Favorites.FavoriteKey>)
    ensures |r| <= |keys|
  {
    if keys == [] then []
    else (if keys[0] in known then [keys[0]] else []) + Kept(keys[1..], known)
  }

  /** The kept keys are exactly the keys that are known. */
  lemma {:induction false} KeptMembers(keys: seq<Favorites.FavoriteKey>, known: set<Favorites.FavoriteKey>)
    ensures forall k :: k in Kept(keys, known) <==> k in keys && k in known
  {
    if keys != [] {
      KeptMembers(keys[1..], known);
      assert keys == [keys[0]] + keys[1..];
    }
  }

  /** Filtering a concatenation filters each part: the kept keys stay in order. */
  lemma {:induction false} KeptAppend(a: seq<Favorites.FavoriteKey>, b: seq<Favorites.FavoriteKey>, known: set<Favorites.FavoriteKey>)
    ensures Kept(a + b, known) == Kept(a, known) + Kept(b, known)
  {
    if a == [] {
      assert a + b == b;
    } else {
      var head := if a[0] in known then [a[0]] else [];
      assert (a + b)[0] == a[0];
      assert (a + b)[1..] == a[1..] + b;
      assert Kept(a + b, known) == head + Kept(a[1..] + b, known);
      KeptAppend(a[1..], b, known);
      assert Kept(a, known) == head + Kept(a[1..], known);
      assert head + (Kept(a[1..], known) + Kept(b, known)) == (head + Kept(a[1..], known)) + Kept(b, known);
    }
  }

  /** Keys that are all known are all kept. */
  lemma {:induction false} KeptAll(keys: seq<Favorites.FavoriteKey>, known: set<Favorites.FavoriteKey>)
    requires forall i :: 0 <= i < |keys| ==> keys[i] in known
    ensures Kept(keys, known) == keys
  {
    if keys != [] {
      KeptAll(keys[1..], known);
    }
  }

  /**
   * The positions in `lo..hi` whose keys `known` lacks, from the highest down:
   * the order in which the reversed enumeration meets them.
   */
  function Unknown(keys: seq<Favorites.FavoriteKey>, known: set<Favorites.FavoriteKey>, lo: nat, hi: nat): (r: seq<nat>)
    requires lo <= hi <= |keys|
    ensures forall i :: 0 <= i < |r| ==> lo <= r[i] < hi && keys[r[i]] !in known
    decreases hi
  {
    if hi == lo then []
    else (if keys[hi - 1] !in known then [hi - 1] else []) + Unknown(keys, known, lo, hi - 1)
  }

  /** The positions come out strictly descending. */
  lemma {:induction false} UnknownDescending(keys: seq<Favorites.FavoriteKey>, known: set<Favorites.FavoriteKey>, lo: nat, hi: nat)
    requires lo <= hi <= |keys|
    ensures forall i, j :: 0 <= i < j < |Unknown(keys, known, lo, hi)| ==>
      Unknown(keys, known, lo, hi)[i] > Unknown(keys, known, lo, hi)[j]
    decreases hi
  {
    if hi > lo {
      UnknownDescending(keys, known, lo, hi - 1);
    }
  }

  /** Meeting one lower position appends it (when unknown) to the end. */
  lemma {:induction false} UnknownExtendLow(keys: seq<Favorites.FavoriteKey>, known: set<Favorites.FavoriteKey>, lo: nat, hi: nat)
    requires 0 < lo <= hi <= |keys|
    ensures Unknown(keys, known, lo - 1, hi) ==
      Unknown(keys, known, lo, hi) + (if keys[lo - 1] !in known then [lo - 1] else [])
    decreases hi
  {
    if hi > lo {
      UnknownExtendLow(keys, known, lo, hi - 1);
    }
  }

  /**
   * The first of the unknown positions below `t` is the highest one: every key
   * between it and `t` is known, and the rest of the list are the unknown
   * positions below it.
   */
  lemma {:induction false} UnknownHead(keys: seq<Favorites.FavoriteKey>, known: set<Favorites.FavoriteKey>, t: nat)
    requires t <= |keys| && Unknown(keys, known, 0, t) != []
    ensures var x := Unknown(keys, known, 0, t)[0];
      x < t && keys[x] !in known &&
      (forall i :: x < i < t ==> keys[i] in known) &&
      Unknown(keys, known, 0, t)[1..] == Unknown(keys, known, 0, x)
    decreases t
  {
    if keys[t - 1] in known {
      assert Unknown(keys, known, 0, t) == Unknown(keys, known, 0, t - 1);
      UnknownHead(keys, known, t - 1);
    } else {
      assert Unknown(keys, known, 0, t) == [t - 1] + Unknown(keys, known, 0, t - 1);
    }
  }

  /** No unknown position below `t` means every key below `t` is known. */
  lemma {:induction false} NoUnknown(keys: seq<Favorites.FavoriteKey>, known: set<Favorites.FavoriteKey>, t: nat)
    requires t <= |keys| && Unknown(keys, known, 0, t) == []
    ensures forall i :: 0 <= i < t ==> keys[i] in known
    decreases t
  {
    if t > 0 {
      NoUnknown(keys, known, t - 1);
    }
  }

  /** From an unknown position followed by known ones up to `t`, filtering keeps just those known ones. */
  lemma KeptFromUnknown(keys: seq<Favorites.FavoriteKey>, known: set<Favorites.FavoriteKey>, t: nat, x: nat)
    requires x < t <= |keys| && keys[x] !in known
    requires forall i :: x < i < t ==> keys[i] in known
    ensures Kept(keys[x..], known) == keys[x + 1..t] + Kept(keys[t..], known)
  {
    var middle := keys[x + 1..t];
    KeptAll(middle, known);
    assert keys[x..] == [keys[x]] + (middle + keys[t..]);
    assert Kept(keys[x..], known) == Kept(middle + keys[t..], known);
    KeptAppend(middle, keys[t..], known);
  }

  /** Removing the highest unknown position below `t` extends the filtered suffix down to it. */
  lemma RemoveUnknown(keys: seq<Favorites.FavoriteKey>, known: set<Favorites.FavoriteKey>, t: nat, x: nat)
    requires x < t <= |keys| && keys[x] !in known
    requires forall i :: x < i < t ==> keys[i] in known
    ensures Remove(keys[..t] + Kept(keys[t..], known), x) == keys[..x] + Kept(keys[x..], known)
  {
    KeptFromUnknown(keys, known, t, x);
    var a := keys[..t] + Kept(keys[t..], known);
    assert a[..x] == keys[..x];
    assert a[x + 1..] == keys[x + 1..t] + Kept(keys[t..], known);
  }

  /**
   * One removal of the validation: the highest unknown position below `t` is
   * removed, which extends the filtered suffix down to it and leaves the
   * unknown positions below it to remove.
   */
  lemma DropHighestUnknown(keys: seq<Favorites.FavoriteKey>, known: set<Favorites.FavoriteKey>, t: nat)
    requires t <= |keys| && Unknown(keys, known, 0, t) != []
    ensures var x := Unknown(keys, known, 0, t)[0];
      x < t && Unknown(keys, known, 0, t)[1..] == Unknown(keys, known, 0, x) &&
      Remove(keys[..t] + Kept(keys[t..], known), x) == keys[..x] + Kept(keys[x..], known)
  {
    UnknownHead(keys, known, t);
    RemoveUnknown(keys, known, t, Unknown(keys, known, 0, t)[0]);
  }

  /** With no unknown position left below `t`, the list is the filtered list and holds only known keys. */
  lemma NoneLeftUnknown(keys: seq<Favorites.FavoriteKey>, known: set<Favorites.FavoriteKey>, t: nat)
    requires t <= |keys| && Unknown(keys, known, 0, t) == []
    ensures keys[..t] + Kept(keys[t..], known) == Kept(keys, known)
    ensures forall k :: k in Kept(keys, known) ==> k in known
  {
    NoUnknown(keys, known, t);
    KeptAll(keys[..t], known);
    assert keys == keys[..t] + keys[t..];
    KeptAppend(keys[..t], keys[t..], known);
    KeptMembers(keys, known);
  }

  /**
   * The whitespace and newline characters trimmed from a preset's name: the
   * ASCII ones (space, tab, line feed, vertical tab, form feed, carriage return).
   */
  predicate IsBlank(c: char)
  {
    c == ' ' || c == '\t' || c == '\n' || c == '\r' || c as int == 0x0B || c as int == 0x0C
  }

  /** `s` without its leading blanks. */
  function TrimFront(s: string): (r: string)
    ensures |r| <= |s| && r == s[|s| - |r|..]
    ensures r == [] || !IsBlank(r[0])
    ensures forall i :: 0 <= i < |s| - |r| ==> IsBlank(s[i])
  {
    if s != [] && IsBlank(s[0]) then TrimFront(s[1..]) else s
  }

  /** `s` without its trailing blanks. */
  function TrimBack(s: string): (r: string)
    ensures |r| <= |s| && r == s[..|r|]
    ensures r == [] || !IsBlank(r[|r| - 1])
    ensures forall i :: |r| <= i < |s| ==> IsBlank(s[i])
  {
    if s != [] && IsBlank(s[|s| - 1]) then TrimBack(s[..|s| - 1]) else s
  }

  /**
   * `trimmingCharacters(in: .whitespacesAndNewlines)`: the part of `s` between
   * its leading and its trailing blanks. It neither begins nor ends with a
   * blank, and everything dropped is blank.
   */
  function Trimmed(s: string): (r: string)
    ensures r == [] || (!IsBlank(r[0]) && !IsBlank(r[|r| - 1]))
    ensures var lo := |s| - |TrimFront(s)|; lo + |r| <= |s| && r == s[lo..lo + |r|]
    ensures var lo := |s| - |TrimFront(s)|;
      forall i :: 0 <= i < |s| && !(lo <= i < lo + |r|) ==> IsBlank(s[i])
  {
    TrimBack(TrimFront(s))
  }

  /** Trimming a trimmed name changes nothing. */
  lemma TrimmedIdempotent(s: string)
    ensures Trimmed(Trimmed(s)) == Trimmed(s)
  {
    var r := Trimmed(s);
    assert TrimFront(r) == r;
    assert TrimBack(r) == r;
  }

  class Preset {
    /** The preset's name as stored in the sound font. */
    const originalName: string
    /** The bank holding the preset. */
    const bank: int
    /** The program number of the preset in its bank. */
    const program: int
    /** The preset's position in its sound font's presets. */
    const soundFontIndex: nat
    /** The user-visible name of the preset. */
    var name: string
    /** The keys of the favourites made from this preset. */
    var favorites: seq<Favorites.FavoriteKey>

    /** A preset without favourites, shown under its name without surrounding blanks. */
    constructor(name: string, bank: int, program: int, index: nat)
      ensures originalName == name && this.name == Trimmed(name)
      ensures this.bank == bank && this.program == program && soundFontIndex == index
      ensures favorites == []
    {
      originalName := name;
      this.name := Trimmed(name);
      this.bank := bank;
      this.program := program;
      soundFontIndex := index;
      favorites := [];
    }

    /**
     * Makes a favourite of this preset under the freshly generated key `key`
     * and records that key, and only that key, at the end of `favorites`.
     */
    method MakeFavorite(soundFontAndPreset: SoundFonts.SoundFontAndPreset, key: Favorites.FavoriteKey)
        returns (favorite: Favorites.Favorite)
      modifies this
      ensures favorite == Favorites.Favorite(key, soundFontAndPreset, name)
      ensures favorites == old(favorites) + [favorite.key]
      ensures name == old(name)
    {
      favorite := Favorites.Favorite(key, soundFontAndPreset, name);
      favorites := favorites + [favorite.key];
    }

    /**
     * Drops the favourite keys that `known` (the keys the favourites provider
     * contains) lacks: the unknown positions are collected from the highest
     * down and then removed in that order, so every removal is in bounds.
     */
    method Validate(known: set<Favorites.FavoriteKey>)
      modifies this
      ensures favorites == Kept(old(favorites), known)
      ensures forall k :: k in favorites ==> k in known
    {
      ghost var keys := favorites;
      var invalid: seq<nat> := [];
      var i := |favorites|;
      while i > 0
        invariant 0 <= i <= |keys| && favorites == keys
        invariant invalid == Unknown(keys, known, i, |keys|)
      {
        UnknownExtendLow(keys, known, i, |keys|);
        i := i - 1;
        if favorites[i] !in known {
          invalid := invalid + [i];
        }
      }

      ghost var t: nat := |keys|;
      assert keys[t..] == [];
      assert keys[..t] == keys;
      var m := 0;
      while m < |invalid|
        invariant m <= |invalid| && t <= |keys|
        invariant invalid[m..] == Unknown(keys, known, 0, t)
        invariant favorites == keys[..t] + Kept(keys[t..], known)
        decreases |invalid| - m
      {
        var x := invalid[m];
        DropHighestUnknown(keys, known, t);
        favorites := Remove(favorites, x);
        assert invalid[m + 1..] == invalid[m..][1..];
        t := x;
        m := m + 1;
      }
      NoneLeftUnknown(keys, known, t);
    }
  }
}

=== FILE: project_contents.dfy ===
/**
 * Rewriting of an Xcode project file by the version-bump script: every
 * `MARKETING_VERSION = a.b.c;` gets the new marketing version, then every
 * `CURRENT_PROJECT_VERSION = digits;` gets the new build number. Each rewrite
 * is a regular-expression substitution, modelled as Python's `re.sub`:
 * matches are found left to right, never overlap, and scanning resumes
 * right after each replaced match.
 */
module ProjectContents {
  import MV = MarketingVersion
  import opened Wrappers

  /**
   * One of the two substitution patterns: `(LABEL =) (VALUE);` where the
   * key text includes the space after `=`, and the value is
   * `[0-9]+\.[0-9]+\.[0-9]+` when `dotted`, `[0-9]*` otherwise.
   */
  datatype Pattern = Pattern(key: string, dotted: bool)

  const Marketing := Pattern("MARKETING_VERSION = ", true)
  const Build := Pattern("CURRENT_PROJECT_VERSION = ", false)

  /** Characters a value is made of. */
  predicate ValueChar(p: Pattern, c: char)
  {
    MV.IsDigit(c) || (p.dotted && c == '.')
  }

  /** A value the pattern accepts. */
  predicate IsValue(p: Pattern, v: string)
  {
    (forall i :: 0 <= i < |v| ==> ValueChar(p, v[i]))
    && (p.dotted ==>
          var parts := MV.Split(v, '.');
          |parts| == 3 && |parts[0]| > 0 && |parts[1]| > 0 && |parts[2]| > 0)
  }

  /** The complete text of one setting with value `v`. */
  function SettingText(p: Pattern, v: string): string
  {
    p.key + v + ";"
  }

  /** Length of the longest prefix of `t` made of value characters. */
  function ValueRun(p: Pattern, t: string): (n: nat)
    ensures n <= |t|
    ensures forall i :: 0 <= i < n ==> ValueChar(p, t[i])
    ensures n < |t| ==> !ValueChar(p, t[n])
  {
    if t != [] && ValueChar(p, t[0]) then 1 + ValueRun(p, t[1..]) else 0
  }

  /**
   * The value of the match of `p` at the start of `t`, if any. The value is
   * the whole run of value characters, since `;` is not one of them.
   */
  function MatchAt(p: Pattern, t: string): (r: Option<string>)
    ensures r.Some? ==> IsValue(p, r.value) && SettingText(p, r.value) <= t
  {
    if p.key <= t then
      var w := t[|p.key|..];
      var n := ValueRun(p, w);
      if n < |w| && w[n] == ';' && IsValue(p, w[..n]) then
        assert t == p.key + w && w[..n + 1] == w[..n] + ";";
        Some(w[..n])
      else None
    else None
  }

  /** Length of the text a match covers. */
  function MatchLength(p: Pattern, v: string): nat
  {
    |SettingText(p, v)|
  }

  /** `re.sub(pattern, label + value + ";", t)`. */
  function Substitute(p: Pattern, t: string, value: string): string
    decreases |t|
  {
    if t == [] then []
    else
      match MatchAt(p, t)
      case Some(v) => SettingText(p, value) + Substitute(p, t[MatchLength(p, v)..], value)
      case None => [t[0]] + Substitute(p, t[1..], value)
  }

  /** `updateProjectContents`: first the marketing versions, then the build numbers. */
  function UpdateProjectContents(contents: string, marketing: MV.Version, build: string): (r: string)
    ensures HoldsNoSetting(Marketing, contents) && HoldsNoSetting(Build, contents) ==> r == contents
  {
    var once := Substitute(Marketing, contents, MV.ToString(marketing));
    NoSettingUnchanged(Marketing, contents, MV.ToString(marketing));
    NoSettingUnchanged(Build, contents, build);
    Substitute(Build, once, build)
  }

  // ------------------------------------------------------------ the shape of a match

  /** A label that can begin a match: at least two characters, the first not a value character nor `;`. */
  predicate WellFormed(p: Pattern)
  {
    |p.key| >= 2 && !MV.IsDigit(p.key[0]) && p.key[0] != '.' && p.key[0] != ';'
  }

  /** No match of `q` can begin inside the label of `p`, after its first character. */
  predicate NoOverlap(p: Pattern, q: Pattern)
    requires WellFormed(q)
  {
    forall i :: 0 < i < |p.key| ==>
      p.key[i] != q.key[0] || (i + 1 < |p.key| && p.key[i + 1] != q.key[1])
  }

  lemma MarketingHead() ensures Marketing.key[0] == 'M' && Marketing.key[1] == 'A' {}
  lemma MarketingNoSecondM() ensures 'M' !in Marketing.key[1..]
  {
    assert Marketing.key[1..] == "ARKETING_" + "VERSION = ";
    assert 'M' !in "ARKETING_" && 'M' !in "VERSION = ";
  }
  lemma MarketingNoC() ensures 'C' !in Marketing.key {}
  lemma BuildHead() ensures Build.key[0] == 'C' && Build.key[1] == 'U' && Build.key[14] == 'T' {}
  lemma BuildNoM() ensures 'M' !in Build.key {}
  lemma BuildFirstInnerC() ensures 'C' !in Build.key[1..13] {}
  lemma BuildNoLaterC() ensures 'C' !in Build.key[14..]
  {
    assert Build.key[14..] == "T_VER" + "SION = ";
    assert 'C' !in "T_VER" && 'C' !in "SION = ";
  }

  lemma MarketingFacts()
    ensures WellFormed(Marketing) && Marketing.key[0] == 'M'
    ensures 'M' !in Marketing.key[1..] && 'C' !in Marketing.key
  {
    MarketingHead();
    MarketingNoSecondM();
    MarketingNoC();
  }

  lemma BuildFacts()
    ensures WellFormed(Build) && Build.key[0] == 'C' && Build.key[1] == 'U'
    ensures 'M' !in Build.key && Build.key[14] == 'T'
    ensures 'C' !in Build.key[1..13] && 'C' !in Build.key[14..]
  {
    BuildHead();
    BuildNoM();
    BuildFirstInnerC();
    BuildNoLaterC();
  }

  lemma {:induction false} PatternsDoNotOverlap(p: Pattern, q: Pattern)
    requires p in {Marketing, Build} && q in {Marketing, Build}
    ensures WellFormed(p) && WellFormed(q) && NoOverlap(p, q)
  {
    MarketingFacts();
    BuildFacts();
    forall i | 0 < i < |p.key|
      ensures p.key[i] != q.key[0] || (i + 1 < |p.key| && p.key[i + 1] != q.key[1])
    {
      if p == Marketing {
        assert p.key[i] == p.key[1..][i - 1];
      } else if i < 13 {
        assert p.key[i] == p.key[1..13][i - 1];
      } else if i > 13 {
        assert p.key[i] == p.key[14..][i - 14];
      }
    }
  }

  lemma {:induction false} ValueRunOf(p: Pattern, v: string, x: string)
    requires forall i :: 0 <= i < |v| ==> ValueChar(p, v[i])
    ensures ValueRun(p, v + ";" + x) == |v|
    decreases |v|
  {
    if v != [] {
      assert (v + ";" + x)[1..] == v[1..] + ";" + x;
      ValueRunOf(p, v[1..], x);
    }
  }

  /** A setting text is matched in full whatever follows it. */
  lemma {:induction false} MatchSettingText(p: Pattern, v: string, x: string)
    requires IsValue(p, v)
    ensures MatchAt(p, SettingText(p, v) + x) == Some(v)
  {
    var t := SettingText(p, v) + x;
    assert t == p.key + (v + ";" + x);
    assert p.key <= t;
    var w := t[|p.key|..];
    assert w == v + ";" + x;
    ValueRunOf(p, v, x);
    assert w[|v|] == ';';
    assert w[..|v|] == v;
  }

  lemma MatchHead(p: Pattern, t: string)
    requires WellFormed(p) && MatchAt(p, t).Some?
    ensures t[0] == p.key[0] && t[1] == p.key[1]
  {
    var v := MatchAt(p, t).value;
    assert t[0] == SettingText(p, v)[0];
    assert t[1] == SettingText(p, v)[1];
  }

  /** Within a setting text of `p`, a match of `q` can start only at its first character. */
  lemma {:induction false} NoInnerMatch(p: Pattern, q: Pattern, v: string, u: string, i: int)
    requires WellFormed(q) && NoOverlap(p, q)
    requires IsValue(p, v) && SettingText(p, v) <= u
    requires 0 < i < MatchLength(p, v)
    ensures MatchAt(q, u[i..]).None?
  {
    var w := SettingText(p, v);
    assert u[i] == w[i];
    assert i + 1 < |w| ==> u[i + 1] == w[i + 1];
    assert u[i] != q.key[0] || (i + 1 < |w| && u[i + 1] != q.key[1]) by {
      if i < |p.key| {
        assert w[i] == p.key[i];
        assert p.key[i] != q.key[0] || (i + 1 < |p.key| && p.key[i + 1] != q.key[1]);
        if i + 1 < |p.key| {
          assert w[i + 1] == p.key[i + 1];
        }
      } else if i < |p.key| + |v| {
        assert w[i] == v[i - |p.key|];
        assert ValueChar(p, v[i - |p.key|]);
        assert !ValueChar(p, q.key[0]);
      } else {
        assert w[i] == ';';
      }
    }
    if MatchAt(q, u[i..]).Some? {
      MatchHead(q, u[i..]);
      assert false;
    }
  }

  /** Whether no match of `p` begins in `t` before position `k`. */
  ghost predicate NoMatchBelow(p: Pattern, t: string, k: nat)
    requires k <= |t|
    decreases k
  {
    k == 0 || (MatchAt(p, t).None? && NoMatchBelow(p, t[1..], k - 1))
  }

  /** No match begins before `k` when none begins at any position below it. */
  lemma {:induction false} NoMatchAtAnyBelow(p: Pattern, t: string, k: nat)
    requires k <= |t|
    requires forall j :: 0 <= j < k ==> MatchAt(p, t[j..]).None?
    ensures NoMatchBelow(p, t, k)
    decreases k
  {
    if k > 0 {
      assert t[0..] == t;
      forall j | 0 <= j < k - 1 ensures MatchAt(p, t[1..][j..]).None? {
        assert t[1..][j..] == t[j + 1..];
      }
      NoMatchAtAnyBelow(p, t[1..], k - 1);
    }
  }

  /** A prefix without a match is copied unchanged. */
  lemma {:induction false} CopyUntilMatch(p: Pattern, t: string, k: nat, value: string)
    requires k <= |t| && NoMatchBelow(p, t, k)
    ensures Substitute(p, t, value) == t[..k] + Substitute(p, t[k..], value)
    decreases k
  {
    if k > 0 {
      CopyUntilMatch(p, t[1..], k - 1, value);
      SubstituteSkips(p, t, value);
      TailSlices(t, k);
      ConsPrefixes(t, k, Substitute(p, t[k..], value));
    }
  }

  /** The tail of `t` from `k - 1` on is `t` from `k` on. */
  lemma TailSlices(t: string, k: nat)
    requires 0 < k <= |t|
    ensures t[1..][k - 1..] == t[k..]
  {
  }

  /** The first character of `t` put back before the tail's first `k - 1` characters gives its first `k`. */
  lemma ConsPrefixes(t: string, k: nat, rest: string)
    requires 0 < k <= |t|
    ensures [t[0]] + (t[1..][..k - 1] + rest) == t[..k] + rest
  {
    assert [t[0]] + t[1..][..k - 1] == t[..k];
  }

  /** Where no match begins, the first character is copied and the substitution goes on after it. */
  lemma SubstituteSkips(p: Pattern, t: string, value: string)
    requires t != [] && MatchAt(p, t).None?
    ensures Substitute(p, t, value) == [t[0]] + Substitute(p, t[1..], value)
  {
  }

  /** Text without the first character of the label contains no match. */
  lemma {:induction false} PassThrough(p: Pattern, w: string, x: string, value: string)
    requires WellFormed(p) && p.key[0] !in w
    ensures Substitute(p, w + x, value) == w + Substitute(p, x, value)
  {
    var t := w + x;
    forall j | 0 <= j < |w| ensures MatchAt(p, t[j..]).None? {
      if MatchAt(p, t[j..]).Some? {
        MatchHead(p, t[j..]);
        assert false;
      }
    }
    NoMatchAtAnyBelow(p, t, |w|);
    CopyUntilMatch(p, t, |w|, value);
    assert t[..|w|] == w && t[|w|..] == x;
  }

  /** No setting of `p` begins anywhere in `s`. */
  ghost predicate HoldsNoSetting(p: Pattern, s: string)
  {
    NoMatchBelow(p, s, |s|)
  }

  /** Text without the first character of the label holds no setting. */
  lemma NoSettingWithoutHead(p: Pattern, s: string)
    requires WellFormed(p) && p.key[0] !in s
    ensures HoldsNoSetting(p, s)
  {
    forall j | 0 <= j < |s| ensures MatchAt(p, s[j..]).None? {
      if MatchAt(p, s[j..]).Some? {
        MatchHead(p, s[j..]);
        assert false;
      }
    }
    NoMatchAtAnyBelow(p, s, |s|);
  }

  /** A value run is not lengthened by text that starts with a character outside values. */
  lemma {:induction false} ValueRunExtend(p: Pattern, w: string, x: string)
    requires x != [] && !ValueChar(p, x[0])
    ensures ValueRun(p, w + x) == ValueRun(p, w)
    decreases |w|
  {
    if w == [] {
      assert w + x == x;
    } else {
      assert (w + x)[0] == w[0] && (w + x)[1..] == w[1..] + x;
      ValueRunExtend(p, w[1..], x);
    }
  }

  /**
   * A label that cannot overlap the label of `q` does not begin in `s` and
   * run on into a setting of `q` after it.
   */
  lemma NoStraddle(p: Pattern, q: Pattern, s: string, x: string)
    requires WellFormed(q) && NoOverlap(p, q) && s != []
    requires |x| >= 2 && x[0] == q.key[0] && x[1] == q.key[1]
    ensures p.key <= s + x ==> p.key <= s
  {
    var t := s + x;
    var i := |s|;
    if i >= |p.key| {
      assert t[..|p.key|] == s[..|p.key|];
    } else {
      assert 0 < i < |p.key|;
      assert p.key[i] != q.key[0] || (i + 1 < |p.key| && p.key[i + 1] != q.key[1]);
      assert t[i] == x[0];
      assert i + 1 < |t| && t[i + 1] == x[1];
      assert p.key[i] != t[i] || (i + 1 < |p.key| && p.key[i + 1] != t[i + 1]);
    }
  }

  /**
   * Whether a match of `p` begins at the start of `s` is not changed by a
   * setting of `q` right after `s`, when the labels cannot overlap.
   */
  lemma MatchBeforeOtherSetting(p: Pattern, q: Pattern, s: string, v: string, y: string)
    requires WellFormed(p) && WellFormed(q) && NoOverlap(p, q) && s != []
    ensures MatchAt(p, s + (SettingText(q, v) + y)) == MatchAt(p, s)
  {
    var x := SettingText(q, v) + y;
    assert x[0] == q.key[0] && x[1] == q.key[1];
    var t := s + x;
    NoStraddle(p, q, s, x);
    if p.key <= s {
      assert t[|p.key|..] == s[|p.key|..] + x;
      ValueRunExtend(p, s[|p.key|..], x);
      var n := ValueRun(p, s[|p.key|..]);
      assert n < |s[|p.key|..]| ==> t[|p.key|..][n] == s[|p.key|..][n];
      assert t[|p.key|..][..n] == s[|p.key|..][..n];
    }
  }

  /** A text free of settings of `p`, followed by a setting of `q`, has no match of `p` before that setting. */
  lemma {:induction false} NoSettingBefore(p: Pattern, q: Pattern, a: string, v: string, y: string)
    requires WellFormed(p) && WellFormed(q) && NoOverlap(p, q) && HoldsNoSetting(p, a)
    ensures NoMatchBelow(p, a + (SettingText(q, v) + y), |a|)
    decreases |a|
  {
    if a != [] {
      var t := a + (SettingText(q, v) + y);
      MatchBeforeOtherSetting(p, q, a, v, y);
      assert t[1..] == a[1..] + (SettingText(q, v) + y);
      NoSettingBefore(p, q, a[1..], v, y);
    }
  }

  /** A text free of settings is left unchanged by the substitution. */
  lemma NoSettingUnchanged(p: Pattern, s: string, value: string)
    ensures HoldsNoSetting(p, s) ==> Substitute(p, s, value) == s
  {
    if HoldsNoSetting(p, s) {
      CopyUntilMatch(p, s, |s|, value);
      assert s[..|s|] == s && s[|s|..] == [];
    }
  }

  /** The position of the first match of `p` in `t`, or `|t|`. */
  function FirstMatch(p: Pattern, t: string): (j: nat)
    ensures j <= |t|
    ensures NoMatchBelow(p, t, j)
    ensures j < |t| ==> MatchAt(p, t[j..]).Some?
    decreases |t|
  {
    if t == [] || MatchAt(p, t).Some? then 0
    else
      var j := 1 + FirstMatch(p, t[1..]);
      assert t[1..][j - 1..] == t[j..];
      j
  }

  /** A substitution begins with the copied text before the first match, then that match's replacement. */
  lemma {:induction false} SubstituteAtFirstMatch(q: Pattern, t: string, value: string)
    requires FirstMatch(q, t) < |t|
    ensures |Substitute(q, t, value)| >= FirstMatch(q, t) + MatchLength(q, value)
    ensures Substitute(q, t, value)[FirstMatch(q, t)..] == SettingText(q, value) + Substitute(q, t, value)[FirstMatch(q, t) + MatchLength(q, value)..]
  {
    SubstituteAtMatch(q, t, value, FirstMatch(q, t));
  }

  /** With no match before `j` and one at `j`, the substitution holds that match's replacement at `j`. */
  lemma {:induction false} SubstituteAtMatch(q: Pattern, t: string, value: string, j: nat)
    requires j < |t| && NoMatchBelow(q, t, j) && MatchAt(q, t[j..]).Some?
    ensures |Substitute(q, t, value)| >= j + MatchLength(q, value)
    ensures Substitute(q, t, value)[j..] == SettingText(q, value) + Substitute(q, t, value)[j + MatchLength(q, value)..]
  {
    var r, a, w := Substitute(q, t, value), t[..j], SettingText(q, value);
    SubstituteShape(q, t, value, j);
    assert |a| == j && |w| == MatchLength(q, value);
    ShiftAfterPrefix(r, a, w, AfterMatch(q, t[j..], value), |w|);
  }

  /** `SplitAfterPrefix` for a prefix whose length is known from itself. */
  lemma ShiftAfterPrefix(x: string, a: string, w: string, rest: string, m: nat)
    requires x == a + (w + rest) && |w| == m
    ensures |x| >= |a| + m && x[|a|..] == w + x[|a| + m..]
  {
    SplitAfterPrefix(x, a, w, rest, |a|, m);
  }

  /** What a substitution of `t`, which starts with a match of `p`, gives after that match's replacement. */
  function AfterMatch(p: Pattern, t: string, value: string): string
    requires MatchAt(p, t).Some?
  {
    Substitute(p, t[MatchLength(p, MatchAt(p, t).value)..], value)
  }

  /** With no match before `j` and one at `j`, a substitution copies up to `j` and then replaces that match. */
  lemma SubstituteShape(q: Pattern, t: string, value: string, j: nat)
    requires j < |t| && NoMatchBelow(q, t, j) && MatchAt(q, t[j..]).Some?
    ensures |t[..j]| == j
    ensures Substitute(q, t, value) == t[..j] + (SettingText(q, value) + AfterMatch(q, t[j..], value))
  {
    CopyUntilMatch(q, t, j, value);
    SubstituteReplaces(q, t[j..], value);
  }

  /** In `a + (w + rest)`, with `a` of length `n` and `w` of length `m`, the part from `n` on is `w` followed by the part after it. */
  lemma SplitAfterPrefix(x: string, a: string, w: string, rest: string, n: nat, m: nat)
    requires x == a + (w + rest) && |a| == n && |w| == m
    ensures |x| >= n + m && x[n..] == w + x[n + m..]
  {
    assert x[n..] == w + rest;
    assert x[n + m..] == rest;
  }

  /** When `[c] + x` begins with a match of `p`, no replacement text of `q` starts inside it. */
  lemma {:induction false} NoMatchInsideMatch(p: Pattern, q: Pattern, c: char, x: string, j: nat, value: string)
    requires WellFormed(q) && NoOverlap(p, q) && IsValue(q, value)
    requires MatchAt(p, [c] + x).Some? && j + 1 < MatchLength(p, MatchAt(p, [c] + x).value)
    ensures !(j + MatchLength(q, value) <= |x| && x[j..] == SettingText(q, value) + x[j + MatchLength(q, value)..])
  {
    var u := [c] + x;
    var v := MatchAt(p, u).value;
    if j + MatchLength(q, value) <= |x| && x[j..] == SettingText(q, value) + x[j + MatchLength(q, value)..] {
      assert u[j + 1..] == x[j..];
      MatchSettingText(q, value, x[j + MatchLength(q, value)..]);
      NoInnerMatch(p, q, v, u, j + 1);
      assert false;
    }
  }

  /** Without any match, a substitution is the identity. */
  lemma NoMatchNoChange(q: Pattern, t: string, value: string)
    requires FirstMatch(q, t) == |t|
    ensures Substitute(q, t, value) == t
  {
    CopyUntilMatch(q, t, |t|, value);
  }

  /** A match of `p` just before `t` ends before the first replacement of `q` in `t` begins. */
  lemma {:induction false} MatchEndsBeforeReplacement(p: Pattern, q: Pattern, c: char, t: string, value: string)
    requires WellFormed(q) && NoOverlap(p, q) && IsValue(q, value)
    requires MatchAt(p, [c] + Substitute(q, t, value)).Some?
    ensures FirstMatch(q, t) + 1 >= MatchLength(p, MatchAt(p, [c] + Substitute(q, t, value)).value)
  {
    if FirstMatch(q, t) < |t| {
      MatchBeforeFirstReplacement(p, q, c, t, value);
    } else {
      MatchWithoutReplacement(p, q, c, t, value);
    }
  }

  /** With a match of `q` in `t`, a match of `p` at the front ends before its replacement begins. */
  lemma MatchBeforeFirstReplacement(p: Pattern, q: Pattern, c: char, t: string, value: string)
    requires WellFormed(q) && NoOverlap(p, q) && IsValue(q, value)
    requires FirstMatch(q, t) < |t|
    requires MatchAt(p, [c] + Substitute(q, t, value)).Some?
    ensures FirstMatch(q, t) + 1 >= MatchLength(p, MatchAt(p, [c] + Substitute(q, t, value)).value)
  {
    SubstituteAtFirstMatch(q, t, value);
    MatchBeforeSetting(p, q, c, Substitute(q, t, value), FirstMatch(q, t), value);
  }

  /** Without a match of `q` in `t`, a match of `p` at the front of `[c] + t` fits in it. */
  lemma MatchWithoutReplacement(p: Pattern, q: Pattern, c: char, t: string, value: string)
    requires FirstMatch(q, t) == |t|
    requires MatchAt(p, [c] + Substitute(q, t, value)).Some?
    ensures FirstMatch(q, t) + 1 >= MatchLength(p, MatchAt(p, [c] + Substitute(q, t, value)).value)
  {
    NoMatchNoChange(q, t, value);
    MatchFits(p, [c] + t);
  }

  /** A match of `p` at the front of `[c] + x` ends before a setting of `q` found at `j` in `x` begins. */
  lemma MatchBeforeSetting(p: Pattern, q: Pattern, c: char, x: string, j: nat, value: string)
    requires WellFormed(q) && NoOverlap(p, q) && IsValue(q, value)
    requires MatchAt(p, [c] + x).Some?
    requires j + MatchLength(q, value) <= |x| && x[j..] == SettingText(q, value) + x[j + MatchLength(q, value)..]
    ensures j + 1 >= MatchLength(p, MatchAt(p, [c] + x).value)
  {
    if j + 1 < MatchLength(p, MatchAt(p, [c] + x).value) {
      NoMatchInsideMatch(p, q, c, x, j, value);
    }
  }

  /** A match is no longer than the text it is found in. */
  lemma MatchFits(p: Pattern, u: string)
    requires MatchAt(p, u).Some?
    ensures MatchLength(p, MatchAt(p, u).value) <= |u|
  {
  }

  /** A match depends only on the characters it covers. */
  lemma {:induction false} MatchDependsOnPrefix(p: Pattern, u: string, s: string)
    requires MatchAt(p, u).Some?
    requires MatchLength(p, MatchAt(p, u).value) <= |s|
    requires s[..MatchLength(p, MatchAt(p, u).value)] == u[..MatchLength(p, MatchAt(p, u).value)]
    ensures MatchAt(p, s) == MatchAt(p, u)
  {
    var v := MatchAt(p, u).value;
    var n := MatchLength(p, v);
    assert s == s[..n] + s[n..];
    assert u[..n] == SettingText(p, v);
    MatchSettingText(p, v, s[n..]);
  }

  /** A match of `p` that lies in the copied prefix was already a match before the substitution. */
  lemma {:induction false} MatchInCopiedPrefix(p: Pattern, q: Pattern, c: char, t: string, value: string)
    requires MatchAt(p, [c] + Substitute(q, t, value)).Some?
    requires FirstMatch(q, t) + 1 >= MatchLength(p, MatchAt(p, [c] + Substitute(q, t, value)).value)
    ensures MatchAt(p, [c] + t).Some?
  {
    var x := Substitute(q, t, value);
    var n := MatchLength(p, MatchAt(p, [c] + x).value);
    assert n <= |[c] + x|;
    CopiedPrefix(q, t, value, n - 1);
    ConsPrefix(c, x, t, n - 1);
    MatchDependsOnPrefix(p, [c] + x, [c] + t);
  }

  /** Up to the first match, the substituted text is the text itself. */
  lemma CopiedPrefix(q: Pattern, t: string, value: string, m: nat)
    requires m <= FirstMatch(q, t)
    ensures m <= |Substitute(q, t, value)| && Substitute(q, t, value)[..m] == t[..m]
  {
    var j := FirstMatch(q, t);
    CopyUntilMatch(q, t, j, value);
    PrefixOfCopy(t, Substitute(q, t, value), j, Substitute(q, t[j..], value), m);
  }

  /** A text that begins with the first `j` characters of `t` agrees with `t` on any shorter prefix. */
  lemma PrefixOfCopy(t: string, x: string, j: nat, rest: string, m: nat)
    requires m <= j <= |t| && x == t[..j] + rest
    ensures m <= |x| && x[..m] == t[..m]
  {
    assert x[..m] == t[..j][..m];
  }

  /** Texts that agree on their first `m` characters still agree with the same character in front. */
  lemma ConsPrefix(c: char, x: string, y: string, m: nat)
    requires m <= |x| && m <= |y| && x[..m] == y[..m]
    ensures ([c] + x)[..m + 1] == ([c] + y)[..m + 1]
  {
    assert ([c] + x)[..m + 1] == [c] + x[..m];
    assert ([c] + y)[..m + 1] == [c] + y[..m];
  }

  /**
   * Substituting `q` inside `t` creates no new match of `p` that starts just
   * before `t`: no match can straddle the start of a replaced setting.
   */
  lemma {:induction false} NoNewMatch(p: Pattern, q: Pattern, c: char, t: string, value: string)
    requires WellFormed(q) && NoOverlap(p, q)
    requires IsValue(q, value)
    requires MatchAt(p, [c] + t).None?
    ensures MatchAt(p, [c] + Substitute(q, t, value)).None?
  {
    if MatchAt(p, [c] + Substitute(q, t, value)).Some? {
      MatchEndsBeforeReplacement(p, q, c, t, value);
      MatchInCopiedPrefix(p, q, c, t, value);
      assert false;
    }
  }

  // ------------------------------------------------------------ idempotence

  /** Re-applying a substitution with the same value changes nothing. */
  lemma {:induction false} SubstituteIdempotent(p: Pattern, t: string, value: string)
    requires WellFormed(p) && NoOverlap(p, p) && IsValue(p, value)
    ensures Substitute(p, Substitute(p, t, value), value) == Substitute(p, t, value)
    decreases |t|
  {
    if t != [] {
      var w := SettingText(p, value);
      match MatchAt(p, t)
      case Some(v) =>
        var y := Substitute(p, t[MatchLength(p, v)..], value);
        MatchSettingText(p, value, y);
        assert (w + y)[|w|..] == y;
        SubstituteIdempotent(p, t[MatchLength(p, v)..], value);
      case None =>
        var y := Substitute(p, t[1..], value);
        assert [t[0]] + t[1..] == t;
        NoNewMatch(p, p, t[0], t[1..], value);
        assert ([t[0]] + y)[1..] == y;
        SubstituteIdempotent(p, t[1..], value);
    }
  }

  /** The first character of `q`'s label occurs nowhere in a setting text of `p`. */
  predicate Foreign(p: Pattern, q: Pattern)
  {
    WellFormed(q) && q.key[0] !in p.key
  }

  lemma HeadNotInSettingText(p: Pattern, q: Pattern, v: string)
    requires Foreign(p, q) && IsValue(p, v)
    ensures q.key[0] !in SettingText(p, v)
  {
    var w := SettingText(p, v);
    forall i | 0 <= i < |w| ensures w[i] != q.key[0] {
      if i < |p.key| {
        assert w[i] == p.key[i];
      } else if i < |p.key| + |v| {
        assert w[i] == v[i - |p.key|];
        assert ValueChar(p, v[i - |p.key|]);
      }
    }
  }

  /** Both orders of substitution step over a setting of `p` in the same way. */
  lemma {:induction false} OverSetting(p: Pattern, q: Pattern, v: string, rest: string, pv: string, qv: string)
    requires Foreign(p, q) && IsValue(p, v) && IsValue(p, pv)
    ensures Substitute(p, Substitute(q, SettingText(p, v) + rest, qv), pv)
         == SettingText(p, pv) + Substitute(p, Substitute(q, rest, qv), pv)
    ensures Substitute(q, Substitute(p, SettingText(p, v) + rest, pv), qv)
         == SettingText(p, pv) + Substitute(q, Substitute(p, rest, pv), qv)
  {
    HeadNotInSettingText(p, q, v);
    PassThrough(q, SettingText(p, v), rest, qv);
    var z := Substitute(q, rest, qv);
    MatchSettingText(p, v, z);
    assert (SettingText(p, v) + z)[MatchLength(p, v)..] == z;
    var y := Substitute(p, rest, pv);
    MatchSettingText(p, v, rest);
    assert (SettingText(p, v) + rest)[MatchLength(p, v)..] == rest;
    HeadNotInSettingText(p, q, pv);
    PassThrough(q, SettingText(p, pv), y, qv);
  }

  /** Two substitutions whose labels are foreign to each other commute. */
  lemma {:induction false} SubstitutionsCommute(p: Pattern, q: Pattern, t: string, pv: string, qv: string)
    requires Foreign(p, q) && Foreign(q, p) && NoOverlap(p, q) && NoOverlap(q, p)
    requires IsValue(p, pv) && IsValue(q, qv)
    ensures Substitute(p, Substitute(q, t, qv), pv) == Substitute(q, Substitute(p, t, pv), qv)
    decreases |t|
  {
    if t == [] {
    } else if MatchAt(p, t).Some? {
      var v := MatchAt(p, t).value;
      assert t == SettingText(p, v) + t[MatchLength(p, v)..];
      OverSetting(p, q, v, t[MatchLength(p, v)..], pv, qv);
      SubstitutionsCommute(p, q, t[MatchLength(p, v)..], pv, qv);
    } else if MatchAt(q, t).Some? {
      var v := MatchAt(q, t).value;
      assert t == SettingText(q, v) + t[MatchLength(q, v)..];
      OverSetting(q, p, v, t[MatchLength(q, v)..], qv, pv);
      SubstitutionsCommute(p, q, t[MatchLength(q, v)..], pv, qv);
    } else {
      var c := t[0];
      assert [c] + t[1..] == t;
      var xq := Substitute(q, t[1..], qv);
      var xp := Substitute(p, t[1..], pv);
      NoNewMatch(p, q, c, t[1..], qv);
      NoNewMatch(q, p, c, t[1..], pv);
      assert ([c] + xq)[1..] == xq;
      assert ([c] + xp)[1..] == xp;
      SubstitutionsCommute(p, q, t[1..], pv, qv);
    }
  }

  lemma {:induction false} RenderedVersionIsValue(v: MV.Version)
    ensures IsValue(Marketing, MV.ToString(v))
  {
    MV.ToStringShape(v);
    MV.SplitToString(v);
  }

  /** Running the update twice is the same as running it once, for a numeric build number. */
  lemma {:induction false} UpdateIdempotent(contents: string, marketing: MV.Version, build: string)
    requires MV.AllDigits(build)
    ensures UpdateProjectContents(UpdateProjectContents(contents, marketing, build), marketing, build)
         == UpdateProjectContents(contents, marketing, build)
  {
    var mv := MV.ToString(marketing);
    RenderedVersionIsValue(marketing);
    assert IsValue(Build, build);
    PatternsDoNotOverlap(Marketing, Marketing);
    PatternsDoNotOverlap(Marketing, Build);
    PatternsDoNotOverlap(Build, Marketing);
    PatternsDoNotOverlap(Build, Build);
    MarketingFacts();
    BuildFacts();
    var a := Substitute(Marketing, contents, mv);
    SubstitutionsCommute(Marketing, Build, a, mv, build);
    SubstituteIdempotent(Marketing, contents, mv);
    SubstituteIdempotent(Build, a, build);
  }

  // ------------------------------------------------------------ only the values change

  /** A piece of a project file: a character kept as is, or a whole setting with its value. */
  datatype Piece = Keep(c: char) | Value(v: string)

  function Text(p: Pattern, ps: seq<Piece>): string
  {
    if ps == [] then []
    else
      match ps[0]
      case Keep(c) => [c] + Text(p, ps[1..])
      case Value(v) => SettingText(p, v) + Text(p, ps[1..])
  }

  function WithValue(ps: seq<Piece>, value: string): (r: seq<Piece>)
    ensures |r| == |ps|
    ensures forall i :: 0 <= i < |ps| ==> r[i] == if ps[i].Keep? then ps[i] else Value(value)
  {
    if ps == [] then [] else [if ps[0].Keep? then ps[0] else Value(value)] + WithValue(ps[1..], value)
  }

  /**
   * The leftmost-first reading of a text: every `Value` piece is a setting the
   * pattern accepts, and no `Keep` piece starts a match.
   */
  predicate LeftmostPieces(p: Pattern, ps: seq<Piece>)
  {
    ps == [] ||
    ((match ps[0]
      case Keep(c) => MatchAt(p, Text(p, ps)).None?
      case Value(v) => IsValue(p, v))
     && LeftmostPieces(p, ps[1..]))
  }

  /** The pieces of `t`, read leftmost-first. */
  function Pieces(p: Pattern, t: string): seq<Piece>
    decreases |t|
  {
    if t == [] then []
    else
      match MatchAt(p, t)
      case Some(v) => [Value(v)] + Pieces(p, t[MatchLength(p, v)..])
      case None => [Keep(t[0])] + Pieces(p, t[1..])
  }

  /**
   * A substitution keeps every character outside the settings it matches and
   * replaces the value of each one: `t` reads as pieces, and the result is the
   * same pieces with every value replaced.
   */
  lemma {:induction false} OnlyValuesChange(p: Pattern, t: string, value: string)
    ensures Text(p, Pieces(p, t)) == t
    ensures LeftmostPieces(p, Pieces(p, t))
    ensures Substitute(p, t, value) == Text(p, WithValue(Pieces(p, t), value))
    decreases |t|
  {
    if t != [] {
      var ps := Pieces(p, t);
      match MatchAt(p, t)
      case Some(v) =>
        var n := MatchLength(p, v);
        var rest := Pieces(p, t[n..]);
        OnlyValuesChange(p, t[n..], value);
        assert ps == [Value(v)] + rest;
        SubstituteReplaces(p, t, value);
        SplitAtPrefix(SettingText(p, v), t);
        PiecesCons(p, Value(v), rest, value);
      case None =>
        var rest := Pieces(p, t[1..]);
        OnlyValuesChange(p, t[1..], value);
        assert ps == [Keep(t[0])] + rest;
        SubstituteSkips(p, t, value);
        assert [t[0]] + t[1..] == t;
        PiecesCons(p, Keep(t[0]), rest, value);
    }
  }

  /** A text that begins with `a` is `a` followed by the rest. */
  lemma SplitAtPrefix(a: string, t: string)
    requires a <= t
    ensures t == a + t[|a|..]
  {
  }

  /** Where a match begins, its replacement comes first and the substitution goes on after the match. */
  lemma SubstituteReplaces(p: Pattern, t: string, value: string)
    requires MatchAt(p, t).Some?
    ensures Substitute(p, t, value)
         == SettingText(p, value) + Substitute(p, t[MatchLength(p, MatchAt(p, t).value)..], value)
  {
  }

  /** The text and the replaced pieces of a piece followed by more pieces, one piece at a time. */
  lemma PiecesCons(p: Pattern, x: Piece, rest: seq<Piece>, value: string)
    ensures Text(p, [x] + rest) == (if x.Keep? then [x.c] else SettingText(p, x.v)) + Text(p, rest)
    ensures WithValue([x] + rest, value) == [if x.Keep? then x else Value(value)] + WithValue(rest, value)
    ensures LeftmostPieces(p, [x] + rest) <==>
      (if x.Keep? then MatchAt(p, Text(p, [x] + rest)).None? else IsValue(p, x.v)) && LeftmostPieces(p, rest)
  {
    assert ([x] + rest)[1..] == rest;
    var w := [if x.Keep? then x else Value(value)];
    assert (w + WithValue(rest, value))[1..] == WithValue(rest, value);
  }

  /** A single setting amid text that holds no other setting of the pattern is rewritten in place. */
  lemma RewriteOneSetting(p: Pattern, a: string, v: string, b: string, value: string)
    requires WellFormed(p) && NoOverlap(p, p) && IsValue(p, v)
    requires HoldsNoSetting(p, a) && HoldsNoSetting(p, b)
    ensures Substitute(p, a + SettingText(p, v) + b, value) == a + SettingText(p, value) + b
  {
    var t := a + (SettingText(p, v) + b);
    assert a + SettingText(p, v) + b == t;
    NoSettingBefore(p, p, a, v, b);
    CopyUntilMatch(p, t, |a|, value);
    assert t[..|a|] == a && t[|a|..] == SettingText(p, v) + b;
    RewriteSettingFront(p, v, b, value);
    Assoc(a, SettingText(p, value), b);
  }

  /** Concatenation regroups. */
  lemma Assoc(x: string, y: string, z: string)
    ensures x + (y + z) == x + y + z
  {
  }

  /** A setting at the front is rewritten, and a text free of settings after it is copied. */
  lemma RewriteSettingFront(p: Pattern, v: string, b: string, value: string)
    requires IsValue(p, v) && HoldsNoSetting(p, b)
    ensures Substitute(p, SettingText(p, v) + b, value) == SettingText(p, value) + b
  {
    MatchSettingText(p, v, b);
    assert (SettingText(p, v) + b)[MatchLength(p, v)..] == b;
    NoSettingUnchanged(p, b, value);
  }

  lemma MarketingExampleTexts()
    ensures SettingText(Marketing, "9.8.7") == "MARKETING_VERSION = 9.8.7;"
    ensures SettingText(Marketing, "1.2.3") == "MARKETING_VERSION = 1.2.3;"
    ensures IsValue(Marketing, "9.8.7")
  {
    RenderedVersionIsValue(MV.Version(9, 8, 7));
    assert MV.ToString(MV.Version(9, 8, 7)) == "9.8.7";
  }

  lemma MarketingExampleStep()
    ensures Substitute(Marketing, "one " + "MARKETING_VERSION = 9.8.7;" + " one\ntwo " + "CURRENT_PROJECT_VERSION = 123123;" + " two", "1.2.3")
         == "one " + "MARKETING_VERSION = 1.2.3;" + " one\ntwo " + "CURRENT_PROJECT_VERSION = 123123;" + " two"
  {
    MarketingFacts();
    MarketingExampleTexts();
    MarketingExampleSurroundings();
    PatternsDoNotOverlap(Marketing, Marketing);
    RewriteInFive(Marketing, "one ", "9.8.7", " one\ntwo ", "CURRENT_PROJECT_VERSION = 123123;", " two", "1.2.3");
  }

  /** The text around the marketing setting of the example holds no `M`. */
  lemma MarketingExampleSurroundings()
    ensures 'M' !in "one " && 'M' !in " one\ntwo " + "CURRENT_PROJECT_VERSION = 123123;" + " two"
  {
    assert "CURRENT_PROJECT_VERSION = 123123;" == "CURRENT_PRO" + "JECT_VERSION = 123123;";
    assert 'M' !in " one\ntwo " && 'M' !in "CURRENT_PRO" && 'M' !in "JECT_VERSION = 123123;" && 'M' !in " two";
  }

  /** `RewriteOneSetting` for a text given as five consecutive pieces, the second one a setting. */
  lemma RewriteInFive(p: Pattern, a: string, v: string, c: string, d: string, e: string, value: string)
    requires WellFormed(p) && NoOverlap(p, p) && IsValue(p, v) && p.key[0] !in a && p.key[0] !in c + d + e
    ensures Substitute(p, a + SettingText(p, v) + c + d + e, value) == a + SettingText(p, value) + c + d + e
  {
    NoSettingWithoutHead(p, a);
    NoSettingWithoutHead(p, c + d + e);
    RewriteOneSetting(p, a, v, c + d + e, value);
    assert a + SettingText(p, v) + c + d + e == a + SettingText(p, v) + (c + d + e);
    assert a + SettingText(p, value) + c + d + e == a + SettingText(p, value) + (c + d + e);
  }

  /** The pieces of the build-number example as settings and values. */
  lemma BuildExampleTexts(build: string)
    ensures IsValue(Build, "123123")
    ensures SettingText(Build, "123123") == "CURRENT_PROJECT_VERSION = 123123;"
    ensures SettingText(Build, build) == "CURRENT_PROJECT_VERSION = " + build + ";"
  {
    assert forall i :: 0 <= i < 6 ==> "123123"[i] in "0123456789";
  }

  /** The text around the build setting of the example holds no `C`. */
  lemma BuildExampleSurroundings()
    ensures 'C' !in "one " + "MARKETING_VERSION = 1.2.3;" + " one\ntwo " && 'C' !in " two"
  {
    assert 'C' !in "one " && 'C' !in "MARKETING_" && 'C' !in "VERSION = 1.2.3;" && 'C' !in " one\ntwo ";
    assert "MARKETING_VERSION = 1.2.3;" == "MARKETING_" + "VERSION = 1.2.3;";
  }

  lemma BuildExampleStep(build: string)
    requires MV.AllDigits(build)
    ensures Substitute(Build, "one " + "MARKETING_VERSION = 1.2.3;" + " one\ntwo " + "CURRENT_PROJECT_VERSION = 123123;" + " two", build)
         == "one " + "MARKETING_VERSION = 1.2.3;" + " one\ntwo " + "CURRENT_PROJECT_VERSION = " + build + ";" + " two"
  {
    BuildFacts();
    BuildExampleTexts(build);
    BuildExampleSurroundings();
    PatternsDoNotOverlap(Build, Build);
    NoSettingWithoutHead(Build, "one " + "MARKETING_VERSION = 1.2.3;" + " one\ntwo ");
    NoSettingWithoutHead(Build, " two");
    RewriteOneSetting(Build, "one " + "MARKETING_VERSION = 1.2.3;" + " one\ntwo ", "123123", " two", build);
  }

  /** The example the script's own test checks, written one piece per setting. */
  lemma UpdateExample(build: string)
    requires MV.AllDigits(build)
    ensures UpdateProjectContents("one " + "MARKETING_VERSION = 9.8.7;" + " one\ntwo " + "CURRENT_PROJECT_VERSION = 123123;" + " two",
                                  MV.Version(1, 2, 3), build)
         == "one " + "MARKETING_VERSION = 1.2.3;" + " one\ntwo " + "CURRENT_PROJECT_VERSION = " + build + ";" + " two"
  {
    assert MV.ToString(MV.Version(1, 2, 3)) == "1.2.3";
    MarketingExampleStep();
    BuildExampleStep(build);
  }
}

=== FILE: riff_parser.dfy ===
/**
 * The RIFF parser for SoundFont data held in memory. A chunk is a 4-byte
 * tag, a 32-bit little-endian length and that many bytes, padded to an even
 * size; a 'LIST' chunk holds a 4-byte list tag and then further chunks. The
 * whole file is one 'RIFF' chunk whose length must match the data's size.
 *
 * Parsing has four outcomes: a value, a thrown format error, a call to
 * `std::terminate` (a throw out of a destructor), or a loop that never
 * ends. The deferred advance past a chunk runs in a destructor, so when the
 * padded chunk does not fit, the program is terminated rather than given a
 * format error; and the padded length is summed on `uint32_t`, so a length
 * near 2^32 wraps to a step of 0 and the loop never ends. `checked` selects
 * the corrected behaviour, which sums the padded length without wrapping and
 * throws a format error where the chunk does not fit.
 */
module RiffParser {
  import opened Sizes

  /** 2^32: `uint32_t` values lie below it. */
  const Limit: int := 0x1_0000_0000

  type UInt32 = x: int | 0 <= x < Limit

  /** How a parse ends. */
  datatype Outcome<T> = Done(value: T) | Thrown | Terminated | Diverges

  /** A parsed chunk: raw data, or a list of nested chunks. */
  datatype Chunk = Data(tag: seq<bv8>, bytes: seq<bv8>) | List(tag: seq<bv8>, chunks: seq<Chunk>)

  const RiffTag: seq<bv8> := [0x52, 0x49, 0x46, 0x46]
  const ListTag: seq<bv8> := [0x4C, 0x49, 0x53, 0x54]

  /** A failure carried over to another value type. */
  function Failed<A, B>(o: Outcome<A>): Outcome<B>
    requires !o.Done?
  {
    match o
    case Thrown => Thrown
    case Terminated => Terminated
    case Diverges => Diverges
  }

  /** The 32-bit little-endian value at `i`. */
  function LE32(data: seq<bv8>, i: nat): UInt32
    requires i + 4 <= |data|
  {
    data[i] as int + data[i + 1] as int * 0x100 + data[i + 2] as int * 0x1_0000 + data[i + 3] as int * 0x100_0000
  }

  /** Each of the four bytes reads back from the value: the first is the least significant, the last the most. */
  lemma LE32Bytes(data: seq<bv8>, i: nat)
    requires i + 4 <= |data|
    ensures var v := LE32(data, i);
      v % 0x100 == data[i] as int && v / 0x100 % 0x100 == data[i + 1] as int &&
      v / 0x1_0000 % 0x100 == data[i + 2] as int && v / 0x100_0000 == data[i + 3] as int
  {
    ByteDigits(data[i] as int, data[i + 1] as int, data[i + 2] as int, data[i + 3] as int, LE32(data, i));
  }

  /** The base-256 digits of a value below 2^32 read back from it. */
  lemma ByteDigits(b0: int, b1: int, b2: int, b3: int, v: int)
    requires 0 <= b0 < 0x100 && 0 <= b1 < 0x100 && 0 <= b2 < 0x100 && 0 <= b3 < 0x100
    requires v == b0 + b1 * 0x100 + b2 * 0x1_0000 + b3 * 0x100_0000
    ensures v % 0x100 == b0 && v / 0x100 % 0x100 == b1 && v / 0x1_0000 % 0x100 == b2 && v / 0x100_0000 == b3
  {
    var q, r := b1 + b2 * 0x100 + b3 * 0x1_0000, b2 + b3 * 0x100;
    assert v == b0 + q * 0x100;
    assert v / 0x100 == q && v % 0x100 == b0;
    assert q == b1 + r * 0x100 && q % 0x100 == b1;
    assert v == (b0 + b1 * 0x100) + r * 0x1_0000;
    assert v / 0x1_0000 == r && r % 0x100 == b2;
    assert v == (b0 + b1 * 0x100 + b2 * 0x1_0000) + b3 * 0x100_0000;
  }

  /** `a - b` on `uint32_t`, wrapping below zero. */
  function U32Sub(a: UInt32, b: UInt32): (r: UInt32)
    ensures a >= b ==> r == a - b
    ensures a < b ==> r == a - b + Limit
  {
    if a >= b then a - b else a - b + Limit
  }

  /**
   * The bytes a chunk of length `len` takes: the 8-byte header and the data,
   * rounded up to an even count, computed on `uint32_t`.
   */
  function ChunkSpan(len: UInt32): (n: UInt32)
    ensures n % 2 == 0
    ensures len + 9 < Limit ==> n == len + 8 + len % 2 && n >= 8
    ensures len + 9 >= Limit ==> n <= 8
  {
    var sum := if len + 9 >= Limit then len + 9 - Limit else len + 9;
    sum - sum % 2
  }

  /** The padded length of a chunk, summed without wrapping: at least the 8-byte header. */
  function PaddedSpan(len: UInt32): (n: nat)
    ensures n % 2 == 0 && n >= 8
    ensures n < Limit ==> n == ChunkSpan(len)
  {
    len + 8 + len % 2
  }

  /** A position in the data and the end of the region being parsed. */
  datatype Cursor = Cursor(pos: nat, end: nat)
  {
    predicate Within(data: seq<bv8>)
    {
      pos <= end <= |data|
    }

    function Remaining(): nat
      requires pos <= end
    {
      end - pos
    }

    /** The position `offset` bytes on, in the same region; a format error when fewer remain. */
    function Advance(offset: nat): (r: Outcome<Cursor>)
      requires pos <= end
      ensures r.Done? <==> offset <= Remaining()
      ensures r.Done? ==> r.value.pos == pos + offset && r.value.end == end
      ensures !r.Done? ==> r.Thrown?
    {
      if Remaining() < offset then Thrown else Done(Cursor(pos + offset, end))
    }

    /** The region of `size` bytes starting `offset` bytes on; a format error when they do not fit. */
    function AdvanceWithin(offset: nat, size: nat): (r: Outcome<Cursor>)
      requires pos <= end
      ensures r.Done? <==> offset + size <= Remaining()
      ensures r.Done? ==> r.value.pos == pos + offset && r.value.end == pos + offset + size && r.value.end <= end
      ensures !r.Done? ==> r.Thrown?
    {
      if Remaining() < offset + size then Thrown else Done(Cursor(pos + offset, pos + offset + size))
    }

    /** The chunk's tag, its first 4 bytes. */
    function Tag(data: seq<bv8>): (r: Outcome<seq<bv8>>)
      requires Within(data)
      ensures r.Done? <==> 4 <= Remaining()
      ensures r.Done? ==> r.value == data[pos..pos + 4]
      ensures !r.Done? ==> r.Thrown?
    {
      if Remaining() < 4 then Thrown else Done(data[pos..pos + 4])
    }

    /** The chunk's length, the 32-bit value after its tag. */
    function Size(data: seq<bv8>): (r: Outcome<UInt32>)
      requires Within(data)
      ensures r.Done? <==> 8 <= Remaining()
      ensures r.Done? ==> r.value == LE32(data, pos + 4)
      ensures !r.Done? ==> r.Thrown?
    {
      if Remaining() < 8 then Thrown else Done(LE32(data, pos + 4))
    }

    /** A list's tag, the 4 bytes after the chunk header. */
    function ListTagOf(data: seq<bv8>): (r: Outcome<seq<bv8>>)
      requires Within(data)
      ensures r.Done? <==> 12 <= Remaining()
      ensures r.Done? ==> r.value == data[pos + 8..pos + 12]
      ensures !r.Done? ==> r.Thrown?
    {
      if Remaining() < 12 then Thrown else Done(data[pos + 8..pos + 12])
    }

    /** The `len` data bytes after the chunk header. */
    function DataOf(data: seq<bv8>, len: nat): (r: Outcome<seq<bv8>>)
      requires Within(data)
      ensures r.Done? <==> 8 + len <= Remaining()
      ensures r.Done? ==> r.value == data[pos + 8..pos + 8 + len]
      ensures !r.Done? ==> r.Thrown?
    {
      if Remaining() < 8 + len then Thrown else Done(data[pos + 8..pos + 8 + len])
    }
  }

  /** A region the parser can work on: inside the data and shorter than 2^32 bytes. */
  predicate Region(data: seq<bv8>, c: Cursor)
  {
    c.Within(data) && c.end - c.pos < Limit
  }

  /**
   * The chunk at `c` and the position after it. The length must be readable;
   * the chunk itself is parsed first, then the position advances past the
   * padded chunk, which fails by terminating (or, when `checked`, by a
   * format error, the padded length then being summed without wrapping).
   */
  function ChunkAt(data: seq<bv8>, c: Cursor, checked: bool): (r: Outcome<(Chunk, Cursor)>)
    requires Region(data, c)
    ensures r.Done? ==> 8 <= c.Remaining()
    ensures r.Done? ==> r.value.1.pos == c.pos + ChunkSpan(LE32(data, c.pos + 4)) && r.value.1.end == c.end
    ensures r.Done? ==> 8 + LE32(data, c.pos + 4) <= c.Remaining()
    ensures checked && r.Done? ==> r.value.1.pos >= c.pos + 8
    decreases c.end - c.pos, 1
  {
    var size := c.Size(data);
    if !size.Done? then Thrown
    else
      var body := ChunkBody(data, c, size.value, checked);
      if body.Terminated? || body.Diverges? then Failed(body)
      else
        var span := if checked then PaddedSpan(size.value) else ChunkSpan(size.value);
        var next := c.Advance(span);
        if !next.Done? then (if checked then Thrown else Terminated)
        else if body.Done? then Done((body.value, next.value))
        else Thrown
  }

  /** The contents of the chunk at `c` whose length is `len`. */
  function ChunkBody(data: seq<bv8>, c: Cursor, len: UInt32, checked: bool): (r: Outcome<Chunk>)
    requires Region(data, c) && 8 <= c.Remaining()
    ensures r.Done? ==> 8 + len <= c.Remaining()
    decreases c.end - c.pos, 0
  {
    var tag := c.Tag(data).value;
    if tag == ListTag then
      var listTag := c.ListTagOf(data);
      if !listTag.Done? then Thrown
      else
        var inner := c.AdvanceWithin(12, U32Sub(len, 4));
        if !inner.Done? then Thrown
        else
          var chunks := ChunksIn(data, inner.value, checked);
          if chunks.Done? then Done(List(listTag.value, chunks.value)) else Failed(chunks)
    else
      var bytes := c.DataOf(data, len);
      if bytes.Done? then Done(Data(tag, bytes.value)) else Thrown
  }

  /** The chunks of the region `c`, parsed one after the other until it is used up. */
  function ChunksIn(data: seq<bv8>, c: Cursor, checked: bool): (r: Outcome<seq<Chunk>>)
    requires Region(data, c)
    ensures r.Done? ==> |r.value| <= c.Remaining()
    ensures r.Done? && c.Remaining() > 0 ==> r.value != []
    decreases c.end - c.pos, 2
  {
    if c.Remaining() == 0 then Done([])
    else
      var step := ChunkAt(data, c, checked);
      if !step.Done? then Failed(step)
      else if step.value.1.pos == c.pos then Diverges
      else Prefixed([step.value.0], ChunksIn(data, step.value.1, checked))
  }

  /**
   * The whole data as one 'RIFF' chunk: its tag must be 'RIFF' and its
   * length, less 4 on `uint32_t`, must equal the size less 12 on `size_t`;
   * the chunks after the form tag make up the result.
   */
  function Parsed(data: seq<bv8>, checked: bool): (r: Outcome<Chunk>)
    requires |data| < SizeModulus
    ensures r.Done? ==> 12 <= |data| && r.value.List? && r.value.tag == data[8..12]
    ensures r.Done? ==> |r.value.chunks| <= |data| - 12
  {
    var form := Form(data);
    if !form.Done? then Thrown
    else
      var chunks := ChunksIn(data, form.value.1, checked);
      if chunks.Done? then Done(List(form.value.0, chunks.value)) else Failed(chunks)
  }

  /**
   * The checks of the file header: 'RIFF', a length field of the data's
   * size less 8 (modulo 2^32 on the field, modulo 2^64 on the size), and a
   * form tag. Gives the form tag and the region of the chunks, bytes 12 to
   * the end.
   */
  function Form(data: seq<bv8>): (r: Outcome<(seq<bv8>, Cursor)>)
    requires |data| < SizeModulus
    ensures r.Done? ==> 12 <= |data| < Limit + 12 && r.value == (data[8..12], Cursor(12, |data|))
    ensures !r.Done? ==> r.Thrown?
  {
    var c := Cursor(0, |data|);
    var tag := c.Tag(data);
    if !tag.Done? || tag.value != RiffTag then Thrown
    else
      var size := c.Size(data);
      if !size.Done? then Thrown
      else
        var len := U32Sub(size.value, 4);
        if len != ToSize(|data| - 12) then Thrown
        else
          var formTag := c.ListTagOf(data);
          var inner := c.AdvanceWithin(12, len);
          if !formTag.Done? || !inner.Done? then Thrown
          else Done((formTag.value, inner.value))
  }

  /** A result with `prefix` put in front of its chunks; failures pass through. */
  function Prefixed(prefix: seq<Chunk>, r: Outcome<seq<Chunk>>): (p: Outcome<seq<Chunk>>)
    ensures p.Done? <==> r.Done?
    ensures p.Done? ==> p.value == prefix + r.value
    ensures !p.Done? ==> p == r
  {
    match r
    case Done(rest) => Done(prefix + rest)
    case _ => r
  }

  /** Moving one chunk from the front of a result to the end of the prefix changes nothing. */
  lemma PrefixedStep(prefix: seq<Chunk>, chunk: Chunk, r: Outcome<seq<Chunk>>)
    ensures Prefixed(prefix, Prefixed([chunk], r)) == Prefixed(prefix + [chunk], r)
  {
    if r.Done? {
      assert prefix + ([chunk] + r.value) == (prefix + [chunk]) + r.value;
    }
  }

  /** Parses the chunk at `c`, returning it and the position after it. */
  method ParseChunk(data: seq<bv8>, c: Cursor) returns (r: Outcome<(Chunk, Cursor)>)
    requires Region(data, c)
    ensures r == ChunkAt(data, c, false)
    decreases c.end - c.pos, 1
  {
    var size := c.Size(data);
    if !size.Done? {
      return Thrown;
    }
    var len := size.value;
    var clen := ChunkSpan(len);
    var body: Outcome<Chunk>;
    var tag := c.Tag(data);
    if tag.value == ListTag {
      var listTag := c.ListTagOf(data);
      var inner := c.AdvanceWithin(12, U32Sub(len, 4));
      if listTag.Done? && inner.Done? {
        var chunks := ParseChunks(data, inner.value);
        if chunks.Done? {
          body := Done(List(listTag.value, chunks.value));
        } else {
          body := Failed(chunks);
        }
      } else {
        body := Thrown;
      }
    } else {
      var bytes := c.DataOf(data, len);
      if bytes.Done? {
        body := Done(Data(tag.value, bytes.value));
      } else {
        body := Thrown;
      }
    }
    assert body == ChunkBody(data, c, len, false);
    if body.Terminated? || body.Diverges? {
      return Failed(body);
    }
    // The deferred advance, run as the function returns or unwinds.
    var next := c.Advance(clen);
    if !next.Done? {
      return Terminated;
    }
    if body.Done? {
      r := Done((body.value, next.value));
    } else {
      r := Thrown;
    }
  }

  /** Parses chunks from `c` while bytes remain, collecting them in order. */
  method ParseChunks(data: seq<bv8>, c: Cursor) returns (r: Outcome<seq<Chunk>>)
    requires Region(data, c)
    ensures r == ChunksIn(data, c, false)
    decreases c.end - c.pos, 2
  {
    var result: seq<Chunk> := [];
    var pos := c;
    if ChunksIn(data, c, false).Done? {
      assert [] + ChunksIn(data, c, false).value == ChunksIn(data, c, false).value;
    }
    while pos.Remaining() > 0
      invariant Region(data, pos) && pos.end == c.end && c.pos <= pos.pos
      invariant ChunksIn(data, c, false) == Prefixed(result, ChunksIn(data, pos, false))
      decreases pos.end - pos.pos
    {
      var step := ParseChunk(data, pos);
      if !step.Done? {
        return Failed(step);
      }
      if step.value.1.pos == pos.pos {
        return Diverges;
      }
      PrefixedStep(result, step.value.0, ChunksIn(data, step.value.1, false));
      result := result + [step.value.0];
      pos := step.value.1;
    }
    assert result + [] == result;
    return Done(result);
  }

  /** Parses a whole SoundFont file held in memory. */
  method Parse(data: seq<bv8>) returns (r: Outcome<Chunk>)
    requires |data| < SizeModulus
    ensures r == Parsed(data, false)
  {
    var c := Cursor(0, |data|);
    var tag := c.Tag(data);
    if !tag.Done? || tag.value != RiffTag {
      return Thrown;
    }
    var size := c.Size(data);
    if !size.Done? {
      return Thrown;
    }
    var len := U32Sub(size.value, 4);
    if len != ToSize(|data| - 12) {
      return Thrown;
    }
    var formTag := c.ListTagOf(data);
    var inner := c.AdvanceWithin(12, len);
    if !formTag.Done? || !inner.Done? {
      return Thrown;
    }
    var chunks := ParseChunks(data, inner.value);
    if chunks.Done? {
      r := Done(List(formTag.value, chunks.value));
    } else {
      r := Failed(chunks);
    }
  }

  /** Data that does not start with 'RIFF' is refused with a format error. */
  lemma NotRiffThrows(data: seq<bv8>, checked: bool)
    requires |data| < SizeModulus
    requires |data| < 4 || data[..4] != RiffTag
    ensures Parsed(data, checked) == Thrown
  {
  }

  /**
   * A 'RIFF' header whose length field is not the data's size less 8
   * (modulo 2^32 on the field, modulo 2^64 on the size) is refused.
   */
  lemma SizeMismatchThrows(data: seq<bv8>, checked: bool)
    requires 8 <= |data| < SizeModulus && data[..4] == RiffTag
    requires U32Sub(LE32(data, 4), 4) != ToSize(|data| - 12)
    ensures Parsed(data, checked) == Thrown
  {
  }

  /**
   * A parse that succeeds saw 'RIFF', a length field of the size less 8,
   * and gives a list of the form tag and the chunks of bytes 12 to the end.
   */
  lemma ParsedShape(data: seq<bv8>, checked: bool)
    requires |data| < SizeModulus && Parsed(data, checked).Done?
    ensures 12 <= |data| < Limit + 12 && data[..4] == RiffTag
    ensures U32Sub(LE32(data, 4), 4) == |data| - 12
    ensures ChunksIn(data, Cursor(12, |data|), checked).Done?
    ensures Parsed(data, checked) == Done(List(data[8..12], ChunksIn(data, Cursor(12, |data|), checked).value))
  {
    var c := Cursor(0, |data|);
    assert c.Tag(data).Done? && c.Size(data).Done?;
    var len := U32Sub(LE32(data, 4), 4);
    assert len == ToSize(|data| - 12);
  }

  /**
   * A 'LIST' chunk holds its list tag and the chunks of the `len - 4` bytes
   * after it; the length is at least 4 and the list fits in the region.
   */
  lemma ListBody(data: seq<bv8>, c: Cursor, len: UInt32, checked: bool)
    requires Region(data, c) && 8 <= c.Remaining()
    requires data[c.pos..c.pos + 4] == ListTag
    requires ChunkBody(data, c, len, checked).Done?
    ensures 4 <= len && 8 + len <= c.Remaining()
    ensures var inner := Cursor(c.pos + 12, c.pos + 8 + len);
      ChunksIn(data, inner, checked).Done? &&
      ChunkBody(data, c, len, checked) == Done(List(data[c.pos + 8..c.pos + 12], ChunksIn(data, inner, checked).value))
  {
  }

  /** Any other chunk holds its tag and its `len` data bytes, which fit in the region. */
  lemma DataBody(data: seq<bv8>, c: Cursor, len: UInt32, checked: bool)
    requires Region(data, c) && 8 <= c.Remaining()
    requires data[c.pos..c.pos + 4] != ListTag
    ensures ChunkBody(data, c, len, checked).Done? <==> 8 + len <= c.Remaining()
    ensures 8 + len <= c.Remaining() ==>
      ChunkBody(data, c, len, checked) == Done(Data(data[c.pos..c.pos + 4], data[c.pos + 8..c.pos + 8 + len]))
  {
  }

  /**
   * Each chunk parsed moves on by at least 8 bytes, its header, in any
   * region shorter than 2^32 - 1 bytes.
   */
  lemma StepAdvances(data: seq<bv8>, c: Cursor, checked: bool)
    requires Region(data, c) && c.end - c.pos < Limit - 1
    requires ChunkAt(data, c, checked).Done?
    ensures ChunkAt(data, c, checked).value.1.pos >= c.pos + 8
  {
  }

  /**
   * With the check in place, a chunk parse returns: it gives a chunk or a
   * format error, and neither terminates nor loops forever.
   */
  lemma {:induction false} CheckedChunkReturns(data: seq<bv8>, c: Cursor)
    requires Region(data, c)
    ensures ChunkAt(data, c, true).Done? || ChunkAt(data, c, true).Thrown?
    ensures 8 <= c.Remaining() ==>
      ChunkBody(data, c, LE32(data, c.pos + 4), true).Done? || ChunkBody(data, c, LE32(data, c.pos + 4), true).Thrown?
    decreases c.end - c.pos, 1
  {
    if 8 <= c.Remaining() {
      var len := LE32(data, c.pos + 4);
      if data[c.pos..c.pos + 4] == ListTag && 12 <= c.Remaining() {
        var inner := c.AdvanceWithin(12, U32Sub(len, 4));
        if inner.Done? {
          CheckedChunksReturn(data, inner.value);
        }
      }
    }
  }

  /** With the check in place, a run of chunks gives the chunks or a format error. */
  lemma {:induction false} CheckedChunksReturn(data: seq<bv8>, c: Cursor)
    requires Region(data, c)
    ensures ChunksIn(data, c, true).Done? || ChunksIn(data, c, true).Thrown?
    decreases c.end - c.pos, 2
  {
    if c.Remaining() > 0 {
      CheckedChunkReturns(data, c);
      var step := ChunkAt(data, c, true);
      if step.Done? {
        CheckedChunksReturn(data, step.value.1);
      }
    }
  }

  /**
   * The corrected parser: like the code as written, except that a chunk
   * whose padded size, summed without wrapping, overruns its region is a
   * format error. It always returns, with the file's chunks or a format error.
   */
  function ParseChecked(data: seq<bv8>): (r: Outcome<Chunk>)
    requires |data| < SizeModulus
    ensures r.Done? || r.Thrown?
  {
    if 12 <= |data| < Limit + 12 then
      CheckedChunksReturn(data, Cursor(12, |data|));
      Parsed(data, true)
    else
      Parsed(data, true)
  }

  /** The failure a termination or an endless loop becomes when it is reported as a format error. */
  function AsThrown<T>(o: Outcome<T>): (r: Outcome<T>)
    ensures r.Done? || r.Thrown?
    ensures (o.Terminated? || o.Diverges?) ==> r.Thrown?
    ensures o.Done? || o.Thrown? ==> r == o
  {
    if o.Terminated? || o.Diverges? then Thrown else o
  }

  /** The code's chunk parse succeeds without moving the position: its padded length wrapped to 0. */
  predicate Stalls(data: seq<bv8>, c: Cursor)
    requires Region(data, c)
  {
    ChunkAt(data, c, false).Done? && ChunkAt(data, c, false).value.1.pos == c.pos
  }

  /**
   * The padded length summed without wrapping moves the position exactly
   * where the wrapped sum does, or overruns the region; it overruns where
   * the wrapped sum is 0 for a chunk that fits.
   */
  lemma SpansAgree(c: Cursor, len: UInt32)
    requires c.pos <= c.end && c.Remaining() < Limit
    ensures c.Advance(PaddedSpan(len)).Done? ==> PaddedSpan(len) == ChunkSpan(len)
    ensures !c.Advance(ChunkSpan(len)).Done? ==> !c.Advance(PaddedSpan(len)).Done?
    ensures 8 + len <= c.Remaining() && len + 9 >= Limit ==> ChunkSpan(len) == 0 && !c.Advance(PaddedSpan(len)).Done?
  {
  }

  /** The corrected chunk contents differ only where the code terminates or loops forever, and there it throws. */
  lemma {:induction false} BodyAgrees(data: seq<bv8>, c: Cursor)
    requires Region(data, c) && 8 <= c.Remaining()
    ensures ChunkBody(data, c, LE32(data, c.pos + 4), true) == AsThrown(ChunkBody(data, c, LE32(data, c.pos + 4), false))
    decreases c.end - c.pos, 0
  {
    var len := LE32(data, c.pos + 4);
    if data[c.pos..c.pos + 4] == ListTag && 12 <= c.Remaining() {
      var inner := c.AdvanceWithin(12, U32Sub(len, 4));
      if inner.Done? {
        ChunksAgree(data, inner.value);
      }
    }
  }

  /**
   * The corrected chunk parse differs from the code as written only where
   * the code terminates or loops forever, and where its step wraps to 0; in
   * each case it throws.
   */
  lemma {:induction false} ChunkAgrees(data: seq<bv8>, c: Cursor)
    requires Region(data, c)
    ensures ChunkAt(data, c, true) == if Stalls(data, c) then Thrown else AsThrown(ChunkAt(data, c, false))
    decreases c.end - c.pos, 1
  {
    var size := c.Size(data);
    if size.Done? {
      var len := size.value;
      BodyAgrees(data, c);
      SpansAgree(c, len);
      var body := ChunkBody(data, c, len, false);
      if body.Done? && len + 9 >= Limit {
        assert Stalls(data, c);
      }
    }
  }

  /** The corrected run of chunks differs only where the code terminates or loops forever, and there it throws. */
  lemma {:induction false} ChunksAgree(data: seq<bv8>, c: Cursor)
    requires Region(data, c)
    ensures ChunksIn(data, c, true) == AsThrown(ChunksIn(data, c, false))
    decreases c.end - c.pos, 2
  {
    if c.Remaining() > 0 {
      ChunkAgrees(data, c);
      var step := ChunkAt(data, c, false);
      if step.Done? && step.value.1.pos != c.pos {
        ChunksAgree(data, step.value.1);
      }
    }
  }

  /** The corrected parse of a whole file differs only where the code terminates or loops forever. */
  lemma ParseAgrees(data: seq<bv8>)
    requires |data| < SizeModulus
    ensures ParseChecked(data) == AsThrown(Parsed(data, false))
  {
    if 12 <= |data| < Limit + 12 {
      ChunksAgree(data, Cursor(12, |data|));
    }
  }

  /**
   * A data chunk of length 2^32 - 9 filling a region of 2^32 - 1 bytes: its
   * padded span wraps to 0 on `uint32_t`, the position does not move, and
   * the loop over the region parses the same chunk forever. The corrected
   * parse refuses the chunk.
   */
  lemma WrappedSpanDiverges(data: seq<bv8>, c: Cursor)
    requires Region(data, c) && c.end - c.pos == Limit - 1
    requires data[c.pos..c.pos + 4] != ListTag && LE32(data, c.pos + 4) == Limit - 9
    ensures ChunkSpan(LE32(data, c.pos + 4)) == 0
    ensures ChunksIn(data, c, false) == Diverges
    ensures ChunksIn(data, c, true) == Thrown
  {
    assert ChunkBody(data, c, Limit - 9, false).Done?;
    assert ChunkBody(data, c, Limit - 9, true).Done?;
  }

  /**
   * A file of 2^32 + 11 bytes whose 'RIFF' length field holds 3: less 4 on
   * `uint32_t` that is 2^32 - 1, the size less 12, so the header is
   * accepted, and a first chunk of length 2^32 - 9 makes the loop run
   * forever. The corrected parse gives a format error.
   */
  lemma WrappedFileDiverges(data: seq<bv8>)
    requires |data| == Limit + 11 && data[..4] == RiffTag && LE32(data, 4) == 3
    requires data[12..16] != ListTag && LE32(data, 16) == Limit - 9
    ensures Parsed(data, false) == Diverges
    ensures ParseChecked(data) == Thrown
  {
    assert |data| < SizeModulus;
    var c := Cursor(0, |data|);
    assert c.Tag(data) == Done(data[..4]);
    assert U32Sub(LE32(data, 4), 4) == Limit - 1 == ToSize(|data| - 12);
    assert Form(data).Done? && Form(data).value.1 == Cursor(12, |data|);
    WrappedSpanDiverges(data, Cursor(12, |data|));
  }

  /** A file holding one 1-byte chunk without its pad byte. */
  const UnpaddedFile: seq<bv8> :=
    RiffTag + [13, 0, 0, 0] + [0x73, 0x66, 0x62, 0x6B] + [0x61, 0x62, 0x63, 0x64] + [1, 0, 0, 0] + [0x42]

  /**
   * A final chunk of odd length with no pad byte: the code as written reads
   * it, then cannot advance past the pad byte in its destructor and
   * terminates; the corrected parser throws a format error.
   */
  lemma UnpaddedChunkTerminates()
    ensures Parsed(UnpaddedFile, false) == Terminated
    ensures ParseChecked(UnpaddedFile) == Thrown
  {
    var data := UnpaddedFile;
    assert |data| == 21;
    assert data[..4] == RiffTag && LE32(data, 4) == 13;
    var inner := Cursor(12, 21);
    assert data[12] == 0x61;
    assert data[12..16] != ListTag;
    assert LE32(data, 16) == 1;
    assert ChunkBody(data, inner, 1, false).Done?;
    assert ChunkAt(data, inner, false) == Terminated;
    assert ChunksIn(data, inner, false) == Terminated;
    ParseAgrees(data);
  }

  /** A file holding one 2-byte chunk parses to a list of that chunk. */
  const PaddedFile: seq<bv8> :=
    RiffTag + [14, 0, 0, 0] + [0x73, 0x66, 0x62, 0x6B] + [0x61, 0x62, 0x63, 0x64] + [2, 0, 0, 0] + [0x42, 0x43]

  lemma PaddedChunkParses()
    ensures Parsed(PaddedFile, false) ==
      Done(List([0x73, 0x66, 0x62, 0x6B], [Data([0x61, 0x62, 0x63, 0x64], [0x42, 0x43])]))
  {
    var data := PaddedFile;
    assert |data| == 22;
    assert data[..4] == RiffTag && LE32(data, 4) == 14;
    var inner := Cursor(12, 22);
    assert data[12] == 0x61;
    assert data[12..16] != ListTag;
    assert LE32(data, 16) == 2;
    assert ChunkAt(data, inner, false) == Done((Data(data[12..16], data[20..22]), Cursor(22, 22)));
    var chunk := Data(data[12..16], data[20..22]);
    assert ChunksIn(data, Cursor(22, 22), false) == Done([]);
    assert [chunk] + [] == [chunk];
    assert ChunksIn(data, inner, false) == Done([chunk]);
    assert data[8..12] == [0x73, 0x66, 0x62, 0x6B];
    assert chunk == Data([0x61, 0x62, 0x63, 0x64], [0x42, 0x43]);
  }
}

=== FILE: sample_bounds.dfy ===
/**
 * The sample positions a voice renders: start, loop start, loop end and
 * end, as offsets from the first sample of a sample header ('shdr' entry),
 * adjusted by the voice's address-offset generators and clamped to the
 * sample. Positions are `size_t` values, so the arithmetic on them is
 * modulo 2^64.
 */
module SampleBounds {
  import Modulators
  import opened Sizes

  type UInt32 = x: int | 0 <= x < 0x1_0000_0000

  /** The sample indices of a sample header. */
  datatype SampleHeader = SampleHeader(start: UInt32, end: UInt32, startLoop: UInt32, endLoop: UInt32)

  /** Indices of the generators that move the sample positions. */
  const StartAddressOffset: nat := 0
  const EndAddressOffset: nat := 1
  const StartLoopAddressOffset: nat := 2
  const EndLoopAddressOffset: nat := 3
  const StartAddressCoarseOffset: nat := 4
  const EndAddressCoarseOffset: nat := 12
  const StartLoopAddressCoarseOffset: nat := 45
  const EndLoopAddressCoarseOffset: nat := 50

  /** The number of samples one unit of a coarse offset stands for. */
  const Coarse: int := 32768

  datatype Bounds = Bounds(startPos: Size, startLoopPos: Size, endLoopPos: Size, endPos: Size)
  {
    /** The number of samples in the loop, modulo 2^64. */
    function LoopSize(): (n: Size)
      ensures startLoopPos <= endLoopPos ==> n == endLoopPos - startLoopPos
    {
      ToSize(endLoopPos - startLoopPos)
    }

    /** A loop exists when it starts after the start and ends inside the sample; its size is then positive. */
    function HasLoop(): (r: bool)
      ensures r ==> LoopSize() == endLoopPos - startLoopPos > 0 && endLoopPos - startLoopPos < endPos - startPos
    {
      startLoopPos > startPos && startLoopPos < endLoopPos && endLoopPos <= endPos
    }
  }

  /** An offset as written: fine plus coarse times 32768, each converted to `size_t`. */
  function Offset(fine: int, coarse: int): Size
  {
    ToSize(ToSize(fine) + ToSize(ToSize(coarse) * Coarse))
  }

  /** The combined offset is fine + coarse * 32768 modulo 2^64. */
  lemma OffsetCombines(fine: int, coarse: int)
    ensures Offset(fine, coarse) == ToSize(fine + coarse * Coarse)
  {
    ToSizeScale(coarse, Coarse);
    ToSizeAdd(fine, ToSize(coarse * Coarse));
    var t := ToSize(coarse * Coarse);
    assert ToSize(fine + t) == ToSize(t + fine);
    ToSizeAdd(coarse * Coarse, fine);
  }

  /**
   * The clamping of the code as written: a value below `lower` becomes 0,
   * one above `upper` becomes `upper - lower` (modulo 2^64), and any other
   * its distance from `lower`.
   */
  function ClampAsWritten(value: Size, lower: Size, upper: Size): (r: Size)
    ensures lower <= upper ==> r <= upper - lower
  {
    if value < lower then 0
    else if value > upper then ToSize(upper - lower)
    else value - lower
  }

  /**
   * The bounds of a header adjusted by the generators' current values
   * (`unmodulated`, indexed by generator), as the code computes them: every
   * sum is taken modulo 2^64 before clamping.
   */
  function MakeAsWritten(header: SampleHeader, unmodulated: seq<int>): (b: Bounds)
    requires |unmodulated| == Modulators.GeneratorCount as int
    ensures header.start <= header.end ==>
      b.startPos <= header.end - header.start && b.startLoopPos <= header.end - header.start &&
      b.endLoopPos <= header.end - header.start && b.endPos <= header.end - header.start
  {
    var lower := header.start;
    var upper := header.end;
    Bounds(PositionAsWritten(lower, unmodulated, StartAddressOffset, StartAddressCoarseOffset, lower, upper),
           PositionAsWritten(header.startLoop, unmodulated, StartLoopAddressOffset, StartLoopAddressCoarseOffset, lower, upper),
           PositionAsWritten(header.endLoop, unmodulated, EndLoopAddressOffset, EndLoopAddressCoarseOffset, lower, upper),
           PositionAsWritten(upper, unmodulated, EndAddressOffset, EndAddressCoarseOffset, lower, upper))
  }

  /** One position as written: a header index plus its offset, modulo 2^64, clamped. */
  function PositionAsWritten(base: UInt32, unmodulated: seq<int>, fine: nat, coarse: nat, lower: Size, upper: Size): (r: Size)
    requires fine < |unmodulated| && coarse < |unmodulated|
    ensures lower <= upper ==> r <= upper - lower
  {
    ClampAsWritten(ToSize(base + Offset(unmodulated[fine], unmodulated[coarse])), lower, upper)
  }

  /**
   * Clamping a signed position to the sample: below `lower` gives 0, above
   * `upper` gives `upper - lower`, otherwise the distance from `lower`.
   */
  function Clamp(value: int, lower: Size, upper: Size): (r: Size)
    ensures lower <= upper ==> r <= upper - lower
    ensures lower <= value <= upper ==> r == value - lower
    ensures value < lower ==> r == 0
    ensures lower <= upper < value ==> r == upper - lower
  {
    if value < lower then 0
    else if value > upper then ToSize(upper - lower)
    else value - lower
  }

  /**
   * The bounds of a header adjusted by the generators' current values, with
   * each position computed as a signed sum, so that an offset that moves a
   * position before the first sample clamps it to the start.
   */
  function Make(header: SampleHeader, unmodulated: seq<int>): (b: Bounds)
    requires |unmodulated| == Modulators.GeneratorCount as int
    ensures header.start <= header.end ==>
      b.startPos <= header.end - header.start && b.startLoopPos <= header.end - header.start &&
      b.endLoopPos <= header.end - header.start && b.endPos <= header.end - header.start
  {
    var lower := header.start;
    var upper := header.end;
    Bounds(Clamp(lower + SignedOffset(unmodulated, StartAddressOffset, StartAddressCoarseOffset), lower, upper),
           Clamp(header.startLoop + SignedOffset(unmodulated, StartLoopAddressOffset, StartLoopAddressCoarseOffset), lower, upper),
           Clamp(header.endLoop + SignedOffset(unmodulated, EndLoopAddressOffset, EndLoopAddressCoarseOffset), lower, upper),
           Clamp(upper + SignedOffset(unmodulated, EndAddressOffset, EndAddressCoarseOffset), lower, upper))
  }

  /** The signed offset of a fine and a coarse generator. */
  function SignedOffset(unmodulated: seq<int>, fine: nat, coarse: nat): int
    requires fine < |unmodulated| && coarse < |unmodulated|
  {
    unmodulated[fine] + unmodulated[coarse] * Coarse
  }

  /**
   * Where no adjusted position is negative or beyond 2^64, the code as
   * written and the signed computation agree.
   */
  lemma AsWrittenAgreesWithoutWrap(header: SampleHeader, unmodulated: seq<int>)
    requires |unmodulated| == Modulators.GeneratorCount as int
    requires 0 <= header.start + SignedOffset(unmodulated, StartAddressOffset, StartAddressCoarseOffset) < SizeModulus
    requires 0 <= header.startLoop + SignedOffset(unmodulated, StartLoopAddressOffset, StartLoopAddressCoarseOffset) < SizeModulus
    requires 0 <= header.endLoop + SignedOffset(unmodulated, EndLoopAddressOffset, EndLoopAddressCoarseOffset) < SizeModulus
    requires 0 <= header.end + SignedOffset(unmodulated, EndAddressOffset, EndAddressCoarseOffset) < SizeModulus
    ensures MakeAsWritten(header, unmodulated) == Make(header, unmodulated)
  {
    PositionAgrees(header.start, unmodulated, StartAddressOffset, StartAddressCoarseOffset, header.start, header.end);
    PositionAgrees(header.startLoop, unmodulated, StartLoopAddressOffset, StartLoopAddressCoarseOffset, header.start, header.end);
    PositionAgrees(header.endLoop, unmodulated, EndLoopAddressOffset, EndLoopAddressCoarseOffset, header.start, header.end);
    PositionAgrees(header.end, unmodulated, EndAddressOffset, EndAddressCoarseOffset, header.start, header.end);
  }

  /** Without wrap-around one position comes out the same both ways. */
  lemma PositionAgrees(base: UInt32, unmodulated: seq<int>, fine: nat, coarse: nat, lower: Size, upper: Size)
    requires fine < |unmodulated| && coarse < |unmodulated|
    requires 0 <= base + SignedOffset(unmodulated, fine, coarse) < SizeModulus
    ensures PositionAsWritten(base, unmodulated, fine, coarse, lower, upper) ==
      Clamp(base + SignedOffset(unmodulated, fine, coarse), lower, upper)
  {
    WrappedPosition(base, unmodulated, fine, coarse);
  }

  /** A header index plus an offset as written is the signed sum modulo 2^64. */
  lemma WrappedPosition(base: UInt32, unmodulated: seq<int>, fine: nat, coarse: nat)
    requires fine < |unmodulated| && coarse < |unmodulated|
    ensures ToSize(base + Offset(unmodulated[fine], unmodulated[coarse])) ==
      ToSize(base + SignedOffset(unmodulated, fine, coarse))
  {
    OffsetCombines(unmodulated[fine], unmodulated[coarse]);
    var s := SignedOffset(unmodulated, fine, coarse);
    ToSizeAdd(s, base);
    assert ToSize(ToSize(s) + base) == ToSize(s + base);
    assert ToSize(base + ToSize(s)) == ToSize(ToSize(s) + base);
    assert ToSize(s + base) == ToSize(base + s);
  }

  /** The bounds from a sample header alone: the whole sample, loop clamped into it. */
  function MakeFromHeader(header: SampleHeader): (b: Bounds)
    ensures b.startPos == 0
    ensures b.endPos == (if header.end > header.start then header.end else header.start) - header.start
    ensures b.startLoopPos <= b.endPos && b.endLoopPos <= b.endPos
    ensures header.start <= header.startLoop <= header.end ==> b.startLoopPos == header.startLoop - header.start
    ensures header.start <= header.endLoop <= header.end ==> b.endLoopPos == header.endLoop - header.start
  {
    var lower := header.start;
    var upper := if lower > header.end then lower else header.end;
    Bounds(0, ClampAsWritten(header.startLoop, lower, upper), ClampAsWritten(header.endLoop, lower, upper),
           upper - lower)
  }

  /**
   * A loop inside the sample and starting after its first sample is kept by
   * `MakeFromHeader`.
   */
  lemma HeaderLoopKept(header: SampleHeader)
    requires header.start < header.startLoop < header.endLoop <= header.end
    ensures MakeFromHeader(header).HasLoop()
    ensures MakeFromHeader(header).LoopSize() == header.endLoop - header.startLoop
  {
  }

  /** Generator values with only the start-loop fine offset set. */
  function LoopOffsetOnly(offset: int): (unmodulated: seq<int>)
    ensures |unmodulated| == Modulators.GeneratorCount as int
  {
    seq(Modulators.GeneratorCount as int, i => if i == StartLoopAddressOffset then offset else 0)
  }

  /**
   * A start-loop offset of -10 on a loop starting at sample 3 of a sample
   * spanning 0..100: the code as written wraps the position around `size_t`
   * and clamps it to the end (100), where the signed computation clamps it
   * to the start (0).
   */
  lemma NegativeOffsetWraps()
    ensures MakeAsWritten(SampleHeader(0, 100, 3, 50), LoopOffsetOnly(-10)).startLoopPos == 100
    ensures Make(SampleHeader(0, 100, 3, 50), LoopOffsetOnly(-10)).startLoopPos == 0
  {
    var u := LoopOffsetOnly(-10);
    assert u[StartLoopAddressOffset] == -10 && u[StartLoopAddressCoarseOffset] == 0;
    OffsetCombines(-10, 0);
    assert Offset(-10, 0) == SizeModulus - 10;
  }
}

=== FILE: sequence_edits.dfy ===
/**
 * Array insertion and removal at an index, as Swift's `insert(_:at:)` and
 * `remove(at:)` perform them, written over sequences.
 */
module SequenceEdits {

  /** `s` with `x` inserted so that it lands at index `i`. */
  function Insert<T>(s: seq<T>, i: nat, x: T): (r: seq<T>)
    requires i <= |s|
    ensures |r| == |s| + 1 && r[i] == x
    ensures r[..i] == s[..i] && r[i + 1..] == s[i..]
    ensures multiset(r) == multiset(s) + multiset{x}
  {
    assert s == s[..i] + s[i..];
    s[..i] + [x] + s[i..]
  }

  /** `s` without its element at index `i`; later elements shift down by one. */
  function Remove<T>(s: seq<T>, i: nat): (r: seq<T>)
    requires i < |s|
    ensures |r| == |s| - 1
    ensures r[..i] == s[..i] && r[i..] == s[i + 1..]
    ensures multiset(r) + multiset{s[i]} == multiset(s)
  {
    assert s == s[..i] + [s[i]] + s[i + 1..];
    s[..i] + s[i + 1..]
  }

  /** Removing a later position keeps the first element and removes from the tail. */
  lemma RemoveFront<T>(s: seq<T>, i: nat)
    requires 0 < i < |s|
    ensures Remove(s, i) == [s[0]] + Remove(s[1..], i - 1)
  {
    var r := Remove(s, i);
    var q := Remove(s[1..], i - 1);
    assert r[..i] == s[..i] && r[i..] == s[i + 1..];
    assert q[..i - 1] == s[1..i] && q[i - 1..] == s[i + 1..];
    assert r == r[..i] + r[i..];
    assert s[..i] == [s[0]] + s[1..i];
    assert q == q[..i - 1] + q[i - 1..];
  }

  /** Element `j` after an insertion at `i`: earlier ones stay, later ones move up by one. */
  lemma InsertElement<T>(s: seq<T>, i: nat, x: T, j: nat)
    requires i <= |s| && j <= |s|
    ensures Insert(s, i, x)[j] == (if j < i then s[j] else if j == i then x else s[j - 1])
  {
    var r := Insert(s, i, x);
    if j < i {
      assert r[j] == r[..i][j];
    } else if j > i {
      assert r[j] == r[i + 1..][j - i - 1];
    }
  }

  /** Removing what was just inserted gives back the original sequence. */
  lemma RemoveInserted<T>(s: seq<T>, i: nat, x: T)
    requires i <= |s|
    ensures Remove(Insert(s, i, x), i) == s
  {
    var r := Insert(s, i, x);
    assert Remove(r, i) == r[..i] + r[i + 1..];
    assert s == s[..i] + s[i..];
  }

  /** Inserting the removed element where it was gives back the original sequence. */
  lemma InsertRemoved<T>(s: seq<T>, i: nat)
    requires i < |s|
    ensures Insert(Remove(s, i), i, s[i]) == s
  {
    var r := Remove(s, i);
    assert Insert(r, i, s[i]) == r[..i] + [s[i]] + r[i..];
    assert s == s[..i] + [s[i]] + s[i + 1..];
  }

  /** No element occurs twice. */
  ghost predicate Distinct<T>(s: seq<T>) {
    forall i, j :: 0 <= i < j < |s| ==> s[i] != s[j]
  }

  /** Removing an element keeps the others distinct and drops that element. */
  lemma RemoveDistinct<T>(s: seq<T>, i: nat)
    requires i < |s| && Distinct(s)
    ensures Distinct(Remove(s, i))
    ensures s[i] !in Remove(s, i)
    ensures forall x :: x in s && x != s[i] ==> x in Remove(s, i)
  {
    var r := Remove(s, i);
    forall a, b | 0 <= a < b < |r|
      ensures r[a] != r[b]
    {
      var a' := if a < i then a else a + 1;
      var b' := if b < i then b else b + 1;
      assert r[a] == s[a'] && r[b] == s[b'];
    }
    forall k | 0 <= k < |r|
      ensures r[k] != s[i]
    {
      var k' := if k < i then k else k + 1;
      assert r[k] == s[k'];
    }
    forall x | x in s && x != s[i]
      ensures x in r
    {
      var k :| 0 <= k < |s| && s[k] == x;
      if k < i {
        assert r[k] == x;
      } else {
        assert r[k - 1] == x;
      }
    }
  }

  /** Inserting an absent element keeps the sequence distinct. */
  lemma InsertDistinct<T>(s: seq<T>, i: nat, x: T)
    requires i <= |s| && Distinct(s) && x !in s
    ensures Distinct(Insert(s, i, x))
  {
    var r := Insert(s, i, x);
    forall a, b | 0 <= a < b < |r|
      ensures r[a] != r[b]
    {
      if a != i && b != i {
        var a' := if a < i then a else a - 1;
        var b' := if b < i then b else b - 1;
        assert r[a] == s[a'] && r[b] == s[b'];
      } else if a == i {
        assert r[b] == s[b - 1];
      } else {
        assert r[a] == s[a];
      }
    }
  }
}

=== FILE: sizes.dfy ===
/**
 * The `size_t` values of the C++ code: integers modulo 2^64, with the
 * facts about modular arithmetic the models of that code need.
 */
module Sizes {
  /** 2^64: `size_t` arithmetic is taken modulo this. */
  const SizeModulus: int := 0x1_0000_0000_0000_0000

  type Size = x: int | 0 <= x < SizeModulus

  /** The conversion of a signed integer to `size_t`: its value modulo 2^64. */
  function ToSize(x: int): (r: Size)
    ensures 0 <= x < SizeModulus ==> r == x
    ensures -SizeModulus <= x < 0 ==> r == x + SizeModulus
  {
    x % SizeModulus
  }

  /** Conversion to `size_t` absorbs an inner conversion of a summand. */
  lemma ToSizeAdd(x: int, y: int)
    ensures ToSize(ToSize(x) + y) == ToSize(x + y)
  {
    var q := x / SizeModulus;
    assert x == q * SizeModulus + ToSize(x);
    assert x + y == (ToSize(x) + y) + q * SizeModulus;
    ModuloShift(ToSize(x) + y, q);
  }

  /** Adding multiples of 2^64 does not change a `size_t` value. */
  lemma ModuloShift(x: int, q: int)
    ensures ToSize(x + q * SizeModulus) == ToSize(x)
  {
    var r := ToSize(x);
    var d := x / SizeModulus;
    assert x == d * SizeModulus + r;
    assert x + q * SizeModulus == (d + q) * SizeModulus + r;
    ModuloUnique(x + q * SizeModulus, d + q, r);
  }

  /** The remainder of a number written as a multiple of 2^64 plus a remainder. */
  lemma ModuloUnique(x: int, d: int, r: int)
    requires 0 <= r < SizeModulus && x == d * SizeModulus + r
    ensures ToSize(x) == r
  {
  }

  /** Conversion to `size_t` commutes with scaling by a whole number. */
  lemma ToSizeScale(x: int, k: int)
    ensures ToSize(ToSize(x) * k) == ToSize(x * k)
  {
    var q := x / SizeModulus;
    assert x == q * SizeModulus + ToSize(x);
    assert x * k == ToSize(x) * k + (q * k) * SizeModulus;
    ModuloShift(ToSize(x) * k, q * k);
  }
}

=== FILE: sound_font_collection.dfy ===
/**
 * The collection of installed sound fonts: a catalog from key to sound font
 * and an array of the same keys ordered by the fonts' display names.
 */
module SoundFonts {
  import opened Wrappers
  import opened SequenceEdits
  import NameOrder
  import CollectionSearch

  /** The unique key a sound font receives when it is installed. */
  type Key = nat

  /** The parts of a sound font the collection works with. */
  datatype SoundFont = SoundFont(
    key: Key,
    displayName: string,
    originalDisplayName: string,
    presetNames: seq<string>)

  /** A reference to one preset of one sound font. */
  datatype SoundFontAndPreset = SoundFontAndPreset(
    soundFontKey: Key,
    soundFontName: string,
    presetIndex: nat,
    itemName: string)

  /** The ordering closure: key `a` goes before key `b` when its font's name sorts first. */
  function ByName(catalog: map<Key, SoundFont>): (Key, Key) -> bool {
    (a: Key, b: Key) =>
      a in catalog && b in catalog &&
      NameOrder.Less(catalog[a].displayName, catalog[b].displayName)
  }

  /** No two fonts share a key. */
  ghost predicate UniqueKeys(fonts: seq<SoundFont>) {
    forall i, j :: 0 <= i < j < |fonts| ==> fonts[i].key != fonts[j].key
  }

  /** The keys of `fonts`, in order. */
  function KeysOf(fonts: seq<SoundFont>): (keys: seq<Key>)
    ensures |keys| == |fonts|
    ensures forall i :: 0 <= i < |fonts| ==> keys[i] == fonts[i].key
  {
    seq(|fonts|, i requires 0 <= i < |fonts| => fonts[i].key)
  }

  /** The catalog built from fonts with distinct keys: each key maps to its font. */
  function CatalogOf(fonts: seq<SoundFont>): (catalog: map<Key, SoundFont>)
    requires UniqueKeys(fonts)
    ensures forall k :: k in catalog <==> k in KeysOf(fonts)
    ensures forall i :: 0 <= i < |fonts| ==> catalog[fonts[i].key] == fonts[i]
  {
    if fonts == [] then map[]
    else
      var rest := fonts[..|fonts| - 1];
      var last := fonts[|fonts| - 1];
      assert forall i :: 0 <= i < |rest| ==> rest[i] == fonts[i];
      assert KeysOf(fonts) == KeysOf(rest) + [last.key];
      CatalogOf(rest)[last.key := last]
  }

  /** No later name sorts before an earlier one. */
  ghost predicate SortedNames(names: seq<string>) {
    forall i, j :: 0 <= i < j < |names| ==> !NameOrder.Less(names[j], names[i])
  }

  /** The display names of the fonts `keys` refer to, in order. */
  ghost function NamesOf(keys: seq<Key>, catalog: map<Key, SoundFont>): (names: seq<string>)
    requires forall i :: 0 <= i < |keys| ==> keys[i] in catalog
    ensures |names| == |keys|
    ensures forall i :: 0 <= i < |keys| ==> names[i] == catalog[keys[i]].displayName
  {
    seq(|keys|, i requires 0 <= i < |keys| && keys[i] in catalog => catalog[keys[i]].displayName)
  }

  /** Inserting a name after every name that sorts before it, and before the rest, keeps names sorted. */
  lemma InsertKeepsSortedNames(names: seq<string>, i: nat, n: string)
    requires SortedNames(names) && i <= |names|
    requires i > 0 ==> NameOrder.Less(names[i - 1], n)
    requires i < |names| ==> !NameOrder.Less(names[i], n)
    ensures SortedNames(Insert(names, i, n))
  {
    var r := Insert(names, i, n);
    forall a, b | 0 <= a < b < |r|
      ensures !NameOrder.Less(r[b], r[a])
    {
      InsertElement(names, i, n, a);
      InsertElement(names, i, n, b);
      if b < i || a > i || (a < i && b > i) {
      } else if a < i {
        InsertedAfter(names, i, n, a);
      } else {
        InsertedBefore(names, i, n, b - 1);
      }
    }
  }

  /** A name that sorts after `names[i - 1]` does not sort before any earlier name. */
  lemma InsertedAfter(names: seq<string>, i: nat, n: string, a: nat)
    requires SortedNames(names) && a < i <= |names|
    requires NameOrder.Less(names[i - 1], n)
    ensures !NameOrder.Less(n, names[a])
  {
    NameOrder.Asymmetric(names[i - 1], n);
    if a < i - 1 {
      NameOrder.NotAfterTransitive(names[a], names[i - 1], n);
    }
  }

  /** A name that `names[i]` does not sort before is not sorted after by any later name. */
  lemma InsertedBefore(names: seq<string>, i: nat, n: string, b: nat)
    requires SortedNames(names) && i <= b < |names|
    requires !NameOrder.Less(names[i], n)
    ensures !NameOrder.Less(names[b], n)
  {
    if b > i {
      NameOrder.NotAfterTransitive(n, names[i], names[b]);
    }
  }

  /** Removing a name keeps the remaining names sorted. */
  lemma RemoveKeepsSortedNames(names: seq<string>, i: nat)
    requires SortedNames(names) && i < |names|
    ensures SortedNames(Remove(names, i))
  {
    var r := Remove(names, i);
    forall a, b | 0 <= a < b < |r|
      ensures !NameOrder.Less(r[b], r[a])
    {
      var a' := if a < i then a else a + 1;
      var b' := if b < i then b else b + 1;
      assert r[a] == names[a'] && r[b] == names[b'];
    }
  }

  /** Every key resolves in `catalog`, and the names they refer to are sorted. */
  ghost predicate SortedByName(keys: seq<Key>, catalog: map<Key, SoundFont>) {
    (forall i :: 0 <= i < |keys| ==> keys[i] in catalog) &&
    SortedNames(NamesOf(keys, catalog))
  }

  /** The names of keys with one key inserted are the names with that key's name inserted. */
  lemma NamesOfInsert(keys: seq<Key>, catalog: map<Key, SoundFont>, i: nat, k: Key)
    requires forall j :: 0 <= j < |keys| ==> keys[j] in catalog
    requires k in catalog && i <= |keys|
    ensures forall j :: 0 <= j < |keys| + 1 ==> Insert(keys, i, k)[j] in catalog
    ensures NamesOf(Insert(keys, i, k), catalog) == Insert(NamesOf(keys, catalog), i, catalog[k].displayName)
  {
    var r := Insert(keys, i, k);
    forall j | 0 <= j < |r|
      ensures r[j] in catalog
    {
      InsertElement(keys, i, k, j);
    }
    var names := NamesOf(keys, catalog);
    var expected := Insert(names, i, catalog[k].displayName);
    var actual := NamesOf(r, catalog);
    forall j | 0 <= j < |r|
      ensures actual[j] == expected[j]
    {
      InsertElement(keys, i, k, j);
      InsertElement(names, i, catalog[k].displayName, j);
    }
  }

  /** Inserting a key where the binary search puts it keeps the keys sorted. */
  lemma InsertKeepsSorted(keys: seq<Key>, catalog: map<Key, SoundFont>, i: nat, k: Key)
    requires SortedByName(keys, catalog) && k in catalog && i <= |keys|
    requires i > 0 ==> ByName(catalog)(keys[i - 1], k)
    requires i < |keys| ==> !ByName(catalog)(keys[i], k)
    ensures SortedByName(Insert(keys, i, k), catalog)
  {
    var names := NamesOf(keys, catalog);
    var n := catalog[k].displayName;
    if i > 0 {
      assert names[i - 1] == catalog[keys[i - 1]].displayName;
      assert NameOrder.Less(names[i - 1], n);
    }
    if i < |keys| {
      assert names[i] == catalog[keys[i]].displayName;
      assert !NameOrder.Less(names[i], n);
    }
    InsertKeepsSortedNames(names, i, n);
    NamesOfInsert(keys, catalog, i, k);
  }

  /** Removing a key keeps the remaining keys sorted. */
  lemma RemoveKeepsSorted(keys: seq<Key>, catalog: map<Key, SoundFont>, i: nat)
    requires SortedByName(keys, catalog) && i < |keys|
    ensures SortedByName(Remove(keys, i), catalog)
  {
    var r := Remove(keys, i);
    RemoveKeepsSortedNames(NamesOf(keys, catalog), i);
    assert NamesOf(r, catalog) == Remove(NamesOf(keys, catalog), i);
  }

  /** Changing the catalog entry of a key that is not listed leaves the listed keys sorted. */
  lemma UpdateKeepsSorted(keys: seq<Key>, catalog: map<Key, SoundFont>, k: Key, font: SoundFont)
    requires SortedByName(keys, catalog) && k !in keys
    ensures SortedByName(keys, catalog[k := font])
  {
    forall i | 0 <= i < |keys|
      ensures catalog[k := font][keys[i]] == catalog[keys[i]]
    {
      assert keys[i] != k;
    }
    assert NamesOf(keys, catalog[k := font]) == NamesOf(keys, catalog);
  }

  /** On sorted keys the ordering closure splits the keys around any key. */
  lemma SortedIsSplit(keys: seq<Key>, catalog: map<Key, SoundFont>, k: Key)
    requires SortedByName(keys, catalog) && k in catalog
    ensures CollectionSearch.SplitBy(keys, ByName(catalog), k)
  {
    var names := NamesOf(keys, catalog);
    var n := catalog[k].displayName;
    forall i, j | 0 <= i <= j < |keys| && !ByName(catalog)(keys[i], k)
      ensures !ByName(catalog)(keys[j], k)
    {
      assert names[i] == catalog[keys[i]].displayName;
      assert names[j] == catalog[keys[j]].displayName;
      if i < j {
        NameOrder.NotAfterTransitive(n, names[i], names[j]);
      }
    }
  }

  /** Every font of a catalog built from `fonts` is filed under its own key, which `keys` lists. */
  lemma CatalogCovered(fonts: seq<SoundFont>, keys: seq<Key>)
    requires UniqueKeys(fonts)
    requires multiset(keys) == multiset(KeysOf(fonts))
    ensures forall k :: k in CatalogOf(fonts) ==> CatalogOf(fonts)[k].key == k && k in keys
  {
    var catalog := CatalogOf(fonts);
    forall k | k in catalog
      ensures catalog[k].key == k && k in keys
    {
      var i :| 0 <= i < |fonts| && KeysOf(fonts)[i] == k;
      assert catalog[fonts[i].key] == fonts[i];
      assert k in multiset(KeysOf(fonts));
    }
  }

  /** A catalog and its sorted keys hold the same fonts, each once, in name order. */
  ghost predicate Consistent(catalog: map<Key, SoundFont>, keys: seq<Key>) {
    FiledByKey(catalog) && Listed(catalog, keys) && Distinct(keys) && SortedByName(keys, catalog)
  }

  /** Every font is filed under its own key. */
  ghost predicate FiledByKey(catalog: map<Key, SoundFont>) {
    forall k :: k in catalog ==> catalog[k].key == k
  }

  /** Every key of the catalog is listed. */
  ghost predicate Listed(catalog: map<Key, SoundFont>, keys: seq<Key>) {
    forall k :: k in catalog ==> k in keys
  }

  /**
   * Filing a font under a new key and inserting the key where the ordering
   * closure of the new catalog splits the keys keeps the two consistent.
   */
  lemma AddConsistent(catalog: map<Key, SoundFont>, keys: seq<Key>, font: SoundFont, i: nat)
    requires Consistent(catalog, keys) && font.key !in catalog && i <= |keys|
    requires i > 0 ==> ByName(catalog[font.key := font])(keys[i - 1], font.key)
    requires i < |keys| ==> !ByName(catalog[font.key := font])(keys[i], font.key)
    ensures Consistent(catalog[font.key := font], Insert(keys, i, font.key))
  {
    AddCovers(catalog, keys, font, i);
    AddSorted(catalog, keys, font, i);
    KeysResolve(catalog, keys, font.key);
    InsertDistinct(keys, i, font.key);
  }

  /** After filing a new font and inserting its key, every catalog entry is listed under its own key. */
  lemma AddCovers(catalog: map<Key, SoundFont>, keys: seq<Key>, font: SoundFont, i: nat)
    requires FiledByKey(catalog) && Listed(catalog, keys) && i <= |keys|
    ensures FiledByKey(catalog[font.key := font]) && Listed(catalog[font.key := font], Insert(keys, i, font.key))
  {
    var c := catalog[font.key := font];
    forall x | x in c
      ensures c[x].key == x && x in Insert(keys, i, font.key)
    {
      if x == font.key {
        assert Insert(keys, i, font.key)[i] == x;
      } else {
        InsertKeeps(keys, i, font.key, x);
      }
    }
  }

  /** Inserting a new font's key where the new ordering closure splits the keys keeps them sorted. */
  lemma AddSorted(catalog: map<Key, SoundFont>, keys: seq<Key>, font: SoundFont, i: nat)
    requires SortedByName(keys, catalog) && font.key !in catalog && i <= |keys|
    requires i > 0 ==> ByName(catalog[font.key := font])(keys[i - 1], font.key)
    requires i < |keys| ==> !ByName(catalog[font.key := font])(keys[i], font.key)
    ensures SortedByName(Insert(keys, i, font.key), catalog[font.key := font])
  {
    KeysResolve(catalog, keys, font.key);
    UpdateKeepsSorted(keys, catalog, font.key, font);
    InsertKeepsSorted(keys, catalog[font.key := font], i, font.key);
  }

  /** A key not in the catalog is not among keys that all resolve in it. */
  lemma KeysResolve(catalog: map<Key, SoundFont>, keys: seq<Key>, k: Key)
    requires forall j :: 0 <= j < |keys| ==> keys[j] in catalog
    requires k !in catalog
    ensures k !in keys
  {
  }

  /** An insertion keeps every element that was there. */
  lemma InsertKeeps(keys: seq<Key>, i: nat, k: Key, x: Key)
    requires i <= |keys| && x in keys
    ensures x in Insert(keys, i, k)
  {
    var j :| 0 <= j < |keys| && keys[j] == x;
    var j' := if j < i then j else j + 1;
    InsertElement(keys, i, k, j');
  }

  /** Taking out the key at `index` and its catalog entry keeps catalog and keys consistent. */
  lemma RemoveConsistent(catalog: map<Key, SoundFont>, keys: seq<Key>, index: nat)
    requires Consistent(catalog, keys) && index < |keys|
    ensures Consistent(catalog - {keys[index]}, SequenceEdits.Remove(keys, index))
  {
    var key := keys[index];
    var rest := SequenceEdits.Remove(keys, index);
    var smaller := catalog - {key};
    RemoveDistinct(keys, index);
    RemoveKeepsSorted(keys, catalog, index);
    SameNamesSorted(rest, catalog, smaller);
  }

  /** Keys sorted under one catalog stay sorted under another that files them the same way. */
  lemma SameNamesSorted(keys: seq<Key>, catalog: map<Key, SoundFont>, other: map<Key, SoundFont>)
    requires SortedByName(keys, catalog)
    requires forall j :: 0 <= j < |keys| ==> keys[j] in other && other[keys[j]] == catalog[keys[j]]
    ensures SortedByName(keys, other)
  {
    assert NamesOf(keys, other) == NamesOf(keys, catalog);
  }

  /** Filing under a key after taking it out is filing under it directly. */
  lemma RefileKey(catalog: map<Key, SoundFont>, key: Key, font: SoundFont)
    ensures (catalog - {key})[key := font] == catalog[key := font]
  {
  }

  /**
   * Taking the key at `index` out, renaming its font, and putting the key
   * back where the new name splits the rest keeps catalog and keys consistent.
   */
  lemma RenameConsistent(catalog: map<Key, SoundFont>, keys: seq<Key>, index: nat, font: SoundFont, at: nat)
    requires Consistent(catalog, keys) && index < |keys|
    requires font == catalog[keys[index]].(displayName := font.displayName)
    requires at <= |keys| - 1
    requires at > 0 ==> ByName(catalog[keys[index] := font])(SequenceEdits.Remove(keys, index)[at - 1], keys[index])
    requires at < |keys| - 1 ==> !ByName(catalog[keys[index] := font])(SequenceEdits.Remove(keys, index)[at], keys[index])
    ensures font.key == keys[index]
    ensures var r := Insert(SequenceEdits.Remove(keys, index), at, keys[index]);
      Consistent(catalog[keys[index] := font], r) && SequenceEdits.Remove(r, at) == SequenceEdits.Remove(keys, index)
  {
    var key := keys[index];
    RemoveInserted(SequenceEdits.Remove(keys, index), at, key);
    RemoveConsistent(catalog, keys, index);
    RefileKey(catalog, key, font);
    AddConsistent(catalog - {key}, SequenceEdits.Remove(keys, index), font, at);
  }

  /** A new font's key, inserted where the ordering closure splits the keys, is found where it was put. */
  lemma AddFinds(catalog: map<Key, SoundFont>, keys: seq<Key>, font: SoundFont, i: nat)
    requires Consistent(catalog, keys) && i <= |keys|
    requires i > 0 ==> ByName(catalog[font.key := font])(keys[i - 1], font.key)
    requires i < |keys| ==> !ByName(catalog[font.key := font])(keys[i], font.key)
    ensures font.key !in catalog ==>
      Consistent(catalog[font.key := font], Insert(keys, i, font.key)) &&
      FirstIndexFrom(Insert(keys, i, font.key), font.key) == Some(i)
  {
    if font.key !in catalog {
      AddConsistent(catalog, keys, font, i);
      DistinctFirstIndex(Insert(keys, i, font.key), i);
    }
  }

  /** After i steps of sorting: the keys of the first i fonts, sorted by name and distinct. */
  ghost predicate SortedSoFar(fonts: seq<SoundFont>, catalog: map<Key, SoundFont>, keys: seq<Key>, i: nat)
    requires i <= |fonts|
  {
    SortedByName(keys, catalog) && Distinct(keys) && multiset(keys) == multiset(KeysOf(fonts)[..i])
  }

  /** One step of sorting: the next font's key, inserted where it splits the keys, keeps them sorted. */
  lemma SortStep(fonts: seq<SoundFont>, catalog: map<Key, SoundFont>, keys: seq<Key>, i: nat, at: nat)
    requires UniqueKeys(fonts) && i < |fonts| && fonts[i].key in catalog
    requires SortedSoFar(fonts, catalog, keys, i)
    requires at <= |keys|
    requires at > 0 ==> ByName(catalog)(keys[at - 1], fonts[i].key)
    requires at < |keys| ==> !ByName(catalog)(keys[at], fonts[i].key)
    ensures SortedSoFar(fonts, catalog, Insert(keys, at, fonts[i].key), i + 1)
  {
    var all := KeysOf(fonts);
    var k := fonts[i].key;
    assert k !in keys by {
      assert forall j :: 0 <= j < i ==> all[..i][j] == fonts[j].key != k;
      assert k !in multiset(all[..i]);
    }
    InsertKeepsSorted(keys, catalog, at, k);
    InsertDistinct(keys, at, k);
    KeysOfGrows(fonts, i);
  }

  /** The keys of the first i + 1 fonts are those of the first i and then the next one's. */
  lemma KeysOfGrows(fonts: seq<SoundFont>, i: nat)
    requires i < |fonts|
    ensures KeysOf(fonts)[..i + 1] == KeysOf(fonts)[..i] + [fonts[i].key]
  {
    var all := KeysOf(fonts);
    var l := all[..i + 1];
    var r := all[..i] + [fonts[i].key];
    assert |l| == |r|;
    forall j | 0 <= j < i + 1
      ensures l[j] == r[j]
    {
      if j < i {
        assert r[j] == all[..i][j];
      }
    }
  }

  class SoundFontCollection {
    /** The fonts by key. */
    var catalog: map<Key, SoundFont>
    /** The catalog's keys, ordered by the fonts' display names. */
    var sortedKeys: seq<Key>

    /** The catalog and the sorted keys hold the same fonts, each once, in name order. */
    ghost predicate Valid()
      reads this
    {
      Consistent(catalog, sortedKeys)
    }

    /** Builds the collection; the fonts' keys must be distinct. */
    constructor(fonts: seq<SoundFont>)
      requires UniqueKeys(fonts)
      ensures Valid()
      ensures catalog == CatalogOf(fonts)
      ensures multiset(sortedKeys) == multiset(KeysOf(fonts))
    {
      var cat := CatalogOf(fonts);
      var keys := SortByName(fonts, cat);
      CatalogCovered(fonts, keys);
      catalog := cat;
      sortedKeys := keys;
    }

    /**
     * The keys of `fonts` in display-name order, placing each key at the
     * insertion index of the keys placed so far.
     */
    static method SortByName(fonts: seq<SoundFont>, catalog: map<Key, SoundFont>)
        returns (keys: seq<Key>)
      requires UniqueKeys(fonts)
      requires forall i :: 0 <= i < |fonts| ==> fonts[i].key in catalog
      ensures SortedByName(keys, catalog) && Distinct(keys)
      ensures multiset(keys) == multiset(KeysOf(fonts))
    {
      keys := [];
      var all := KeysOf(fonts);
      for i := 0 to |fonts|
        invariant SortedSoFar(fonts, catalog, keys, i)
      {
        var k := fonts[i].key;
        var at := CollectionSearch.InsertionIndex(keys, k, ByName(catalog));
        SortStep(fonts, catalog, keys, i, at);
        keys := Insert(keys, at, k);
      }
      assert all[..|fonts|] == all;
    }

    /** True if there are no fonts in the collection. */
    function IsEmpty(): (r: bool)
      reads this
      requires Valid()
      ensures r <==> catalog == map[]
    {
      if sortedKeys == [] then true
      else
        assert sortedKeys[0] in catalog;
        false
    }

    /** The number of fonts in the collection. */
    function Count(): (n: nat)
      reads this
      requires Valid()
      ensures n == |catalog.Keys|
    {
      assert catalog.Keys == SetOf(sortedKeys);
      DistinctCardinality(sortedKeys);
      |sortedKeys|
    }

    /** The first preset of the first font, if there is a font. */
    function DefaultPreset(): (r: Option<SoundFontAndPreset>)
      reads this
      requires Valid()
      requires sortedKeys != [] ==> catalog[sortedKeys[0]].presetNames != []
      ensures r.None? <==> catalog == map[]
      ensures r.Some? ==> r.value.soundFontKey == sortedKeys[0] && r.value.presetIndex == 0
      ensures r.Some? ==> forall k :: k in catalog ==>
        !NameOrder.Less(catalog[k].displayName, catalog[sortedKeys[0]].displayName)
    {
      if IsEmpty() then None
      else
        var font := catalog[sortedKeys[0]];
        assert forall k :: k in catalog ==> exists i :: 0 <= i < |sortedKeys| && sortedKeys[i] == k;
        Some(SoundFontAndPreset(font.key, font.originalDisplayName, 0, font.presetNames[0]))
    }

    /** The position of `key` among the sorted keys. */
    function FirstIndex(key: Key): (r: Option<nat>)
      reads this
      ensures r.None? <==> key !in sortedKeys
      ensures r.Some? ==> r.value < |sortedKeys| && sortedKeys[r.value] == key
      ensures r.Some? ==> key !in sortedKeys[..r.value]
    {
      FirstIndexFrom(sortedKeys, key)
    }

    /** The font at a sorted position. */
    function GetByIndex(index: nat): (font: SoundFont)
      reads this
      requires Valid() && index < |sortedKeys|
      ensures font.key == sortedKeys[index]
      ensures FirstIndex(font.key) == Some(index)
    {
      DistinctFirstIndex(sortedKeys, index);
      catalog[sortedKeys[index]]
    }

    /** The font with the given key, if installed. */
    function GetByKey(key: Key): (r: Option<SoundFont>)
      reads this
      requires Valid()
      ensures r.Some? <==> key in sortedKeys
      ensures r.Some? ==> r.value.key == key
    {
      if key in catalog then Some(catalog[key]) else None
    }

    /**
     * Adds a font and returns the position of its key. With a key not yet in
     * the catalog, the collection stays valid and the key lands at the
     * returned position.
     */
    method Add(soundFont: SoundFont) returns (index: nat)
      modifies this
      requires Valid()
      ensures catalog == old(catalog)[soundFont.key := soundFont]
      ensures index <= |old(sortedKeys)|
      ensures sortedKeys == Insert(old(sortedKeys), index, soundFont.key)
      ensures soundFont.key !in old(catalog) ==>
        Valid() && FirstIndex(soundFont.key) == Some(index)
    {
      var newCatalog := catalog[soundFont.key := soundFont];
      index := CollectionSearch.InsertionIndex(sortedKeys, soundFont.key, ByName(newCatalog));
      AddFinds(catalog, sortedKeys, soundFont, index);
      catalog := newCatalog;
      sortedKeys := Insert(sortedKeys, index, soundFont.key);
    }

    /** Removes the font at a sorted position and returns it. */
    method Remove(index: nat) returns (removed: Option<SoundFont>)
      modifies this
      requires Valid() && index < |sortedKeys|
      ensures Valid()
      ensures sortedKeys == SequenceEdits.Remove(old(sortedKeys), index)
      ensures catalog == old(catalog) - {old(sortedKeys)[index]}
      ensures removed == Some(old(catalog)[old(sortedKeys)[index]])
    {
      var key := sortedKeys[index];
      RemoveConsistent(catalog, sortedKeys, index);
      sortedKeys := SequenceEdits.Remove(sortedKeys, index);
      removed := Some(catalog[key]);
      catalog := catalog - {key};
    }

    /**
     * Gives the font at a sorted position a new display name and moves its key
     * to the position the new name calls for; that position is returned with
     * the renamed font.
     */
    method Rename(index: nat, name: string) returns (newIndex: nat, font: SoundFont)
      modifies this
      requires Valid() && index < |sortedKeys|
      ensures Valid()
      ensures |sortedKeys| == |old(sortedKeys)|
      ensures font == old(catalog)[old(sortedKeys)[index]].(displayName := name)
      ensures font.key == old(sortedKeys)[index]
      ensures catalog == old(catalog)[old(sortedKeys)[index] := font]
      ensures newIndex < |sortedKeys| && sortedKeys[newIndex] == font.key
      ensures SequenceEdits.Remove(sortedKeys, newIndex) == SequenceEdits.Remove(old(sortedKeys), index)
    {
      var newCatalog, newKeys;
      newCatalog, newKeys, newIndex, font := Renamed(catalog, sortedKeys, index, name);
      catalog := newCatalog;
      sortedKeys := newKeys;
    }

    /** The catalog and keys after renaming the font at `index`, with the key's new position. */
    static method Renamed(catalog: map<Key, SoundFont>, keys: seq<Key>, index: nat, name: string)
        returns (newCatalog: map<Key, SoundFont>, newKeys: seq<Key>, newIndex: nat, font: SoundFont)
      requires Consistent(catalog, keys) && index < |keys|
      ensures Consistent(newCatalog, newKeys)
      ensures |newKeys| == |keys|
      ensures font == catalog[keys[index]].(displayName := name)
      ensures font.key == keys[index]
      ensures newCatalog == catalog[keys[index] := font]
      ensures newIndex < |newKeys| && newKeys[newIndex] == font.key
      ensures SequenceEdits.Remove(newKeys, newIndex) == SequenceEdits.Remove(keys, index)
    {
      var key := keys[index];
      var rest := SequenceEdits.Remove(keys, index);
      font := catalog[key].(displayName := name);
      newCatalog := catalog[key := font];
      newIndex := CollectionSearch.InsertionIndex(rest, key, ByName(newCatalog));
      newKeys := Insert(rest, newIndex, key);
      RenameConsistent(catalog, keys, index, font, newIndex);
    }
  }

  /** The first index of `key` in `s`. */
  function FirstIndexFrom(s: seq<Key>, key: Key): (r: Option<nat>)
    ensures r.None? <==> key !in s
    ensures r.Some? ==> r.value < |s| && s[r.value] == key && key !in s[..r.value]
  {
    if s == [] then None
    else if s[0] == key then Some(0)
    else match FirstIndexFrom(s[1..], key)
      case None => None
      case Some(i) =>
        assert s[..i + 1] == [s[0]] + s[1..][..i];
        Some(i + 1)
  }

  /** In a sequence without repeats the first index of an element is its index. */
  lemma DistinctFirstIndex(s: seq<Key>, i: nat)
    requires Distinct(s) && i < |s|
    ensures FirstIndexFrom(s, s[i]) == Some(i)
  {
    var r := FirstIndexFrom(s, s[i]);
    assert forall j :: 0 <= j < r.value ==> s[..r.value][j] == s[j];
  }

  /** The elements of `s`. */
  ghost function SetOf(s: seq<Key>): set<Key> {
    set k | k in s
  }

  /** A sequence without repeats has as many distinct elements as positions. */
  lemma {:induction false} DistinctCardinality(s: seq<Key>)
    requires Distinct(s)
    ensures |SetOf(s)| == |s|
  {
    if s != [] {
      var rest := s[1..];
      assert Distinct(rest) by {
        forall a, b | 0 <= a < b < |rest|
          ensures rest[a] != rest[b]
        {
          assert rest[a] == s[a + 1] && rest[b] == s[b + 1];
        }
      }
      DistinctCardinality(rest);
      assert s[0] !in rest by {
        forall a | 0 <= a < |rest|
          ensures rest[a] != s[0]
        {
          assert rest[a] == s[a + 1];
        }
      }
      assert SetOf(s) == SetOf(rest) + {s[0]};
    }
  }
}

=== FILE: ui_contents.dfy ===
/**
 * Rewriting of storyboard and xib files by the version-bump script: the
 * `text` or `title` attribute that shares a line with the
 * `userLabel="APP_VERSION"` marker receives "v" followed by the new marketing
 * version. Two regular-expression substitutions do this, one for an
 * attribute before the marker and one for an attribute after it; both are
 * modelled as Python's `re.sub`, with `.` not matching a newline, the
 * negated class of the double quote matching anything but one, and `.*` greedy.
 */
module UIContents {
  import MV = MarketingVersion
  import opened Wrappers

  /** The double quote character, which delimits attribute values. */
  const Quote: char := '\U{22}'

  /** The marker that tags the version label. */
  const Marker := "userLabel=" + "\"APP_VERSION\""

  /** A `text="…"` or `title="…"` attribute. */
  datatype Attribute = Attribute(name: string, value: string)

  function AttributeText(a: Attribute): string
  {
    a.name + "=\"" + a.value + "\""
  }

  predicate IsName(name: string) { name == "text" || name == "title" }

  /** Length of the longest prefix of `t` without a double quote. */
  function QuoteFreeRun(t: string): (n: nat)
    ensures n <= |t| && Quote !in t[..n]
    ensures n < |t| ==> t[n] == Quote
  {
    if t != [] && t[0] != Quote then
      var n := 1 + QuoteFreeRun(t[1..]);
      assert t[..n] == [t[0]] + t[1..][..n - 1];
      n
    else 0
  }

  /** The attribute at the start of `t`, if any: `text` or `title`, an equals sign, and a quoted value. */
  function AttributeAt(t: string): (r: Option<Attribute>)
    ensures r.Some? ==> IsName(r.value.name) && Quote !in r.value.value && AttributeText(r.value) <= t
  {
    var name := if "text" <= t then "text" else "title";
    if name <= t && "=\"" <= t[|name|..] then
      var body := t[|name| + 2..];
      var n := QuoteFreeRun(body);
      if n < |body| then
        assert t == name + "=\"" + body;
        assert body[..n + 1] == body[..n] + "\"";
        Some(Attribute(name, body[..n]))
      else None
    else None
  }

  lemma ShiftByOne(r: string)
    requires r != []
    ensures forall j :: 1 <= j <= |r| ==> r[..j] == [r[0]] + r[1..][..j - 1] && r[j..] == r[1..][j - 1..]
  {
    forall j | 1 <= j <= |r|
      ensures r[..j] == [r[0]] + r[1..][..j - 1] && r[j..] == r[1..][j - 1..]
    {
      assert r[..j] == [r[0]] + r[1..][..j - 1];
    }
  }

  /**
   * The greatest `k` such that `r[..k]` holds no newline and `starts(r[k..])`:
   * what a greedy `.*` followed by a pattern selects within one line.
   */
  function LastOnLine(r: string, starts: string -> bool): (k: Option<nat>)
    ensures k.Some? ==> k.value <= |r| && '\n' !in r[..k.value] && starts(r[k.value..])
    ensures forall j {:trigger r[..j]} :: 0 <= j <= |r| && '\n' !in r[..j] && starts(r[j..]) ==> k.Some? && j <= k.value
    decreases |r|
  {
    if r == [] then
      if starts(r) then Some(0) else None
    else if r[0] == '\n' then
      if starts(r) then Some(0) else None
    else
      ShiftByOne(r);
      match LastOnLine(r[1..], starts)
      case Some(k) =>
        assert r[..k + 1] == [r[0]] + r[1..][..k];
        Some(k + 1)
      case None =>
        if starts(r) then Some(0) else None
  }

  predicate StartsMarker(s: string) { Marker <= s }

  predicate StartsAttribute(s: string) { AttributeAt(s).Some? }

  /** `.*userLabel="APP_VERSION"` within one line. */
  function LastMarker(r: string): Option<nat>
  {
    LastOnLine(r, StartsMarker)
  }

  /** The last position on the first line of `r` where an attribute starts (greedy `.*` then an attribute). */
  function LastAttribute(r: string): Option<nat>
  {
    LastOnLine(r, StartsAttribute)
  }

  /** The two substitutions of the script, in the order it applies them. */
  datatype Rule =
    | AttributeFirst  // an attribute, then the marker later on the same line
    | MarkerFirst     // the marker, then an attribute later on the same line

  /** What a rule matches at the start of `t`: the length covered and the replacement text. */
  datatype Replacement = Replacement(length: nat, text: string)

  /** The attribute a rule writes: `name="vX"`. */
  function Rewritten(name: string, version: string): string
  {
    name + "=\"v" + version + "\""
  }

  function RuleAt(rule: Rule, t: string, version: string): (r: Option<Replacement>)
    ensures r.Some? ==> 0 < r.value.length <= |t|
  {
    match rule
    case AttributeFirst =>
      (match AttributeAt(t)
       case None => None
       case Some(a) => AttributeThenMarker(a, t[|AttributeText(a)|..], version))
    case MarkerFirst =>
      if Marker <= t then MarkerThenAttribute(t[|Marker|..], version) else None
  }

  /** The first rule once attribute `a` is matched and `r` follows it. */
  function AttributeThenMarker(a: Attribute, r: string, version: string): (m: Option<Replacement>)
    ensures m.Some? ==> m.value.length <= |AttributeText(a)| + |r|
  {
    match LastMarker(r)
    case None => None
    case Some(k) =>
      Some(Replacement(|AttributeText(a)| + k + |Marker|, Rewritten(a.name, version) + r[..k + |Marker|]))
  }

  /** The second rule once the marker is matched and `r` follows it. */
  function MarkerThenAttribute(r: string, version: string): (m: Option<Replacement>)
    ensures m.Some? ==> 0 < m.value.length <= |Marker| + |r|
  {
    match LastAttribute(r)
    case None => None
    case Some(k) =>
      var a := AttributeAt(r[k..]).value;
      assert AttributeText(a) <= r[k..];
      Some(Replacement(|Marker| + k + |AttributeText(a)|, Marker + r[..k] + Rewritten(a.name, version)))
  }

  /** `re.sub` with one rule. */
  function Substitute(rule: Rule, t: string, version: string): string
    decreases |t|
  {
    if t == [] then []
    else
      match RuleAt(rule, t, version)
      case Some(m) => m.text + Substitute(rule, t[m.length..], version)
      case None => [t[0]] + Substitute(rule, t[1..], version)
  }

  /** `updateUIContents`: a file without the version label is left as it is. */
  function UpdateUIContents(contents: string, version: MV.Version): (r: string)
    ensures MarkerFree(contents) ==> r == contents
  {
    var v := MV.ToString(version);
    var once := Substitute(AttributeFirst, contents, v);
    assert MarkerFree(contents) ==> Substitute(MarkerFirst, once, v) == contents by {
      if MarkerFree(contents) {
        MarkerFreeUnchanged(AttributeFirst, contents, v);
        MarkerFreeUnchanged(MarkerFirst, contents, v);
      }
    }
    Substitute(MarkerFirst, once, v)
  }

  /** `t` holds no occurrence of the marker. */
  predicate MarkerFree(t: string)
  {
    forall i :: 0 <= i <= |t| ==> !StartsMarker(t[i..])
  }

  /** Every match of either rule covers an occurrence of the marker. */
  lemma MarkerFreeNoMatch(rule: Rule, t: string, version: string)
    requires MarkerFree(t)
    ensures RuleAt(rule, t, version).None?
  {
    match rule
    case AttributeFirst =>
      if AttributeAt(t).Some? {
        var n := |AttributeText(AttributeAt(t).value)|;
        var r := t[n..];
        forall k | 0 <= k <= |r| ensures !StartsMarker(r[k..]) {
          assert r[k..] == t[n + k..];
        }
        assert LastMarker(r).None?;
      }
    case MarkerFirst =>
      assert t[0..] == t;
  }

  /** Either rule copies text without the marker unchanged. */
  lemma {:induction false} MarkerFreeUnchanged(rule: Rule, t: string, version: string)
    requires MarkerFree(t)
    ensures Substitute(rule, t, version) == t
    decreases |t|
  {
    if t != [] {
      MarkerFreeNoMatch(rule, t, version);
      assert MarkerFree(t[1..]) by {
        forall i | 0 <= i <= |t[1..]| ensures !StartsMarker(t[1..][i..]) {
          assert t[1..][i..] == t[i + 1..];
        }
      }
      MarkerFreeUnchanged(rule, t[1..], version);
    }
  }
}

/** What the two substitutions do to a version label. */
module UIContentsProperties {
  import MV = MarketingVersion
  import opened Wrappers
  import opened UIContents

  /** A text (a rendered version, say) that cannot start or end any match. */
  predicate Plain(s: string)
  {
    't' !in s && 'u' !in s && Quote !in s && '\n' !in s
  }

  lemma MarkerFacts()
    ensures |Marker| == 23 && Marker[0] == 'u'
    ensures 'u' !in Marker[1..] && 't' !in Marker && '\n' !in Marker
  {
    var a, b := "userLabel=", "\"APP_VERSION\"";
    assert Marker == a + b && Marker[1..] == a[1..] + b;
    assert 'u' !in a[1..] && 't' !in a && '\n' !in a;
    assert 'u' !in b && 't' !in b && '\n' !in b;
  }

  lemma AttributeHead(s: string)
    requires StartsAttribute(s)
    ensures |s| >= 2 && s[0] == 't' && (s[1] == 'e' || s[1] == 'i')
  {
    var a := AttributeAt(s).value;
    assert a.name <= s;
  }

  /** `s` begins with `text="` or `title="`, the front of an attribute. */
  predicate StartsHeader(s: string)
  {
    "text=\"" <= s || "title=\"" <= s
  }

  /** Every attribute begins with its header. */
  lemma AttributeHasHeader(s: string)
    requires StartsAttribute(s)
    ensures StartsHeader(s)
  {
    var a := AttributeAt(s).value;
    assert AttributeText(a) == (a.name + "=\"") + (a.value + "\"");
    assert (a.name + "=\"") <= s;
  }

  /** No attribute header starts before position `n` of `t`. */
  predicate NoHeaderBelow(t: string, n: nat)
  {
    n <= |t| && forall i :: 0 <= i < n ==> !StartsHeader(t[i..])
  }

  /** No occurrence of the marker starts before position `n` of `t`. */
  predicate NoMarkerBelow(t: string, n: nat)
  {
    n <= |t| && forall i :: 0 <= i < n ==> !StartsMarker(t[i..])
  }

  /** No attribute starts anywhere in `s`. */
  predicate AttributeFree(s: string)
  {
    forall i :: 0 <= i <= |s| ==> !StartsAttribute(s[i..])
  }

  /** No attribute starts in `s` after its first character. */
  predicate AttributeFreeAfter(s: string)
  {
    forall i :: 0 < i <= |s| ==> !StartsAttribute(s[i..])
  }

  /** An attribute starts `s` and the marker follows it on its line: where the first rule matches. */
  predicate LabelledAttribute(s: string)
  {
    match AttributeAt(s)
    case None => false
    case Some(a) => LastMarker(s[|AttributeText(a)|..]).Some?
  }

  /** No match of the first rule starts before position `n` of `t`. */
  predicate NoLabelBelow(t: string, n: nat)
  {
    n <= |t| && forall i :: 0 <= i < n ==> !LabelledAttribute(t[i..])
  }

  /** The first rule matches exactly where a labelled attribute starts. */
  lemma LabelledIsMatch(t: string, version: string)
    ensures RuleAt(AttributeFirst, t, version).Some? <==> LabelledAttribute(t)
  {
  }

  /** Where no header starts, no labelled attribute starts either. */
  lemma HeadersToLabels(t: string, n: nat)
    requires NoHeaderBelow(t, n)
    ensures NoLabelBelow(t, n)
  {
    forall i | 0 <= i < n ensures !LabelledAttribute(t[i..]) {
      if StartsAttribute(t[i..]) {
        AttributeHasHeader(t[i..]);
        assert false;
      }
    }
  }

  /** An attribute starts with 't', so a character other than 't' extends a stretch without labelled attributes. */
  lemma NoLabelAtNonT(t: string, n: nat)
    requires NoLabelBelow(t, n) && n < |t| && t[n] != 't'
    ensures NoLabelBelow(t, n + 1)
  {
    assert t[n..][0] == t[n];
    if StartsAttribute(t[n..]) {
      AttributeHead(t[n..]);
      assert false;
    }
  }

  /** Text in which no attribute starts has no last attribute on its first line. */
  lemma AttributeFreeNoLast(s: string)
    requires AttributeFree(s)
    ensures LastAttribute(s).None?
  {
  }

  /** Text without a marker has no last marker on its first line. */
  lemma MarkerFreeNoLast(s: string)
    requires MarkerFree(s)
    ensures LastMarker(s).None?
  {
  }

  /** Where no match starts, `re.sub` copies one character. */
  lemma SubstituteNoMatch(rule: Rule, t: string, version: string)
    requires t != [] && RuleAt(rule, t, version).None?
    ensures Substitute(rule, t, version) == [t[0]] + Substitute(rule, t[1..], version)
  {
  }

  /** Concatenation regroups. */
  lemma Assoc(x: string, y: string, z: string)
    ensures x + (y + z) == x + y + z
  {
  }

  /** A non-empty front and what follows it, split at the first character. */
  lemma FrontSplit(w: string, x: string)
    requires w != []
    ensures (w + x)[0] == w[0] && (w + x)[1..] == w[1..] + x && [w[0]] + w[1..] == w
  {
  }

  /** Dropping the first character keeps the text before which no labelled attribute starts. */
  lemma LabelsShift(w: string, x: string)
    requires w != [] && NoLabelBelow(w + x, |w|)
    ensures !LabelledAttribute(w + x) && NoLabelBelow(w[1..] + x, |w| - 1)
  {
    var t := w + x;
    assert t[0..] == t;
    assert w[1..] + x == t[1..];
    LabelsFromSecond(t, |w|);
  }

  /** No labelled attribute starts before `n` in `t`, so none before `n - 1` in its tail. */
  lemma LabelsFromSecond(t: string, n: nat)
    requires 0 < n && NoLabelBelow(t, n)
    ensures NoLabelBelow(t[1..], n - 1)
  {
    forall i | 0 <= i < n - 1 ensures !LabelledAttribute(t[1..][i..]) {
      assert t[1..][i..] == t[i + 1..];
    }
  }

  /** Dropping the first character keeps the text before which no marker starts. */
  lemma MarkersShift(w: string, x: string)
    requires w != [] && NoMarkerBelow(w + x, |w|)
    ensures !StartsMarker(w + x) && NoMarkerBelow(w[1..] + x, |w| - 1)
  {
    var t := w + x;
    assert t[0..] == t;
    forall i | 0 <= i < |w| - 1 ensures !StartsMarker((w[1..] + x)[i..]) {
      assert (w[1..] + x)[i..] == t[i + 1..];
    }
  }

  /** Text before which no labelled attribute starts is copied unchanged by the first rule. */
  lemma {:induction false} PassThroughUnlabelled(w: string, x: string, version: string)
    requires NoLabelBelow(w + x, |w|)
    ensures Substitute(AttributeFirst, w + x, version) == w + Substitute(AttributeFirst, x, version)
    decreases |w|
  {
    if w != [] {
      var t := w + x;
      LabelsShift(w, x);
      LabelledIsMatch(t, version);
      FrontSplit(w, x);
      PassThroughUnlabelled(w[1..], x, version);
      SubstituteNoMatch(AttributeFirst, t, version);
      Assoc([w[0]], w[1..], Substitute(AttributeFirst, x, version));
    } else {
      assert w + x == x;
    }
  }

  /** Text before which no marker starts is copied unchanged by the second rule. */
  lemma {:induction false} PassThroughMarkers(w: string, x: string, version: string)
    requires NoMarkerBelow(w + x, |w|)
    ensures Substitute(MarkerFirst, w + x, version) == w + Substitute(MarkerFirst, x, version)
    decreases |w|
  {
    if w != [] {
      var t := w + x;
      MarkersShift(w, x);
      FrontSplit(w, x);
      PassThroughMarkers(w[1..], x, version);
      SubstituteNoMatch(MarkerFirst, t, version);
      Assoc([w[0]], w[1..], Substitute(MarkerFirst, x, version));
    } else {
      assert w + x == x;
    }
  }

  /** The marker begins with 'u'. */
  lemma NotMarkerAtNonU(s: string)
    requires s != [] && s[0] != 'u'
    ensures !StartsMarker(s)
  {
    MarkerFacts();
  }

  /** The marker holds no 't', so it covers none. */
  lemma NotMarkerOverT(s: string, k: nat)
    requires k < |Marker| && k < |s| && s[k] == 't'
    ensures !StartsMarker(s)
  {
    MarkerFacts();
    assert Marker[k] in Marker;
  }

  lemma UnmarkedIsMarkerFree(t: string)
    requires 'u' !in t
    ensures MarkerFree(t)
  {
    forall i | 0 <= i <= |t| ensures !StartsMarker(t[i..]) {
      if i < |t| {
        assert t[i..][0] == t[i];
        NotMarkerAtNonU(t[i..]);
      } else {
        MarkerFacts();
      }
    }
  }

  /** Text without a marker has none from any position on. */
  lemma MarkerFreeSuffix(s: string, k: nat)
    requires MarkerFree(s) && k <= |s|
    ensures MarkerFree(s[k..])
  {
    forall i | 0 <= i <= |s| - k ensures !StartsMarker(s[k..][i..]) {
      assert s[k..][i..] == s[k + i..];
    }
  }

  /** The empty tail never starts a marker, so marker-free text is text without one below its end. */
  lemma MarkerFreeBelow(t: string)
    ensures MarkerFree(t) <==> NoMarkerBelow(t, |t|)
  {
    MarkerFacts();
    assert t[|t|..] == [];
  }

  /** After its first character, the marker cannot start again before `b`. */
  lemma MarkerTailFree(b: string)
    requires MarkerFree(b)
    ensures MarkerFree(Marker[1..] + b)
  {
    MarkerFacts();
    var s := Marker[1..] + b;
    forall i | 0 <= i <= |s| ensures !StartsMarker(s[i..]) {
      if i < |Marker| - 1 {
        assert s[i..][0] == Marker[1..][i];
        assert Marker[1..][i] in Marker[1..];
        NotMarkerAtNonU(s[i..]);
      } else {
        assert s[i..] == b[i - (|Marker| - 1)..];
      }
    }
  }

  /** A marker starting before a 't' at `n` lies before `n`, where `s` and `s2` agree. */
  lemma MarkerBeforeT(s: string, s2: string, n: nat, i: nat)
    requires i < n < |s| && n < |s2| && s[..n] == s2[..n] && s2[n] == 't'
    requires !StartsMarker(s[i..])
    ensures !StartsMarker(s2[i..])
  {
    MarkerFacts();
    if i + |Marker| <= n {
      assert s2[i..][..|Marker|] == s2[..n][i..i + |Marker|];
      assert s[i..][..|Marker|] == s[..n][i..i + |Marker|];
    } else {
      NotMarkerOverT(s2[i..], n - i);
    }
  }

  /**
   * Replacing a piece that begins with 't' by another that begins with 't'
   * and holds no 'u' brings in no marker: none starts inside the new piece,
   * and none can reach into it from before.
   */
  lemma SwapKeepsMarkersOut(pre: string, x: string, y: string, rest: string, k: nat)
    requires x != [] && y != [] && x[0] == 't' && y[0] == 't' && 'u' !in y && k <= |rest|
    requires NoMarkerBelow(pre + x + rest, |pre| + |x| + k)
    ensures NoMarkerBelow(pre + y + rest, |pre| + |y| + k)
  {
    var s, s2 := pre + x + rest, pre + y + rest;
    assert s[..|pre|] == pre == s2[..|pre|];
    forall i | 0 <= i < |pre| + |y| + k ensures !StartsMarker(s2[i..]) {
      if i < |pre| {
        MarkerBeforeT(s, s2, |pre|, i);
      } else if i < |pre| + |y| {
        assert s2[i..][0] == y[i - |pre|];
        NotMarkerAtNonU(s2[i..]);
      } else {
        assert s2[i..] == rest[i - |pre| - |y|..];
        assert s[i - |y| + |x|..] == rest[i - |pre| - |y|..];
      }
    }
  }

  /** No marker starts before `n` in text that agrees with `s` far enough past `n`. */
  lemma MarkersInSharedPrefix(s: string, s2: string, n: nat, len: nat)
    requires NoMarkerBelow(s, n) && n + |Marker| <= len + 1 && len <= |s| && len <= |s2|
    requires s[..len] == s2[..len]
    ensures NoMarkerBelow(s2, n)
  {
    MarkerFacts();
    forall i | 0 <= i < n ensures !StartsMarker(s2[i..]) {
      assert s2[i..][..|Marker|] == s2[..len][i..i + |Marker|];
      assert s[i..][..|Marker|] == s[..len][i..i + |Marker|];
    }
  }

  /** No header starts before `n` in text that agrees with `s` far enough past `n`. */
  lemma HeadersInSharedPrefix(s: string, s2: string, n: nat, len: nat)
    requires NoHeaderBelow(s, n) && n + 6 <= len <= |s| && len <= |s2|
    requires s[..len] == s2[..len]
    ensures NoHeaderBelow(s2, n)
  {
    forall i | 0 <= i < n ensures !StartsHeader(s2[i..]) {
      assert s2[i..][..7] == s2[..len][i..i + 7];
      assert s[i..][..7] == s[..len][i..i + 7];
      assert s2[i..][..6] == s2[i..][..7][..6];
      assert s[i..][..6] == s[i..][..7][..6];
    }
  }

  /** Text in which no attribute starts is left alone by the first rule. */
  lemma {:induction false} AttributeFreeUnchanged(t: string, version: string)
    requires AttributeFree(t)
    ensures Substitute(AttributeFirst, t, version) == t
    decreases |t|
  {
    if t != [] {
      assert t[0..] == t;
      assert AttributeFree(t[1..]) by {
        forall i | 0 <= i <= |t[1..]| ensures !StartsAttribute(t[1..][i..]) {
          assert t[1..][i..] == t[i + 1..];
        }
      }
      AttributeFreeUnchanged(t[1..], version);
      SubstituteNoMatch(AttributeFirst, t, version);
    }
  }

  lemma {:induction false} QuoteFreeRunOf(v: string, rest: string)
    requires Quote !in v
    ensures QuoteFreeRun(v + "\"" + rest) == |v|
    decreases |v|
  {
    if v != [] {
      assert (v + "\"" + rest)[1..] == v[1..] + "\"" + rest;
      QuoteFreeRunOf(v[1..], rest);
    }
  }

  /** An attribute is recognised as itself. */
  lemma AttributeAtText(a: Attribute, rest: string)
    requires IsName(a.name) && Quote !in a.value
    ensures AttributeAt(AttributeText(a) + rest) == Some(a)
  {
    var t := AttributeText(a) + rest;
    var body := a.value + "\"" + rest;
    NameAndBody(a, rest);
    NameChosen(a.name, "=\"" + body);
    QuoteFreeRunOf(a.value, rest);
    assert body[..|a.value|] == a.value;
  }

  /** An attribute's text is its name, an equals sign and opening quote, then the value, closing quote and what follows. */
  lemma NameAndBody(a: Attribute, rest: string)
    ensures var t := AttributeText(a) + rest;
      t == a.name + ("=\"" + (a.value + "\"" + rest)) && a.name <= t &&
      t[|a.name|..] == "=\"" + (a.value + "\"" + rest) && t[|a.name| + 2..] == a.value + "\"" + rest
  {
  }

  /** The attribute pattern tries `text` first and otherwise `title`, and picks the name actually there. */
  lemma NameChosen(name: string, rest: string)
    requires IsName(name) && rest != [] && rest[0] == '='
    ensures (if "text" <= name + rest then "text" else "title") == name
  {
    if name == "title" {
      var s := "text";
      assert s[1] == 'e';
      assert (name + rest)[1] == name[1] == 'i';
    } else {
      assert (name + rest)[..4] == "text";
    }
  }

  /** An attribute starts with "te" or "ti", so none starts in text without a 't'. */
  lemma NoAttributeWithoutT(s: string)
    requires 't' !in s
    ensures AttributeFree(s)
  {
    forall i | 0 <= i <= |s| ensures !StartsAttribute(s[i..]) {
      if i < |s| {
        assert s[i..][0] == s[i];
      }
      if StartsAttribute(s[i..]) {
        AttributeHead(s[i..]);
        assert false;
      }
    }
  }

  /** No header starts in text without a 't'. */
  lemma NoHeaderWithoutT(x: string, rest: string)
    requires 't' !in x
    ensures NoHeaderBelow(x + rest, |x|)
  {
    forall i | 0 <= i < |x| ensures !StartsHeader((x + rest)[i..]) {
      assert (x + rest)[i..][0] == x[i];
    }
  }

  /** No marker starts in text without a 'u'. */
  lemma NoMarkerWithoutU(x: string, rest: string)
    requires 'u' !in x
    ensures NoMarkerBelow(x + rest, |x|)
  {
    forall i | 0 <= i < |x| ensures !StartsMarker((x + rest)[i..]) {
      assert (x + rest)[i..][0] == x[i];
      NotMarkerAtNonU((x + rest)[i..]);
    }
  }

  /** No attribute starts inside the name of an attribute. */
  lemma NoAttributeInName(name: string, rest: string)
    requires IsName(name) && rest != [] && rest[0] == '='
    ensures forall i :: 0 < i < |name| ==> !StartsAttribute((name + rest)[i..])
  {
    var s := name + rest;
    forall i | 0 < i < |name| ensures !StartsAttribute(s[i..]) {
      assert s[i..][0] == s[i] && s[i..][1] == s[i + 1];
      assert s[i] != 't' || s[i + 1] == '=' || s[i + 1] == 'l';
      if StartsAttribute(s[i..]) {
        AttributeHead(s[i..]);
        assert false;
      }
    }
  }

  /** No attribute starts strictly inside an attribute whose value has no 't'. */
  lemma NoAttributeInside(a: Attribute, b: string)
    requires IsName(a.name) && 't' !in a.value
    ensures forall i :: 0 < i < |AttributeText(a)| ==> !StartsAttribute((AttributeText(a) + b)[i..])
  {
    var s := AttributeText(a) + b;
    var n := |a.name|;
    var tail := "=\"" + a.value + "\"";
    assert AttributeText(a) == a.name + tail;
    assert 't' !in tail;
    NoAttributeInName(a.name, tail + b);
    assert s == a.name + (tail + b);
    forall i | n <= i < |AttributeText(a)| ensures !StartsAttribute(s[i..]) {
      assert s[i..][0] == tail[i - n];
      if StartsAttribute(s[i..]) {
        AttributeHead(s[i..]);
        assert false;
      }
    }
  }

  /** An attribute whose value has no 't', then text without attributes, starts no further attribute. */
  lemma AttributeFreeAfterAttribute(a: Attribute, b: string)
    requires IsName(a.name) && 't' !in a.value && AttributeFree(b)
    ensures AttributeFreeAfter(AttributeText(a) + b)
  {
    var s := AttributeText(a) + b;
    NoAttributeInside(a, b);
    forall i | |AttributeText(a)| <= i <= |s| ensures !StartsAttribute(s[i..]) {
      assert s[i..] == b[i - |AttributeText(a)|..];
    }
  }

  lemma RenderedVersionIsPlain(version: MV.Version)
    ensures Plain(MV.ToString(version))
  {
    MV.ToStringShape(version);
  }

  /** The marker found by the first rule is the last one on the line. */
  lemma LastMarkerIs(m: string, b: string)
    requires '\n' !in m && MarkerFree(b)
    ensures LastMarker(m + Marker + b) == Some(|m|)
  {
    var r := m + Marker + b;
    MarkerFacts();
    Fronts(m, Marker, b);
    MarkerTailFree(b);
    forall j | |m| < j <= |r| ensures !StartsMarker(r[j..]) {
      assert r[j..] == (Marker[1..] + b)[j - |m| - 1..];
    }
  }

  /** The attribute found by the second rule is the last one on the line. */
  lemma LastAttributeIs(m: string, a: Attribute, b: string)
    requires '\n' !in m && IsName(a.name) && Quote !in a.value && AttributeFreeAfter(AttributeText(a) + b)
    ensures LastAttribute(m + AttributeText(a) + b) == Some(|m|)
  {
    var r := m + AttributeText(a) + b;
    Fronts(m, AttributeText(a), b);
    AttributeAtText(a, b);
    forall j | |m| < j <= |r| ensures !StartsAttribute(r[j..]) {
      LaterSuffix(m, AttributeText(a) + b, j);
    }
  }

  /** A suffix of `m + x` from inside `x` is a suffix of `x`. */
  lemma LaterSuffix(m: string, x: string, j: nat)
    requires |m| <= j <= |m| + |x|
    ensures (m + x)[j..] == x[j - |m|..]
  {
  }

  /** `o` is a match covering `length` characters and replaced by `text`. */
  predicate Matches(o: Option<Replacement>, length: nat, text: string)
  {
    o.Some? && o.value.length == length && o.value.text == text
  }

  /** One step of `re.sub` at a match. */
  lemma {:induction false} SubstituteAtMatch(rule: Rule, t: string, version: string, length: nat, text: string)
    requires t != [] && Matches(RuleAt(rule, t, version), length, text)
    ensures Substitute(rule, t, version) == text + Substitute(rule, t[length..], version)
  {
  }

  lemma AttributeThenMarkerAt(a: Attribute, m: string, b: string, version: string)
    requires LastMarker(m + Marker + b) == Some(|m|)
    ensures Matches(AttributeThenMarker(a, m + Marker + b, version),
                    |AttributeText(a)| + |m| + |Marker|, Rewritten(a.name, version) + m + Marker)
  {
    var r := m + Marker + b;
    assert r[..|m| + |Marker|] == m + Marker;
    assert Rewritten(a.name, version) + (m + Marker) == Rewritten(a.name, version) + m + Marker;
  }

  lemma AttributeAfter(m: string, a: Attribute, b: string)
    requires AttributeAt(AttributeText(a) + b) == Some(a)
    ensures AttributeAt((m + AttributeText(a) + b)[|m|..]) == Some(a)
  {
    Fronts(m, AttributeText(a), b);
  }

  /** In `m + x + y`, the first `|m|` characters are `m` and the rest is `x + y`. */
  lemma Fronts(m: string, x: string, y: string)
    ensures (m + x + y)[..|m|] == m && (m + x + y)[|m|..] == x + y
  {
  }

  lemma MarkerThenAttributeAt(m: string, a: Attribute, b: string, version: string)
    requires LastAttribute(m + AttributeText(a) + b) == Some(|m|)
    requires AttributeAt(AttributeText(a) + b) == Some(a)
    ensures Matches(MarkerThenAttribute(m + AttributeText(a) + b, version),
                    |Marker| + |m| + |AttributeText(a)|, Marker + m + Rewritten(a.name, version))
  {
    AttributeAfter(m, a, b);
    Fronts(m, AttributeText(a), b);
  }

  lemma AttributeFirstMatch(a: Attribute, m: string, b: string, version: string)
    requires IsName(a.name) && Quote !in a.value && '\n' !in m && MarkerFree(b)
    ensures Matches(RuleAt(AttributeFirst, AttributeText(a) + m + Marker + b, version),
                    |AttributeText(a)| + |m| + |Marker|, Rewritten(a.name, version) + m + Marker)
  {
    Regroup4(AttributeText(a), m, Marker, b);
    AttributeAtText(a, m + Marker + b);
    LastMarkerIs(m, b);
    AttributeThenMarkerAt(a, m, b, version);
  }

  /** `x + m + k + b` is `x` followed by `m + k + b`. */
  lemma Regroup4(x: string, m: string, k: string, b: string)
    ensures x + m + k + b == x + (m + k + b) && (x + m + k + b)[|x|..] == m + k + b
  {
  }

  /** The first rule rewrites an attribute that precedes the marker. */
  lemma AttributeFirstRewrites(a: Attribute, m: string, b: string, version: string)
    requires IsName(a.name) && Quote !in a.value && '\n' !in m && MarkerFree(b)
    ensures Substitute(AttributeFirst, AttributeText(a) + m + Marker + b, version)
         == Rewritten(a.name, version) + m + Marker + b
  {
    var t := AttributeText(a) + m + Marker + b;
    var len := |AttributeText(a)| + |m| + |Marker|;
    AttributeFirstMatch(a, m, b, version);
    SubstituteAtMatch(AttributeFirst, t, version, len, Rewritten(a.name, version) + m + Marker);
    assert t[len..] == b;
    MarkerFreeUnchanged(AttributeFirst, b, version);
  }

  /** The second rule leaves alone a marker followed by no attribute. */
  lemma MarkerFirstSkipsBareMarker(b: string, version: string)
    requires MarkerFree(b) && LastAttribute(b).None?
    ensures Substitute(MarkerFirst, Marker + b, version) == Marker + b
  {
    var t := Marker + b;
    MarkerFacts();
    assert t[|Marker|..] == b;
    assert RuleAt(MarkerFirst, t, version).None?;
    assert t[1..] == Marker[1..] + b;
    MarkerTailFree(b);
    MarkerFreeUnchanged(MarkerFirst, Marker[1..] + b, version);
  }

  lemma MarkerFirstMatch(m: string, a: Attribute, b: string, version: string)
    requires IsName(a.name) && Quote !in a.value && LastAttribute(m + AttributeText(a) + b) == Some(|m|)
    ensures Matches(RuleAt(MarkerFirst, Marker + m + AttributeText(a) + b, version),
                    |Marker| + |m| + |AttributeText(a)|, Marker + m + Rewritten(a.name, version))
  {
    var r := m + AttributeText(a) + b;
    Regroup4(Marker, m, AttributeText(a), b);
    MarkerRuleAt(r, version);
    AttributeAtText(a, b);
    MarkerThenAttributeAt(m, a, b, version);
  }

  /** At the marker the second rule looks for the last attribute of what follows. */
  lemma MarkerRuleAt(r: string, version: string)
    ensures RuleAt(MarkerFirst, Marker + r, version) == MarkerThenAttribute(r, version)
  {
    AfterMarker(r);
  }

  /** A text that begins with the marker is the marker and what follows it. */
  lemma AfterMarker(r: string)
    ensures Marker <= Marker + r && (Marker + r)[|Marker|..] == r
  {
  }

  /** The second rule rewrites an attribute that follows the marker. */
  lemma MarkerFirstRewrites(m: string, a: Attribute, b: string, version: string)
    requires IsName(a.name) && Quote !in a.value
    requires LastAttribute(m + AttributeText(a) + b) == Some(|m|) && MarkerFree(b)
    ensures Substitute(MarkerFirst, Marker + m + AttributeText(a) + b, version)
         == Marker + m + Rewritten(a.name, version) + b
  {
    var t := Marker + m + AttributeText(a) + b;
    var len := |Marker| + |m| + |AttributeText(a)|;
    MarkerFirstMatch(m, a, b, version);
    SubstituteAtMatch(MarkerFirst, t, version, len, Marker + m + Rewritten(a.name, version));
    assert t[len..] == b;
    MarkerFreeUnchanged(MarkerFirst, b, version);
  }

  lemma Regroup(a: string, b: string, c: string, d: string, e: string)
    ensures a + (b + c + d + e) == (a + b + c) + (d + e)
    ensures a + b + c + d + e == (a + b + c) + (d + e)
    ensures a + b + c + d + e == (a + b) + (c + d + e)
  {
  }

  /** The attribute a rewrite writes holds no 'u' and begins with 't'. */
  lemma RewrittenIsUnmarked(name: string, version: string)
    requires IsName(name) && Plain(version)
    ensures 'u' !in Rewritten(name, version) && Rewritten(name, version)[0] == 't'
  {
  }

  /** The attribute a rewrite writes is itself an attribute, with value "v" and the version. */
  lemma RewrittenAttribute(name: string, version: string)
    requires IsName(name) && Plain(version)
    ensures AttributeText(Attribute(name, "v" + version)) == Rewritten(name, version)
    ensures Quote !in "v" + version && 't' !in "v" + version
  {
  }

  /** Every attribute text begins with 't', its name and `="`. */
  lemma AttributeFront(a: Attribute)
    requires IsName(a.name)
    ensures |AttributeText(a)| >= 7 && AttributeText(a)[0] == 't'
    ensures AttributeText(a)[..6] == (a.name + "=\"")[..6]
  {
    assert AttributeText(a) == (a.name + "=\"") + (a.value + "\"");
  }

  /** The first substitution, on a label whose attribute precedes the marker. */
  lemma FirstPassBefore(pre: string, a: Attribute, m: string, post: string, version: string)
    requires IsName(a.name) && Quote !in a.value && '\n' !in m && MarkerFree(post)
    requires NoLabelBelow(pre + AttributeText(a) + m + Marker + post, |pre|)
    ensures Substitute(AttributeFirst, pre + AttributeText(a) + m + Marker + post, version)
         == (pre + Rewritten(a.name, version) + m) + (Marker + post)
  {
    var x := AttributeText(a) + m + Marker + post;
    assert pre + AttributeText(a) + m + Marker + post == pre + x;
    PassThroughUnlabelled(pre, x, version);
    AttributeFirstRewrites(a, m, post, version);
    Regroup(pre, Rewritten(a.name, version), m, Marker, post);
  }

  /** The second substitution, on a label whose attribute precedes the marker. */
  lemma SecondPassBefore(w: string, post: string, version: string)
    requires NoMarkerBelow(w + Marker + post, |w|) && MarkerFree(post) && LastAttribute(post).None?
    ensures Substitute(MarkerFirst, w + (Marker + post), version) == w + Marker + post
  {
    assert w + Marker + post == w + (Marker + post);
    PassThroughMarkers(w, Marker + post, version);
    MarkerFirstSkipsBareMarker(post, version);
  }

  /** After the first substitution no marker starts before the label's marker. */
  lemma RewriteKeepsMarkersOut(pre: string, a: Attribute, m: string, post: string, version: string)
    requires IsName(a.name) && Plain(version)
    requires NoMarkerBelow(pre + AttributeText(a) + m + Marker + post, |pre| + |AttributeText(a)| + |m|)
    ensures NoMarkerBelow(pre + Rewritten(a.name, version) + m + Marker + post,
                          |pre| + |Rewritten(a.name, version)| + |m|)
  {
    var r := Rewritten(a.name, version);
    var rest := m + Marker + post;
    AttributeFront(a);
    RewrittenIsUnmarked(a.name, version);
    assert pre + AttributeText(a) + m + Marker + post == pre + AttributeText(a) + rest;
    assert pre + r + m + Marker + post == pre + r + rest;
    SwapKeepsMarkersOut(pre, AttributeText(a), r, rest, |m|);
  }

  /**
   * A label whose `text` or `title` attribute comes before the marker on its
   * line receives "v" and the new version, in a file with any other lines
   * around it, provided no attribute before the label has a marker after it
   * on its line, no other marker comes before the label's marker, no marker
   * follows it and no attribute follows it on its line.
   */
  lemma AttributeBeforeMarker(pre: string, a: Attribute, m: string, post: string, version: MV.Version)
    requires IsName(a.name) && Quote !in a.value && '\n' !in m
    requires NoLabelBelow(pre + AttributeText(a) + m + Marker + post, |pre|)
    requires NoMarkerBelow(pre + AttributeText(a) + m + Marker + post, |pre| + |AttributeText(a)| + |m|)
    requires MarkerFree(post) && LastAttribute(post).None?
    ensures UpdateUIContents(pre + AttributeText(a) + m + Marker + post, version)
         == pre + Rewritten(a.name, MV.ToString(version)) + m + Marker + post
  {
    var v := MV.ToString(version);
    RenderedVersionIsPlain(version);
    FirstPassBefore(pre, a, m, post, v);
    RewriteKeepsMarkersOut(pre, a, m, post, v);
    SecondPassBefore(pre + Rewritten(a.name, v) + m, post, v);
  }

  /** The first substitution, on a label whose attribute follows the marker. */
  lemma FirstPassAfter(pre: string, m: string, a: Attribute, post: string, version: string)
    requires NoLabelBelow(pre + Marker + m + AttributeText(a) + post, |pre|)
    requires MarkerFree(m + AttributeText(a) + post)
    ensures Substitute(AttributeFirst, pre + Marker + m + AttributeText(a) + post, version)
         == pre + Marker + m + AttributeText(a) + post
  {
    var rest := m + AttributeText(a) + post;
    var t := pre + Marker + m + AttributeText(a) + post;
    var w, x := pre + Marker[..1], Marker[1..] + rest;
    MarkerFacts();
    assert Marker == Marker[..1] + Marker[1..];
    assert t == w + x;
    assert t[|pre|] == 'u';
    NoLabelAtNonT(t, |pre|);
    PassThroughUnlabelled(w, x, version);
    MarkerTailFree(rest);
    MarkerFreeUnchanged(AttributeFirst, x, version);
  }

  /** The second substitution, on a label whose attribute follows the marker. */
  lemma SecondPassAfter(pre: string, m: string, a: Attribute, post: string, version: string)
    requires IsName(a.name) && Quote !in a.value
    requires NoMarkerBelow(pre + Marker + m + AttributeText(a) + post, |pre|)
    requires LastAttribute(m + AttributeText(a) + post) == Some(|m|) && MarkerFree(post)
    ensures Substitute(MarkerFirst, pre + Marker + m + AttributeText(a) + post, version)
         == pre + Marker + m + Rewritten(a.name, version) + post
  {
    Regroup(pre, Marker, m, AttributeText(a), post);
    Regroup(pre, Marker, m, Rewritten(a.name, version), post);
    PassThroughMarkers(pre, Marker + m + AttributeText(a) + post, version);
    MarkerFirstRewrites(m, a, post, version);
  }

  /**
   * A label whose `text` or `title` attribute comes after the marker on its
   * line receives "v" and the new version, in a file with any other lines
   * around it, provided no attribute before the label has a marker after it
   * on its line, no marker starts before the label, no other marker follows
   * it, and the label's attribute is the last one on the marker's line.
   */
  lemma AttributeAfterMarker(pre: string, m: string, a: Attribute, post: string, version: MV.Version)
    requires IsName(a.name) && Quote !in a.value && '\n' !in m
    requires NoLabelBelow(pre + Marker + m + AttributeText(a) + post, |pre|)
    requires NoMarkerBelow(pre + Marker + m + AttributeText(a) + post, |pre|)
    requires MarkerFree(m + AttributeText(a) + post) && LastAttribute(m + AttributeText(a) + post) == Some(|m|)
    ensures UpdateUIContents(pre + Marker + m + AttributeText(a) + post, version)
         == pre + Marker + m + Rewritten(a.name, MV.ToString(version)) + post
  {
    var v := MV.ToString(version);
    FirstPassAfter(pre, m, a, post, v);
    MarkerFreeSuffix(m + AttributeText(a) + post, |m| + |AttributeText(a)|);
    assert (m + AttributeText(a) + post)[|m| + |AttributeText(a)|..] == post;
    SecondPassAfter(pre, m, a, post, v);
  }

  /** A line break at `p` cuts off every marker the greedy `.*` could reach beyond it. */
  lemma BreakBelow(r: string, p: nat, j: nat)
    requires p < j <= |r| && r[p] == '\n'
    ensures '\n' in r[..j]
  {
    assert r[..j][p] == '\n';
  }

  /** A marker found on the first line of `r` is found in any text that agrees with `r` up to a line break. */
  lemma EligibleShared(r: string, r2: string, p: nat, j: nat)
    requires p < |r| && p < |r2| && r[..p + 1] == r2[..p + 1] && r[p] == '\n'
    requires j <= |r| && '\n' !in r[..j] && StartsMarker(r[j..])
    ensures j <= |r2| && '\n' !in r2[..j] && StartsMarker(r2[j..])
  {
    MarkerFacts();
    if j > p {
      BreakBelow(r, p, j);
      assert false;
    }
    assert r[..j] == r[..p + 1][..j] && r2[..j] == r2[..p + 1][..j];
    assert r[j..][p - j] == r[p];
    if j + |Marker| > p {
      assert false;
    }
    assert r[j..][..|Marker|] == r[..p + 1][j..j + |Marker|];
    assert r2[j..][..|Marker|] == r2[..p + 1][j..j + |Marker|];
  }

  /** Two texts that agree up to a line break have the same last marker on their first line. */
  lemma LastMarkerSharedLine(r: string, r2: string, p: nat)
    requires p < |r| && p < |r2| && r[..p + 1] == r2[..p + 1] && r[p] == '\n'
    ensures LastMarker(r) == LastMarker(r2)
  {
    assert r2[p] == r2[..p + 1][p] == r[..p + 1][p];
    var k1, k2 := LastMarker(r), LastMarker(r2);
    if k1.Some? {
      EligibleShared(r, r2, p, k1.value);
    }
    if k2.Some? {
      EligibleShared(r2, r, p, k2.value);
    }
  }

  /** A marker with no line break before it makes the first line's last marker exist. */
  lemma MarkerLater(r: string, k: nat)
    requires k <= |r| && '\n' !in r[..k] && StartsMarker(r[k..])
    ensures LastMarker(r).Some?
  {
  }

  /** A character of an attribute's value. */
  lemma ValueCharAt(x: Attribute, u: string, q: nat)
    requires AttributeText(x) <= u && |x.name| + 2 <= q < |AttributeText(x)| - 1
    ensures u[q] in x.value
  {
    assert u[q] == AttributeText(x)[q];
    assert AttributeText(x) == x.name + "=\"" + x.value + "\"";
    assert AttributeText(x)[q] == x.value[q - |x.name| - 2];
  }

  /** An attribute whose value starts by position `q` ends at the first double quote from there. */
  lemma AttributeEndsByQuote(u: string, x: Attribute, q: nat)
    requires AttributeText(x) <= u && Quote !in x.value && q < |u| && u[q] == Quote && |x.name| + 2 <= q
    ensures |AttributeText(x)| <= q + 1
  {
    if |AttributeText(x)| > q + 1 {
      ValueCharAt(x, u, q);
      assert false;
    }
  }

  /** The second character of an attribute is the second of its name. */
  lemma NameSecond(u: string, x: Attribute)
    requires AttributeAt(u) == Some(x)
    ensures |u| > 1 && u[1] == x.name[1]
  {
    NamePrefixSecond(u, x);
  }

  /** The second character of a text that starts with an attribute is that of the attribute's name. */
  lemma NamePrefixSecond(u: string, x: Attribute)
    requires IsName(x.name) && AttributeText(x) <= u
    ensures |u| > 1 && u[1] == x.name[1]
  {
    assert AttributeText(x) == x.name + ("=\"" + x.value + "\"");
    assert u[1] == AttributeText(x)[1];
  }

  /**
   * The conditions under which `s2` keeps the labelled attributes of `s` out
   * of its first `n` characters: the two agree up to a double quote at `c - 1`,
   * which closes every attribute that starts before `n`; and wherever the rest
   * of `s` from `j` up to `c` holds no line break, either `s` finds a marker on
   * that line or `s2` does not.
   */
  predicate KeepsLabelsOut(s: string, s2: string, n: nat, c: nat)
  {
    n + 6 <= c <= |s| && c <= |s2| && s[..c] == s2[..c] && s[c - 1] == Quote &&
    (n + 7 <= c || s[n] == 't') &&
    forall j :: 0 <= j <= c && '\n' !in s[j..c] ==> LastMarker(s[j..]).Some? || LastMarker(s2[j..]).None?
  }

  /** An attribute of `s2` that starts before a shared double quote is the same attribute in `s`. */
  lemma SameAttributeAt(s: string, s2: string, c: nat, i: nat, x: Attribute) returns (e: nat)
    requires i < c <= |s| && c <= |s2| && s[..c] == s2[..c] && s[c - 1] == Quote
    requires IsName(x.name) && Quote !in x.value && AttributeText(x) <= s2[i..] && |x.name| + 2 <= c - 1 - i
    ensures AttributeAt(s[i..]) == Some(x)
    ensures e == i + |AttributeText(x)| <= c
    ensures s2[i..][|AttributeText(x)|..] == s2[e..] && s[i..][|AttributeText(x)|..] == s[e..]
  {
    SharedSlice(s, s2, c, c - 1, c);
    assert s2[i..][c - 1 - i] == s2[c - 1];
    AttributeEndsByQuote(s2[i..], x, c - 1 - i);
    e := i + |AttributeText(x)|;
    SharedSlice(s, s2, c, i, e);
    TextAtBoth(s, s2, i, e, x);
    AttributeAtSuffix(s[i..], x, s[e..]);
  }

  /** A text made of an attribute and a rest starts with that attribute, and the rest follows it. */
  lemma AttributeAtSuffix(u: string, x: Attribute, rest: string)
    requires IsName(x.name) && Quote !in x.value && u == AttributeText(x) + rest
    ensures AttributeAt(u) == Some(x) && u[|AttributeText(x)|..] == rest
  {
    AttributeAtText(x, rest);
  }

  /** Texts that agree up to `c` agree on every stretch below it. */
  lemma SharedSlice(s: string, s2: string, c: nat, i: nat, e: nat)
    requires i <= e <= c <= |s| && c <= |s2| && s[..c] == s2[..c]
    ensures s[i..e] == s2[i..e] && (i < e ==> s[i] == s2[i])
  {
    assert s[i..e] == s[..c][i..e];
    assert s2[i..e] == s2[..c][i..e];
    if i < e {
      assert s[i] == s[i..e][0];
      assert s2[i] == s2[i..e][0];
    }
  }

  /** An attribute text that opens `s2` at `i` opens `s` there too when the two agree over it. */
  lemma TextAtBoth(s: string, s2: string, i: nat, e: nat, x: Attribute)
    requires i <= e <= |s| && e <= |s2| && s[i..e] == s2[i..e]
    requires AttributeText(x) <= s2[i..] && e == i + |AttributeText(x)|
    ensures s[i..] == AttributeText(x) + s[e..] && s2[i..][|AttributeText(x)|..] == s2[e..]
  {
    assert AttributeText(x) == s2[i..][..|AttributeText(x)|] == s2[i..e];
    assert s[i..] == s[i..e] + s[e..];
  }

  /** From a point `e` before `c`, the rest of `s2` finds no marker on its line when the rest of `s` does not. */
  lemma RestAgrees(s: string, s2: string, n: nat, c: nat, e: nat)
    requires KeepsLabelsOut(s, s2, n, c) && e <= c && LastMarker(s[e..]).None?
    ensures LastMarker(s2[e..]).None?
  {
    if '\n' in s[e..c] {
      var p :| 0 <= p < c - e && s[e..c][p] == '\n';
      SharedFront(s, s2, c, e, p);
      LastMarkerSharedLine(s[e..], s2[e..], p);
    }
  }

  /** Texts that agree up to `c` agree on the front of their suffixes from `e` through `e + p`. */
  lemma SharedFront(s: string, s2: string, c: nat, e: nat, p: nat)
    requires e + p < c <= |s| && c <= |s2| && s[..c] == s2[..c]
    ensures s[e..][..p + 1] == s2[e..][..p + 1] && s[e..][p] == s[e..c][p]
  {
    assert s[e..][..p + 1] == s[..c][e..e + p + 1] == s2[..c][e..e + p + 1] == s2[e..][..p + 1];
  }

  /** An attribute is labelled exactly when the marker follows it on its line. */
  lemma LabelledVia(u: string, x: Attribute, rest: string)
    requires AttributeAt(u) == Some(x) && u[|AttributeText(x)|..] == rest
    ensures LabelledAttribute(u) <==> LastMarker(rest).Some?
  {
  }

  /** An attribute starting before `n` opens its value before the shared double quote at `c - 1`. */
  lemma ValueOpensInside(s: string, s2: string, n: nat, c: nat, i: nat, x: Attribute)
    requires n + 6 <= c <= |s| && c <= |s2| && s[..c] == s2[..c] && (n + 7 <= c || s[n] == 't')
    requires i < n && IsName(x.name) && |s2[i..]| > 1 && s2[i..][1] == x.name[1]
    ensures |x.name| + 2 <= c - 1 - i
  {
    if i + 1 == n {
      SharedSlice(s, s2, c, n, n + 1);
      assert s2[i..][1] == s2[n];
    }
  }

  /** One position of `NoLabelKept`. */
  lemma LabelKeptAt(s: string, s2: string, n: nat, c: nat, i: nat)
    requires NoLabelBelow(s, n) && KeepsLabelsOut(s, s2, n, c) && i < n && StartsAttribute(s2[i..])
    ensures !LabelledAttribute(s2[i..])
  {
    var x := AttributeAt(s2[i..]).value;
    NameSecond(s2[i..], x);
    ValueOpensInside(s, s2, n, c, i, x);
    var e := SameAttributeAt(s, s2, c, i, x);
    LabelledVia(s[i..], x, s[e..]);
    LabelledVia(s2[i..], x, s2[e..]);
    assert !LabelledAttribute(s[i..]);
    RestAgrees(s, s2, n, c, e);
  }

  /** No labelled attribute starts before `n` in `s2` when none does in `s` and `KeepsLabelsOut` holds. */
  lemma NoLabelKept(s: string, s2: string, n: nat, c: nat)
    requires NoLabelBelow(s, n) && KeepsLabelsOut(s, s2, n, c)
    ensures NoLabelBelow(s2, n)
  {
    forall i | 0 <= i < n ensures !LabelledAttribute(s2[i..]) {
      if StartsAttribute(s2[i..]) {
        LabelKeptAt(s, s2, n, c, i);
      }
    }
  }

  /** An attribute's text opens with its name, `=` and the opening quote. */
  lemma NameFront(pre: string, a: Attribute, rest: string)
    ensures (pre + AttributeText(a) + rest)[..|pre| + |a.name| + 2] == pre + a.name + "=\""
  {
    assert pre + AttributeText(a) + rest == (pre + a.name + "=\"") + (a.value + "\"" + rest);
  }

  /** Where the label's line has no break before its marker, the marker is found from `j`. */
  lemma LabelLineBefore(pre: string, a: Attribute, m: string, post: string, j: nat)
    requires IsName(a.name) && '\n' !in a.value && '\n' !in m
    requires var t := pre + AttributeText(a) + m + Marker + post;
      j <= |pre| + |a.name| + 2 && '\n' !in t[j..|pre| + |a.name| + 2]
    ensures LastMarker((pre + AttributeText(a) + m + Marker + post)[j..]).Some?
  {
    var t := pre + AttributeText(a) + m + Marker + post;
    var l := |pre| + |AttributeText(a)| + |m|;
    LabelLineSlices(pre, a, m, post, j);
    MarkerLater(t[j..], l - j);
  }

  /** The stretch from `j` to the marker of a label's line holds no line break. */
  lemma LabelLineSlices(pre: string, a: Attribute, m: string, post: string, j: nat)
    requires IsName(a.name) && '\n' !in a.value && '\n' !in m
    requires var t := pre + AttributeText(a) + m + Marker + post;
      j <= |pre| + |a.name| + 2 && '\n' !in t[j..|pre| + |a.name| + 2]
    ensures var t := pre + AttributeText(a) + m + Marker + post;
      var l := |pre| + |AttributeText(a)| + |m|;
      j <= l <= |t| && '\n' !in t[j..][..l - j] && t[j..][l - j..] == Marker + post
  {
    var t := pre + AttributeText(a) + m + Marker + post;
    var front, middle := pre + a.name + "=\"", a.value + "\"" + m;
    LabelSplit(pre, a, m, post);
    ValueThenRest(a.value, m);
    ThreePartLine(front, middle, Marker + post, j);
  }

  /** A value, its closing quote and a break-free rest hold no line break. */
  lemma ValueThenRest(v: string, m: string)
    requires '\n' !in v && '\n' !in m
    ensures '\n' !in v + "\"" + m
  {
    assert forall i :: 0 <= i < |v + "\"" + m| ==> (v + "\"" + m)[i] in v || (v + "\"" + m)[i] == Quote || (v + "\"" + m)[i] in m;
  }

  /** A labelled line cut at the opening quote of its attribute's value. */
  lemma LabelSplit(pre: string, a: Attribute, m: string, post: string)
    ensures pre + AttributeText(a) + m + Marker + post == (pre + a.name + "=\"") + (a.value + "\"" + m) + (Marker + post)
    ensures |pre + AttributeText(a) + m| == |pre + a.name + "=\""| + |a.value + "\"" + m|
  {
  }

  /** The stretch of `x + y + z` from `j` inside `x` up to `z` holds no break when `x` from `j` and `y` hold none. */
  lemma ThreePartLine(x: string, y: string, z: string, j: nat)
    requires j <= |x| && '\n' !in (x + y + z)[j..|x|] && '\n' !in y
    ensures '\n' !in (x + y + z)[j..][..|x| + |y| - j] && (x + y + z)[j..][|x| + |y| - j..] == z
  {
    assert (x + y + z)[j..|x|] == x[j..];
    assert (x + y + z)[j..] == x[j..] + y + z;
    assert (x + y + z)[j..][..|x| + |y| - j] == x[j..] + y;
  }

  /** After the first run no labelled attribute starts before a label whose attribute precedes the marker. */
  lemma LabelsBeforeKept(pre: string, a: Attribute, b: Attribute, m: string, post: string)
    requires IsName(a.name) && b.name == a.name && '\n' !in a.value && '\n' !in m
    requires NoLabelBelow(pre + AttributeText(a) + m + Marker + post, |pre|)
    ensures NoLabelBelow(pre + AttributeText(b) + m + Marker + post, |pre|)
  {
    var t, out := pre + AttributeText(a) + m + Marker + post, pre + AttributeText(b) + m + Marker + post;
    var c := |pre| + |a.name| + 2;
    NameFront(pre, a, m + Marker + post);
    NameFront(pre, b, m + Marker + post);
    assert t == pre + AttributeText(a) + (m + Marker + post);
    assert out == pre + AttributeText(b) + (m + Marker + post);
    assert t[c - 1] == t[..c][c - 1];
    AttributeFront(a);
    assert t[|pre|] == AttributeText(a)[0];
    forall j | 0 <= j <= c && '\n' !in t[j..c] ensures LastMarker(t[j..]).Some? {
      LabelLineBefore(pre, a, m, post, j);
    }
    NoLabelKept(t, out, |pre|, c);
  }

  /**
   * A second run leaves a label rewritten by `AttributeBeforeMarker` as it
   * is, when the old value held no line break or no attribute at all starts
   * before the label.
   */
  lemma AttributeBeforeMarkerStable(pre: string, a: Attribute, m: string, post: string, version: MV.Version)
    requires IsName(a.name) && Quote !in a.value && '\n' !in m
    requires NoLabelBelow(pre + AttributeText(a) + m + Marker + post, |pre|)
    requires NoMarkerBelow(pre + AttributeText(a) + m + Marker + post, |pre| + |AttributeText(a)| + |m|)
    requires MarkerFree(post) && LastAttribute(post).None?
    requires '\n' !in a.value || NoHeaderBelow(pre + AttributeText(a) + m + Marker + post, |pre|)
    ensures var out := pre + Rewritten(a.name, MV.ToString(version)) + m + Marker + post;
      UpdateUIContents(out, version) == out
  {
    var v := MV.ToString(version);
    RenderedVersionIsPlain(version);
    var b := Attribute(a.name, "v" + v);
    RewrittenAttribute(a.name, v);
    if '\n' !in a.value {
      LabelsBeforeKept(pre, a, b, m, post);
    } else {
      HeadersBeforeKept(pre, a, b, m, post);
    }
    RewriteKeepsMarkersOut(pre, a, m, post, v);
    AttributeBeforeMarker(pre, b, m, post, version);
  }

  /** Rewriting a value keeps labelled attributes out of the text before it when no header starts there. */
  lemma HeadersBeforeKept(pre: string, a: Attribute, b: Attribute, m: string, post: string)
    requires IsName(a.name) && b.name == a.name
    requires NoHeaderBelow(pre + AttributeText(a) + m + Marker + post, |pre|)
    ensures NoLabelBelow(pre + AttributeText(b) + m + Marker + post, |pre|)
  {
    var t, out := pre + AttributeText(a) + m + Marker + post, pre + AttributeText(b) + m + Marker + post;
    Regroup(pre, AttributeText(a), m, Marker, post);
    Regroup(pre, AttributeText(b), m, Marker, post);
    AttributeFront(a);
    AttributeFront(b);
    assert t[..|pre| + 6] == pre + AttributeText(a)[..6];
    assert out[..|pre| + 6] == pre + AttributeText(b)[..6];
    HeadersInSharedPrefix(t, out, |pre|, |pre| + 6);
    HeadersToLabels(out, |pre|);
  }

  /** Changing what follows the marker keeps markers out of the text before it. */
  lemma MarkerPrefixKept(pre: string, m: string, x: string, y: string, post: string)
    requires NoMarkerBelow(pre + Marker + m + x + post, |pre|)
    ensures NoMarkerBelow(pre + Marker + m + y + post, |pre|)
  {
    var t, out := pre + Marker + m + x + post, pre + Marker + m + y + post;
    MarkerFacts();
    assert t[..|pre| + |Marker|] == pre + Marker == out[..|pre| + |Marker|];
    MarkersInSharedPrefix(t, out, |pre|, |pre| + |Marker|);
  }

  /** The first quote of the marker is its eleventh character. */
  lemma MarkerQuote()
    ensures Marker[10] == Quote && Quote !in Marker[..10]
  {
  }

  /** No marker starts inside the marker or after it when none starts in what follows. */
  lemma MarkerRestFree(k: nat, rest: string)
    requires 1 <= k <= |Marker| && MarkerFree(rest)
    ensures MarkerFree(Marker[k..] + rest)
  {
    MarkerTailFree(rest);
    assert (Marker[1..] + rest)[k - 1..] == Marker[k..] + rest;
    MarkerFreeSuffix(Marker[1..] + rest, k - 1);
  }

  /** Where the label's marker line has no break before it, the marker is found, or the text is past its front. */
  lemma LabelLineAfter(pre: string, x: string, y: string, j: nat)
    requires MarkerFree(y) && j <= |pre| + 11
    requires '\n' !in (pre + Marker + x)[j..|pre| + 11]
    ensures LastMarker((pre + Marker + x)[j..]).Some? || LastMarker((pre + Marker + y)[j..]).None?
  {
    var t, out := pre + Marker + x, pre + Marker + y;
    MarkerFacts();
    if j <= |pre| {
      assert t[j..][..|pre| - j] == t[j..|pre| + 11][..|pre| - j];
      assert t[j..][|pre| - j..] == Marker + x;
      MarkerLater(t[j..], |pre| - j);
    } else {
      assert out[j..] == Marker[j - |pre|..] + y;
      MarkerRestFree(j - |pre|, y);
      MarkerFreeNoLast(out[j..]);
    }
  }

  /** After the first run no labelled attribute starts before a label whose attribute follows the marker. */
  lemma LabelsAfterKept(pre: string, x: string, y: string)
    requires MarkerFree(y) && NoLabelBelow(pre + Marker + x, |pre|)
    ensures NoLabelBelow(pre + Marker + y, |pre|)
  {
    var t, out := pre + Marker + x, pre + Marker + y;
    var c := |pre| + 11;
    MarkerFacts();
    MarkerQuote();
    assert t[..c] == pre + Marker[..11] == out[..c];
    assert t[c - 1] == Marker[10];
    forall j | 0 <= j <= c && '\n' !in t[j..c] ensures LastMarker(t[j..]).Some? || LastMarker(out[j..]).None? {
      LabelLineAfter(pre, x, y, j);
    }
    NoLabelKept(t, out, |pre|, c);
  }

  /** A rewritten attribute followed by no attribute on its line is the last attribute of the marker's line. */
  lemma RewrittenIsLast(m: string, b: Attribute, post: string)
    requires '\n' !in m && IsName(b.name) && Quote !in b.value && 't' !in b.value && LastAttribute(post).None?
    ensures LastAttribute(m + AttributeText(b) + post) == Some(|m|)
  {
    var r := m + AttributeText(b) + post;
    Fronts(m, AttributeText(b), post);
    AttributeAtText(b, post);
    forall j | |m| < j <= |r| && '\n' !in r[..j] ensures !StartsAttribute(r[j..]) {
      NothingAfterRewrite(m, b, post, j);
    }
  }

  /** One position of `RewrittenIsLast`. */
  lemma NothingAfterRewrite(m: string, b: Attribute, post: string, j: nat)
    requires IsName(b.name) && 't' !in b.value && LastAttribute(post).None?
    requires var r := m + AttributeText(b) + post; |m| < j <= |r| && '\n' !in r[..j]
    ensures !StartsAttribute((m + AttributeText(b) + post)[j..])
  {
    if j < |m| + |AttributeText(b)| {
      NoAttributeInside(b, post);
      MiddleSuffix(m, AttributeText(b), post, j);
    } else {
      LineTail(m, AttributeText(b), post, j);
    }
  }

  /** A suffix of `m + x + y` from inside `x`. */
  lemma MiddleSuffix(m: string, x: string, y: string, j: nat)
    requires |m| <= j <= |m| + |x|
    ensures (m + x + y)[j..] == (x + y)[j - |m|..]
  {
    assert m + x + y == m + (x + y);
  }

  /** A suffix of `m + x + y` from inside `y`, whose front on the line holds no break when the whole front does not. */
  lemma LineTail(m: string, x: string, y: string, j: nat)
    requires |m| + |x| <= j <= |m| + |x| + |y| && '\n' !in (m + x + y)[..j]
    ensures (m + x + y)[j..] == y[j - |m| - |x|..] && '\n' !in y[..j - |m| - |x|]
  {
    var k := j - |m| - |x|;
    assert (m + x + y)[..j] == m + x + y[..k];
    assert forall i :: 0 <= i < k ==> y[..k][i] == (m + x + y)[..j][|m| + |x| + i];
  }

  /** Rewriting the attribute after the marker keeps markers out of the rest of the line. */
  lemma RewrittenTailKept(m: string, a: Attribute, b: Attribute, post: string)
    requires IsName(a.name) && IsName(b.name) && 'u' !in AttributeText(b)
    requires MarkerFree(m + AttributeText(a) + post)
    ensures MarkerFree(m + AttributeText(b) + post)
  {
    AttributeFront(a);
    AttributeFront(b);
    MarkerFreeBelow(m + AttributeText(a) + post);
    MarkerFreeBelow(m + AttributeText(b) + post);
    SwapKeepsMarkersOut(m, AttributeText(a), AttributeText(b), post, |post|);
  }

  /**
   * A second run leaves a label rewritten by `AttributeAfterMarker` as it is,
   * when no attribute follows the label's attribute on its line.
   */
  lemma AttributeAfterMarkerStable(pre: string, m: string, a: Attribute, post: string, version: MV.Version)
    requires IsName(a.name) && Quote !in a.value && '\n' !in m
    requires NoLabelBelow(pre + Marker + m + AttributeText(a) + post, |pre|)
    requires NoMarkerBelow(pre + Marker + m + AttributeText(a) + post, |pre|)
    requires MarkerFree(m + AttributeText(a) + post) && LastAttribute(m + AttributeText(a) + post) == Some(|m|)
    requires LastAttribute(post).None?
    ensures var out := pre + Marker + m + Rewritten(a.name, MV.ToString(version)) + post;
      UpdateUIContents(out, version) == out
  {
    var v := MV.ToString(version);
    RenderedVersionIsPlain(version);
    var b := Attribute(a.name, "v" + v);
    RewrittenAttribute(a.name, v);
    RewrittenIsUnmarked(a.name, v);
    MarkerPrefixKept(pre, m, AttributeText(a), AttributeText(b), post);
    RewrittenTailKept(m, a, b, post);
    Regroup(pre, Marker, m, AttributeText(a), post);
    Regroup(pre, Marker, m, AttributeText(b), post);
    LabelsAfterKept(pre, m + AttributeText(a) + post, m + AttributeText(b) + post);
    RewrittenIsLast(m, b, post);
    AttributeAfterMarker(pre, m, b, post, version);
  }

  /** The greedy `.*` stops at a line break, so no marker is found past it. */
  lemma NoMarkerOnFirstLine(x: string, y: string)
    requires 'u' !in x
    ensures LastMarker(x + "\n" + y).None?
  {
    var r := x + "\n" + y;
    forall k | 0 <= k <= |r| ensures '\n' in r[..k] || !StartsMarker(r[k..]) {
      if k > |x| {
        assert r[..k][|x|] == '\n';
      } else if k < |x| {
        assert r[k..][0] == x[k];
        NotMarkerAtNonU(r[k..]);
      } else {
        assert r[k..][0] == '\n';
        NotMarkerAtNonU(r[k..]);
      }
    }
  }

  /**
   * A `title` attribute, then a `text` attribute whose value holds a line
   * break, then the marker: `title="q" text="a` and `b" userLabel="APP_VERSION"`
   * on two lines.
   */
  function SplitValue(q: string, a: string, b: string): string
  {
    AttributeText(Attribute("title", q)) + " " + AttributeText(Attribute("text", a + "\n" + b)) + " " + Marker
  }

  /** An attribute with no marker after it on its line starts no match of the first rule. */
  lemma NoMarkerAfterAttribute(a: Attribute, rest: string, version: string)
    requires IsName(a.name) && Quote !in a.value && LastMarker(rest).None?
    ensures RuleAt(AttributeFirst, AttributeText(a) + rest, version).None?
  {
    AttributeAtText(a, rest);
    assert (AttributeText(a) + rest)[|AttributeText(a)|..] == rest;
  }

  /** The `title` attribute at the start of the file is not followed by the marker on its line. */
  lemma SplitValueNoMatchAtStart(q: string, a: string, b: string, v: string)
    requires Plain(q) && Plain(a) && Plain(b)
    ensures RuleAt(AttributeFirst, SplitValue(q, a, b), v).None?
  {
    var a1, a2 := Attribute("title", q), Attribute("text", a + "\n" + b);
    var x, y := " text=\"" + a, b + "\" " + Marker;
    var rest := x + "\n" + y;
    assert SplitValue(q, a, b) == AttributeText(a1) + rest;
    NoMarkerOnFirstLine(x, y);
    NoMarkerAfterAttribute(a1, rest, v);
  }

  /** After its first character, no header starts in the `title` attribute and the blank after it. */
  lemma SplitValueNoHeaderInTitle(q: string, x: string)
    requires Plain(q)
    ensures NoHeaderBelow("itle=\"" + q + "\" " + x, |q| + 8)
  {
    var w1 := "itle=\"" + q + "\" ";
    forall i | 0 <= i < |w1| ensures !StartsHeader((w1 + x)[i..]) {
      if i == 1 {
        assert (w1 + x)[i..][1] == 'l';
      } else {
        assert (w1 + x)[i..][0] == w1[i] != 't';
      }
    }
  }

  /** A first character where no rule matches, then text where no header starts, pass the first rule unchanged. */
  lemma SkipThenPass(c: char, w: string, x: string, version: string)
    requires RuleAt(AttributeFirst, [c] + (w + x), version).None? && NoHeaderBelow(w + x, |w|)
    ensures Substitute(AttributeFirst, [c] + (w + x), version) == [c] + (w + Substitute(AttributeFirst, x, version))
  {
    SkipOne(c, w + x, version);
    HeadersToLabels(w + x, |w|);
    PassThroughUnlabelled(w, x, version);
  }

  /** A first character where the first rule does not match is copied. */
  lemma SkipOne(c: char, y: string, version: string)
    requires RuleAt(AttributeFirst, [c] + y, version).None?
    ensures Substitute(AttributeFirst, [c] + y, version) == [c] + Substitute(AttributeFirst, y, version)
  {
    var t := [c] + y;
    assert t[0] == c && t[1..] == y;
    SubstituteNoMatch(AttributeFirst, t, version);
  }

  /** The first substitution rewrites only the `text` attribute, whose value spans two lines. */
  lemma FirstPassOnSplitValue(q: string, a: string, b: string, v: string)
    requires Plain(q) && Plain(a) && Plain(b) && Plain(v)
    ensures Substitute(AttributeFirst, SplitValue(q, a, b), v)
         == AttributeText(Attribute("title", q)) + " " + Rewritten("text", v) + " " + Marker
  {
    var a2 := Attribute("text", a + "\n" + b);
    var w1 := "itle=\"" + q + "\" ";
    var x := AttributeText(a2) + " " + Marker + [];
    var r := Rewritten("text", v);
    SplitValueParts(q, a, b, r);
    SplitValueNoMatchAtStart(q, a, b, v);
    SplitValueNoHeaderInTitle(q, x);
    SkipThenPass('t', w1, x, v);
    MarkerFacts();
    UnmarkedIsMarkerFree([]);
    AttributeFirstRewrites(a2, " ", [], v);
  }

  /** The file of the example, taken apart after its first character. */
  lemma SplitValueParts(q: string, a: string, b: string, r: string)
    ensures var w1, x := "itle=\"" + q + "\" ", AttributeText(Attribute("text", a + "\n" + b)) + " " + Marker + [];
      SplitValue(q, a, b) == ['t'] + (w1 + x) &&
      ['t'] + (w1 + (r + " " + Marker + [])) == AttributeText(Attribute("title", q)) + " " + r + " " + Marker
  {
    var w1, x2 := "itle=\"" + q + "\" ", AttributeText(Attribute("text", a + "\n" + b));
    var front := AttributeText(Attribute("title", q)) + " ";
    assert ['t'] + w1 == front;
    Assoc(['t'], w1, x2 + " " + Marker + []);
    assert x2 + " " + Marker + [] == x2 + " " + Marker;
    Regroup4(front, x2, " ", Marker);
    Assoc(['t'], w1, r + " " + Marker + []);
    assert r + " " + Marker + [] == r + " " + Marker;
    Regroup4(front, r, " ", Marker);
  }

  /** The first run on the file that shows the substitutions are not idempotent. */
  lemma FirstRunOnSplitValue(q: string, a: string, b: string, v: string)
    requires Plain(q) && Plain(a) && Plain(b) && Plain(v)
    ensures Substitute(MarkerFirst, Substitute(AttributeFirst, SplitValue(q, a, b), v), v)
         == AttributeText(Attribute("title", q)) + " " + Rewritten("text", v) + " " + Marker
  {
    var u := AttributeText(Attribute("title", q)) + " " + Rewritten("text", v) + " ";
    RewrittenIsUnmarked("text", v);
    assert 'u' !in u;
    UnmarkedThenMarker(u, v);
    FirstPassOnSplitValue(q, a, b, v);
  }

  /** Text without a 'u' followed by the bare marker passes the second rule unchanged. */
  lemma UnmarkedThenMarker(u: string, version: string)
    requires 'u' !in u
    ensures Substitute(MarkerFirst, u + Marker, version) == u + Marker
  {
    MarkerFacts();
    UnmarkedIsMarkerFree([]);
    NoAttributeWithoutT([]);
    AttributeFreeNoLast([]);
    NoMarkerWithoutU(u, Marker + []);
    assert u + Marker + [] == u + (Marker + []) == u + Marker;
    SecondPassBefore(u, [], version);
  }

  /**
   * `[^"]*` crosses a line break where `.*` does not, so a second run can
   * change the file again: the first run rewrites `text`, whose value spans
   * two lines, and so brings `title` onto the marker's line. The second run
   * changes nothing only when `title` already held the new version.
   */
  lemma UpdateNotIdempotent(q: string, a: string, b: string, version: MV.Version)
    requires Plain(q) && Plain(a) && Plain(b)
    ensures var v := MV.ToString(version);
      var once := UpdateUIContents(SplitValue(q, a, b), version);
      once == AttributeText(Attribute("title", q)) + " " + Rewritten("text", v) + " " + Marker &&
      UpdateUIContents(once, version) == Rewritten("title", v) + " " + Rewritten("text", v) + " " + Marker &&
      (UpdateUIContents(once, version) == once <==> q == "v" + v)
  {
    var v := MV.ToString(version);
    RenderedVersionIsPlain(version);
    var a1, b1 := Attribute("title", q), Attribute("title", "v" + v);
    var m := " " + Rewritten("text", v) + " ";
    SplitValueShapes(q, v);
    FirstRunOnSplitValue(q, a, b, v);
    var once := UpdateUIContents(SplitValue(q, a, b), version);
    assert once == AttributeText(a1) + m + Marker;
    LeadingAttributeRewritten(a1, m, version);
    var twice := UpdateUIContents(once, version);
    assert twice == AttributeText(b1) + m + Marker;
    SameTitleOnlyIfCurrent(q, "v" + v, m + Marker);
    assert twice == once <==> q == "v" + v;
  }

  /** Two `title` attributes followed by the same text agree only when their values do. */
  lemma SameTitleOnlyIfCurrent(q: string, q2: string, rest: string)
    ensures AttributeText(Attribute("title", q2)) + rest == AttributeText(Attribute("title", q)) + rest <==> q == q2
  {
    var a1, b1 := Attribute("title", q), Attribute("title", q2);
    if AttributeText(b1) + rest == AttributeText(a1) + rest {
      CancelSuffix(AttributeText(b1), AttributeText(a1), rest);
      ValueOfText(a1);
      ValueOfText(b1);
    }
  }

  /** The file after one run, and after two, written around the `title` attribute. */
  lemma SplitValueShapes(q: string, v: string)
    requires Plain(q) && Plain(v)
    ensures var m := " " + Rewritten("text", v) + " ";
      var a1, b1 := Attribute("title", q), Attribute("title", "v" + v);
      AttributeText(a1) + m + Marker == AttributeText(a1) + " " + Rewritten("text", v) + " " + Marker &&
      AttributeText(b1) + m + Marker == AttributeText(b1) + (m + Marker) &&
      AttributeText(a1) + m + Marker == AttributeText(a1) + (m + Marker) &&
      AttributeText(b1) + m + Marker == Rewritten("title", v) + " " + Rewritten("text", v) + " " + Marker &&
      AttributeText(b1) == Rewritten("title", v) &&
      'u' !in AttributeText(a1) + m && '\n' !in m && IsName(a1.name) && Quote !in a1.value
  {
    RewrittenIsUnmarked("text", v);
    RewrittenAttribute("title", v);
  }

  /** Equal texts with the same ending are equal before it. */
  lemma CancelSuffix(x: string, y: string, s: string)
    requires x + s == y + s
    ensures x == y
  {
    assert x == (x + s)[..|x|];
    assert y == (y + s)[..|y|];
  }

  /** The value of an attribute is read back from its text. */
  lemma ValueOfText(a: Attribute)
    ensures |AttributeText(a)| == |a.name| + |a.value| + 3
    ensures AttributeText(a)[|a.name| + 2..|AttributeText(a)| - 1] == a.value
  {
  }

  /** An attribute at the start of the text, then the marker on its line, is rewritten. */
  lemma LeadingAttributeRewritten(a: Attribute, m: string, version: MV.Version)
    requires IsName(a.name) && Quote !in a.value && 'u' !in AttributeText(a) + m && '\n' !in m
    ensures UpdateUIContents(AttributeText(a) + m + Marker, version)
         == Rewritten(a.name, MV.ToString(version)) + m + Marker
  {
    var t, t0 := AttributeText(a) + m + Marker, [] + AttributeText(a) + m + Marker + [];
    var r := Rewritten(a.name, MV.ToString(version));
    var u, u0 := r + m + Marker, [] + r + m + Marker + [];
    assert t0 == t && u0 == u;
    MarkerFacts();
    UnmarkedIsMarkerFree([]);
    NoAttributeWithoutT([]);
    AttributeFreeNoLast([]);
    NoMarkerWithoutU(AttributeText(a) + m, Marker + []);
    assert AttributeText(a) + m + (Marker + []) == t0;
    AttributeBeforeMarker([], a, m, [], version);
    assert UpdateUIContents(t0, version) == u0;
  }

  /** The attributes of the examples, written out. */
  lemma ExampleAttributes()
    ensures " " + AttributeText(Attribute("text", "blah")) + " blah" == " text=\"blah\" blah"
    ensures " " + AttributeText(Attribute("title", "blah")) + " blah" == " title=\"blah\" blah"
    ensures "foo " + AttributeText(Attribute("text", "BLAH")) == "foo text=\"BLAH\""
  {
  }

  /** The rewritten attributes of the examples, written out. */
  lemma ExampleRewrites()
    ensures " " + Rewritten("text", "1.2.3") + " blah" == " text=\"v1.2.3\" blah"
    ensures " " + Rewritten("title", "1.2.3") + " blah" == " title=\"v1.2.3\" blah"
    ensures "foo " + Rewritten("text", "1.2.3") == "foo text=\"v1.2.3\""
  {
    assert Rewritten("text", "1.2.3") == "text=\"v1.2.3\"";
    assert Rewritten("title", "1.2.3") == "title=\"v1.2.3\"";
  }

  /** The version of the examples, rendered. */
  lemma ExampleVersion()
    ensures MV.ToString(MV.Version(1, 2, 3)) == "1.2.3"
  {
  }

  lemma ExampleTexts()
    ensures " " + AttributeText(Attribute("text", "blah")) + " blah" == " text=\"blah\" blah"
    ensures " " + AttributeText(Attribute("title", "blah")) + " blah" == " title=\"blah\" blah"
    ensures " " + Rewritten("text", "1.2.3") + " blah" == " text=\"v1.2.3\" blah"
    ensures " " + Rewritten("title", "1.2.3") + " blah" == " title=\"v1.2.3\" blah"
    ensures "foo " + AttributeText(Attribute("text", "BLAH")) == "foo text=\"BLAH\""
    ensures "foo " + Rewritten("text", "1.2.3") == "foo text=\"v1.2.3\""
    ensures MV.ToString(MV.Version(1, 2, 3)) == "1.2.3"
  {
    ExampleAttributes();
    ExampleRewrites();
    ExampleVersion();
  }

  /** The conditions of `AttributeAfterMarker` for a label with no 't' or 'u' around it. */
  lemma AfterMarkerConditions(pre: string, m: string, a: Attribute, post: string)
    requires 't' !in pre && 'u' !in pre && 'u' !in m && '\n' !in m
    requires IsName(a.name) && Quote !in a.value && 't' !in a.value && 'u' !in a.value && 't' !in post && 'u' !in post
    ensures NoLabelBelow(pre + Marker + m + AttributeText(a) + post, |pre|)
    ensures NoMarkerBelow(pre + Marker + m + AttributeText(a) + post, |pre|)
    ensures MarkerFree(m + AttributeText(a) + post) && LastAttribute(m + AttributeText(a) + post) == Some(|m|)
  {
    var rest := Marker + m + AttributeText(a) + post;
    assert pre + Marker + m + AttributeText(a) + post == pre + rest;
    NoHeaderWithoutT(pre, rest);
    HeadersToLabels(pre + rest, |pre|);
    NoMarkerWithoutU(pre, rest);
    assert AttributeText(a) == a.name + "=\"" + a.value + "\"";
    UnmarkedIsMarkerFree(m + AttributeText(a) + post);
    NoAttributeWithoutT(post);
    AttributeFreeAfterAttribute(a, post);
    LastAttributeIs(m, a, post);
  }

  /** The label after the marker, as in the script's first two test cases. */
  lemma AfterMarkerExamples()
    ensures UpdateUIContents("foo " + Marker + " text=\"blah\" blah", MV.Version(1, 2, 3))
         == "foo " + Marker + " text=\"v1.2.3\" blah"
    ensures UpdateUIContents("foo " + Marker + " title=\"blah\" blah", MV.Version(1, 2, 3))
         == "foo " + Marker + " title=\"v1.2.3\" blah"
  {
    ExampleTexts();
    var text, title := Attribute("text", "blah"), Attribute("title", "blah");
    AfterMarkerConditions("foo ", " ", text, " blah");
    AfterMarkerConditions("foo ", " ", title, " blah");
    AttributeAfterMarker("foo ", " ", text, " blah", MV.Version(1, 2, 3));
    AttributeAfterMarker("foo ", " ", title, " blah", MV.Version(1, 2, 3));
    Regroup("foo ", Marker, " ", AttributeText(text), " blah");
    Regroup("foo ", Marker, " ", AttributeText(title), " blah");
    Regroup("foo ", Marker, " ", Rewritten("text", "1.2.3"), " blah");
    Regroup("foo ", Marker, " ", Rewritten("title", "1.2.3"), " blah");
  }

  /** The conditions of `AttributeBeforeMarker` for a label with no 'u' around it and no header before it. */
  lemma BeforeMarkerConditions(pre: string, a: Attribute, m: string, post: string)
    requires 'u' !in pre && 'u' !in m && NoHeaderBelow(pre + AttributeText(a) + m + Marker + post, |pre|)
    requires IsName(a.name) && 'u' !in a.value && 't' !in post && 'u' !in post
    ensures NoLabelBelow(pre + AttributeText(a) + m + Marker + post, |pre|)
    ensures NoMarkerBelow(pre + AttributeText(a) + m + Marker + post, |pre| + |AttributeText(a)| + |m|)
    ensures MarkerFree(post) && LastAttribute(post).None?
  {
    HeadersToLabels(pre + AttributeText(a) + m + Marker + post, |pre|);
    var below := pre + AttributeText(a) + m;
    assert 'u' !in below;
    NoMarkerWithoutU(below, Marker + post);
    assert below + (Marker + post) == pre + AttributeText(a) + m + Marker + post;
    UnmarkedIsMarkerFree(post);
    NoAttributeWithoutT(post);
    AttributeFreeNoLast(post);
  }

  /** The front of the script's fourth test line, up to its `title` attribute, in two pieces. */
  const CellTag := "<textFieldCell key=\"cell\" "
  const CellMode := "lineBreakMode=\"clipping\" "

  /** What lies between that attribute and the marker. */
  const CellId := " id=\"p30-Bk-a8R\" "

  /** The only 't's of the tag begin `textFieldCell`, and neither begins a header. */
  lemma CellTagHasNoHeader(rest: string)
    ensures NoHeaderBelow(CellTag + rest, |CellTag|)
  {
    var s := CellTag + rest;
    forall i | 0 <= i < |CellTag| ensures !StartsHeader(s[i..]) {
      assert s[i..][0] == CellTag[i];
      if i == 1 {
        assert s[i..][1] == 'e' && s[i..][4] == 'F';
      } else if i == 4 {
        assert s[i..][1] == 'F';
      }
    }
  }

  /** Two stretches without headers make one. */
  lemma HeaderFreeJoin(x: string, y: string, r: string)
    requires NoHeaderBelow(x + (y + r), |x|) && NoHeaderBelow(y + r, |y|)
    ensures NoHeaderBelow(x + y + r, |x| + |y|)
  {
    assert x + y + r == x + (y + r);
    forall i | |x| <= i < |x| + |y| ensures !StartsHeader((x + y + r)[i..]) {
      assert (x + (y + r))[i..] == (y + r)[i - |x|..];
    }
  }

  /** The label before the marker, as in the script's third test case. */
  lemma BeforeMarkerExample()
    ensures UpdateUIContents("foo text=\"BLAH\"" + " between " + Marker + " silly", MV.Version(1, 2, 3))
         == "foo text=\"v1.2.3\"" + " between " + Marker + " silly"
  {
    ExampleTexts();
    var text := Attribute("text", "BLAH");
    var rest := AttributeText(text) + " between " + Marker + " silly";
    assert "foo " + AttributeText(text) + " between " + Marker + " silly" == "foo " + rest;
    NoHeaderWithoutT("foo ", rest);
    BeforeMarkerLine("foo ", text, " between ", " silly", MV.Version(1, 2, 3));
  }

  /** The letters of the fourth test line's fixed parts. */
  lemma CellLetters()
    ensures 'u' !in CellTag && 'u' !in CellMode && 'u' !in CellId && '\n' !in CellId
  {
  }

  /** The front of the fourth test line holds no 'u' and no header, whatever follows it. */
  lemma CellFrontFacts(rest: string)
    ensures 'u' !in CellTag + CellMode && 'u' !in CellId && '\n' !in CellId
    ensures NoHeaderBelow(CellTag + CellMode + rest, |CellTag + CellMode|)
  {
    CellLetters();
    CellTagHasNoHeader(CellMode + rest);
    NoHeaderWithoutT(CellMode, rest);
    HeaderFreeJoin(CellTag, CellMode, rest);
  }

  /** `AttributeBeforeMarker` for a label with no 'u' around it, no header before it and no 't' after it. */
  lemma BeforeMarkerLine(pre: string, a: Attribute, m: string, post: string, version: MV.Version)
    requires IsName(a.name) && Quote !in a.value && 'u' !in a.value && '\n' !in m
    requires 'u' !in pre && 'u' !in m && 't' !in post && 'u' !in post
    requires NoHeaderBelow(pre + AttributeText(a) + m + Marker + post, |pre|)
    ensures UpdateUIContents(pre + AttributeText(a) + m + Marker + post, version)
         == pre + Rewritten(a.name, MV.ToString(version)) + m + Marker + post
  {
    BeforeMarkerConditions(pre, a, m, post);
    AttributeBeforeMarker(pre, a, m, post, version);
  }

  /** The script's fourth test case, for any new version. */
  lemma CellExample(version: MV.Version)
    ensures UpdateUIContents(CellTag + CellMode + "title=\"v3.0.0\"" + CellId + Marker + ">", version)
         == CellTag + CellMode + Rewritten("title", MV.ToString(version)) + CellId + Marker + ">"
  {
    var title := Attribute("title", "v3.0.0");
    assert AttributeText(title) == "title=\"v3.0.0\"";
    var pre := CellTag + CellMode;
    var rest := AttributeText(title) + CellId + Marker + ">";
    CellFrontFacts(rest);
    assert pre + rest == pre + AttributeText(title) + CellId + Marker + ">";
    BeforeMarkerLine(pre, title, CellId, ">", version);
  }
}

/**
 * The substitutions applied to each line on its own, so that no match, and
 * no attribute value either, spans a line break.
 */
module UIContentsByLine {
  import MV = MarketingVersion
  import opened Wrappers
  import opened UIContents
  import opened UIContentsProperties
  import opened UIContentsBreaks

  function UpdateLines(lines: seq<string>, version: MV.Version): (r: seq<string>)
    ensures |r| == |lines|
    ensures forall i :: 0 <= i < |lines| ==> r[i] == UpdateUIContents(lines[i], version)
  {
    if lines == [] then [] else [UpdateUIContents(lines[0], version)] + UpdateLines(lines[1..], version)
  }

  function UpdateByLine(contents: string, version: MV.Version): string
  {
    MV.Join(UpdateLines(MV.Split(contents, '\n'), version), '\n')
  }

  /** On a single line the line-by-line update is the script's. */
  lemma SingleLineAgrees(line: string, version: MV.Version)
    requires '\n' !in line
    ensures UpdateByLine(line, version) == UpdateUIContents(line, version)
  {
    MV.SplitNoSeparator(line, '\n');
  }

  /** What precedes a line break is updated on its own. */
  lemma LineByLine(line: string, rest: string, version: MV.Version)
    requires '\n' !in line
    ensures UpdateByLine(line + "\n" + rest, version)
         == UpdateUIContents(line, version) + "\n" + UpdateByLine(rest, version)
  {
    MV.SplitAtSeparator(line, '\n', rest);
    assert line + "\n" + rest == line + ['\n'] + rest;
    var tail := UpdateLines(MV.Split(rest, '\n'), version);
    var lines := UpdateLines([line] + MV.Split(rest, '\n'), version);
    assert lines == [UpdateUIContents(line, version)] + tail;
    assert lines[1..] == tail;
  }

  /** Every line of `contents` closes each value it opens. */
  predicate LinesClosed(contents: string)
  {
    forall line :: line in MV.Split(contents, '\n') ==> LineClosed(line)
  }

  /** The script's update of closed lines joined by line breaks is the join of the lines updated one by one. */
  lemma {:induction false} JoinedLines(lines: seq<string>, version: MV.Version)
    requires |lines| >= 1
    requires forall i :: 0 <= i < |lines| ==> '\n' !in lines[i] && LineClosed(lines[i])
    ensures UpdateUIContents(MV.Join(lines, '\n'), version) == MV.Join(UpdateLines(lines, version), '\n')
    decreases |lines|
  {
    var out := UpdateLines(lines, version);
    if |lines| > 1 {
      var rest := MV.Join(lines[1..], '\n');
      JoinedLines(lines[1..], version);
      UpdateBeforeBreak(lines[0], rest, version);
      assert out[1..] == UpdateLines(lines[1..], version);
      JoinStep(lines, '\n');
      JoinStep(out, '\n');
    }
  }

  lemma JoinStep(parts: seq<string>, sep: char)
    requires |parts| > 1
    ensures MV.Join(parts, sep) == parts[0] + [sep] + MV.Join(parts[1..], sep)
  {
  }

  /**
   * Where every line closes the values it opens, the script's update of the
   * whole file is the update of each line on its own: each labelled element
   * is rewritten by the rules of its own line.
   */
  lemma ScriptIsLineByLine(contents: string, version: MV.Version)
    requires LinesClosed(contents)
    ensures UpdateUIContents(contents, version) == UpdateByLine(contents, version)
  {
    var lines := MV.Split(contents, '\n');
    forall i | 0 <= i < |lines| ensures '\n' !in lines[i] && LineClosed(lines[i]) {
      assert lines[i] in lines;
    }
    MV.JoinSplit(contents, '\n');
    JoinedLines(lines, version);
  }

  /**
   * Where every line closes the values it opens and a second run changes no
   * line, a second run changes nothing in the file.
   */
  lemma SecondRunByLine(contents: string, version: MV.Version)
    requires LinesClosed(contents)
    requires forall line :: line in MV.Split(contents, '\n') ==>
      UpdateUIContents(UpdateUIContents(line, version), version) == UpdateUIContents(line, version)
    ensures UpdateUIContents(UpdateUIContents(contents, version), version) == UpdateUIContents(contents, version)
  {
    var lines := MV.Split(contents, '\n');
    var out := UpdateLines(lines, version);
    ScriptIsLineByLine(contents, version);
    forall i | 0 <= i < |out| ensures '\n' !in out[i] && LineClosed(out[i]) {
      assert lines[i] in lines;
      UpdateKeepsLine(lines[i], version);
    }
    JoinedLines(out, version);
    forall i | 0 <= i < |out| ensures UpdateLines(out, version)[i] == out[i] {
      assert lines[i] in lines;
    }
    assert UpdateLines(out, version) == out;
  }

  /**
   * A file of two labelled lines, the first with its attribute before the
   * marker and the second with it after the marker: both are rewritten, each
   * as on its own.
   */
  lemma TwoLabelledLines(pre: string, a: Attribute, m: string, post: string,
                         pre2: string, m2: string, b: Attribute, post2: string, version: MV.Version)
    requires IsName(a.name) && Quote !in a.value && '\n' !in m
    requires NoLabelBelow(pre + AttributeText(a) + m + Marker + post, |pre|)
    requires NoMarkerBelow(pre + AttributeText(a) + m + Marker + post, |pre| + |AttributeText(a)| + |m|)
    requires MarkerFree(post) && LastAttribute(post).None?
    requires '\n' !in pre + AttributeText(a) + m + Marker + post && LineClosed(pre + AttributeText(a) + m + Marker + post)
    requires IsName(b.name) && Quote !in b.value && '\n' !in m2
    requires NoLabelBelow(pre2 + Marker + m2 + AttributeText(b) + post2, |pre2|)
    requires NoMarkerBelow(pre2 + Marker + m2 + AttributeText(b) + post2, |pre2|)
    requires MarkerFree(m2 + AttributeText(b) + post2) && LastAttribute(m2 + AttributeText(b) + post2) == Some(|m2|)
    ensures var v := MV.ToString(version);
      UpdateUIContents((pre + AttributeText(a) + m + Marker + post) + "\n" + (pre2 + Marker + m2 + AttributeText(b) + post2), version)
      == (pre + Rewritten(a.name, v) + m + Marker + post) + "\n" + (pre2 + Marker + m2 + Rewritten(b.name, v) + post2)
  {
    UpdateBeforeBreak(pre + AttributeText(a) + m + Marker + post, pre2 + Marker + m2 + AttributeText(b) + post2, version);
    AttributeBeforeMarker(pre, a, m, post, version);
    AttributeAfterMarker(pre2, m2, b, post2, version);
  }

  /** A line holding the bare marker and no 't' is left as it is. */
  lemma BareMarkerLine(u: string, version: MV.Version)
    requires 't' !in u && 'u' !in u
    ensures UpdateUIContents(u + Marker, version) == u + Marker
  {
    var v := MV.ToString(version);
    MarkerFacts();
    assert 't' !in u + Marker;
    NoAttributeWithoutT(u + Marker);
    AttributeFreeUnchanged(u + Marker, v);
    UnmarkedThenMarker(u, v);
  }

  /**
   * The file that a second run of the script changes again is left as it is
   * when each line is updated on its own, so a second run changes nothing.
   */
  lemma SplitValueStable(q: string, a: string, b: string, version: MV.Version)
    requires Plain(q) && Plain(a) && Plain(b)
    ensures UpdateByLine(SplitValue(q, a, b), version) == SplitValue(q, a, b)
    ensures UpdateByLine(UpdateByLine(SplitValue(q, a, b), version), version) == UpdateByLine(SplitValue(q, a, b), version)
  {
    var first, u := AttributeText(Attribute("title", q)) + " text=\"" + a, b + "\" ";
    var second := u + Marker;
    SplitValueLines(q, a, b);
    LineByLine(first, second, version);
    SingleLineAgrees(second, version);
    UnmarkedIsMarkerFree(first);
    BareMarkerLine(u, version);
  }

  /** The file of the example, split at its line break. */
  lemma SplitValueLines(q: string, a: string, b: string)
    requires Plain(q) && Plain(a) && Plain(b)
    ensures var first := AttributeText(Attribute("title", q)) + " text=\"" + a;
      SplitValue(q, a, b) == first + "\n" + (b + "\" " + Marker) &&
      '\n' !in first && 'u' !in first && '\n' !in b + "\" " + Marker && 't' !in b + "\" " && 'u' !in b + "\" "
  {
    MarkerFacts();
  }
}

=== FILE: ui_lines.dfy ===
/**
 * Line breaks and the two substitutions of `updateUIContents`. The `.` in
 * both patterns stops at a line break, so on a line whose every `text="` or
 * `title="` is closed by a quote on the same line no match crosses the
 * break after the line, and the line is rewritten exactly as on its own.
 */
module UIContentsBreaks {
  import MV = MarketingVersion
  import opened Wrappers
  import opened UIContents
  import opened UIContentsProperties

  /** A `text="` or `title="` at position `i` opens a value that a later quote closes. */
  predicate ClosedAt(line: string, i: nat)
    requires i <= |line|
  {
    StartsHeader(line[i..]) ==> StartsAttribute(line[i..])
  }

  /** Every `text="` or `title="` on the line opens a value that a quote later on the line closes. */
  predicate LineClosed(line: string)
  {
    forall i :: 0 <= i <= |line| ==> ClosedAt(line, i)
  }

  /** A rendered version: no match starts or ends in it, and it holds no equals sign. */
  predicate VersionText(v: string)
  {
    Plain(v) && '=' !in v
  }

  lemma RenderedVersionText(version: MV.Version)
    ensures VersionText(MV.ToString(version))
  {
    RenderedVersionIsPlain(version);
    MV.ToStringShape(version);
    var v := MV.ToString(version);
    forall i | 0 <= i < |v| ensures v[i] != '=' {
      assert MV.IsDigit(v[i]) || v[i] == '.';
    }
  }

  lemma InSlice(t: string, j: nat, n: nat)
    requires j < n <= |t|
    ensures t[j] in t[..n]
  {
    assert t[..n][j] == t[j];
  }

  lemma ClosedSuffix(line: string, d: nat)
    requires LineClosed(line) && d <= |line|
    ensures LineClosed(line[d..])
  {
    forall i | 0 <= i <= |line[d..]| ensures ClosedAt(line[d..], i) {
      assert ClosedAt(line, d + i);
      assert line[d..][i..] == line[d + i..];
    }
  }

  /** A prefix of a text that reaches past the end of its first line holds the line break. */
  lemma BreakInPrefix(u: string, w: string, h: string)
    requires h <= u + "\n" + w && |u| < |h|
    ensures '\n' in h
  {
    assert h[|u|] == (u + "\n" + w)[|u|] == '\n';
  }

  /** A header before a line break lies wholly on the line. */
  lemma HeaderBeforeBreak(u: string, w: string)
    requires '\n' !in u && StartsHeader(u + "\n" + w)
    ensures StartsHeader(u)
  {
    var s := u + "\n" + w;
    var h := if "text=\"" <= s then "text=\"" else "title=\"";
    assert h <= s && '\n' !in h;
    if |u| < |h| {
      BreakInPrefix(u, w, h);
      assert false;
    }
    assert h == s[..|h|] == u[..|h|];
  }

  /** The marker holds no line break, so it starts a line exactly when it starts the line's text. */
  lemma MarkerBeforeBreak(u: string, w: string)
    requires '\n' !in u
    ensures StartsMarker(u + "\n" + w) <==> StartsMarker(u)
  {
    MarkerFacts();
    var s := u + "\n" + w;
    if StartsMarker(s) {
      if |u| < |Marker| {
        BreakInPrefix(u, w, Marker);
        assert false;
      }
      assert Marker == s[..|Marker|] == u[..|Marker|];
    }
  }

  /** On a closed line, the attribute at its start does not depend on what follows the line. */
  lemma AttributeBeforeBreak(u: string, w: string)
    requires '\n' !in u && LineClosed(u)
    ensures AttributeAt(u + "\n" + w) == AttributeAt(u)
  {
    assert ClosedAt(u, 0) && u[0..] == u;
    if StartsAttribute(u) {
      AttributeExtends(u, w);
    } else {
      NoAttributeBeforeBreak(u, w);
    }
  }

  /** An attribute at the start of `u` is matched whatever follows `u`. */
  lemma AttributeExtends(u: string, w: string)
    requires StartsAttribute(u)
    ensures AttributeAt(u + "\n" + w) == AttributeAt(u)
  {
    var a := AttributeAt(u).value;
    var rest := u[|AttributeText(a)|..];
    assert u + "\n" + w == AttributeText(a) + (rest + "\n" + w);
    AttributeAtText(a, rest + "\n" + w);
  }

  /** Where no value opens at the start of `u`, none opens there once a line break and more text follow. */
  lemma NoAttributeBeforeBreak(u: string, w: string)
    requires '\n' !in u && !StartsHeader(u)
    ensures !StartsAttribute(u + "\n" + w)
  {
    if StartsAttribute(u + "\n" + w) {
      AttributeHasHeader(u + "\n" + w);
      HeaderBeforeBreak(u, w);
      assert false;
    }
  }

  /** The greedy `.*` cannot pass a line break, so the last position it reaches lies on the line. */
  lemma LastBeforeBreak(r: string, w: string, starts: string -> bool)
    requires '\n' !in r
    requires forall k :: 0 <= k <= |r| ==> (starts((r + "\n" + w)[k..]) <==> starts(r[k..]))
    ensures LastOnLine(r + "\n" + w, starts) == LastOnLine(r, starts)
  {
    var r2 := r + "\n" + w;
    var k1, k2 := LastOnLine(r2, starts), LastOnLine(r, starts);
    if k1.Some? {
      var j := k1.value;
      if j > |r| {
        BreakInPrefix(r, w, r2[..j]);
        assert false;
      }
      assert r2[..j] == r[..j];
      assert starts(r[j..]);
    }
    if k2.Some? {
      var j := k2.value;
      assert r2[..j] == r[..j];
      assert starts(r2[j..]);
    }
  }

  lemma MarkersBeforeBreak(r: string, w: string)
    requires '\n' !in r
    ensures LastMarker(r + "\n" + w) == LastMarker(r)
  {
    forall k | 0 <= k <= |r|
      ensures StartsMarker((r + "\n" + w)[k..]) <==> StartsMarker(r[k..])
    {
      assert (r + "\n" + w)[k..] == r[k..] + "\n" + w;
      MarkerBeforeBreak(r[k..], w);
    }
    LastBeforeBreak(r, w, StartsMarker);
  }

  lemma AttributesBeforeBreak(r: string, w: string)
    requires '\n' !in r && LineClosed(r)
    ensures LastAttribute(r + "\n" + w) == LastAttribute(r)
  {
    forall k | 0 <= k <= |r|
      ensures StartsAttribute((r + "\n" + w)[k..]) <==> StartsAttribute(r[k..])
    {
      assert (r + "\n" + w)[k..] == r[k..] + "\n" + w;
      ClosedSuffix(r, k);
      AttributeBeforeBreak(r[k..], w);
    }
    LastBeforeBreak(r, w, StartsAttribute);
  }

  lemma AttributeThenMarkerBeforeBreak(a: Attribute, r: string, rest: string, v: string)
    requires '\n' !in r
    ensures AttributeThenMarker(a, r + "\n" + rest, v) == AttributeThenMarker(a, r, v)
  {
    MarkersBeforeBreak(r, rest);
    if LastMarker(r).Some? {
      var k := LastMarker(r).value;
      assert StartsMarker(r[k..]);
      assert (r + "\n" + rest)[..k + |Marker|] == r[..k + |Marker|];
    }
  }

  lemma MarkerThenAttributeBeforeBreak(r: string, rest: string, v: string)
    requires '\n' !in r && LineClosed(r)
    ensures MarkerThenAttribute(r + "\n" + rest, v) == MarkerThenAttribute(r, v)
  {
    var r2 := r + "\n" + rest;
    AttributesBeforeBreak(r, rest);
    if LastAttribute(r).Some? {
      var k := LastAttribute(r).value;
      SameAttributeBeforeBreak(r, rest, k);
      PrefixBeforeBreak(r, rest, k);
    }
    MarkerThenAttributeAgree(r, r2, v);
  }

  lemma PrefixBeforeBreak(r: string, rest: string, k: nat)
    requires k <= |r|
    ensures (r + "\n" + rest)[..k] == r[..k]
  {
  }

  /** The second rule reads its text only up to the end of the last attribute on the line. */
  lemma MarkerThenAttributeAgree(r: string, r2: string, v: string)
    requires LastAttribute(r2) == LastAttribute(r)
    requires LastAttribute(r).Some? ==> LastAttribute(r).value <= |r| && LastAttribute(r).value <= |r2|
    requires LastAttribute(r).Some? ==> r2[..LastAttribute(r).value] == r[..LastAttribute(r).value]
    requires LastAttribute(r).Some? ==> AttributeAt(r2[LastAttribute(r).value..]) == AttributeAt(r[LastAttribute(r).value..])
    ensures MarkerThenAttribute(r2, v) == MarkerThenAttribute(r, v)
  {
    if LastAttribute(r).Some? {
      var k := LastAttribute(r).value;
      var a := AttributeAt(r[k..]).value;
      var length, text := |Marker| + k + |AttributeText(a)|, Marker + r[..k] + Rewritten(a.name, v);
      assert Matches(MarkerThenAttribute(r, v), length, text);
      assert Matches(MarkerThenAttribute(r2, v), length, text);
      SameMatch(MarkerThenAttribute(r, v), MarkerThenAttribute(r2, v), length, text);
    }
  }

  lemma SameMatch(o: Option<Replacement>, o2: Option<Replacement>, length: nat, text: string)
    requires Matches(o, length, text) && Matches(o2, length, text)
    ensures o == o2
  {
  }

  lemma SameAttributeBeforeBreak(r: string, rest: string, k: nat)
    requires '\n' !in r && LineClosed(r) && k <= |r|
    ensures AttributeAt((r + "\n" + rest)[k..]) == AttributeAt(r[k..])
  {
    assert (r + "\n" + rest)[k..] == r[k..] + "\n" + rest;
    ClosedSuffix(r, k);
    AttributeBeforeBreak(r[k..], rest);
  }

  /** The first rule matches at the start of a closed line as it would on the line alone. */
  lemma AttributeRuleBeforeBreak(line: string, rest: string, v: string)
    requires '\n' !in line && LineClosed(line)
    ensures RuleAt(AttributeFirst, line + "\n" + rest, v) == RuleAt(AttributeFirst, line, v)
  {
    var t := line + "\n" + rest;
    AttributeBeforeBreak(line, rest);
    if AttributeAt(line).Some? {
      var a := AttributeAt(line).value;
      var n := |AttributeText(a)|;
      assert AttributeText(a) <= line;
      assert t[n..] == line[n..] + "\n" + rest;
      AttributeThenMarkerBeforeBreak(a, line[n..], rest, v);
    }
  }

  /** The second rule matches at the start of a closed line as it would on the line alone. */
  lemma MarkerRuleBeforeBreak(line: string, rest: string, v: string)
    requires '\n' !in line && LineClosed(line)
    ensures RuleAt(MarkerFirst, line + "\n" + rest, v) == RuleAt(MarkerFirst, line, v)
  {
    var t := line + "\n" + rest;
    MarkerBeforeBreak(line, rest);
    if Marker <= line {
      assert t[|Marker|..] == line[|Marker|..] + "\n" + rest;
      ClosedSuffix(line, |Marker|);
      MarkerThenAttributeBeforeBreak(line[|Marker|..], rest, v);
    }
  }

  lemma RuleBeforeBreak(rule: Rule, line: string, rest: string, v: string)
    requires '\n' !in line && LineClosed(line)
    ensures RuleAt(rule, line + "\n" + rest, v) == RuleAt(rule, line, v)
  {
    if rule == AttributeFirst {
      AttributeRuleBeforeBreak(line, rest, v);
    } else {
      MarkerRuleBeforeBreak(line, rest, v);
    }
  }

  /** One step of `re.sub` on a closed line: the replaced or kept front, then the remainder of the line. */
  lemma StepBeforeBreak(rule: Rule, line: string, rest: string, v: string) returns (n: nat, p: string)
    requires '\n' !in line && LineClosed(line) && line != []
    ensures 0 < n <= |line| && '\n' !in line[n..] && LineClosed(line[n..])
    ensures Substitute(rule, line + "\n" + rest, v) == p + Substitute(rule, line[n..] + "\n" + rest, v)
    ensures Substitute(rule, line, v) == p + Substitute(rule, line[n..], v)
  {
    var t := line + "\n" + rest;
    RuleBeforeBreak(rule, line, rest, v);
    n, p := Step(rule, line, v);
    var n2, p2 := Step(rule, t, v);
    assert n2 == n && p2 == p;
    TailAfterStep(line, rest, n);
    ClosedSuffix(line, n);
  }

  lemma TailAfterStep(line: string, rest: string, n: nat)
    requires n <= |line|
    ensures (line + "\n" + rest)[n..] == line[n..] + "\n" + rest
  {
  }

  /** One step of `re.sub`: a match is replaced, otherwise one character is kept. */
  lemma Step(rule: Rule, t: string, v: string) returns (n: nat, p: string)
    requires t != []
    ensures 0 < n <= |t| && Substitute(rule, t, v) == p + Substitute(rule, t[n..], v)
    ensures RuleAt(rule, t, v).Some? ==> n == RuleAt(rule, t, v).value.length && p == RuleAt(rule, t, v).value.text
    ensures RuleAt(rule, t, v).None? ==> n == 1 && p == [t[0]]
  {
    if RuleAt(rule, t, v).Some? {
      n, p := RuleAt(rule, t, v).value.length, RuleAt(rule, t, v).value.text;
    } else {
      n, p := 1, [t[0]];
    }
  }

  /**
   * `re.sub` with either rule rewrites a closed line and the text after its
   * line break independently.
   */
  lemma {:induction false} SubstituteBeforeBreak(rule: Rule, line: string, rest: string, v: string)
    requires '\n' !in line && LineClosed(line)
    ensures Substitute(rule, line + "\n" + rest, v) == Substitute(rule, line, v) + "\n" + Substitute(rule, rest, v)
    decreases |line|
  {
    var t := line + "\n" + rest;
    if line == [] {
      RuleBeforeBreak(rule, line, rest, v);
      assert RuleAt(rule, line, v).None?;
      assert t[0] == '\n' && t[1..] == rest;
    } else {
      var n, p := StepBeforeBreak(rule, line, rest, v);
      SubstituteBeforeBreak(rule, line[n..], rest, v);
      Regroup(Substitute(rule, t, v), p, Substitute(rule, line[n..] + "\n" + rest, v),
        Substitute(rule, line[n..], v), Substitute(rule, line, v), Substitute(rule, rest, v));
    }
  }

  /** `p + (z + "\n" + r)` regrouped as `(p + z) + "\n" + r`. */
  lemma Regroup(s: string, p: string, zs: string, z: string, y: string, r: string)
    requires s == p + zs && zs == z + "\n" + r && y == p + z
    ensures s == y + "\n" + r
  {
  }

  /** The first quote of `t` is at `n`. */
  lemma FirstQuoteAt(t: string, n: nat)
    requires n < |t| && t[n] == Quote && Quote !in t[..n]
    ensures QuoteFreeRun(t) == n
  {
    QuoteBound(t, n);
  }

  lemma QuoteBound(t: string, j: nat)
    requires j < |t| && t[j] == Quote
    ensures QuoteFreeRun(t) <= j
  {
  }

  /** The number of quotes in `s`. */
  function Quotes(s: string): nat
  {
    if s == [] then 0 else (if s[0] == Quote then 1 else 0) + Quotes(s[1..])
  }

  lemma {:induction false} QuotesAppend(x: string, y: string)
    ensures Quotes(x + y) == Quotes(x) + Quotes(y)
    decreases |x|
  {
    if x == [] {
      assert x + y == y;
    } else {
      assert (x + y)[1..] == x[1..] + y;
      QuotesAppend(x[1..], y);
    }
  }

  lemma {:induction false} NoQuotes(x: string)
    requires Quote !in x
    ensures Quotes(x) == 0
    decreases |x|
  {
    if x != [] {
      NoQuotes(x[1..]);
    }
  }

  lemma {:induction false} SomeQuote(x: string)
    requires Quotes(x) > 0
    ensures Quote in x
    decreases |x|
  {
    if x[0] != Quote {
      SomeQuote(x[1..]);
    }
  }

  /** An attribute holds exactly two quotes, those around its value. */
  lemma TwoQuotes(a: Attribute)
    requires IsName(a.name) && Quote !in a.value
    ensures Quotes(AttributeText(a)) == 2
  {
    var eq: string := "=\"";
    assert Quotes(eq) == 1;
    assert Quotes("\"") == 1;
    NoQuotes(a.name);
    NoQuotes(a.value);
    QuotesAppend(a.name, eq);
    QuotesAppend(a.name + eq, a.value);
    QuotesAppend(a.name + eq + a.value, "\"");
  }

  /** The marker ends with `N"`. */
  lemma MarkerEnd()
    ensures Marker[22] == Quote && Marker[21] == 'N'
  {
  }

  /** `text` agrees with `t` up to and including `t`'s first quote, which lies within the first `length` characters. */
  predicate KeepsFront(t: string, text: string, length: nat)
  {
    QuoteFreeRun(t) < length && QuoteFreeRun(t) < |text| &&
    QuoteFreeRun(t) < |t| && text[..QuoteFreeRun(t) + 1] == t[..QuoteFreeRun(t) + 1]
  }

  /** `text` ends with a quote that closes a value rather than opening one. */
  predicate ClosingEnd(text: string)
  {
    |text| >= 2 && text[|text| - 1] == Quote && text[|text| - 2] != '='
  }

  /**
   * What a replacement looks like against the text `t` it replaces the front
   * of: no line break, as many quotes as the text replaced, the same text up
   * to the first quote, and a final quote that does not open a value.
   */
  predicate WellShaped(t: string, length: nat, text: string)
    requires length <= |t|
  {
    '\n' !in text && Quotes(text) == Quotes(t[..length]) && KeepsFront(t, text, length) && ClosingEnd(text)
  }

  /** `x` found at position `k` of `r`. */
  lemma FoundAt(r: string, k: nat, x: string)
    requires k <= |r| && x <= r[k..]
    ensures k + |x| <= |r| && r[..k + |x|] == r[..k] + x
  {
  }

  /** The first rule's replacement: the rewritten attribute, then the rest of the line up to the marker. */
  lemma AttributeReplacement(a: Attribute, r: string, v: string) returns (x: string)
    requires LastMarker(r).Some?
    ensures Matches(AttributeThenMarker(a, r, v), |AttributeText(a)| + |x|, Rewritten(a.name, v) + x)
    ensures x <= r && '\n' !in x && |x| >= |Marker| && x[|x| - |Marker|..] == Marker
  {
    var k := LastMarker(r).value;
    FoundAt(r, k, Marker);
    x := r[..k] + Marker;
    MarkerFacts();
  }

  /** A prefix `u` of `t` and the rest of `t`. */
  lemma SplitAtPrefix(t: string, u: string)
    requires u <= t
    ensures t == u + t[|u|..]
  {
  }

  lemma TakeFront(u: string, x: string, rest: string)
    ensures (u + (x + rest))[..|u| + |x|] == u + x
  {
  }

  lemma TakeFront3(m: string, y: string, u: string, rest: string)
    ensures (m + (y + u + rest))[..|m| + |y| + |u|] == m + y + u
  {
  }

  lemma QuotesSwapFront(u: string, u2: string, z: string)
    requires Quotes(u) == Quotes(u2)
    ensures Quotes(u2 + z) == Quotes(u + z)
  {
    QuotesAppend(u, z);
    QuotesAppend(u2, z);
  }

  lemma QuotesSwapBack(w: string, u: string, u2: string)
    requires Quotes(u) == Quotes(u2)
    ensures Quotes(w + u2) == Quotes(w + u)
  {
    QuotesAppend(w, u);
    QuotesAppend(w, u2);
  }

  /** The first rule's replacement has as many quotes as what it replaces. */
  lemma AttributeSwapQuotes(a: Attribute, b: Attribute, x: string, rest: string)
    requires IsName(a.name) && IsName(b.name) && Quote !in a.value && Quote !in b.value
    ensures Quotes(AttributeText(b) + x) == Quotes((AttributeText(a) + (x + rest))[..|AttributeText(a)| + |x|])
  {
    TakeFront(AttributeText(a), x, rest);
    TwoQuotes(a);
    TwoQuotes(b);
    QuotesSwapFront(AttributeText(a), AttributeText(b), x);
  }

  /** The first quote of a text that starts with an attribute follows its name and equals sign. */
  lemma AttributeFirstQuote(a: Attribute, rest: string)
    ensures QuoteFreeRun(AttributeText(a) + rest) == |a.name| + 1 || Quote in a.name
  {
    if Quote !in a.name {
      var t := AttributeText(a) + rest;
      var q := |a.name| + 1;
      NameAndBody(a, rest);
      assert t[..q] == a.name + "=";
      FirstQuoteAt(t, q);
    }
  }

  /** The first rule's replacement agrees with the text up to its first quote. */
  lemma AttributeSwapFront(a: Attribute, b: Attribute, x: string, rest: string)
    requires IsName(a.name) && b.name == a.name
    ensures KeepsFront(AttributeText(a) + (x + rest), AttributeText(b) + x, |AttributeText(a)| + |x|)
  {
    var t := AttributeText(a) + (x + rest);
    AttributeFirstQuote(a, x + rest);
    var q := |a.name| + 1;
    assert t[..q + 1] == a.name + "=\"";
    assert (AttributeText(b) + x)[..q + 1] == a.name + "=\"";
  }

  /** The first rule's replacement against the text it replaces. */
  lemma AttributeShape(a: Attribute, b: Attribute, x: string, rest: string)
    requires IsName(a.name) && b.name == a.name && Quote !in a.value && Quote !in b.value && '\n' !in b.value
    requires '\n' !in x && |x| >= |Marker| && x[|x| - |Marker|..] == Marker
    ensures WellShaped(AttributeText(a) + (x + rest), |AttributeText(a)| + |x|, AttributeText(b) + x)
  {
    AttributeSwapQuotes(a, b, x, rest);
    AttributeSwapFront(a, b, x, rest);
    MarkerEnd();
    var text := AttributeText(b) + x;
    assert text[|text| - 1] == Marker[22] && text[|text| - 2] == Marker[21];
    assert '\n' !in b.name;
  }

  /** The second rule's replacement has as many quotes as what it replaces. */
  lemma MarkerSwapQuotes(y: string, a: Attribute, b: Attribute, rest: string)
    requires IsName(a.name) && IsName(b.name) && Quote !in a.value && Quote !in b.value
    ensures Quotes(Marker + y + AttributeText(b)) == Quotes((Marker + (y + AttributeText(a) + rest))[..|Marker| + |y| + |AttributeText(a)|])
  {
    TakeFront3(Marker, y, AttributeText(a), rest);
    TwoQuotes(a);
    TwoQuotes(b);
    QuotesSwapBack(Marker + y, AttributeText(a), AttributeText(b));
  }

  /** The second rule's replacement agrees with the text up to its first quote, inside the marker. */
  lemma MarkerSwapFront(y: string, a: Attribute, b: Attribute, rest: string)
    ensures KeepsFront(Marker + (y + AttributeText(a) + rest), Marker + y + AttributeText(b), |Marker| + |y| + |AttributeText(a)|)
  {
    var t := Marker + (y + AttributeText(a) + rest);
    MarkerQuote();
    assert t[..10] == Marker[..10];
    FirstQuoteAt(t, 10);
    assert (Marker + y + AttributeText(b))[..11] == Marker[..11] == t[..11];
  }

  /** An attribute whose value does not end with an equals sign ends with a closing quote. */
  lemma AttributeEnd(y: string, b: Attribute)
    requires b.value != [] && '=' !in b.value
    ensures ClosingEnd(y + AttributeText(b))
  {
    var text := y + AttributeText(b);
    assert text[|text| - 2] == b.value[|b.value| - 1];
  }

  /** The second rule's replacement against the text it replaces. */
  lemma MarkerShape(y: string, a: Attribute, b: Attribute, rest: string)
    requires IsName(a.name) && b.name == a.name && Quote !in a.value && Quote !in b.value && '\n' !in b.value
    requires b.value != [] && '=' !in b.value && '\n' !in y
    ensures WellShaped(Marker + (y + AttributeText(a) + rest), |Marker| + |y| + |AttributeText(a)|, Marker + y + AttributeText(b))
  {
    MarkerSwapQuotes(y, a, b, rest);
    MarkerSwapFront(y, a, b, rest);
    AttributeEnd(Marker + y, b);
    MarkerFacts();
    assert '\n' !in b.name;
  }

  /** The second rule's replacement: the marker, the line up to the attribute, then the rewritten attribute. */
  lemma MarkerReplacement(r: string, v: string) returns (y: string, a: Attribute)
    requires LastAttribute(r).Some?
    ensures Matches(MarkerThenAttribute(r, v), |Marker| + |y| + |AttributeText(a)|, Marker + y + Rewritten(a.name, v))
    ensures y + AttributeText(a) <= r && '\n' !in y && IsName(a.name) && Quote !in a.value
  {
    var k := LastAttribute(r).value;
    a := AttributeAt(r[k..]).value;
    y := r[..k];
    FoundAt(r, k, AttributeText(a));
  }

  /** The shape of the first rule's replacement, once its parts are known. */
  lemma ShapedAttribute(t: string, a: Attribute, x: string, rest: string, v: string, n: nat, p: string)
    requires VersionText(v) && t == AttributeText(a) + (x + rest) && IsName(a.name) && Quote !in a.value
    requires '\n' !in x && |x| >= |Marker| && x[|x| - |Marker|..] == Marker
    requires n == |AttributeText(a)| + |x| && p == Rewritten(a.name, v) + x
    ensures n <= |t| && WellShaped(t, n, p)
  {
    var b := Attribute(a.name, "v" + v);
    RewrittenAttribute(a.name, v);
    AttributeShape(a, b, x, rest);
  }

  /** Where the first rule matches, `t` is the attribute, the text up to the marker, and the rest. */
  lemma AttributeParts(t: string, v: string, n: nat, p: string) returns (a: Attribute, x: string, rest: string)
    requires Matches(RuleAt(AttributeFirst, t, v), n, p)
    ensures t == AttributeText(a) + (x + rest) && IsName(a.name) && Quote !in a.value
    ensures n == |AttributeText(a)| + |x| && p == Rewritten(a.name, v) + x
    ensures '\n' !in x && |x| >= |Marker| && x[|x| - |Marker|..] == Marker
  {
    a := AttributeAt(t).value;
    var r := t[|AttributeText(a)|..];
    SplitAtPrefix(t, AttributeText(a));
    x := AttributeReplacement(a, r, v);
    rest := r[|x|..];
    SplitAtPrefix(r, x);
  }

  lemma AttributeRuleShape(t: string, v: string, n: nat, p: string)
    requires VersionText(v) && Matches(RuleAt(AttributeFirst, t, v), n, p)
    ensures n <= |t| && WellShaped(t, n, p)
  {
    var a, x, rest := AttributeParts(t, v, n, p);
    ShapedAttribute(t, a, x, rest, v, n, p);
  }

  lemma MarkerRuleShape(t: string, v: string, n: nat, p: string)
    requires VersionText(v) && Matches(RuleAt(MarkerFirst, t, v), n, p)
    ensures n <= |t| && WellShaped(t, n, p)
  {
    var r := t[|Marker|..];
    SplitAtPrefix(t, Marker);
    var y, a := MarkerReplacement(r, v);
    var rest := r[|y| + |AttributeText(a)|..];
    SplitAtPrefix(r, y + AttributeText(a));
    var b := Attribute(a.name, "v" + v);
    RewrittenAttribute(a.name, v);
    MarkerShape(y, a, b, rest);
  }

  /** One step of `re.sub`: one character kept, or a well-shaped replacement. */
  lemma StepShape(rule: Rule, t: string, v: string) returns (n: nat, p: string, kept: bool)
    requires VersionText(v) && t != []
    ensures 0 < n <= |t| && Substitute(rule, t, v) == p + Substitute(rule, t[n..], v)
    ensures kept ==> n == 1 && p == [t[0]] && t[n..] == t[1..]
    ensures !kept ==> WellShaped(t, n, p) && ClosingEnd(p)
    ensures Quotes(p) == Quotes(t[..n])
  {
    n, p := Step(rule, t, v);
    kept := RuleAt(rule, t, v).None?;
    if !kept {
      if rule == AttributeFirst {
        AttributeRuleShape(t, v, n, p);
      } else {
        MarkerRuleShape(t, v, n, p);
      }
    } else {
      assert t[..1] == p;
    }
  }

  /** `re.sub` with either rule keeps the number of quotes. */
  lemma {:induction false} SubstituteKeepsQuotes(rule: Rule, x: string, v: string)
    requires VersionText(v)
    ensures Quotes(Substitute(rule, x, v)) == Quotes(x)
    decreases |x|
  {
    if x != [] {
      var n, p, kept := StepShape(rule, x, v);
      SubstituteKeepsQuotes(rule, x[n..], v);
      QuotesStep(x, n, p, Substitute(rule, x[n..], v));
    }
  }

  /** A front with the quotes of `x[..n]`, then a text with the quotes of `x[n..]`, has the quotes of `x`. */
  lemma QuotesStep(x: string, n: nat, p: string, z: string)
    requires n <= |x| && Quotes(p) == Quotes(x[..n]) && Quotes(z) == Quotes(x[n..])
    ensures Quotes(p + z) == Quotes(x)
  {
    SplitQuotes(x, n);
    QuotesAppend(p, z);
  }

  lemma SplitQuotes(x: string, n: nat)
    requires n <= |x|
    ensures Quotes(x) == Quotes(x[..n]) + Quotes(x[n..])
  {
    assert x == x[..n] + x[n..];
    QuotesAppend(x[..n], x[n..]);
  }

  /** `re.sub` with either rule keeps the text up to and including the first quote. */
  lemma {:induction false} SubstituteKeepsFront(rule: Rule, x: string, v: string)
    requires VersionText(v) && QuoteFreeRun(x) < |x|
    ensures QuoteFreeRun(x) < |Substitute(rule, x, v)|
    ensures Substitute(rule, x, v)[..QuoteFreeRun(x) + 1] == x[..QuoteFreeRun(x) + 1]
    decreases |x|
  {
    var n, p, kept := StepShape(rule, x, v);
    if !kept {
      FrontReplaced(x, n, p, Substitute(rule, x[n..], v), Substitute(rule, x, v));
    } else if x[0] != Quote {
      QuoteFreeRunTail(x);
      SubstituteKeepsFront(rule, x[1..], v);
      ConsFront(x, Substitute(rule, x, v), Substitute(rule, x[1..], v), QuoteFreeRun(x));
    } else {
      QuoteFirst(x, Substitute(rule, x, v), Substitute(rule, x[1..], v));
    }
  }

  /** A replacement followed by anything agrees with the text it replaced up to the first quote. */
  lemma FrontReplaced(x: string, n: nat, p: string, z: string, s: string)
    requires n <= |x| && WellShaped(x, n, p) && s == p + z
    ensures QuoteFreeRun(x) < |x| && QuoteFreeRun(x) < |s|
    ensures s[..QuoteFreeRun(x) + 1] == x[..QuoteFreeRun(x) + 1]
  {
    var q := QuoteFreeRun(x);
    assert s[..q + 1] == p[..q + 1];
  }

  /** Keeping a first character that is a quote keeps the text up to the first quote. */
  lemma QuoteFirst(x: string, s: string, z: string)
    requires x != [] && x[0] == Quote && s == [x[0]] + z
    ensures QuoteFreeRun(x) == 0 && 0 < |s| && s[..1] == x[..1]
  {
    FirstQuoteAt(x, 0);
  }

  lemma QuoteFreeRunTail(x: string)
    requires x != [] && x[0] != Quote
    ensures QuoteFreeRun(x[1..]) == QuoteFreeRun(x) - 1 && QuoteFreeRun(x) >= 1
  {
  }

  /** Keeping the first character of `x` in front of `z` keeps the prefixes they share. */
  lemma ConsFront(x: string, s: string, z: string, q: nat)
    requires x != [] && s == [x[0]] + z && 1 <= q < |x| && q <= |z| && z[..q] == x[1..][..q]
    ensures q < |s| && s[..q + 1] == x[..q + 1]
  {
    assert s[..q + 1] == [x[0]] + z[..q];
    assert x[..q + 1] == [x[0]] + x[1..][..q];
  }

  /** `re.sub` with either rule adds no line break. */
  lemma {:induction false} SubstituteKeepsLine(rule: Rule, x: string, v: string)
    requires VersionText(v) && '\n' !in x
    ensures '\n' !in Substitute(rule, x, v)
    decreases |x|
  {
    if x != [] {
      var n, p, kept := StepShape(rule, x, v);
      SubstituteKeepsLine(rule, x[n..], v);
    }
  }

  /** The length of the header that starts `s`. */
  function HeaderLength(s: string): nat
  {
    if "text=\"" <= s then 6 else 7
  }

  /** A header is `text="` or `title="`: its only quote is its last character. */
  lemma HeaderQuotes(s: string)
    requires StartsHeader(s)
    ensures |s| >= HeaderLength(s) && s[0] == 't' && s[HeaderLength(s) - 1] == Quote
    ensures Quote !in s[..HeaderLength(s) - 1] && s[HeaderLength(s) - 2] == '='
  {
    var h: string := if "text=\"" <= s then "text=\"" else "title=\"";
    assert s[..|h|] == h;
    assert s[..|h| - 1] == h[..|h| - 1];
  }

  /** A quote after a header closes the value it opens. */
  lemma HeaderThenQuote(s: string, j: nat)
    requires StartsHeader(s) && HeaderLength(s) <= j < |s| && s[j] == Quote
    ensures StartsAttribute(s)
  {
    var hl := HeaderLength(s);
    var body := s[hl..];
    assert body[j - hl] == Quote;
    QuoteBound(body, j - hl);
    if "text=\"" <= s {
      assert "text" <= s && "=\"" <= s[4..];
    } else {
      var te: string := "text";
      assert s[1] == 'i' && te[1] == 'e';
      assert "title" <= s && "=\"" <= s[5..];
    }
  }

  /** A header inside a replacement is closed within it: the replacement's final quote does not open a value. */
  lemma HeaderInsideReplacement(p: string, z: string, i: nat)
    requires |p| >= 2 && p[|p| - 1] == Quote && p[|p| - 2] != '=' && i < |p|
    ensures ClosedAt(p + z, i)
  {
    var s := (p + z)[i..];
    if StartsHeader(s) {
      var q := |p| - 1 - i;
      assert s[q] == Quote;
      HeaderQuotes(s);
      var hl := HeaderLength(s);
      assert s[q - 1] == p[|p| - 2];
      assert hl <= q;
      HeaderThenQuote(s, q);
    }
  }

  /** A quote at `j` adds one to the quotes before it. */
  lemma QuoteCounted(s: string, j: nat)
    requires j < |s| && s[j] == Quote
    ensures Quotes(s) >= 1 + Quotes(s[..j])
  {
    SplitQuotes(s, j);
  }

  /** A quote in a text with the quotes of `y` means `y` holds a quote. */
  lemma QuoteSurvives(y: string, z: string, j: nat)
    requires j < |z| && z[j] == Quote && Quotes(z) == Quotes(y)
    ensures QuoteFreeRun(y) < |y|
  {
    QuoteCounted(z, j);
    if QuoteFreeRun(y) == |y| {
      assert y[..|y|] == y;
      NoQuotes(y);
      assert false;
    }
  }

  /** A text whose first quote is at `c` and that holds two quotes holds one after `c`. */
  lemma SecondQuote(z: string, c: nat) returns (j: nat)
    requires Quotes(z) >= 2 && c < |z| && z[c] == Quote && Quote !in z[..c]
    ensures c < j < |z| && z[j] == Quote
  {
    SplitQuotes(z, c + 1);
    assert z[..c + 1] == z[..c] + [Quote];
    QuotesAppend(z[..c], [Quote]);
    NoQuotes(z[..c]);
    SomeQuote(z[c + 1..]);
    var k :| 0 <= k < |z[c + 1..]| && z[c + 1..][k] == Quote;
    j := c + 1 + k;
  }

  /** A header after one kept character: its quote is the first quote of what follows the character. */
  lemma HeaderAfterChar(s: string, c: char, z: string)
    requires s == [c] + z && StartsHeader(s)
    ensures HeaderLength(s) - 2 < |z| && z[HeaderLength(s) - 2] == Quote && Quote !in z[..HeaderLength(s) - 2]
    ensures QuoteFreeRun(z) == HeaderLength(s) - 2 && c == 't'
  {
    HeaderQuotes(s);
    QuoteAfterChar(s, c, z, HeaderLength(s) - 1);
  }

  /** The first quote of `[c] + z`, past its first character, is one position earlier in `z`. */
  lemma QuoteAfterChar(s: string, c: char, z: string, k: nat)
    requires s == [c] + z && 1 <= k < |s| && s[k] == Quote && Quote !in s[..k]
    ensures k - 1 < |z| && z[k - 1] == Quote && Quote !in z[..k - 1] && QuoteFreeRun(z) == k - 1 && c == s[0]
  {
    assert z[..k - 1] == s[..k][1..];
    FirstQuoteAt(z, k - 1);
  }

  lemma ShorterPrefix(z: string, y: string, q: nat)
    requires q < |z| && q < |y| && z[..q + 1] == y[..q + 1]
    ensures z[..q] == y[..q] && z[q] == y[q]
  {
    assert z[..q] == z[..q + 1][..q] && y[..q] == y[..q + 1][..q];
    assert z[q] == z[..q + 1][q] && y[q] == y[..q + 1][q];
  }

  /** Two texts that agree up to the first quote of one have the same first quote. */
  lemma SameFirstQuote(z: string, y: string)
    requires QuoteFreeRun(y) < |y| && QuoteFreeRun(y) < |z|
    requires z[..QuoteFreeRun(y) + 1] == y[..QuoteFreeRun(y) + 1]
    ensures QuoteFreeRun(z) == QuoteFreeRun(y)
  {
    var q := QuoteFreeRun(y);
    ShorterPrefix(z, y, q);
    FirstQuoteAt(z, q);
  }

  /** A text that agrees with a header text over the header's length starts with the same header. */
  lemma HeaderFromFront(s: string, x: string)
    requires StartsHeader(s) && |x| >= HeaderLength(s) && x[..HeaderLength(s)] == s[..HeaderLength(s)]
    ensures StartsHeader(x)
  {
    var h: string := if "text=\"" <= s then "text=\"" else "title=\"";
    assert h == s[..|h|] == x[..|h|];
  }

  /**
   * What `re.sub` keeps of its input `y` in its output `z`: the number of
   * quotes, and the text up to and including the first quote.
   */
  predicate Preserved(y: string, z: string)
  {
    Quotes(z) == Quotes(y) &&
    (QuoteFreeRun(y) < |y| ==> QuoteFreeRun(y) < |z| && z[..QuoteFreeRun(y) + 1] == y[..QuoteFreeRun(y) + 1])
  }

  lemma SubstitutePreserves(rule: Rule, y: string, v: string)
    requires VersionText(v)
    ensures Preserved(y, Substitute(rule, y, v))
  {
    SubstituteKeepsQuotes(rule, y, v);
    if QuoteFreeRun(y) < |y| {
      SubstituteKeepsFront(rule, y, v);
    }
  }

  /** A header written after a kept character was a header of the input. */
  lemma SkipKeepsHeader(x: string, s: string, z: string)
    requires x != [] && s == [x[0]] + z && StartsHeader(s) && Preserved(x[1..], z)
    ensures StartsHeader(x)
  {
    var y := x[1..];
    HeaderAfterChar(s, x[0], z);
    var hl := HeaderLength(s);
    QuoteSurvives(y, z, hl - 2);
    SameFirstQuote(z, y);
    KeptFront(s, x, z, y, hl);
    HeaderFromFront(s, x);
  }

  lemma KeptFront(s: string, x: string, z: string, y: string, hl: nat)
    requires x != [] && y == x[1..] && s == [x[0]] + z && 2 <= hl
    requires hl - 1 <= |y| && hl - 1 <= |z| && z[..hl - 1] == y[..hl - 1]
    ensures |x| >= hl && x[..hl] == s[..hl]
  {
    assert x[..hl] == [x[0]] + y[..hl - 1];
    assert s[..hl] == [x[0]] + z[..hl - 1];
  }

  /** An attribute holds two quotes, and begins with 't'. */
  lemma AttributeQuotes(x: string)
    requires StartsAttribute(x)
    ensures Quotes(x) >= 2 && x[0] == 't'
  {
    var a := AttributeAt(x).value;
    SplitAtPrefix(x, AttributeText(a));
    QuotesAppend(AttributeText(a), x[|AttributeText(a)|..]);
    TwoQuotes(a);
    AttributeHead(x);
  }

  /** Where one character was kept, a header at the front of the output is closed. */
  lemma HeaderAfterSkip(x: string, s: string, z: string)
    requires LineClosed(x) && x != [] && s == [x[0]] + z && Preserved(x[1..], z)
    ensures ClosedAt(s, 0)
  {
    assert s[0..] == s;
    if StartsHeader(s) {
      SkipKeepsHeader(x, s, z);
      assert ClosedAt(x, 0) && x[0..] == x;
      AttributeQuotes(x);
      QuotesAfterFirst(x);
      HeaderClosedAfterChar(s, x[0], z);
    }
  }

  lemma QuotesAfterFirst(x: string)
    requires x != [] && x[0] != Quote
    ensures Quotes(x) == Quotes(x[1..])
  {
  }

  /** A header after one character, followed by two quotes, is closed by the second. */
  lemma HeaderClosedAfterChar(s: string, c: char, z: string)
    requires s == [c] + z && StartsHeader(s) && Quotes(z) >= 2
    ensures StartsAttribute(s)
  {
    HeaderAfterChar(s, c, z);
    var hl := HeaderLength(s);
    var j := SecondQuote(z, hl - 2);
    CharShift(s, c, z, j);
    HeaderThenQuote(s, j + 1);
  }

  lemma CharShift(s: string, c: char, z: string, j: nat)
    requires s == [c] + z && j < |z|
    ensures j + 1 < |s| && s[j + 1] == z[j]
  {
  }

  /** `re.sub` with either rule keeps every value opened on a line closed on it. */
  lemma {:induction false} SubstituteKeepsClosed(rule: Rule, x: string, v: string)
    requires VersionText(v) && LineClosed(x)
    ensures LineClosed(Substitute(rule, x, v))
    decreases |x|
  {
    if x != [] {
      var n, p, kept := StepShape(rule, x, v);
      ClosedSuffix(x, n);
      SubstituteKeepsClosed(rule, x[n..], v);
      SubstitutePreserves(rule, x[n..], v);
      ClosedStep(x, n, p, Substitute(rule, x[n..], v), Substitute(rule, x, v), kept);
    }
  }

  /** One step of `re.sub` on a closed line, then a closed remainder, gives a closed line. */
  lemma ClosedStep(x: string, n: nat, p: string, z: string, s: string, kept: bool)
    requires 0 < n <= |x| && s == p + z && LineClosed(x) && LineClosed(z)
    requires kept ==> n == 1 && p == [x[0]] && Preserved(x[1..], z)
    requires !kept ==> ClosingEnd(p)
    ensures LineClosed(s)
  {
    forall i | 0 <= i <= |s| ensures ClosedAt(s, i) {
      if i >= |p| {
        assert ClosedAt(z, i - |p|);
        assert s[i..] == z[i - |p|..];
      } else if !kept {
        HeaderInsideReplacement(p, z, i);
      } else {
        HeaderAfterSkip(x, s, z);
      }
    }
  }

  /**
   * The script's update of a closed line followed by a line break and more
   * text is the update of the line, the break, and the update of the rest.
   */
  lemma UpdateBeforeBreak(line: string, rest: string, version: MV.Version)
    requires '\n' !in line && LineClosed(line)
    ensures UpdateUIContents(line + "\n" + rest, version)
         == UpdateUIContents(line, version) + "\n" + UpdateUIContents(rest, version)
  {
    var v := MV.ToString(version);
    RenderedVersionText(version);
    SubstituteBeforeBreak(AttributeFirst, line, rest, v);
    SubstituteKeepsLine(AttributeFirst, line, v);
    SubstituteKeepsClosed(AttributeFirst, line, v);
    SubstituteBeforeBreak(MarkerFirst, Substitute(AttributeFirst, line, v), Substitute(AttributeFirst, rest, v), v);
  }

  /** The update of a closed line is again one closed line. */
  lemma UpdateKeepsLine(line: string, version: MV.Version)
    requires '\n' !in line && LineClosed(line)
    ensures '\n' !in UpdateUIContents(line, version) && LineClosed(UpdateUIContents(line, version))
  {
    var v := MV.ToString(version);
    RenderedVersionText(version);
    SubstituteKeepsLine(AttributeFirst, line, v);
    SubstituteKeepsClosed(AttributeFirst, line, v);
    var y := Substitute(AttributeFirst, line, v);
    SubstituteKeepsLine(MarkerFirst, y, v);
    SubstituteKeepsClosed(MarkerFirst, y, v);
  }
}

=== FILE: version_reader.dfy ===
/**
 * How the version-bump script reads the current marketing version: it finds
 * every `MARKETING_VERSION = a.b.c` in every project file, takes the first
 * one of the first file as the current version and reports every later one
 * that differs from it as text.
 */
module VersionReader {
  import MV = MarketingVersion
  import PC = ProjectContents
  import opened Wrappers

  /** The three digit groups of one `MARKETING_VERSION = a.b.c`, kept as text as the script keeps them. */
  datatype Found = Found(major: string, minor: string, patch: string)

  function FoundText(f: Found): string
  {
    f.major + "." + f.minor + "." + f.patch
  }

  /** The groups are what `([0-9]+)` captures. */
  predicate WellFound(f: Found)
  {
    |f.major| > 0 && MV.AllDigits(f.major) && |f.minor| > 0 && MV.AllDigits(f.minor)
    && |f.patch| > 0 && MV.AllDigits(f.patch)
  }

  /** Length of the longest prefix of `t` made of digits: a greedy `[0-9]+`. */
  function DigitRun(t: string): (n: nat)
    ensures n <= |t| && MV.AllDigits(t[..n])
    ensures n < |t| ==> !MV.IsDigit(t[n])
  {
    if t != [] && MV.IsDigit(t[0]) then
      var n := 1 + DigitRun(t[1..]);
      assert t[..n] == [t[0]] + t[1..][..n - 1];
      n
    else 0
  }

  /** `([0-9]+)\.` at the start of `t`: the digits, if a dot follows them. */
  function GroupThenDot(t: string): (r: Option<string>)
    ensures r.Some? ==> |r.value| > 0 && MV.AllDigits(r.value) && r.value + "." <= t
  {
    var n := DigitRun(t);
    if 0 < n < |t| && t[n] == '.' then
      assert t[..n + 1] == t[..n] + ".";
      Some(t[..n])
    else None
  }

  /** A prefix of `s` followed by a prefix of the rest is a prefix of `s`. */
  lemma PrefixJoin(x: string, y: string, s: string)
    requires x <= s && y <= s[|x|..]
    ensures x + y <= s
  {
    assert s[..|x| + |y|] == s[..|x|] + s[|x|..][..|y|];
  }

  /** `([0-9]+)\.([0-9]+)\.([0-9]+)` at the start of `s`, if any. */
  function FoundIn(s: string): (r: Option<Found>)
    ensures r.Some? ==> WellFound(r.value) && FoundText(r.value) <= s
    ensures r.Some? ==> |s| == |FoundText(r.value)| || !MV.IsDigit(s[|FoundText(r.value)|])
  {
    match GroupThenDot(s)
    case None => None
    case Some(major) =>
      var s1 := s[|major| + 1..];
      match GroupThenDot(s1)
      case None => None
      case Some(minor) =>
        var s2 := s1[|minor| + 1..];
        var n := DigitRun(s2);
        if n == 0 then None
        else
          var f := Found(major, minor, s2[..n]);
          PrefixJoin(minor + ".", s2[..n], s1);
          PrefixJoin(major + ".", minor + "." + s2[..n], s);
          assert FoundText(f) == major + "." + (minor + "." + s2[..n]);
          assert s[|FoundText(f)|..] == s2[n..];
          Some(f)
  }

  /** The match of `key([0-9]+)\.([0-9]+)\.([0-9]+)` at the start of `t`, if any. */
  function FoundAt(key: string, t: string): (r: Option<Found>)
    ensures r.Some? ==> WellFound(r.value) && key + FoundText(r.value) <= t
    ensures r.Some? ==> |t| == |key| + |FoundText(r.value)| || !MV.IsDigit(t[|key| + |FoundText(r.value)|])
  {
    if key <= t then
      var r := FoundIn(t[|key|..]);
      if r.Some? then
        PrefixJoin(key, FoundText(r.value), t);
        assert t[|key|..][|FoundText(r.value)|..] == t[|key| + |FoundText(r.value)|..];
        r
      else r
    else None
  }

  /** `re.findall`: the matches from left to right, each scan resuming after the previous match. */
  function FindAll(key: string, t: string): (r: seq<Found>)
    requires key != []
    ensures forall i :: 0 <= i < |r| ==> WellFound(r[i])
    decreases |t|
  {
    if t == [] then []
    else
      match FoundAt(key, t)
      case Some(f) => [f] + FindAll(key, t[|key| + |FoundText(f)|..])
      case None => FindAll(key, t[1..])
  }

  /** The label the script searches for. */
  const VersionKey := PC.Marketing.key

  /** `MarketingVersion.fromTuple` applied to the groups. */
  function ToVersion(f: Found): (v: MV.Version)
    requires WellFound(f)
    ensures MV.FromParts([f.major, f.minor, f.patch]) == Ok(v)
  {
    MV.Version(MV.DigitsValue(f.major), MV.DigitsValue(f.minor), MV.DigitsValue(f.patch))
  }

  /** Why no current version could be read. */
  datatype ReadError =
    | NoProjectFiles        // `errorAndExit('no MARKETING_VERSION found')`
    | NoVersionInFirstFile  // `versions[0]` on an empty list raises IndexError

  /** A version in file number `file` that differs from the current one; the script logs it and goes on. */
  datatype Mismatch = Mismatch(file: nat, found: Found)

  datatype Reading = Reading(version: MV.Version, mismatches: seq<Mismatch>)

  /** The mismatches among the versions `fs` found in file number `file`. */
  function MismatchesIn(file: nat, fs: seq<Found>, expected: Found): (r: seq<Mismatch>)
    ensures forall m :: m in r ==> m.file == file && m.found in fs && m.found != expected
    ensures forall f :: f in fs && f != expected ==> Mismatch(file, f) in r
  {
    if fs == [] then []
    else
      var rest := MismatchesIn(file, fs[..|fs| - 1], expected);
      assert fs == fs[..|fs| - 1] + [fs[|fs| - 1]];
      if fs[|fs| - 1] != expected then rest + [Mismatch(file, fs[|fs| - 1])] else rest
  }

  lemma MismatchesInStep(file: nat, fs: seq<Found>, j: nat, expected: Found)
    requires j < |fs|
    ensures MismatchesIn(file, fs[..j + 1], expected)
         == MismatchesIn(file, fs[..j], expected) + (if fs[j] != expected then [Mismatch(file, fs[j])] else [])
  {
    assert fs[..j + 1][..j] == fs[..j];
  }

  /** The versions the script compares in file number `k`: all of them, except the first one of the first file. */
  function Compared(files: seq<string>, k: nat): seq<Found>
    requires k < |files|
  {
    var fs := FindAll(VersionKey, files[k]);
    if k == 0 && fs != [] then fs[1..] else fs
  }

  /** The versions compared in each file. */
  function ComparedLists(files: seq<string>): (lists: seq<seq<Found>>)
    ensures |lists| == |files| && forall k :: 0 <= k < |files| ==> lists[k] == Compared(files, k)
  {
    seq(|files|, k requires 0 <= k < |files| => Compared(files, k))
  }

  /** The mismatches in the first `n` of the lists of compared versions. */
  function MismatchesUpTo(lists: seq<seq<Found>>, n: nat, expected: Found): seq<Mismatch>
    requires n <= |lists|
  {
    if n == 0 then [] else MismatchesUpTo(lists, n - 1, expected) + MismatchesIn(n - 1, lists[n - 1], expected)
  }

  /** What `getCurrentMarketingVersion` returns or fails with, for the contents of the project files. */
  function CurrentVersion(files: seq<string>): (r: Result<Reading, ReadError>)
    ensures r == Err(NoProjectFiles) <==> files == []
    ensures r == Err(NoVersionInFirstFile) <==> files != [] && FindAll(VersionKey, files[0]) == []
    ensures r.Ok? ==> forall m :: m in r.value.mismatches ==>
      m.file < |files| && m.found in Compared(files, m.file) && m.found != FindAll(VersionKey, files[0])[0]
  {
    if files == [] then Err(NoProjectFiles)
    else
      var fs := FindAll(VersionKey, files[0]);
      if fs == [] then Err(NoVersionInFirstFile)
      else
        MismatchesUpToFrom(ComparedLists(files), |files|, fs[0]);
        Ok(Reading(ToVersion(fs[0]), MismatchesUpTo(ComparedLists(files), |files|, fs[0])))
  }

  /** Each mismatch among the first `n` lists names one of those lists and a version in it that differs. */
  lemma {:induction false} MismatchesUpToFrom(lists: seq<seq<Found>>, n: nat, expected: Found)
    requires n <= |lists|
    ensures forall m :: m in MismatchesUpTo(lists, n, expected) ==>
      m.file < n && m.found in lists[m.file] && m.found != expected
  {
    if n > 0 {
      MismatchesUpToFrom(lists, n - 1, expected);
    }
  }

  /** The inner loop of `getCurrentMarketingVersion`: every version of file number `file` that differs from `expected`, in order. */
  method LogMismatches(file: nat, versions: seq<Found>, expected: Found) returns (logged: seq<Mismatch>)
    ensures logged == MismatchesIn(file, versions, expected)
  {
    logged := [];
    for j := 0 to |versions|
      invariant logged == MismatchesIn(file, versions[..j], expected)
    {
      MismatchesInStep(file, versions, j, expected);
      if versions[j] != expected {
        logged := logged + [Mismatch(file, versions[j])];
      }
    }
    assert versions[..|versions|] == versions;
  }

  /**
   * `getCurrentMarketingVersion`, with the contents of the project files in
   * place of their paths; the logged mismatches are returned.
   */
  method GetCurrentMarketingVersion(files: seq<string>) returns (r: Result<Reading, ReadError>)
    ensures r == CurrentVersion(files)
  {
    var version: Option<Found> := None;
    var mismatches: seq<Mismatch> := [];
    for i := 0 to |files|
      invariant version.None? <==> i == 0
      invariant i > 0 ==> FindAll(VersionKey, files[0]) != [] && version.value == FindAll(VersionKey, files[0])[0]
      invariant i == 0 ==> mismatches == []
      invariant i > 0 ==> mismatches == MismatchesUpTo(ComparedLists(files), i, version.value)
    {
      var versions := FindAll(VersionKey, files[i]);
      if version.None? {
        if versions == [] {
          return Err(NoVersionInFirstFile);
        }
        version := Some(versions[0]);
        versions := versions[1..];
      }
      assert versions == Compared(files, i);
      var logged := LogMismatches(i, versions, version.value);
      mismatches := mismatches + logged;
      assert mismatches == MismatchesUpTo(ComparedLists(files), i + 1, version.value);
    }
    if version.None? {
      return Err(NoProjectFiles);
    }
    r := Ok(Reading(ToVersion(version.value), mismatches));
  }

  // ------------------------------------------------------------ properties

  lemma {:induction false} NoMismatchesUpTo(lists: seq<seq<Found>>, n: nat, expected: Found)
    requires n <= |lists|
    ensures MismatchesUpTo(lists, n, expected) == []
        <==> forall k, f :: 0 <= k < n && f in lists[k] ==> f == expected
  {
    if n > 0 {
      NoMismatchesUpTo(lists, n - 1, expected);
      var last := MismatchesIn(n - 1, lists[n - 1], expected);
      if last != [] {
        assert last[0] in last;
      }
    }
  }

  /**
   * The script reports nothing exactly when every version it compares is
   * textually the same as the first one of the first file.
   */
  lemma NoMismatchesIffConsistent(files: seq<string>)
    requires CurrentVersion(files).Ok?
    ensures var first := FindAll(VersionKey, files[0])[0];
      CurrentVersion(files).value.mismatches == []
      <==> forall k, f :: 0 <= k < |files| && f in Compared(files, k) ==> f == first
  {
    var lists := ComparedLists(files);
    NoMismatchesUpTo(lists, |files|, FindAll(VersionKey, files[0])[0]);
  }

  /** Text whose characters cannot start the label holds no match. */
  lemma {:induction false} FindAllSkips(key: string, a: string, x: string)
    requires key != [] && key[0] !in a
    ensures FindAll(key, a + x) == FindAll(key, x)
    decreases |a|
  {
    if a != [] {
      var t := a + x;
      assert t[0] == a[0] != key[0];
      assert !(key <= t);
      assert t[1..] == a[1..] + x;
      FindAllSkips(key, a[1..], x);
    } else {
      assert a + x == x;
    }
  }

  lemma DigitRunOf(d: string, rest: string)
    requires MV.AllDigits(d)
    requires rest == [] || !MV.IsDigit(rest[0])
    ensures DigitRun(d + rest) == |d|
    decreases |d|
  {
    if d != [] {
      assert (d + rest)[1..] == d[1..] + rest;
      DigitRunOf(d[1..], rest);
    }
  }

  lemma GroupThenDotOf(d: string, rest: string)
    requires |d| > 0 && MV.AllDigits(d)
    ensures GroupThenDot(d + "." + rest) == Some(d)
  {
    DigitRunOf(d, "." + rest);
    assert d + "." + rest == d + ("." + rest);
    assert (d + "." + rest)[..|d|] == d;
  }

  /** The groups read from a rendered version. */
  function FoundOf(v: MV.Version): Found
  {
    Found(MV.NatToString(v.major), MV.NatToString(v.minor), MV.NatToString(v.patch))
  }

  /** Three digit groups joined by dots and followed by a non-digit are read back as those groups. */
  lemma FoundInGroups(a: string, b: string, c: string, rest: string)
    requires WellFound(Found(a, b, c))
    requires rest == [] || !MV.IsDigit(rest[0])
    ensures FoundIn(a + "." + b + "." + c + rest) == Some(Found(a, b, c))
  {
    var s2 := c + rest;
    var s1 := b + "." + s2;
    Regroup(a, b, c, rest);
    GroupThenDotOf(a, s1);
    AfterGroup(a, s1);
    GroupThenDotOf(b, s2);
    AfterGroup(b, s2);
    DigitRunOf(c, rest);
    assert s2[..|c|] == c;
  }

  /** A rendered version followed by a non-digit is read back as its own three groups. */
  lemma FoundInRendered(v: MV.Version, rest: string)
    requires rest == [] || !MV.IsDigit(rest[0])
    ensures FoundIn(MV.ToString(v) + rest) == Some(FoundOf(v))
  {
    var f := FoundOf(v);
    assert MV.ToString(v) == FoundText(f);
    FoundInGroups(f.major, f.minor, f.patch, rest);
  }

  /** The text of three groups and what follows, read one group at a time. */
  lemma Regroup(a: string, b: string, c: string, rest: string)
    ensures a + "." + b + "." + c + rest == a + "." + (b + "." + (c + rest))
  {
  }

  /** After a group and its dot comes the rest. */
  lemma AfterGroup(d: string, rest: string)
    ensures (d + "." + rest)[|d| + 1..] == rest
  {
  }

  lemma ToVersionOf(v: MV.Version)
    ensures WellFound(FoundOf(v)) && ToVersion(FoundOf(v)) == v
  {
    MV.DigitsRoundTrip(v.major);
    MV.DigitsRoundTrip(v.minor);
    MV.DigitsRoundTrip(v.patch);
  }

  lemma FoundAtSetting(key: string, v: MV.Version, rest: string)
    requires rest == [] || !MV.IsDigit(rest[0])
    ensures FoundAt(key, key + MV.ToString(v) + rest) == Some(FoundOf(v))
  {
    var t := key + MV.ToString(v) + rest;
    assert t[|key|..] == MV.ToString(v) + rest;
    FoundInRendered(v, rest);
  }

  /** A character that ends a version: neither a digit nor a dot. */
  predicate Boundary(c: char)
  {
    !MV.IsDigit(c) && c != '.'
  }

  /** A digit run is not lengthened by text that starts with a non-digit. */
  lemma {:induction false} DigitRunExtend(u: string, x: string)
    requires x == [] || !MV.IsDigit(x[0])
    ensures DigitRun(u + x) == DigitRun(u)
    decreases |u|
  {
    if u == [] {
      assert u + x == x;
    } else {
      assert (u + x)[0] == u[0] && (u + x)[1..] == u[1..] + x;
      DigitRunExtend(u[1..], x);
    }
  }

  lemma {:induction false} GroupThenDotExtend(u: string, x: string)
    requires x == [] || Boundary(x[0])
    ensures GroupThenDot(u + x) == GroupThenDot(u)
  {
    DigitRunExtend(u, x);
    var n := DigitRun(u);
    assert n < |u| ==> (u + x)[n] == u[n];
    assert (u + x)[..n] == u[..n];
  }

  /** Text that starts with a boundary character does not change what is read before it. */
  lemma {:induction false} FoundInExtend(u: string, x: string)
    requires x == [] || Boundary(x[0])
    ensures FoundIn(u + x) == FoundIn(u)
  {
    GroupThenDotExtend(u, x);
    match GroupThenDot(u)
    case None =>
    case Some(major) =>
      var s1 := u[|major| + 1..];
      assert (u + x)[|major| + 1..] == s1 + x;
      GroupThenDotExtend(s1, x);
      match GroupThenDot(s1)
      case None =>
      case Some(minor) =>
        var s2 := s1[|minor| + 1..];
        assert (s1 + x)[|minor| + 1..] == s2 + x;
        DigitRunExtend(s2, x);
        assert (s2 + x)[..DigitRun(s2)] == s2[..DigitRun(s2)];
  }

  /**
   * Whether a match begins at the start of `s` is not changed by text after
   * it that starts with a boundary character which cannot continue the key.
   */
  lemma {:induction false} FoundAtExtend(key: string, s: string, x: string)
    requires key != [] && s != [] && (x == [] || (Boundary(x[0]) && x[0] !in key[1..]))
    ensures FoundAt(key, s + x) == FoundAt(key, s)
  {
    var t := s + x;
    if |s| < |key| && x != [] {
      assert key[1..][|s| - 1] == key[|s|] != x[0] == t[|s|];
    } else if |key| <= |s| {
      assert t[..|key|] == s[..|key|];
    } else {
      assert t == s;
    }
    if key <= s {
      assert t[|key|..] == s[|key|..] + x;
      FoundInExtend(s[|key|..], x);
    }
  }

  /**
   * Text in which the reader finds nothing still yields nothing when text
   * starting with a boundary character that cannot continue the key follows.
   */
  lemma {:induction false} FindAllAfterFree(key: string, a: string, x: string)
    requires key != [] && FindAll(key, a) == []
    requires x == [] || (Boundary(x[0]) && x[0] !in key[1..])
    ensures FindAll(key, a + x) == FindAll(key, x)
    decreases |a|
  {
    if a == [] {
      assert a + x == x;
    } else {
      FoundAtExtend(key, a, x);
      assert FoundAt(key, a).None?;
      assert (a + x)[1..] == a[1..] + x;
      FindAllAfterFree(key, a[1..], x);
    }
  }

  /**
   * One setting between two texts in which the reader finds nothing is
   * found, and only it, when the key's first character is a boundary that
   * occurs in the key only once.
   */
  lemma FindAllSetting(key: string, a: string, v: MV.Version, b: string)
    requires key != [] && Boundary(key[0]) && key[0] !in key[1..] && key[0] != ';'
    requires FindAll(key, a) == [] && FindAll(key, b) == []
    ensures FindAll(key, a + key + MV.ToString(v) + ";" + b) == [FoundOf(v)]
  {
    var t := key + MV.ToString(v) + (";" + b);
    assert a + key + MV.ToString(v) + ";" + b == a + t;
    assert t[0] == key[0];
    FindAllAfterFree(key, a, t);
    SettingFoundOnce(key, v, b);
  }

  lemma SettingFoundOnce(key: string, v: MV.Version, b: string)
    requires key != [] && key[0] != ';' && FindAll(key, b) == []
    ensures FindAll(key, key + MV.ToString(v) + (";" + b)) == [FoundOf(v)]
  {
    var t := key + MV.ToString(v) + (";" + b);
    FoundAtSetting(key, v, ";" + b);
    assert FoundText(FoundOf(v)) == MV.ToString(v);
    assert t[|key| + |MV.ToString(v)|..] == ";" + b;
    FindAllSkips(key, ";", b);
  }

  lemma VersionKeyFacts()
    ensures VersionKey != [] && Boundary(VersionKey[0]) && VersionKey[0] !in VersionKey[1..] && VersionKey[0] != ';'
  {
    PC.MarketingFacts();
  }

  /**
   * A project file with one marketing-version setting, amid text in which
   * the reader finds no other, is read as that version, with nothing
   * reported.
   */
  lemma ReadOneSetting(a: string, v: MV.Version, b: string)
    requires FindAll(VersionKey, a) == [] && FindAll(VersionKey, b) == []
    ensures CurrentVersion([a + VersionKey + MV.ToString(v) + ";" + b]) == Ok(Reading(v, []))
  {
    var files := [a + VersionKey + MV.ToString(v) + ";" + b];
    VersionKeyFacts();
    FindAllSetting(VersionKey, a, v, b);
    ToVersionOf(v);
    var lists := ComparedLists(files);
    assert lists[0] == Compared(files, 0) == [];
    assert MismatchesIn(0, lists[0], FoundOf(v)) == [];
    assert MismatchesUpTo(lists, 1, FoundOf(v)) == MismatchesUpTo(lists, 0, FoundOf(v)) + [];
  }

  /** A value the rewrite accepts is three digit groups joined by dots. */
  lemma {:induction false} ValueGroups(v: string)
    requires PC.IsValue(PC.Marketing, v)
    ensures var parts := MV.Split(v, '.');
      |parts| == 3 && WellFound(Found(parts[0], parts[1], parts[2]))
      && v == parts[0] + "." + parts[1] + "." + parts[2]
  {
    var parts := MV.Split(v, '.');
    MV.JoinSplit(v, '.');
    assert |parts| == 3;
    assert v == parts[0] + "." + parts[1] + "." + parts[2] by {
      assert parts[1..][1..] == [parts[2]];
      assert MV.Join(parts[1..], '.') == parts[1] + ['.'] + parts[2];
      assert MV.Join(parts, '.') == parts[0] + ['.'] + (parts[1] + ['.'] + parts[2]);
    }
    forall k | 0 <= k < 3 ensures MV.AllDigits(parts[k]) {
      forall i | 0 <= i < |parts[k]| ensures MV.IsDigit(parts[k][i]) {
        var at := if k == 0 then i else if k == 1 then |parts[0]| + 1 + i else |parts[0]| + |parts[1]| + 2 + i;
        assert v[at] == parts[k][i];
        assert PC.ValueChar(PC.Marketing, v[at]);
        assert parts[k][i] != '.';
      }
    }
  }

  /** A version-setting match of the rewrite is also a match for the reader. */
  lemma {:induction false} SettingIsFound(s: string)
    requires PC.MatchAt(PC.Marketing, s).Some?
    ensures FoundAt(VersionKey, s).Some?
  {
    var v := PC.MatchAt(PC.Marketing, s).value;
    ValueGroups(v);
    var parts := MV.Split(v, '.');
    var rest := s[|VersionKey| + |v|..];
    assert s[|VersionKey|..] == parts[0] + "." + parts[1] + "." + parts[2] + rest;
    assert rest[0] == ';';
    FoundInGroups(parts[0], parts[1], parts[2], rest);
  }

  /** Text in which the reader finds nothing holds no setting for the rewrite either. */
  lemma {:induction false} NoSettingWhereNothingFound(a: string)
    requires FindAll(VersionKey, a) == []
    ensures PC.HoldsNoSetting(PC.Marketing, a)
    decreases |a|
  {
    if a != [] {
      VersionKeyFacts();
      assert FoundAt(VersionKey, a).None?;
      if PC.MatchAt(PC.Marketing, a).Some? {
        SettingIsFound(a);
      }
      NoSettingWhereNothingFound(a[1..]);
    }
  }

  lemma UpdatedSetting(a: string, previous: string, b: string, v: MV.Version, build: string)
    requires PC.IsValue(PC.Marketing, previous)
    requires FindAll(VersionKey, a) == [] && FindAll(VersionKey, b) == []
    requires PC.HoldsNoSetting(PC.Build, a) && PC.HoldsNoSetting(PC.Build, b)
    ensures PC.UpdateProjectContents(a + PC.SettingText(PC.Marketing, previous) + b, v, build)
         == a + VersionKey + MV.ToString(v) + ";" + b
  {
    var value := MV.ToString(v);
    PC.MarketingFacts();
    PC.BuildFacts();
    PC.PatternsDoNotOverlap(PC.Marketing, PC.Marketing);
    PC.PatternsDoNotOverlap(PC.Build, PC.Marketing);
    NoSettingWhereNothingFound(a);
    NoSettingWhereNothingFound(b);
    PC.RewriteOneSetting(PC.Marketing, a, previous, b, value);
    SettingHasNoC(v);
    NoBuildSetting(a, PC.SettingText(PC.Marketing, value), value, b, build);
    SettingInText(a, value, b);
  }

  /**
   * A setting text without a `C` between texts that hold no build setting is
   * left alone by the build-number substitution.
   */
  lemma NoBuildSetting(a: string, m: string, value: string, b: string, build: string)
    requires PC.HoldsNoSetting(PC.Build, a) && PC.HoldsNoSetting(PC.Build, b)
    requires m == PC.SettingText(PC.Marketing, value) && 'C' !in m
    ensures PC.Substitute(PC.Build, a + m + b, build) == a + m + b
  {
    PC.BuildFacts();
    PC.MarketingFacts();
    PC.PatternsDoNotOverlap(PC.Build, PC.Marketing);
    var t := a + (m + b);
    assert a + m + b == t;
    PC.NoSettingBefore(PC.Build, PC.Marketing, a, value, b);
    PC.CopyUntilMatch(PC.Build, t, |a|, build);
    assert t[..|a|] == a && t[|a|..] == m + b;
    PC.PassThrough(PC.Build, m, b, build);
    PC.NoSettingUnchanged(PC.Build, b, build);
  }

  /** A marketing setting amid other text, written out. */
  lemma SettingInText(a: string, value: string, b: string)
    ensures a + PC.SettingText(PC.Marketing, value) + b == a + VersionKey + value + ";" + b
  {
  }

  lemma SettingHasNoC(v: MV.Version)
    ensures 'C' !in PC.SettingText(PC.Marketing, MV.ToString(v))
  {
    PC.MarketingFacts();
    MV.ToStringShape(v);
  }

  /**
   * After the project file is rewritten for version `v`, the reader reads
   * `v` back and reports nothing, when the text around the setting holds no
   * other marketing-version or build-number setting.
   */
  lemma ReadAfterUpdate(a: string, previous: string, b: string, v: MV.Version, build: string)
    requires PC.IsValue(PC.Marketing, previous)
    requires FindAll(VersionKey, a) == [] && FindAll(VersionKey, b) == []
    requires PC.HoldsNoSetting(PC.Build, a) && PC.HoldsNoSetting(PC.Build, b)
    ensures CurrentVersion([PC.UpdateProjectContents(a + PC.SettingText(PC.Marketing, previous) + b, v, build)])
         == Ok(Reading(v, []))
  {
    UpdatedSetting(a, previous, b, v, build);
    ReadOneSetting(a, v, b);
  }

  /** Versions are compared as text, so a leading zero makes an equal version a mismatch. */
  lemma TextualComparison()
    ensures Found("1", "02", "3") != Found("1", "2", "3")
    ensures WellFound(Found("1", "02", "3")) && WellFound(Found("1", "2", "3"))
    ensures ToVersion(Found("1", "02", "3")) == ToVersion(Found("1", "2", "3"))
  {
    assert MV.DigitsValue("02") == 2;
  }
}

=== FILE: wrappers.dfy ===
/** Optional values and error-carrying results shared by every module. */
module Wrappers {

  datatype Option<+T> = None | Some(value: T)

  datatype Result<+T, +E> = Ok(value: T) | Err(error: E)
}

=== FILE: zone.dfy ===
/**
 * A SoundFont 2 zone: the generators and modulators that apply to a range
 * of MIDI keys and velocities. A zone whose generators do not end with its
 * terminal generator (`instrument` in a preset, `sampleID` in an
 * instrument) is the global zone whose settings apply to every other zone.
 */
module Zones {
  import opened Wrappers
  import Modulators

  /** Generator kinds the zone logic looks at. */
  const InstrumentIndex: bv16 := 41
  const KeyRangeIndex: bv16 := 43
  const VelocityRangeIndex: bv16 := 44
  const SampleIDIndex: bv16 := 53

  /** One generator setting of a zone: its kind and its 16-bit amount. */
  datatype Generator = Generator(index: bv16, amount: bv16)

  /**
   * A MIDI key or velocity range: every value, or the range held in a
   * generator's amount (its decoding into bounds is not part of this model).
   */
  datatype MIDIRange = All | FromAmount(amount: bv16)

  /**
   * Whether generators and modulators make a global zone: there are no
   * generators but some modulators, or the last generator is not the
   * expected terminal one. With neither, the zone is not global.
   */
  function IsGlobal(gens: seq<Generator>, expected: bv16, mods: seq<Modulators.Modulator>): (global: bool)
    ensures gens == [] ==> (global <==> mods != [])
    ensures gens != [] ==> (global <==> gens[|gens| - 1].index != expected)
  {
    (gens == [] && mods != []) || (gens != [] && gens[|gens| - 1].index != expected)
  }

  /** The key range: from the first generator when it is a key range, otherwise every key. */
  function KeyRange(gens: seq<Generator>): (r: MIDIRange)
    ensures r.FromAmount? <==> |gens| > 0 && gens[0].index == KeyRangeIndex
    ensures r.FromAmount? ==> r.amount == gens[0].amount
  {
    if |gens| > 0 && gens[0].index == KeyRangeIndex then FromAmount(gens[0].amount) else All
  }

  /** The position of the velocity range generator, or -1 when there is none. */
  function VelocityRangePosition(gens: seq<Generator>): (position: int)
    ensures -1 <= position <= 1 && position < |gens|
    ensures position >= 0 ==> gens[position].index == VelocityRangeIndex
    ensures position == 1 ==> gens[0].index == KeyRangeIndex
    ensures position == -1 ==>
      (|gens| == 0 || gens[0].index != VelocityRangeIndex) &&
      (|gens| <= 1 || gens[0].index != KeyRangeIndex || gens[1].index != VelocityRangeIndex)
  {
    if |gens| > 1 && gens[0].index == KeyRangeIndex && gens[1].index == VelocityRangeIndex then 1
    else if |gens| > 0 && gens[0].index == VelocityRangeIndex then 0
    else -1
  }

  /**
   * The velocity range: from the first generator when it is a velocity
   * range, from the second only when the first is a key range, otherwise
   * every velocity.
   */
  function VelocityRange(gens: seq<Generator>): (r: MIDIRange)
    ensures var p := VelocityRangePosition(gens);
      if p == -1 then r == All else r == FromAmount(gens[p].amount)
  {
    var index := VelocityRangePosition(gens);
    if index == -1 then All else FromAmount(gens[index].amount)
  }

  /** A zone as built: its lists, its ranges and whether it is global. */
  datatype Zone = Zone(
    generators: seq<Generator>,
    modulators: seq<Modulators.Modulator>,
    keyRange: MIDIRange,
    velocityRange: MIDIRange,
    isGlobal: bool,
    terminal: bv16,
    filterGenerators: bool)
  {
    /** What construction guarantees of a zone. */
    predicate Valid()
    {
      (generators != [] || modulators != []) &&
      keyRange == KeyRange(generators) && velocityRange == VelocityRange(generators) &&
      isGlobal == IsGlobal(generators, terminal, modulators)
    }
  }

  /** The failure of building a zone with neither generators nor modulators. */
  datatype ZoneError = EmptyZone | GlobalZoneHasNoResource

  /**
   * Builds a zone, refusing one without generators and modulators.
   * `filterGenerators` marks preset zones, whose terminal generator is
   * `instrument`.
   */
  function MakeZone(gens: seq<Generator>, mods: seq<Modulators.Modulator>, terminal: bv16): (r: Result<Zone, ZoneError>)
    ensures r.Err? <==> gens == [] && mods == []
    ensures r.Ok? ==> r.value.Valid() && r.value.generators == gens && r.value.modulators == mods
    ensures r.Ok? ==> (r.value.filterGenerators <==> terminal == InstrumentIndex)
  {
    if gens == [] && mods == [] then Err(EmptyZone)
    else Ok(Zone(gens, mods, KeyRange(gens), VelocityRange(gens), IsGlobal(gens, terminal, mods),
                      terminal, terminal == InstrumentIndex))
  }

  /**
   * The resource a zone links to (an instrument for a preset zone, a sample
   * for an instrument zone): the amount of its last generator. A global
   * zone has none.
   */
  function ResourceLink(zone: Zone): (r: Result<bv16, ZoneError>)
    requires zone.Valid()
    ensures r.Err? <==> zone.isGlobal
    ensures r.Ok? ==>
      (zone.generators != [] &&
       zone.generators[|zone.generators| - 1].index == zone.terminal &&
       r.value == zone.generators[|zone.generators| - 1].amount)
  {
    if zone.isGlobal then Err(GlobalZoneHasNoResource)
    else Ok(zone.generators[|zone.generators| - 1].amount)
  }

  /** The key and velocity ranges never come from the same generator. */
  lemma RangesFromDistinctGenerators(gens: seq<Generator>)
    requires KeyRange(gens).FromAmount? && VelocityRange(gens).FromAmount?
    ensures VelocityRangePosition(gens) == 1
  {
  }

  /** A zone whose only generator is its terminal one is local, and links through it. */
  lemma TerminalOnlyZone(gen: Generator, mods: seq<Modulators.Modulator>)
    ensures var r := MakeZone([gen], mods, gen.index);
      r.Ok? && !r.value.isGlobal && ResourceLink(r.value) == Ok(gen.amount) &&
      r.value.keyRange == (if gen.index == KeyRangeIndex then FromAmount(gen.amount) else All)
  {
  }

  /** A zone with modulators only is global and links nowhere. */
  lemma ModulatorsOnlyZone(mods: seq<Modulators.Modulator>, terminal: bv16)
    requires mods != []
    ensures var r := MakeZone([], mods, terminal);
      r.Ok? && r.value.isGlobal && r.value.keyRange == All && r.value.velocityRange == All &&
      ResourceLink(r.value).Err?
  {
  }
}
